=== FILE: README.md ===
# Fabrix gateway, chat and drawing comparison: a verified model

This project models, in Dafny, the decision logic of a web system made of four parts:

- **AI gateway (FastAPI).** It has:
  - a sliding-window limiter on requests and tokens per minute;
  - the chat relay, which admits a request, retries, filters an event stream and reports errors as events;
  - the `Authorization: Token <key>` check;
  - the upload validation of the drawing-comparison endpoint;
  - the integer logic of the comparison pipeline, in its live and its legacy version: hex colours, file dispatch, page clamping, resize and centring geometry, the ratio test, per-pixel classification and painting, data URIs.
- **Django server.** It has:
  - signup and login over a user and token store, in the current and the legacy view;
  - per-user chat sessions and message posting;
  - the admin preview and counts;
  - CSV column typing;
  - the SQLite backup command with its naming and retention.
- **React client.** It has:
  - the chat page's send, stream accumulation and stop;
  - the comparison page's file handling, error mapping and download;
  - the login page's submit and redirect whitelist;
  - the settings page's colour update and reset.
- **Shared helpers.** `Wrappers` holds Option and Result. `PyStr` holds Python/JavaScript string operations. `Base64` holds the RFC 4648 section 4 encoder and the WHATWG forgiving-base64 decoder used by `atob`.

There is one module per source file. Some conventions apply throughout:

- Where the source mutates an object (the limiter, the backup directory, the pages' React state), the module has a class with those fields. Each method is proved against a function of the old state.
- Pure computations are functions, with lemmas that relate them to the promised behaviour.
- Grayscale planes are `array2<Byte>` and result images `array2<Pixel>`. The per-pixel passes are methods with loop invariants, proved against per-pixel functions.
- Time is a count of integer ticks, one per microsecond.
- Network, file system, database, clock and library calls (OpenCV, NumPy, PIL, PyMuPDF, pandas, Django's ORM and `authenticate`) are inputs of the operations that use them.

## Model

| member | source | states |
|---|---|---|
| RateLimiter.TokenRateLimiter.constructor | ai_gateway/services/rate_limiter.py:24-44 | the limiter starts with the given limits and window and an empty queue |
| RateLimiter.TokenRateLimiter.CleanupOldRequests | ai_gateway/services/rate_limiter.py:51-56 | the queue becomes the old queue without its front entries older than `now - window` |
| RateLimiter.TokenRateLimiter.CanProceed | ai_gateway/services/rate_limiter.py:58-99 | admitted exactly when the evicted queue passes the count check and then the token check; an admission appends exactly the entry `(now, estimated)`; a refusal leaves the evicted queue and returns the refusal message |
| RateLimiter.TokenRateLimiter.GetWaitTime | ai_gateway/services/rate_limiter.py:101-146 | the method only evicts and never adds an entry; the wait is the one `WaitTime` defines on the evicted queue, an IndexError when the oldest entry is missing |
| RateLimiter.TokenRateLimiter.GetCurrentUsage | ai_gateway/services/rate_limiter.py:148-169 | evicts, then reports count, tokens and the remainders of both limits floored at zero |
| RateLimiter.TokenRateLimiter.Reset | ai_gateway/services/rate_limiter.py:171-175 | the queue is empty afterwards |
| RateLimiter.EvictCount | ai_gateway/services/rate_limiter.py:51-56 | the number of dropped entries: every dropped entry is older than the cutoff, and the first kept one is not |
| RateLimiter.EvictShrinks | ai_gateway/services/rate_limiter.py:51-56 | eviction never increases the entry count or the token total |
| RateLimiter.EvictKeepsCutoffEntry | ai_gateway/services/rate_limiter.py:53 | an entry stamped exactly at the cutoff is kept, and so is everything after it |
| RateLimiter.EvictOrdered | ai_gateway/services/rate_limiter.py:51-56 | on an ordered queue, eviction removes exactly the entries older than the cutoff and keeps the order |
| RateLimiter.EvictSubset | ai_gateway/services/rate_limiter.py:51-56 | every entry left after eviction was in the queue before |
| RateLimiter.AppendOrdered | ai_gateway/services/rate_limiter.py:92 | appending an entry no older than any queued one keeps the queue ordered |
| RateLimiter.CanProceedKeepsOrder | ai_gateway/services/rate_limiter.py:68-99 | with a clock that does not go back, `can_proceed` keeps the queue ordered and no entry later than `now` |
| RateLimiter.AdmissionRespectsLimits | ai_gateway/services/rate_limiter.py:77-92 | after an admission the window holds at most `rpm` entries and at most `tpm` tokens, whatever it held before |
| RateLimiter.CanProceedPreservesLimits | ai_gateway/services/rate_limiter.py:77-92 | a window within both limits is still within them after any call of `can_proceed` |
| RateLimiter.RequestLimitReportedFirst | ai_gateway/services/rate_limiter.py:77-89 | when both limits are exceeded, the refusal reports the request count |
| RateLimiter.RefusalMessageNamesLimit | ai_gateway/services/rate_limiter.py:77-89 | each refusal message starts with the name of the limit that was hit; the message is empty exactly for an admission |
| RateLimiter.WaitZeroWhenAdmitted | ai_gateway/services/rate_limiter.py:111-146 | whenever `can_proceed` at the same instant would admit, the wait is zero |
| RateLimiter.WaitFailsOnlyWithoutOldest | ai_gateway/services/rate_limiter.py:119-124 | reading the oldest entry raises exactly when the window is empty and the request limit is not positive |
| RateLimiter.OversizedRequestWaitsZero | ai_gateway/services/rate_limiter.py:85-89 | with an empty window and a request above the token budget, `can_proceed` refuses for tokens while the wait is zero |
| RateLimiter.FirstReachFrom | ai_gateway/services/rate_limiter.py:127-137 | the index the token scan returns lies between the start and the end of the queue |
| RateLimiter.FirstReachFromSpec | ai_gateway/services/rate_limiter.py:127-137 | the scan returns the first index whose running total from the oldest entry reaches the need, and none when no prefix reaches it |
| RateLimiter.TokenWaitIsFirstReachingEntry | ai_gateway/services/rate_limiter.py:127-144 | over the token budget, the wait runs until the expiry of the first entry at which the running total reaches the excess, else until the oldest entry expires |
| RateLimiter.TokenWaitFindsEntryIffFits | ai_gateway/services/rate_limiter.py:127-137 | a reaching entry exists exactly when the request alone fits the token budget |
| RateLimiter.UsageAgreesWithCheck | ai_gateway/services/rate_limiter.py:159-169 | zero remaining requests is reported exactly when the count check refuses; the request count plus its remainder covers the limit; within both limits the token total plus its remainder is exactly the limit |
| RateLimiter.TokenSumAppend | ai_gateway/services/rate_limiter.py:74 | the token total of two queues in sequence is the sum of their totals |
| RateLimiter.TokenSumSuffix | ai_gateway/services/rate_limiter.py:74 | a suffix of the queue holds no more tokens than the whole queue |
| RateLimiter.PrefixSumStep | ai_gateway/services/rate_limiter.py:131-133 | the running total grows by one entry's tokens per step |
| RateLimiter.PrefixSumBounded | ai_gateway/services/rate_limiter.py:131-133 | no running total exceeds the token total of the queue |
| SettingsPage.ColorChangeIsLocal | frontend/src/features/settings/SettingsPage.jsx:44-52 | a colour change sets exactly `prefs[section][key]`; every other section and key keeps its value, and only that section and key can be added |
| SettingsPage.ColorChangesCommute | frontend/src/features/settings/SettingsPage.jsx:44-52 | two changes of different colours give the same preferences in either order |
| SettingsPage.ColorChangeToSameValue | frontend/src/features/settings/SettingsPage.jsx:44-52 | setting a colour to the value it already has changes nothing |
| SettingsPage.ResetRestoresDefaults | frontend/src/features/settings/SettingsPage.jsx:54-67 | a confirmed reset leaves only the inspector section, whose five colours equal the server's `default_preferences` (django_server/apps/user_settings/models.py:4-13); a declined reset changes nothing |
| SettingsPage.ShownColorFallback | frontend/src/features/settings/SettingsPage.jsx:173 | the picker shows the stored colour when there is one and black otherwise, never an empty text |
| SettingsPage.PickerShowsChange | frontend/src/features/settings/SettingsPage.jsx:44-52 | after a change the picker shows the new colour, or black when the colour is empty |
| LoginPage.LoginPage.constructor | frontend/src/features/auth/LoginPage.jsx:8-20 | the page opens in login mode with an empty form, no error, nothing sent and the current session storage |
| LoginPage.LoginPage.Edit | frontend/src/features/auth/LoginPage.jsx:22-24 | only the form changes |
| LoginPage.LoginPage.Submit | frontend/src/features/auth/LoginPage.jsx:26-71 | the new page state is the one `SubmitOutcome` gives for the old state and the server's answer |
| LoginPage.LoginPage.Toggle | frontend/src/features/auth/LoginPage.jsx:230-239 | the mode flips, the five fields and the error are cleared, and nothing else changes |
| LoginPage.MismatchSendsNothing | frontend/src/features/auth/LoginPage.jsx:30-33 | a signup whose confirmation differs sets the mismatch error and sends, stores and navigates nothing |
| LoginPage.SubmitSendsOnce | frontend/src/features/auth/LoginPage.jsx:35-70 | a submission that passes the check sends exactly one payload, whatever the answer, and ends not loading |
| LoginPage.PayloadFields | frontend/src/features/auth/LoginPage.jsx:39-46 | login sends only the username and password; signup sends all five fields |
| LoginPage.NoTokenStoresNothing | frontend/src/features/auth/LoginPage.jsx:48-63 | an answer without a token, or a failure, leaves the storage and the location as they were |
| LoginPage.FailureMessage | frontend/src/features/auth/LoginPage.jsx:64-67 | a failure shows the server's error text, else the generic message, and never an empty error |
| LoginPage.EmailFallback | frontend/src/features/auth/LoginPage.jsx:53-54 | the stored email is the answer's, else the form's, else "user@example.com" |
| LoginPage.RedirectWhitelist | frontend/src/features/auth/LoginPage.jsx:48-62 | after a token: token, id, name and email are stored; the page goes to `returnTo` exactly when it is "/chat" or "/image-compare", which removes it; otherwise it goes home and `returnTo` stays; no other key changes |
| ChatAdmin.MessagesOf | django_server/apps/fabrix_agent_chat/admin.py:48 | the live count of a session's messages is at most the number of messages |
| ChatAdmin.MessagesOfCounts | django_server/apps/fabrix_agent_chat/admin.py:48 | the live count is the number of positions that hold a message of the session |
| ChatAdmin.InlineMayAdd | django_server/apps/fabrix_agent_chat/admin.py:16-18 | the message inline never permits adding a message |
| ChatAdmin.PreviewShape | django_server/apps/fabrix_agent_chat/admin.py:87-89 | content of at most 50 characters is shown whole; longer content shows as its first 50 characters and "...", 53 in all; the preview always starts with the content's first 50 characters |
| ChatAdmin.PreviewIsIdempotent | django_server/apps/fabrix_agent_chat/admin.py:87-89 | previewing a preview changes nothing |
| ChatAdmin.DistinctCard | django_server/apps/fabrix_agent_chat/admin.py:115 | a listing without repeats holds as many distinct sessions as positions |
| ChatAdmin.MessageCountFallbackAgrees | django_server/apps/fabrix_agent_chat/admin.py:45-56 | `message_count` returns the annotation when present, and `Count('messages')`, one per message row of the session, equals the count the fallback query makes |
| ChatAdmin.SessionCountFallbackAgrees | django_server/apps/fabrix_agent_chat/admin.py:112-121 | `session_count` returns the annotation when present, and `Count('sessions')`, one per session row the user owns, equals the length of the user's session listing |
| ChatAdmin.PostMessageCounts | django_server/apps/fabrix_agent_chat/admin.py:45-48 | posting a message raises its session's live count by one and leaves the other sessions' counts |
| ChatPage.SessionStep | frontend/src/features/chat/ChatPage.jsx:80-91 | finding or creating the session and saving the user message never removes or changes the bubbles shown before |
| ChatPage.SaveStep | frontend/src/features/chat/ChatPage.jsx:91-125 | saving the user message and taking the reply never removes or changes the bubbles shown before |
| ChatPage.ReplyStep | frontend/src/features/chat/ChatPage.jsx:94-125 | `if (file)` takes the upload path with a file and the stream path without one; either keeps the number of bubbles and changes at most the last one, the assistant bubble |
| ChatPage.Accumulate | frontend/src/features/chat/ChatPage.jsx:102-117 | the `onmessage` loop over a whole stream returns the concatenated answer and the sequence of values given to `updateLastMessage` |
| ChatPage.ChatPage.constructor | frontend/src/features/chat/ChatPage.jsx:15-23 | a fresh page has no bubbles, is not loading, has no error or agent, and takes its session from the URL |
| ChatPage.ChatPage.SelectAgent | frontend/src/features/chat/ChatPage.jsx:28-29 | only the selected agent changes |
| ChatPage.ChatPage.Send | frontend/src/features/chat/ChatPage.jsx:67-130 | the new page state is the one `SendOutcome` gives for the old state, the input and the server's answers |
| ChatPage.ChatPage.OpenSession | frontend/src/features/chat/ChatPage.jsx:81-89 | the state is the one `SessionStep` gives: a session is created only when there is none, and its failure ends the send with an error |
| ChatPage.ChatPage.SaveUserMessage | frontend/src/features/chat/ChatPage.jsx:91-92 | the state is the one `SaveStep` gives: the user message is saved, then an empty assistant bubble is added |
| ChatPage.ChatPage.Receive | frontend/src/features/chat/ChatPage.jsx:94-125 | the state is the one `ReplyStep` gives: the upload's outcome when a file is sent, the stream's otherwise |
| ChatPage.ChatPage.ReceiveFile | frontend/src/features/chat/ChatPage.jsx:94-99 | the upload's answer, or "Done.", fills the assistant bubble and is saved; a failed upload, or a refused save of the answer, ends the send with the error |
| ChatPage.FileReplySaveOutcome | frontend/src/features/chat/ChatPage.jsx:94-99 | with a file answer the bubble shows it, or "Done.", whether or not its save goes through, and loading ends; a saved answer is appended to the saves, a refused save saves nothing more and sets "Error sending message." |
| ChatPage.ChatPage.ReceiveStream | frontend/src/features/chat/ChatPage.jsx:100-124 | the last update, which is the whole answer, fills the assistant bubble; a closed stream saves the answer, a failed one sets the error |
| ChatPage.ChatPage.Stop | frontend/src/features/chat/ChatPage.jsx:141-149 | with a stream started, loading ends and the last bubble is saved exactly when `StopSave` says; without one nothing changes |
| ChatPage.SendGuards | frontend/src/features/chat/ChatPage.jsx:68-72 | a send while loading changes nothing; a send without an agent only sets the error |
| ChatPage.SendAppendsUserBubble | frontend/src/features/chat/ChatPage.jsx:74-78 | a send that passes the guards keeps the old history and puts the user bubble right after it, whatever the server does |
| ChatPage.UserContentCases | frontend/src/features/chat/ChatPage.jsx:77 | the user bubble is the text when there is one, else "File: " and the file name; it is never empty |
| ChatPage.SessionTitleCases | frontend/src/features/chat/ChatPage.jsx:83 | a new session's title is "File Analysis" without text, else the text's first 30 characters |
| ChatPage.SessionCreatedOnce | frontend/src/features/chat/ChatPage.jsx:81-89 | a session is created only by a send on a page without one and is titled from that send; an existing session is kept |
| ChatPage.AnswerAppend | frontend/src/features/chat/ChatPage.jsx:109-118 | the answer over two stretches of a stream is the first stretch's answer followed by the second's |
| ChatPage.SkippedEvents | frontend/src/features/chat/ChatPage.jsx:110-117 | events without data, unparsable events and events without content leave the answer unchanged |
| ChatPage.UpdatesEndWithAnswer | frontend/src/features/chat/ChatPage.jsx:113-116 | every streamed update is a prefix of the final answer, and the last update is the answer |
| ChatPage.UpdatesGrow | frontend/src/features/chat/ChatPage.jsx:114-115 | each streamed update extends every earlier one |
| ChatPage.NoUpdatesNoAnswer | frontend/src/features/chat/ChatPage.jsx:113-116 | a stream that never adds text leaves the answer empty |
| ChatPage.UpdateLastShape | frontend/src/features/chat/ChatPage.jsx:132-139 | `updateLastMessage` keeps the length and every bubble but the last, and changes only the last bubble's content |
| ChatPage.UpdateLastSameContent | frontend/src/features/chat/ChatPage.jsx:132-139 | writing the content the last bubble already has gives back the same history |
| ChatPage.StreamSavesAnswer | frontend/src/features/chat/ChatPage.jsx:100-124 | a send without a file starts the stream with the text as its prompt; a stream that closes saves the whole answer, the last bubble shows it, loading ends and there is no error |
| ChatPage.PathFollowsFile | frontend/src/features/chat/ChatPage.jsx:94-125 | a send with a file never starts a stream and does not depend on what the stream would give; a send without one does not depend on what the upload would give |
| ChatPage.StopSavesLastAssistant | frontend/src/features/chat/ChatPage.jsx:141-149 | stop saves exactly when a stream was started, there is a session and the last bubble is the assistant's, and then saves that bubble's content |
| ImageComparePage.ComparePage.constructor | frontend/src/features/imageCompare/ImageComparePage.jsx:10-21 | the page opens with no files, pages 0, the default settings ("difference", 30, 4000), no result, no error and nothing sent |
| ImageComparePage.ComparePage.SelectFile1 | frontend/src/features/imageCompare/ImageComparePage.jsx:23-27 | choosing or removing the first file sets it and its page and clears the previous result; nothing else changes |
| ImageComparePage.ComparePage.SelectFile2 | frontend/src/features/imageCompare/ImageComparePage.jsx:29-33 | the same for the second file |
| ImageComparePage.ComparePage.Compare | frontend/src/features/imageCompare/ImageComparePage.jsx:35-75 | without both files only the error is set and nothing is sent; otherwise exactly one request with the files, settings and pages is sent, loading ends, and the page shows the result or the mapped error message |
| ImageComparePage.ErrorMessageOrder | frontend/src/features/imageCompare/ImageComparePage.jsx:61-71 | 413, 429 and 504 get their own messages whatever the detail; any other failure shows the server's detail, else the generic message; the message is never empty |
| ImageComparePage.CanCompareIffBothFiles | frontend/src/features/imageCompare/ImageComparePage.jsx:103 | the button is enabled exactly when both files are chosen and no comparison runs |
| ImageComparePage.BytesOf | frontend/src/features/imageCompare/ImageComparePage.jsx:81-86 | the byte array has one byte per decoded character |
| ImageComparePage.FillBytes | frontend/src/features/imageCompare/ImageComparePage.jsx:81-86 | the copying loop fills a fresh array in which byte i is the code of character i modulo 256 |
| ImageComparePage.BytesOfBinaryString | frontend/src/features/imageCompare/ImageComparePage.jsx:84-86 | codes below 256 are stored unchanged, so the bytes of a binary string are the bytes it was made of |
| ImageComparePage.SplitDataUri | frontend/src/features/imageCompare/ImageComparePage.jsx:79-80 | for the header `encode_image_to_base64` writes (ai_gateway/services/image_processor.py:361-362), the splits give back exactly the MIME type and the encoded text |
| ImageComparePage.SplitUriParts | frontend/src/features/imageCompare/ImageComparePage.jsx:79-80 | the three splits of `handleDownload` on a text shaped `scheme:mime;tag,encoded` give `encoded` and `mime` |
| ImageComparePage.SplitHead | frontend/src/features/imageCompare/ImageComparePage.jsx:79-80 | a split keeps the text before the first separator as its first part and has a second part |
| ImageComparePage.PrefixShape | ai_gateway/services/image_processor.py:362 | the data-URI header is `data`, ':', the MIME type, ';', `base64` and ',' |
| ImageComparePage.DownloadRoundTrip | frontend/src/features/imageCompare/ImageComparePage.jsx:77-88 | downloading an image the server encoded (ai_gateway/services/image_processor.py:353-362) yields the MIME type the server wrote and exactly the encoded bytes |
| ImageComparePage.AtobRejectsLength | frontend/src/features/imageCompare/ImageComparePage.jsx:79 | `atob` rejects any text of the alphabet whose length leaves 1 modulo 4 |
| ImageComparePage.AtobRejectsUndefined | frontend/src/features/imageCompare/ImageComparePage.jsx:79 | `atob(undefined)`, which reads the text "undefined", throws |
| ImageComparePage.MalformedUriFails | frontend/src/features/imageCompare/ImageComparePage.jsx:79-80 | a URI without ',' or without ':' cannot be downloaded |
| ImageComparePage.PrefixPartOmits | frontend/src/features/imageCompare/ImageComparePage.jsx:80 | the part before the first ',' holds no character the whole URI lacks, so splitting it on such a character gives one part |
| AuthViews.SignUpRefusal | django_server/apps/authentication/views.py:24-46 | every refusal before the write is a 400 or a 403 with an error body |
| AuthViews.Accounts.constructor | django_server/apps/authentication/views.py:14-16 | an empty user table and token table satisfy the store's guarantees |
| AuthViews.Accounts.SignUp | django_server/apps/authentication/views.py:18-68 | the new tables and the response are those `SignUpOutcome` gives, and the store's guarantees still hold |
| AuthViews.Accounts.Register | django_server/apps/authentication/views.py:50-56 | the transaction appends one active user with the request's fields and gives it one token under the new key, its primary key the new table length; the store's guarantees still hold and emails stay unique where they were |
| AuthViews.SignUpAccepted | django_server/apps/authentication/views.py:24-46 | a request that no check refuses has every field present, a free username and a free email |
| AuthViews.Accounts.Login | django_server/apps/authentication/views.py:75-122 | the new tables and the response are those `LoginOutcome` gives, and the store's guarantees still hold |
| AuthViews.SignUpCheckOrder | django_server/apps/authentication/views.py:24-46 | the checks run in order: missing field 400, wrong key 403, taken username 400, taken email 400, each only once the earlier ones pass |
| AuthViews.KeyMatchIgnoresPadding | django_server/apps/authentication/views.py:31-38 | a received key and a configured key that differ only in surrounding whitespace match |
| AuthViews.IntTextIsStripped | django_server/apps/authentication/views.py:31-32 | `str(n)` of an integer is non-empty and has no whitespace at either end |
| AuthViews.KeyTextIsStrippedStr | django_server/apps/authentication/views.py:31-32 | the text the view compares is `str(v).strip()` of the key, for a text key and an integer key alike |
| AuthViews.NumberKeyMatchesItsText | django_server/apps/authentication/views.py:31-38 | an integer key and the decimal text that spells it, padded or not, match in both directions |
| AuthViews.FalsyKeys | django_server/apps/authentication/views.py:24 | `all([...])` counts the key as missing exactly when it is absent or null, empty text or the number 0 |
| AuthViews.KeyTextOfStr | django_server/apps/authentication/views.py:31-32 | replacing a key by the text `str()` makes of it gives the same compared text, and a truthy key stays truthy |
| AuthViews.KeyMatchesThroughStr | django_server/apps/authentication/views.py:31-38 | replacing either key by its `str()` text keeps every match |
| AuthViews.KeySeenThroughStr | django_server/apps/authentication/views.py:24-46 | with all fields present, replacing the sent or the configured key by its `str()` text gives the same refusal, and the fields stay present |
| AuthViews.SignUpIsAtomic | django_server/apps/authentication/views.py:48-68 | only a 201 changes the tables, and a 201 happens exactly when no check refuses and the transaction does not fail |
| AuthViews.SignUpCreatesOneAccount | django_server/apps/authentication/views.py:50-65 | a successful sign-up appends exactly one active user with the request's fields and one token under the new key; the response echoes the token, id, username and email |
| AuthViews.AppendKeepsUnique | django_server/apps/authentication/views.py:42-46 | appending a user whose name is not taken keeps usernames unique, and emails too when its email is not taken |
| AuthViews.AddTokenKeepsUnique | django_server/apps/authentication/views.py:56 | a token under a fresh key for a user without one keeps token keys unique |
| AuthViews.SignUpAcceptedKeepsStore | django_server/apps/authentication/views.py:42-56 | adding a user whose username and email are free, with a token under a fresh key, keeps the store's guarantees and keeps emails unique where they were |
| AuthViews.SignUpKeepsStore | django_server/apps/authentication/views.py:24-68 | sign-up keeps usernames and token keys unique and every token owned by a user, and keeps emails unique where they were |
| AuthViews.LoginNeedsBothFields | django_server/apps/authentication/views.py:82-86 | without both credentials the answer is 400, the same as if `authenticate` had found nobody |
| AuthViews.LoginStatuses | django_server/apps/authentication/views.py:99-122 | unknown credentials give 401, a disabled account 403, an active one 200 with its existing token; the user table is untouched |
| AuthViews.LoginTokenIsStable | django_server/apps/authentication/views.py:111-119 | logging in again returns the same token and the same tables, whatever key would be generated next |
| AuthViews.LoginKeepsStore | django_server/apps/authentication/views.py:99-119 | login keeps the store's guarantees, never changes the user table and never changes an existing token |
| ChatViews.LegacySignUp | django_server/apps/fabrix_agent_chat/views.py:45-76 | the new tables and the response are those `LegacySignUpOutcome` gives, and the store's guarantees still hold |
| ChatViews.LegacyLogin | django_server/apps/fabrix_agent_chat/views.py:84-97 | the new tables and the response are those `LegacyLoginOutcome` gives, and the store's guarantees still hold |
| ChatViews.LegacySignUpCheckOrder | django_server/apps/fabrix_agent_chat/views.py:52-61 | the legacy checks run in order: missing field 400, key 403, taken username 400 |
| ChatViews.LegacyKeyIsExact | django_server/apps/fabrix_agent_chat/views.py:56-57 | the legacy key check is exact: a key with a leading space, which the newer view accepts, is refused with 403 |
| ChatViews.LegacyKeyKeepsType | django_server/apps/fabrix_agent_chat/views.py:52-57 | an integer key and the text that spells it, one sent and the other configured, are refused with 403 by the legacy view, while the newer view matches them and does not refuse with 403 |
| ChatViews.LegacyAllowsSharedEmail | django_server/apps/fabrix_agent_chat/views.py:59-66 | an email already in use still gets a second account, so emails stop being unique |
| ChatViews.LegacySignUpEffects | django_server/apps/fabrix_agent_chat/views.py:63-76 | a successful legacy sign-up adds one active user with one token and answers 201 without an email; a key collision leaves the saved user without a token |
| ChatViews.LegacySignUpKeepsStore | django_server/apps/fabrix_agent_chat/views.py:45-76 | legacy sign-up keeps usernames and token keys unique and every token owned by a user |
| ChatViews.LegacyLoginTokenIsStable | django_server/apps/fabrix_agent_chat/views.py:88-97 | without a user the answer is 401; otherwise it is the user's token, unchanged by logging in again |
| ChatViews.LegacyLoginKeepsStore | django_server/apps/fabrix_agent_chat/views.py:88-97 | legacy login keeps the store's guarantees and never touches the user table |
| ChatViews.SessionsOf | django_server/apps/fabrix_agent_chat/views.py:107-109 | every listed session exists and is owned by the requesting user |
| ChatViews.OwnedIds | django_server/apps/fabrix_agent_chat/views.py:107-109 | the scoped filter keeps only sessions the user owns |
| ChatViews.OwnedIdsListsAll | django_server/apps/fabrix_agent_chat/views.py:107-109 | every session the user owns is kept by the scoped filter |
| ChatViews.SortNewestFirst | django_server/apps/fabrix_agent_chat/models.py:14-15 | the ordering keeps the same keys and their number |
| ChatViews.Insert | django_server/apps/fabrix_agent_chat/models.py:14-15 | one key is added and nothing else changes in the set of keys |
| ChatViews.SessionsOfComplete | django_server/apps/fabrix_agent_chat/models.py:14-15 | under this ordering the scoped listing holds exactly the user's sessions, each once, a later update before an earlier one |
| ChatViews.InsertKeepsOrder | django_server/apps/fabrix_agent_chat/models.py:14-15 | putting a new key into a newest-first list keeps it newest first |
| ChatViews.SortIsNewestFirst | django_server/apps/fabrix_agent_chat/models.py:14-15 | the ordering of distinct keys is newest first |
| ChatViews.SortReadsListedTimes | django_server/apps/fabrix_agent_chat/models.py:14-15 | two tables that agree on the update times of the listed sessions order them alike |
| ChatViews.ChatStore.constructor | django_server/apps/fabrix_agent_chat/views.py:99-105 | empty tables, in which every message points at an existing session |
| ChatViews.ChatStore.PostMessage | django_server/apps/fabrix_agent_chat/views.py:120-133 | the new tables and the response are those `PostMessageOutcome` gives, and every message still points at an existing session |
| ChatViews.ForeignSessionIsNotFound | django_server/apps/fabrix_agent_chat/views.py:126 | posting to a session that is missing or someone else's is a 404 and stores nothing |
| ChatViews.InvalidMessageStoresNothing | django_server/apps/fabrix_agent_chat/views.py:127-133 | an invalid payload on one's own session is a 400 and stores nothing |
| ChatViews.PostMessageAppendsOne | django_server/apps/fabrix_agent_chat/views.py:126-133 | a 201 happens exactly for a valid message on one's own session; it appends exactly that message and changes only the session's update time; any other answer stores nothing |
| ChatViews.PostMessageKeepsOwnership | django_server/apps/fabrix_agent_chat/views.py:107-133 | after a post every user's listing holds the same sessions, and every listing but the poster's is exactly the same |
| ChatViews.PostedSessionComesFirst | django_server/apps/fabrix_agent_chat/views.py:120-133 | a post saves the session's update time, so a post later than the user's other updates puts the session at the head of their listing |
| ChatViews.TouchKeepsListing | django_server/apps/fabrix_agent_chat/views.py:130-131 | saving one session's time keeps every listing's sessions and every other owner's listing |
| ChatViews.TouchedSessionComesFirst | django_server/apps/fabrix_agent_chat/views.py:130-131 | a session saved later than its owner's other sessions heads its owner's listing |
| ChatViews.SameOwnersSameOwnedIds | django_server/apps/fabrix_agent_chat/views.py:107-109 | two tables with the same owners in the same order give every user the same sessions |
| DataExplorer.BuildFields | django_server/apps/data_explorer/views.py:61-78 | the loop builds one field per column, in column order, each with the column's name and the type its dtype maps to |
| DataExplorer.Post | django_server/apps/data_explorer/views.py:25-92 | the upload's response is the one `PostResponse` gives for the file, the parse and the frame's memory |
| DataExplorer.Get | django_server/apps/data_explorer/views.py:94-145 | the sample's response is the one `GetResponse` gives |
| DataExplorer.FileLimitInBytes | django_server/apps/data_explorer/views.py:37-38 | the megabyte guards, stated in whole bytes: more than 500 MiB (1000 MiB for memory) is too large, exactly the limit is not |
| DataExplorer.UploadGuardsComeFirst | django_server/apps/data_explorer/views.py:29-42 | no file is a 400; an oversized file is a 400 whatever the parse and memory would be; exactly 500 MiB passes the size guard |
| DataExplorer.UploadParseAndMemory | django_server/apps/data_explorer/views.py:44-54 | after the guards a parse error is a 500 with its text, a frame over 1000 MiB in memory a 400, anything else a success |
| DataExplorer.SemanticTypeCases | django_server/apps/data_explorer/views.py:63-71 | the four numeric dtypes are quantitative, "object" nominal, a dtype containing "datetime" temporal, anything else nominal |
| DataExplorer.SemanticTypeExamples | django_server/apps/data_explorer/views.py:63-71 | datetime columns with or without a timezone are temporal; "bool" and "int8" are nominal |
| DataExplorer.NotContainedWhenShorter | django_server/apps/data_explorer/views.py:68 | a text shorter than "datetime" cannot contain it |
| DataExplorer.AnalyticTypeIsDimensionIffNominal | django_server/apps/data_explorer/views.py:73-78 | a field is a dimension exactly when it is nominal, otherwise a measure; fid and name are the column's name |
| DataExplorer.UploadDescribesEveryColumn | django_server/apps/data_explorer/views.py:58-85 | a successful upload has one field per column in column order, returns the records, counts them and echoes the file name |
| DataExplorer.SampleMatchesUpload | django_server/apps/data_explorer/views.py:108-138 | the sample is described exactly as an upload of the same frame would be, under the sample's file name |
| DataExplorer.SampleErrors | django_server/apps/data_explorer/views.py:102-145 | only a missing sample is a 404; a read error is a 500 with the bare text; otherwise a success |
| BackupDb.StampText | django_server/apps/core/management/commands/backup_db.py:57 | the `%Y%m%d_%H%M%S` text of a clock reading always has 15 characters |
| BackupDb.StampTextSlices | django_server/apps/core/management/commands/backup_db.py:57 | each field sits zero-padded at its fixed place: year at 0-3, month, day, '_' at 8, hour, minute, second |
| BackupDb.StampTextRoundTrip | django_server/apps/core/management/commands/backup_db.py:57 | the timestamp text gives back the reading it was made from |
| BackupDb.BackupNameRoundTrip | django_server/apps/core/management/commands/backup_db.py:57-58 | the backup name holds that timestamp text between the prefix and the extension |
| BackupDb.BackupNameMatchesGlob | django_server/apps/core/management/commands/backup_db.py:58-89 | every backup name has 33 characters and matches `db_backup_*.sqlite3`, and its companions do not |
| BackupDb.CompanionIsNotBackup | django_server/apps/core/management/commands/backup_db.py:69-89 | no `-wal` or `-shm` name matches the glob |
| BackupDb.PadDigitsOrder | django_server/apps/core/management/commands/backup_db.py:57 | zero-padded numbers of one width compare as text exactly as they compare as numbers |
| BackupDb.FieldThenRest | django_server/apps/core/management/commands/backup_db.py:57 | a zero-padded field followed by more text is compared by the field first, then by the rest |
| BackupDb.StampTextOrder | django_server/apps/core/management/commands/backup_db.py:57 | one timestamp text sorts before another exactly when its reading is earlier |
| BackupDb.BackupNameOrder | django_server/apps/core/management/commands/backup_db.py:57-89 | one backup name sorts before another exactly when its reading is earlier, so the sorted listing is in order of creation |
| BackupDb.Least | django_server/apps/core/management/commands/backup_db.py:89 | the chosen name is in the set and sorts before every other member |
| BackupDb.SortedNames | django_server/apps/core/management/commands/backup_db.py:89 | `sorted` of a set of names lists each member once, in strictly ascending order |
| BackupDb.BackupsListing | django_server/apps/core/management/commands/backup_db.py:89 | the listing holds each backup of the directory once and nothing else, oldest name first |
| BackupDb.SliceEnd | django_server/apps/core/management/commands/backup_db.py:93 | where Python's slice `xs[:stop]` ends lies within the list |
| BackupDb.RetentionSelection | django_server/apps/core/management/commands/backup_db.py:91-93 | with `keep` at least 1 and more backups than that, the oldest n - keep are chosen; with `keep` 0 or no more backups than `keep`, none; a negative `keep` chooses the first -keep |
| BackupDb.BackupDeletedIffSelected | django_server/apps/core/management/commands/backup_db.py:93-94 | a backup is deleted exactly when it is one of the chosen ones |
| BackupDb.CompanionDeletedIffSelected | django_server/apps/core/management/commands/backup_db.py:95-99 | a backup's `-wal` and `-shm` files are deleted exactly when the backup is chosen |
| BackupDb.CleanupEffects | django_server/apps/core/management/commands/backup_db.py:87-99 | the cleanup only deletes; the backups left are the ones not chosen; the chosen ones lose their companions; a kept backup keeps exactly the companions it had |
| BackupDb.KeepZeroDeletesNothing | django_server/apps/core/management/commands/backup_db.py:93 | with `keep` 0 no file is deleted, because `backups[:-0]` is empty |
| BackupDb.NewBackupIsLast | django_server/apps/core/management/commands/backup_db.py:57-89 | after the copy, a backup named after a later reading than all others is last in the sorted listing and appears only there |
| BackupDb.NewestBackupSurvives | django_server/apps/core/management/commands/backup_db.py:64-99 | when at least one backup is kept, the new backup and the companions copied with it survive the cleanup |
| BackupDb.CopyAddsCompanionsIfPresent | django_server/apps/core/management/commands/backup_db.py:64-78 | the copy adds the backup, adds a companion exactly when the database has one, and adds nothing else |
| BackupDb.BackupDir.constructor | django_server/apps/core/management/commands/backup_db.py:53-54 | the directory holds the given files |
| BackupDb.BackupDir.DeleteBackup | django_server/apps/core/management/commands/backup_db.py:94-99 | one pass of the deletion loop removes the backup and its companions and nothing else |
| BackupDb.BackupDir.Cleanup | django_server/apps/core/management/commands/backup_db.py:88-99 | the loop deletes exactly the chosen backups with their companions, and reports the chosen backups in order |
| BackupDb.BackupDir.Copy | django_server/apps/core/management/commands/backup_db.py:64-78 | the directory gains the backup and each companion the database has |
| BackupDb.BackupDir.Handle | django_server/apps/core/management/commands/backup_db.py:38-107 | a non-SQLite engine or a missing database reports the error and changes nothing; otherwise the copy under the name for `now`, then, unless `--no-cleanup`, the cleanup |
| Dependencies.CheckTokenInDb | ai_gateway/dependencies.py:46-57 | a key is valid exactly when the query ran and returned a row; any error counts as not found |
| Dependencies.MissingHeaderFirst | ai_gateway/dependencies.py:18-19 | a missing or empty header is refused with 401 before anything else is looked at |
| Dependencies.CheckOrder | ai_gateway/dependencies.py:21-42 | the checks run in order: two words (401), scheme (401), database file (500), lookup (401), each only once the earlier ones pass |
| Dependencies.AuthorizedExactly | ai_gateway/dependencies.py:18-44 | success exactly when the header is two words with the scheme "token" in some case, the database exists and the lookup of the second word finds a row; the result is that word |
| Dependencies.LookupErrorIsNotFound | ai_gateway/dependencies.py:39-57 | a lookup that raised is a 401, never a success and never a 500 |
| Dependencies.StatusesAre401Or500 | ai_gateway/dependencies.py:18-42 | every refusal is 401, except the missing database, which alone is 500 |
| Dependencies.AcceptedKeyIsOneWord | ai_gateway/dependencies.py:22-44 | an accepted key is one non-empty word without whitespace |
| Dependencies.SchemeAndKey | ai_gateway/dependencies.py:22-28 | for `<scheme><whitespace><key>` the key is looked up and returned whatever the spacing, and the scheme alone decides between that and the scheme error |
| Dependencies.SchemeIgnoresCase | ai_gateway/dependencies.py:27 | "Token", "TOKEN" and "tOkEn" are accepted schemes and "Bearer" is not |
| Dependencies.BareKeyIsFormatError | ai_gateway/dependencies.py:22-24 | a header of a single word, such as a bare key, is a format error |
| Base64.DecodeEncodeChar | ai_gateway/services/image_processor.py:361 | every six-bit value is written as an alphabet character that reads back as that value |
| Base64.EncodeUnpadded | ai_gateway/services/image_processor.py:361 | the unpadded encoding uses only the alphabet, and its length modulo 4 is 0, 2 or 3 as the byte count leaves 0, 1 or 2 modulo 3 |
| Base64.PaddedLength | ai_gateway/services/image_processor.py:361 | with its `=` padding the encoding's length is a multiple of four |
| Base64.EncodeAlphabet | ai_gateway/services/image_processor.py:361-362 | encoded text holds only alphabet characters and `=`, never `,`, `:` or `;`, and has a length divisible by four |
| Base64.QuadRoundTrip | frontend/src/features/imageCompare/ImageComparePage.jsx:79 | a full group of four characters decodes to the three bytes it encodes |
| Base64.DecodeEncodeUnpadded | frontend/src/features/imageCompare/ImageComparePage.jsx:79 | decoding undoes the unpadded encoding, for every byte sequence |
| Base64.StripEncodePadding | frontend/src/features/imageCompare/ImageComparePage.jsx:79 | removing the trailing `=` of an encoding gives back the unpadded encoding |
| Base64.NoWhitespaceUnchanged | frontend/src/features/imageCompare/ImageComparePage.jsx:79 | `atob`'s whitespace removal leaves a text of the alphabet and `=` unchanged |
| Base64.RemoveAsciiWhitespace | frontend/src/features/imageCompare/ImageComparePage.jsx:79 | the text `atob` goes on to decode holds no ASCII whitespace |
| Base64.BinaryString | frontend/src/features/imageCompare/ImageComparePage.jsx:79 | the decoded text has one character per byte, whose code is that byte |
| Base64.Atob | frontend/src/features/imageCompare/ImageComparePage.jsx:79 | every character `atob` returns has a code below 256 |
| Base64.AtobEncode | frontend/src/features/imageCompare/ImageComparePage.jsx:79 | `atob` of what `base64.b64encode` wrote (ai_gateway/services/image_processor.py:361) recovers exactly the encoded bytes, one character per byte |
| PyStr.HexDigitValue | ai_gateway/services/image_processor.py:244 | a hexadecimal digit of either case has a value below 16 |
| PyStr.ContainsPrefixOfPattern | django_server/apps/data_explorer/views.py:68 | a text containing `a + b` contains `a` |
| PyStr.StartsWithFront | ai_gateway/routers/chat.py:146-150 | a text starting with `a + b` starts with `a` |
| PyStr.StartsWithConcat | ai_gateway/routers/chat.py:146-150 | `a + b` starts with `a` |
| PyStr.Lower | ai_gateway/dependencies.py:27 | `str.lower()` keeps the length and lowers each character on its own |
| PyStr.Upper | ai_gateway/services/image_processor.py:353 | on ASCII letters, `str.upper()` keeps the length and raises each character on its own |
| PyStr.LStripChar | ai_gateway/services/image_processor.py:243 | `lstrip('#')` removes the longest run of '#' at the front and nothing else |
| PyStr.DropLeadingWhitespace | django_server/apps/authentication/views.py:31-32 | the whitespace removed from the front is a maximal run of whitespace |
| PyStr.DropTrailingWhitespace | django_server/apps/authentication/views.py:31-32 | the whitespace removed from the end is a maximal run of whitespace |
| PyStr.TakeWord | ai_gateway/dependencies.py:22 | the first word is the longest prefix without whitespace |
| PyStr.SplitWhitespace | ai_gateway/dependencies.py:22 | `str.split()` gives non-empty pieces without whitespace |
| PyStr.SplitWhitespaceOfWords | ai_gateway/dependencies.py:22-26 | two words separated by whitespace split into exactly those two words |
| PyStr.SplitGapWord | ai_gateway/dependencies.py:22 | whitespace and then one word split into that word |
| PyStr.SplitSingleWord | ai_gateway/dependencies.py:22-24 | a single word splits into itself |
| PyStr.SplitWordCons | ai_gateway/dependencies.py:22 | a word followed by whitespace or the end is the first piece, followed by the split of the rest |
| PyStr.SplitSkipsWhitespace | ai_gateway/dependencies.py:22 | leading whitespace does not change the split |
| PyStr.TakeWordStops | ai_gateway/dependencies.py:22 | the first word stops at the first whitespace |
| PyStr.DropWhitespacePrefix | django_server/apps/authentication/views.py:31-32 | removing leading whitespace from whitespace followed by a non-space gives that rest |
| PyStr.DropWhitespaceSuffix | django_server/apps/authentication/views.py:31-32 | removing trailing whitespace after a text that ends in a non-space gives that text |
| PyStr.DropWhitespacePrefixAll | django_server/apps/authentication/views.py:31-32 | a text of whitespace only strips to empty |
| PyStr.StrEqIsEquality | django_server/apps/authentication/views.py:38 | the character-by-character comparison is equality of the two texts |
| PyStr.StripPadded | django_server/apps/authentication/views.py:31-32 | `strip()` removes the surrounding whitespace and nothing else |
| PyStr.JsSplit | frontend/src/features/imageCompare/ImageComparePage.jsx:79-80 | JavaScript's `split` on one character always has a first part, and no part holds the separator |
| PyStr.IndexOf | frontend/src/features/imageCompare/ImageComparePage.jsx:79-80 | the first position of a character that occurs in the text |
| PyStr.JsSplitCons | frontend/src/features/imageCompare/ImageComparePage.jsx:79-80 | a text without the separator, then the separator, then more, splits into that text followed by the split of the rest |
| PyStr.IndexOfAfter | frontend/src/features/imageCompare/ImageComparePage.jsx:79-80 | the first separator after a text without it is at that text's length |
| PyStr.DigitChar | ai_gateway/image_processor.py:433 | a decimal digit is written as its character |
| PyStr.NatToString | ai_gateway/image_processor.py:433 | `str(n)` of a natural number is a non-empty run of decimal digits |
| PyStr.ParseNatToString | ai_gateway/image_processor.py:433 | reading `str(n)` back gives `n` |
| PyStr.PadDigits | django_server/apps/core/management/commands/backup_db.py:57 | a zero-padded field has exactly its width, all decimal digits |
| PyStr.ParsePadDigits | django_server/apps/core/management/commands/backup_db.py:57 | reading a zero-padded field back gives the number, when the number fits the width |
| PyStr.LexLessIrreflexive | django_server/apps/core/management/commands/backup_db.py:89 | no name sorts before itself |
| PyStr.LexLessTransitive | django_server/apps/core/management/commands/backup_db.py:89 | the order of names is transitive |
| PyStr.LexLessTotal | django_server/apps/core/management/commands/backup_db.py:89 | of two different names one sorts first |
| PyStr.LexLessCommonPrefix | django_server/apps/core/management/commands/backup_db.py:89 | a common prefix does not change the order of two names |
| ChatRouter.TotalLengthAppend | ai_gateway/routers/chat.py:93 | the characters of two lists of contents add up |
| ChatRouter.ChatEstimateIsQuarterFloor | ai_gateway/routers/chat.py:93-94 | the chat estimate is at least 100, is 100 exactly for fewer than 404 characters, and is otherwise the floor of a quarter of the character count |
| ChatRouter.FileEstimateIsQuarterFloor | ai_gateway/routers/chat.py:182 | the upload estimate is at least 500, is 500 exactly for fewer than 2004 characters, and is otherwise the floor of a quarter of the prompt's length |
| ChatRouter.ChatEstimateMonotone | ai_gateway/routers/chat.py:93-94 | more text never lowers the chat estimate |
| ChatRouter.RetryTraceChecks | ai_gateway/routers/chat.py:100-121 | a retry in front of a run adds exactly one limiter check |
| ChatRouter.RetryTraceSleep | ai_gateway/routers/chat.py:100-121 | a retry in front of a run adds its sleep to the total slept |
| ChatRouter.RetryTraceShape | ai_gateway/routers/chat.py:100-121 | a retry keeps the last check and keeps the refused-check-then-bounded-sleep shape |
| ChatRouter.LoopRetries | ai_gateway/routers/chat.py:106-121 | a refused check with a wait within the bound before the last attempt sleeps that wait and continues from the queue the limiter left |
| ChatRouter.LoopStops | ai_gateway/routers/chat.py:101-118 | a run that does not retry makes one check: it admits exactly when the limiter admits, and a 429 comes only with a wait over the bound or on the last attempt |
| ChatRouter.LoopChecks | ai_gateway/routers/chat.py:100-121 | every run consults the limiter at least once and at most once per remaining attempt |
| ChatRouter.LoopChecksStep | ai_gateway/routers/chat.py:100-121 | one retry adds one check and uses up one attempt |
| ChatRouter.LoopShapeStep | ai_gateway/routers/chat.py:100-121 | one retry in front of a well-shaped run gives a well-shaped run |
| ChatRouter.LoopShape | ai_gateway/routers/chat.py:100-121 | every sleep follows a refused check, is at most the bound, and the run admits exactly when its last check admitted |
| ChatRouter.LoopClockStep | ai_gateway/routers/chat.py:121 | one retry keeps the clock at the start plus the sleeps |
| ChatRouter.LoopClock | ai_gateway/routers/chat.py:121 | the clock ends at the start plus everything slept: only sleeps move it |
| ChatRouter.LoopThrottles | ai_gateway/routers/chat.py:108-118 | a 429 comes only with an advised wait over the bound or after all remaining checks |
| ChatRouter.LimiterAnswerOk | ai_gateway/routers/chat.py:101-116 | an admission appends the request at the current time; a refusal names the limit hit, snapshots the usage of the queue it leaves, and the wait fails only without a positive request limit |
| ChatRouter.EvictPreservesLimits | ai_gateway/services/rate_limiter.py:51-56 | evicting old entries keeps a queue within the limits |
| ChatRouter.LimiterAnswerPreservesLimits | ai_gateway/routers/chat.py:101-116 | every queue one attempt leaves is within the limits when the queue before was |
| ChatRouter.SourceLimiterOk | ai_gateway/routers/chat.py:101-116 | the source limiter answers every queue and time as stated by LimiterAnswerOk and LimiterAnswerPreservesLimits |
| ChatRouter.LoopOutcome | ai_gateway/routers/chat.py:100-124 | a whole run ends as one attempt does: admission charged at the final instant, a 429 naming the limit and its usage, a failed wait only without a request limit |
| ChatRouter.LoopKeepsLimits | ai_gateway/routers/chat.py:100-124 | queues within the limits stay within them over a whole run |
| ChatRouter.AdmissionPolicy | ai_gateway/routers/chat.py:93-124 | the whole admission of a chat request: one to three checks, each sleep at most the bound after a refusal, the clock moved only by sleeps, a 429 only on the third refusal or a wait over the bound, admission charged once, and the limits kept |
| ChatRouter.Clock.constructor | ai_gateway/routers/chat.py:121 | the clock starts at the given time |
| ChatRouter.Clock.Sleep | ai_gateway/routers/chat.py:121 | sleeping advances the clock by exactly the requested ticks |
| ChatRouter.AnswerFromCalls | ai_gateway/routers/chat.py:101-116 | the answer is made of what can_proceed, get_wait_time and get_current_usage return, in that order, each on the queue the one before left |
| ChatRouter.ResumesAfterRetry | ai_gateway/routers/chat.py:100-121 | after a retry the rest of the run resumes from the new queue, time and attempt |
| ChatRouter.ResumesAtStop | ai_gateway/routers/chat.py:101-118 | where the loop stops, the whole run is the trace so far followed by the final check |
| ChatRouter.SourceLimiterAnswers | ai_gateway/routers/chat.py:101-116 | the limiter as a function answers as LimiterAnswer |
| ChatRouter.TryOnce | ai_gateway/routers/chat.py:101-121 | one pass of the loop body: it stops exactly when the answer does not continue, ending as Final says, or else sleeps the advised wait and leaves the answer's queue |
| ChatRouter.Decide | ai_gateway/routers/chat.py:103-121 | the pass after can_proceed answered: admission stops, a refusal goes on to Backoff |
| ChatRouter.Backoff | ai_gateway/routers/chat.py:106-121 | after a refusal: ask for the wait; an IndexError fails the request, a wait over the bound or the last attempt answers 429 with the usage, otherwise sleep |
| ChatRouter.AdmitWithRetries | ai_gateway/routers/chat.py:97-124 | the loop leaves the outcome, trace, limiter queue and clock that AdmissionRun defines for the starting queue and time; its else branch is unreachable |
| ChatRouter.PayloadIgnoresStreamFlag | ai_gateway/routers/chat.py:129-137 | the upstream payload always asks for a stream and does not depend on the request's own flag |
| ChatRouter.PayloadCopiesRequest | ai_gateway/routers/chat.py:129-137 | agent id, contents and the RAG flag are copied into the payload unchanged, and the three execute flags are set |
| ChatRouter.UploadFormNeverStreams | ai_gateway/routers/chat.py:224-228 | the upload form always sends isStream "False" and determines its agent id and contents |
| ChatRouter.RelayAppend | ai_gateway/routers/chat.py:146-150 | relaying lines in two parts gives the two outputs in order |
| ChatRouter.RelayOneLine | ai_gateway/routers/chat.py:146-150 | one upstream line is forwarded, followed by a blank line, exactly when it starts with "data:" |
| ChatRouter.RelayOutputIsData | ai_gateway/routers/chat.py:146-150 | the relay forwards at most as many events as lines, each a "data:" line from the upstream followed by a blank line |
| ChatRouter.EmptyLinesNeedNoSeparateCheck | ai_gateway/routers/chat.py:147-149 | the emptiness test in front of the prefix test never changes which lines are forwarded |
| ChatRouter.HexDigit | ai_gateway/routers/chat.py:154-163 | the digit json.dumps writes reads back as its value and is lower-case |
| ChatRouter.Hex2RoundTrip | ai_gateway/routers/chat.py:154-163 | two hex digits read back as the byte |
| ChatRouter.Hex4RoundTrip | ai_gateway/routers/chat.py:154-163 | the four digits of a `\u` escape read back as the code unit |
| ChatRouter.Hex4Printable | ai_gateway/routers/chat.py:154-163 | hex digits are printable ASCII |
| ChatRouter.UnitEscapePrintable | ai_gateway/routers/chat.py:154-163 | a `\u` escape is printable ASCII |
| ChatRouter.SurrogateHalves | ai_gateway/routers/chat.py:154-163 | both halves of a surrogate pair are ten-bit values |
| ChatRouter.UnicodeEscapePrintable | ai_gateway/routers/chat.py:154-163 | the escape of any code point, a surrogate pair above the basic plane, is printable ASCII |
| ChatRouter.JsonCharPrintable | ai_gateway/routers/chat.py:154-163 | every character escapes to printable ASCII, and printable characters other than the quote and backslash stand for themselves |
| ChatRouter.JsonCharsPrintable | ai_gateway/routers/chat.py:154-163 | escaped JSON text holds no line break of any kind |
| ChatRouter.JsonCharsPlain | ai_gateway/routers/chat.py:154-163 | text of printable characters without quote or backslash is copied unchanged |
| ChatRouter.IntToStringPrintable | ai_gateway/routers/chat.py:157 | the status code's digits are printable |
| ChatRouter.JsonStringPrintable | ai_gateway/routers/chat.py:154-163 | a quoted JSON string is printable ASCII |
| ChatRouter.DetailFieldPrintable | ai_gateway/routers/chat.py:154-163 | the detail field is printable ASCII |
| ChatRouter.ErrorFieldsPrintable | ai_gateway/routers/chat.py:154-163 | the fields after the error tag are printable ASCII for every failure class |
| ChatRouter.ErrorObjectPrintable | ai_gateway/routers/chat.py:154-163 | an error object with printable fields is printable ASCII |
| ChatRouter.ErrorJsonPrintable | ai_gateway/routers/chat.py:154-163 | every error object fits on one line |
| ChatRouter.ErrorTagIsPlain | ai_gateway/routers/chat.py:154-163 | each of the four tags appears in the JSON unescaped |
| ChatRouter.TimeoutTagPlain | ai_gateway/routers/chat.py:154 | "timeout" needs no escape |
| ChatRouter.HttpErrorTagPlain | ai_gateway/routers/chat.py:157 | "http_error" needs no escape |
| ChatRouter.RequestErrorTagPlain | ai_gateway/routers/chat.py:160 | "request_error" needs no escape |
| ChatRouter.UnexpectedErrorTagPlain | ai_gateway/routers/chat.py:163 | "unexpected_error" needs no escape |
| ChatRouter.ErrorLeadText | ai_gateway/routers/chat.py:154-163 | every error event starts with the text data: {"error": " |
| ChatRouter.ErrorObjectEventStarts | ai_gateway/routers/chat.py:154-163 | an error event shows its tag right after data: {"error": |
| ChatRouter.DataEventIsOneLine | ai_gateway/routers/chat.py:154-163 | a data event of printable JSON is one line followed by a blank line |
| ChatRouter.ErrorEventIsOneDataLine | ai_gateway/routers/chat.py:152-163 | the error event is one "data:" line starting with the failure's tag, then a blank line |
| ChatRouter.EventStreamShape | ai_gateway/routers/chat.py:139-163 | the client receives the relayed events in order and, when the stream fails, exactly one error event after them; every event is a "data:" event ending in a blank line |
| ChatRouter.ErrorEventIsData | ai_gateway/routers/chat.py:152-163 | the error event is a "data:" event ending in a blank line |
| ImageProcessor.DigitOrNone | ai_gateway/services/image_processor.py:244 | a digit's value is below 16 |
| ImageProcessor.ParseHexSlice | ai_gateway/services/image_processor.py:244 | what int(t, 16) accepts from a slice of at most two characters lies in -15..255 |
| ImageProcessor.PySlice | ai_gateway/services/image_processor.py:244 | a clamped slice is never longer than asked for |
| ImageProcessor.ParseHexPair | ai_gateway/services/image_processor.py:244 | two hex digits parse to their byte value, 0..255 |
| ImageProcessor.HexToBgrWellFormed | ai_gateway/services/image_processor.py:241-245 | any number of leading '#' then six hex digits gives blue, green and red in reverse pair order, each 0..255 |
| ImageProcessor.HexToBgrOfDigits | ai_gateway/services/image_processor.py:241-245 | a colour whose stripped text is six hex digits gives the three pairs reversed |
| ImageProcessor.SixDigitSlices | ai_gateway/services/image_processor.py:244 | each of the three slices of six hex digits parses to its pair |
| ImageProcessor.SliceParses | ai_gateway/services/image_processor.py:244 | a two-digit slice parses to its pair value |
| ImageProcessor.HexToBgrOfSlices | ai_gateway/services/image_processor.py:241-245 | once the three slices parse, the triple is blue, green, red |
| ImageProcessor.LStripHashes | ai_gateway/services/image_processor.py:243 | lstrip('#') removes exactly the leading run of '#' |
| ImageProcessor.HexToBgr | ai_gateway/services/image_processor.py:241-245 | an accepted colour has every channel in -15..255, and a refused one names the slice `int` rejected, of at most two characters |
| ImageProcessor.HexToBgrSignedPair | ai_gateway/services/image_processor.py:244 | a sign before one digit is accepted: "#-f0000" gives a red channel of -15 |
| ImageProcessor.StripOneHash | ai_gateway/services/image_processor.py:243 | one leading '#' is removed |
| ImageProcessor.SignedSlice | ai_gateway/services/image_processor.py:244 | the slice "-f" parses to -15 |
| ImageProcessor.ZeroSlice | ai_gateway/services/image_processor.py:244 | the slice "00" parses to 0 |
| ImageProcessor.HexToBgrShortForm | ai_gateway/services/image_processor.py:241-245 | three-digit shorthand is not expanded: "#fff" fails on the empty blue slice |
| ImageProcessor.HexToBgrBadPair | ai_gateway/services/image_processor.py:243-244 | "#zz0000" is refused on its first slice, "zz" |
| ImageProcessor.LoadRouteSpec | ai_gateway/services/image_processor.py:106-117 | a content type containing "pdf" (lower-cased) is read as PDF, else one containing "tif" as TIFF, else as a raster image; both directions |
| ImageProcessor.ClampPage | ai_gateway/services/image_processor.py:33-34 | a page at or beyond the page count becomes 0 and any other page is kept |
| ImageProcessor.LoadFileReportsPages | ai_gateway/services/image_processor.py:93-122 | a loaded file reports the document's own page count (one for a raster image), keeps a page within range and uses page 0 for one beyond it |
| ImageProcessor.LoadFileFailurePrefix | ai_gateway/services/image_processor.py:120-122 | every loading failure is re-raised with the load-failure prefix |
| ImageProcessor.DownsampleSizeSpec | ai_gateway/services/image_processor.py:125-146 | an image within 4000 pixels is kept; a larger one shrinks on both sides until its longer side is within the limit |
| ImageProcessor.ScaleDown | ai_gateway/services/image_processor.py:140-142 | scaling by a factor below one never grows a side |
| ImageProcessor.FallbackBoxSpec | ai_gateway/services/image_processor.py:213-237 | the resized second image fits inside the first, fills one of its sides, and is centred with offsets rounded down |
| ImageProcessor.GeometryError | ai_gateway/services/image_processor.py:125-237 | every error the resizes and the fallback's division raise is of a kind other than `ValueError` |
| ImageProcessor.DownsampleRejectsSpec | ai_gateway/services/image_processor.py:135-143 | `cv2.resize` in the downsampler is refused exactly for an image over 4000 pixels whose shorter side, scaled by 4000 over the longer, rounds down to 0 |
| ImageProcessor.ThinStripRejected | ai_gateway/services/image_processor.py:135-143 | a 1 x 5000 page cannot be downsampled, and the pipeline fails with the resize error even without a fallback |
| ImageProcessor.ThinFallbackRejected | ai_gateway/services/image_processor.py:213-237 | a 1 x 1000 image fitted into a 100 x 100 one gets a box of height 0, which fails the pipeline only when the fallback runs |
| ImageProcessor.FallbackAlign | ai_gateway/services/image_processor.py:213-237 | for a box with two positive sides (the only box `cv2.resize` can fill), the canvas has the first image's size, holds the resized image inside the box and is white outside it |
| ImageProcessor.GoodMatches | ai_gateway/services/image_processor.py:179-184 | there are never more good matches than k-NN pairs |
| ImageProcessor.GoodMatchesMembership | ai_gateway/services/image_processor.py:179-184 | a match is good exactly when it is the best of a pair of two that passes the 0.75 ratio test |
| ImageProcessor.RatioFilter | ai_gateway/services/image_processor.py:179-184 | the collection loop returns exactly the good matches, in order |
| ImageProcessor.CountTrue | ai_gateway/services/image_processor.py:200 | the inlier count is at most the mask's length |
| ImageProcessor.AlignImages | ai_gateway/services/image_processor.py:149-210 | the result is Align's: no warp without features or matches, quality as the match count over 10 below ten matches, else the inlier ratio |
| ImageProcessor.AlignSpec | ai_gateway/services/image_processor.py:149-210 | quality lies in 0..1; a warped image needs at least ten good matches; with fewer the quality is the count over 10 |
| ImageProcessor.RatioAtMostOne | ai_gateway/services/image_processor.py:201 | an inlier count over the match count lies in 0..1 |
| ImageProcessor.FewMatchesFallBack | ai_gateway/services/image_processor.py:168-198 | missing features, a failed match, fewer than ten good matches or no homography all send the comparison to the fallback |
| ImageProcessor.Paint | ai_gateway/services/image_processor.py:295-298 | painting through a mask sets exactly the masked pixels to the colour and keeps every other |
| ImageProcessor.CompareImages | ai_gateway/services/image_processor.py:247-300 | each pixel of the difference image is only-B's colour, else only-A's, else common, else white, as the later masks overwrite the earlier |
| ImageProcessor.MasksDisjoint | ai_gateway/services/image_processor.py:283-292 | only-A, only-B and common never overlap, so the painting order does not matter |
| ImageProcessor.BackgroundIffNoInk | ai_gateway/services/image_processor.py:283-298 | with a non-negative difference threshold a pixel stays white exactly when neither image has ink there |
| ImageProcessor.NegativeThresholdDropsInk | ai_gateway/services/image_processor.py:281-292 | with a negative difference threshold, equal inked pixels fall in no mask |
| ImageProcessor.OverlayPixel | ai_gateway/services/image_processor.py:333-336 | B's ink is painted over A's; where neither has ink the pixel stays white |
| ImageProcessor.CompareImagesOverlay | ai_gateway/services/image_processor.py:303-338 | each pixel of the overlay is OverlayPixel of the two grayscale values |
| ImageProcessor.HighlightsAgreeWithCompare | ai_gateway/services/image_processor.py:401-423 | each highlighted image agrees with the difference image except where only the other file has ink, which it leaves white |
| ImageProcessor.GenerateHighlightedImages | ai_gateway/services/image_processor.py:365-425 | two fresh, distinct images: A shows only-A over common, B shows only-B over common, white elsewhere |
| ImageProcessor.DefaultColour | ai_gateway/services/image_processor.py:268-270 | a default colour that no entry overrides becomes its pixel |
| ImageProcessor.DefaultDiffFile1Colour | ai_gateway/services/image_processor.py:268 | diff_file1 defaults to blue |
| ImageProcessor.DefaultDiffFile2Colour | ai_gateway/services/image_processor.py:269 | diff_file2 defaults to red |
| ImageProcessor.DefaultDiffCommonColour | ai_gateway/services/image_processor.py:270 | diff_common defaults to black |
| ImageProcessor.DefaultOverlayFile1Colour | ai_gateway/services/image_processor.py:322 | overlay_file1 defaults to orange |
| ImageProcessor.DefaultOverlayFile2Colour | ai_gateway/services/image_processor.py:323 | overlay_file2 defaults to green |
| ImageProcessor.DefaultPalettes | ai_gateway/services/image_processor.py:247-338 | without colours the palettes are blue, red and black, and orange and green, in BGR order |
| ImageProcessor.DefaultDiffPalette | ai_gateway/services/image_processor.py:268-270 | without colours the difference palette is blue, red and black |
| ImageProcessor.DefaultOverlayPalette | ai_gateway/services/image_processor.py:322-323 | without colours the overlay palette is orange and green |
| ImageProcessor.DiffPaletteOf | ai_gateway/services/image_processor.py:268-298 | no contract of its own: the three keys are read with their defaults and all parsed before any channel is range-checked; DiffPaletteOfSpec states what it gives |
| ImageProcessor.OverlayPaletteOf | ai_gateway/services/image_processor.py:322-338 | no contract of its own: both keys are read with their defaults and parsed before any range check; OverlayPaletteOfSpec states what it gives |
| ImageProcessor.DiffPaletteOfSpec | ai_gateway/services/image_processor.py:268-298 | all three keys are parsed before any painting: a first key that does not parse is reported as it is; some key does not parse exactly when the palette fails with a parse error, whatever the others hold; the palette is built exactly when all three parse with channels in 0..255, and then holds those colours |
| ImageProcessor.DiffPaletteFromSpec | ai_gateway/services/image_processor.py:268-298 | the same, for the three parse results in key order |
| ImageProcessor.OverlayPaletteOfSpec | ai_gateway/services/image_processor.py:322-338 | both overlay keys are parsed before any painting, with the same parse-error and success conditions |
| ImageProcessor.OverlayPaletteFromSpec | ai_gateway/services/image_processor.py:322-338 | the same, for the two parse results |
| ImageProcessor.BadHexHidesChannelError | ai_gateway/services/image_processor.py:268-323 | a signed channel under the first key does not hide an unparsable second key: both palettes report the parse error "zz" |
| ImageProcessor.EncodePrefix | ai_gateway/services/image_processor.py:341-362 | the URI is a JPEG data URI exactly for a format that upper-cases to "JPEG", otherwise PNG, followed by the base64 of the buffer |
| ImageProcessor.PrefixesDiffer | ai_gateway/services/image_processor.py:353-360 | a PNG data URI never starts like a JPEG one |
| ImageProcessor.ResultSizeRoundTrip | ai_gateway/services/image_processor.py:504 | the "<width>x<height>" text reads back as the width and the height |
| ImageProcessor.DefaultPaletteCheck | ai_gateway/services/image_processor.py:247-338 | no mode's palette fails without colours |
| ImageProcessor.PaletteCheck | ai_gateway/services/image_processor.py:475-479 | the mode's palette is checked: overlay mode passes exactly when the overlay palette is built, any other mode exactly when the difference palette is |
| ImageProcessor.PaletteCheckIgnoresOtherKeys | ai_gateway/services/image_processor.py:268-323 | a colour under a key the mode does not read leaves the check unchanged |
| ImageProcessor.ProcessComparison | ai_gateway/services/image_processor.py:428-506 | a first file that fails to load is its `ValueError`, then the second file's; the run succeeds exactly when both load, no resize fails and the mode's palette is built |
| ImageProcessor.CompareLoaded | ai_gateway/services/image_processor.py:455-506 | on loaded files a resize error comes first, then a parse error as a `ValueError` with the parser's text, then a channel error; otherwise the metadata reports the mode, the pages, the quality, the fallback flag and the downsampled size |
| ImageProcessor.LoadedSizes | ai_gateway/services/image_processor.py:93-122 | a loaded image is the decoded page, with its height and width |
| ImageProcessor.ProcessComparisonMetadata | ai_gateway/services/image_processor.py:428-506 | the metadata's flag is exactly the fallback condition, the quality is the matcher's even after a fallback, the size is the first file's after downsampling, and the page counts are the loaders' |
| ImageProcessor.ProcessComparisonLoadsFirstFileFirst | ai_gateway/services/image_processor.py:451-452 | a failure to load the first file is reported whatever the second file is |
| ImageProcessor.ProcessComparisonDefaultColours | ai_gateway/services/image_processor.py:428-506 | without colours, two loadable files whose resizes do not fail always give that metadata |
| ImageProcessor.ProcessComparisonResizeFailure | ai_gateway/services/image_processor.py:455-467 | once both files load, a failing resize is the run's error, of a kind other than `ValueError`, whatever the colours |
| ImageProcessor.ProcessComparisonBadHexFirst | ai_gateway/services/image_processor.py:268-270 | in difference mode the colours "#-f0000" and "#zz0000" end the run with the parser's `ValueError` for "zz" |
| ImageProcessor.ComposeResults | ai_gateway/services/image_processor.py:471-484 | overlay mode returns the overlay and the two images themselves; any other mode returns the difference image and the two highlighted images |
| ImageRouter.FirstTypeCheckedFirst | ai_gateway/routers/image.py:65-69 | a first file of a type outside the list is a 400 naming file1, whatever the second file, the sizes and the pipeline |
| ImageRouter.SecondTypeCheckedBeforeSizes | ai_gateway/routers/image.py:71-75 | the second type is checked next, before any size and the pipeline |
| ImageRouter.TypeMatchIsExact | ai_gateway/routers/image.py:56-65 | a type is allowed exactly when it is one of the six listed texts; a missing type never is |
| ImageRouter.TypeMatchIsCaseSensitive | ai_gateway/routers/image.py:56-65 | upper-case and parameterised types are refused |
| ImageRouter.SizeLimitIsStrict | ai_gateway/routers/image.py:53-97 | exactly 30 MiB passes on to the pipeline, one byte more is refused, and the 413 surfaces as a 500 |
| ImageRouter.OversizeReportsFirstFile | ai_gateway/routers/image.py:87-130 | of two oversized files the first is reported, with status 500 |
| ImageRouter.PipelineErrorsMapToStatus | ai_gateway/routers/image.py:101-130 | once the checks pass, a completed pipeline is returned, a ValueError is a 400 with its text and anything else a 500 |
| ImageRouter.StatusesAre400Or500 | ai_gateway/routers/image.py:65-130 | every refusal is a 400 or a 500 |
| ImageRouter.EndpointUsesDefaultColours | ai_gateway/routers/image.py:101-117 | without colours, two allowed files within the limit that load and resize give the pipeline's metadata as the response |
| ImageRouter.EndpointReportsResizeFailure | ai_gateway/routers/image.py:101-130 | a failing resize reaches the client as a 500 carrying the error's text |
| ImageRouter.CompareEndpoint | ai_gateway/routers/image.py:64-130 | the response is the metadata exactly when both types are allowed, both sizes are within the limit and the pipeline completed; every refusal is a 400 or a 500, and a 400 means a refused type or a `ValueError` |
| ImageRouter.EndpointReportsLoadFailure | ai_gateway/routers/image.py:119-122 | a first file that does not load is a 400 carrying the loader's message |
| LegacyImageProcessor.LoadRouteSpec | ai_gateway/image_processor.py:67-77 | the earlier loader has no TIFF route: it reads PDF exactly when the live loader does, and TIFF as a raster image |
| LegacyImageProcessor.LoadFileAgreesOffTiff | ai_gateway/image_processor.py:54-80 | off the TIFF route both loaders give the same result |
| LegacyImageProcessor.LoadFileTiffAsRaster | ai_gateway/image_processor.py:70-77 | a TIFF upload counts one page, and an undecodable one fails with the raster message |
| LegacyImageProcessor.LoadFileFailurePrefix | ai_gateway/image_processor.py:78-80 | every loading failure carries the load-failure prefix |
| LegacyImageProcessor.FixedColoursAreLiveDefaults | ai_gateway/image_processor.py:240-275 | the fixed colours are the live pipeline's defaults |
| LegacyImageProcessor.CompareImages | ai_gateway/image_processor.py:199-244 | each pixel of the difference image is the live rule with threshold 200 and the fixed colours |
| LegacyImageProcessor.ComparePixelColours | ai_gateway/image_processor.py:240-242 | common ink is black, only-A blue, only-B red and everything else white |
| LegacyImageProcessor.CompareImagesOverlay | ai_gateway/image_processor.py:247-277 | each pixel of the overlay is the live rule with threshold 200 and the fixed colours |
| LegacyImageProcessor.OverlayPixelColours | ai_gateway/image_processor.py:272-275 | B's ink (gray at most 200) is green, A's ink alone orange, elsewhere white |
| LegacyImageProcessor.HighlightKeepsOriginal | ai_gateway/image_processor.py:335-344 | a copy keeps the input pixel except where its own file alone has ink, which it colours as the live pipeline does |
| LegacyImageProcessor.Copy | ai_gateway/image_processor.py:335 | the copy is a fresh array of the same size holding the same pixels |
| LegacyImageProcessor.GenerateHighlightedImages | ai_gateway/image_processor.py:304-346 | two fresh copies of the inputs, A's with only-A in blue and B's with only-B in red |
| LegacyImageProcessor.ComposeResults | ai_gateway/image_processor.py:404-413 | overlay mode returns the overlay and the two images themselves; any other mode the difference image and the two highlighted copies |
| LegacyImageProcessor.ProcessComparison | ai_gateway/image_processor.py:348-439 | a first file that fails to load is its `ValueError`; the run succeeds exactly when both files load and no resize fails, and only a load failure is a `ValueError` |
| LegacyImageProcessor.ProcessComparisonMetadata | ai_gateway/image_processor.py:382-435 | two files that load and resize always give metadata with the mode, the loaders' page counts, the matcher's quality and the downsampled size of the first |
| LegacyImageProcessor.ProcessComparisonResizeFailure | ai_gateway/image_processor.py:388-399 | a failing resize is the legacy run's error too, the same one as the live pipeline's |
| LegacyImageProcessor.LoadedSizes | ai_gateway/image_processor.py:54-80 | a loaded image is the decoded page, with its height and width |
| LegacyImageProcessor.AgreesWithLivePipeline | ai_gateway/image_processor.py:382-435 | off the TIFF route and with the default colours, the earlier pipeline fails exactly when the live one does, with the same error, and otherwise reports the live metadata without the alignment flag |

## Left out

- Floating point: times, waits and match quality are exact (integer ticks of one microsecond, or `real`). The float rounding of `time.time()`, of `total_seconds()` and of `int(w * scale)` is not modelled.
- RateLimiter.Entry: the token count of an entry is a `nat`. The source's `estimated_tokens` is any `int`, and a negative estimate is not modelled.
- RateLimiter.TokenRateLimiter.GetWaitTime: returns the wait in ticks rather than as float seconds.
- ImageProcessor.PassesRatioTest: `d1 < 0.75 * d2` is written `4 * d1 < 3 * d2`, which is the same test for integer Hamming distances.
- OpenCV, NumPy, PIL and PyMuPDF are not modelled: colour conversion, `imdecode`, `imencode`, ORB detection, k-NN matching, RANSAC, `warpPerspective` and the pixels `resize` produces appear as their outcomes, taken as inputs. The JPEG quality setting has no effect on the model.
- ImageProcessor.EmptyResize: of `cv2.resize`'s own checks only the refusal of a target size with a zero side is modelled, with a fixed stand-in text for OpenCV's message. Decoded pages with a zero side, and what OpenCV does with them, are not modelled.
- ImageProcessor.ParseHexSlice: `int(t, 16)` is modelled for ASCII text only. Non-ASCII digits and whitespace other than one surrounding character are not covered.
- ImageProcessor.HexErrorMessage: the `ValueError` text uses plain quotes around the slice instead of Python's `repr` quoting.
- ImageProcessor.ChannelError: NumPy's complaint about a colour channel outside 0..255 is a fixed stand-in text.
- ImageProcessor.NoSuchPage: the library's error for a page that does not exist is a fixed stand-in text.
- ImageRouter.TooLargeDetail: the size in megabytes (`{…:.1f}MB`) is not rendered in the 413 text.
- The `asyncio.Semaphore(5)` around the comparison, the thread-pool executor and all concurrency are left out. Every operation runs alone.
- Logging is left out everywhere.
- ChatRouter: server-sent-event framing by `EventSourceResponse` is not modelled. The relay's output lines are the model's events.
- ChatRouter: the clock advances only through `asyncio.sleep`. Time spent on other work is not modelled.
- ChatRouter: `get_agents`, the forwarding of the file upload and its exception-to-status mapping (ai_gateway/routers/chat.py:213-245), and `get_rate_limit_status` are left out. They are a network call and a call of `get_current_usage`.
- ChatRouter.UploadForm: the uploaded file's bytes, name and content type are passed through unseen and are not modelled.
- ImageRouter: an absent `content_type` is `None`, rendered as the text "None".
- Dependencies: the SQLite lookup is abstract. It is modelled as whether the database file exists and what one query produced.
- Dependencies: the `ValueError` handler at ai_gateway/dependencies.py:30-31 cannot be reached, since a two-element list always unpacks. It has no model.
- AuthViews: `authenticate`, password hashing, the generation of token keys and any database error inside the transaction are inputs.
- AuthViews: Django's email normalisation and the user model's own validation are not modelled.
- AuthViews.KeyMatches: `auth_key` and the configured key (`AuthViews.Scalar`) are text or an integer. A JSON boolean, float, list or object sent as `auth_key`, and a TOML boolean, float or array in `admin_signup_key`, are not modelled. Their `str()` texts ("True", "1.0", …) and Python's `True == 1` are not modelled either.
- AuthViews: username, password and email are text. A JSON number or other value in those fields is not modelled.
- ChatViews: the legacy signup is not atomic. A failure between saving the user and creating the token is not modelled as a separate outcome.
- ChatViews.MessageValid: the serializer's checks are fixed: a role among the three choices, a content that is not blank once stripped, and no NUL character. A number sent as content, which the serializer turns into text, field-level errors and the serializer's output format are not modelled.
- ChatViews.Before: sessions with equal update times, which the database returns in no fixed order, are listed by ascending key.
- ChatViews: the time `auto_now` writes is the `now` input. No ordering of successive clock readings is assumed; ChatViews.PostedSessionComesFirst requires the post's time to be later than the user's other sessions.
- DataExplorer: `pandas.read_csv`, `memory_usage` and the sample file are inputs. Records are the cells' texts, not JSON values.
- BackupDb: the file system is a set of names in the backup directory. Copying copies a name and not contents; file sizes and the size report are left out.
- BackupDb: the exception handler at django_server/apps/core/management/commands/backup_db.py:109-110 is not modelled.
- BackupDb: parsing of the `--keep` option, whose default is 7, is left out; the number to keep is a parameter.
- BackupDb.Stamp: clock readings are limited to years 1000-9999, the range in which `strftime` gives four digits.
- PyStr.Upper: covers ASCII letters only, so a character such as 'ß', which Python upper-cases to two characters, is not modelled. The one caller passes the literal formats "JPEG" and "PNG".
- PyStr.Lower: covers ASCII letters and the Kelvin sign only. Other non-ASCII case mappings do not affect any comparison in the model.
- ChatPage: the server calls are a `Backend` input: what `createSession`, the user `saveMessage`, the upload and the stream would return. `handleSend` itself chooses between the upload and the stream by whether a file is sent.
  - On the file path the second `saveMessage`, for the reply, is awaited. The `answerSaved` input says whether it went through; a refused save ends the send with the error.
  - On the stream path the save in `onclose` is not awaited, and nothing handles its failure. The model does not represent that failure.
  - An `onerror` that rethrows ends the stream, and nothing is saved.
- ChatPage: loading the session history, scrolling, the agent list and the URL are left out. `handleStop` reads the session id from the URL; the model uses the page's `sessionId` field.
- ChatPage: JavaScript counts string lengths and slices in UTF-16 code units. The model counts code points.
- ChatPage: a `content` that is not a string is treated like a missing one.
- ChatPage.ChatPage.Send: the requires clause is the guard of the input box (frontend/src/features/chat/InputBox.jsx:11), which never submits empty text.
- ImageComparePage: the loading flag is not observable after a request completes, so it is not part of the state. `Blob`, `URL.createObjectURL` and the link click of the download are left out.
- LoginPage: `sessionStorage` is a map from keys to texts. A missing answer field is stored as the text "undefined".
- SettingsPage: a `null` previous value throws a `TypeError`; this is not modelled. Only text values are stored. Loading and saving the settings are network calls and are left out.
- ChatAdmin: `list_display`, filters, search fields and the other declarations are configuration, not behaviour. They are left out.

=== FILE: admin.dfy ===
/**
 * The admin pages of the chat app: the message preview column, the message
 * and session counts, and the rule that messages cannot be added by hand.
 * The counts are read against the chat tables of `ChatViews`.
 */
module ChatAdmin {
  import opened Wrappers
  import CV = ChatViews

  const PreviewLength: nat := 50
  const Ellipsis: string := "..."

  /** `content_preview`: the first 50 characters and an ellipsis when longer. */
  function ContentPreview(content: string): string {
    if |content| > PreviewLength then content[..PreviewLength] + Ellipsis else content
  }

  /** The number of messages that belong to session `id`. */
  function MessagesOf(messages: seq<CV.Message>, id: nat): (n: nat)
    ensures n <= |messages|
  {
    if messages == [] then 0
    else MessagesOf(messages[..|messages| - 1], id) + (if messages[|messages| - 1].session == id then 1 else 0)
  }

  /**
   * `message_count`: the annotation the list query attached, when there is
   * one, else the live count of the session's messages.
   */
  function MessageCount(annotated: Option<nat>, messages: seq<CV.Message>, id: nat): nat {
    if annotated.Some? then annotated.value else MessagesOf(messages, id)
  }

  /** `session_count`: the annotation when present, else the live count of the user's sessions. */
  function SessionCount(annotated: Option<nat>, sessions: seq<CV.Session>, user: nat): nat {
    if annotated.Some? then annotated.value else |CV.SessionsOf(sessions, user)|
  }

  /** The positions of the message rows that point at session `id`. */
  function MessageRows(messages: seq<CV.Message>, id: nat): set<int> {
    set k | 0 <= k < |messages| && messages[k].session == id
  }

  /** `Count('messages')` in the list query: one for each message row that points at session `id`. */
  function AnnotatedMessageCount(messages: seq<CV.Message>, id: nat): nat {
    |MessageRows(messages, id)|
  }

  /** `Count('sessions')` in the user list query: one for each session row that `user` owns. */
  function AnnotatedSessionCount(sessions: seq<CV.Session>, user: nat): nat {
    |set id | 1 <= id <= |sessions| && CV.Visible(sessions, user, id)|
  }

  /** `ChatMessageInline.has_add_permission`: never, for any request or session. */
  function InlineMayAdd(requestUser: nat, session: Option<nat>): (allowed: bool)
    ensures !allowed
  {
    false
  }

  // ---------------------------------------------------------------------------
  // Properties
  // ---------------------------------------------------------------------------

  /**
   * Content of at most 50 characters is shown whole; longer content as its
   * first 50 characters and "...", 53 in all.  Either way the preview starts
   * with the content's first 50 characters.
   */
  lemma PreviewShape(content: string)
    ensures |content| <= PreviewLength ==> ContentPreview(content) == content
    ensures |content| > PreviewLength ==>
      ContentPreview(content) == content[..PreviewLength] + Ellipsis && |ContentPreview(content)| == 53
    ensures var k := if |content| < PreviewLength then |content| else PreviewLength;
      |ContentPreview(content)| >= k && ContentPreview(content)[..k] == content[..k]
    ensures |ContentPreview(content)| <= PreviewLength + |Ellipsis|
  {
  }

  /** Previewing a preview changes nothing: a long preview starts with the same 50 characters. */
  lemma PreviewIsIdempotent(content: string)
    ensures ContentPreview(ContentPreview(content)) == ContentPreview(content)
  {
    var p := ContentPreview(content);
    if |content| > PreviewLength {
      assert p[..PreviewLength] == content[..PreviewLength];
    }
  }

  /** The live count is the number of the session's messages, counted by position. */
  lemma {:induction false} MessagesOfCounts(messages: seq<CV.Message>, id: nat)
    ensures MessagesOf(messages, id) == |MessageRows(messages, id)|
    decreases |messages|
  {
    var n := |messages|;
    if n > 0 {
      var init := messages[..n - 1];
      MessagesOfCounts(init, id);
      var last := if messages[n - 1].session == id then {n - 1} else {};
      assert MessageRows(messages, id) == MessageRows(init, id) + last by {
        assert forall k :: 0 <= k < n - 1 ==> init[k] == messages[k];
      }
      assert n - 1 !in MessageRows(init, id);
    } else {
      assert MessageRows(messages, id) == {};
    }
  }

  /** The keys a listing holds, without order or repeats. */
  function ElementsOf(ids: seq<nat>): set<nat> {
    set x | x in ids
  }

  /** A list without repeats has as many distinct elements as positions. */
  lemma {:induction false} DistinctCard(ids: seq<nat>)
    requires CV.Distinct(ids)
    ensures |ElementsOf(ids)| == |ids|
    decreases |ids|
  {
    if ids != [] {
      var rest := ids[1..];
      assert CV.Distinct(rest) by {
        forall k, l | 0 <= k < l < |rest|
          ensures rest[k] != rest[l]
        {
          assert rest[k] == ids[k + 1] && rest[l] == ids[l + 1];
        }
      }
      DistinctCard(rest);
      assert ids[0] !in ElementsOf(rest) by {
        forall k | 0 <= k < |rest|
          ensures rest[k] != ids[0]
        {
          assert rest[k] == ids[k + 1];
        }
      }
      assert ElementsOf(ids) == {ids[0]} + ElementsOf(rest) by {
        assert ids == [ids[0]] + rest;
      }
    } else {
      assert ElementsOf(ids) == {};
    }
  }

  /**
   * `message_count` shows the annotation when the list query attached one,
   * and that annotation, one per message row of the session, is the number
   * the fallback query counts: the column reads the same either way.
   */
  lemma MessageCountFallbackAgrees(messages: seq<CV.Message>, id: nat)
    ensures MessageCount(Some(AnnotatedMessageCount(messages, id)), messages, id) == MessageCount(None, messages, id)
    ensures forall a: nat :: MessageCount(Some(a), messages, id) == a
  {
    MessagesOfCounts(messages, id);
  }

  /**
   * `session_count` shows the annotation when present, and that annotation,
   * one per session row the user owns, is the length of the user's session
   * listing that the fallback counts.
   */
  lemma SessionCountFallbackAgrees(sessions: seq<CV.Session>, user: nat)
    ensures SessionCount(Some(AnnotatedSessionCount(sessions, user)), sessions, user) == SessionCount(None, sessions, user)
    ensures forall a: nat :: SessionCount(Some(a), sessions, user) == a
  {
    var listed := CV.SessionsOf(sessions, user);
    CV.SessionsOfComplete(sessions, user);
    DistinctCard(listed);
    assert ElementsOf(listed) == (set id | 1 <= id <= |sessions| && CV.Visible(sessions, user, id));
  }

  /** Posting a message raises its session's live count by one and leaves the others. */
  lemma PostMessageCounts(sessions: seq<CV.Session>, messages: seq<CV.Message>, user: nat, id: nat,
                          req: CV.MessageRequest, now: int, other: nat)
    ensures var o := CV.PostMessageOutcome(sessions, messages, user, id, req, now);
      CV.Status(o.response) == 201 ==>
        MessagesOf(o.messages, id) == MessagesOf(messages, id) + 1 &&
        (other != id ==> MessagesOf(o.messages, other) == MessagesOf(messages, other))
  {
    var o := CV.PostMessageOutcome(sessions, messages, user, id, req, now);
    CV.PostMessageAppendsOne(sessions, messages, user, id, req, now);
    if CV.Status(o.response) == 201 {
      assert o.messages[..|o.messages| - 1] == messages;
    }
  }
}

=== FILE: auth_views.dfy ===
/**
 * The web server's account endpoints: sign-up guarded by an administrator
 * key, and log-in returning the account's API token.  The user table and the
 * token table are an `Accounts` store; the password check of the framework's
 * `authenticate` and the generation of token keys are inputs.
 */
module AuthViews {
  import opened Wrappers
  import PyStr

  /** One row of the user table; its primary key is its position plus one. */
  datatype User = User(username: string, email: string, password: string, active: bool)

  /**
   * A value the administrator key can take on either side: a form field or
   * a JSON string in `auth_key` is text, a JSON number is an integer, and
   * `admin_signup_key` in the secrets file is a TOML string or integer.
   */
  datatype Scalar = Text(text: string) | Int(number: int)

  /**
   * The four fields a sign-up request may carry; `None` is a field that is
   * absent or JSON `null`, which `request.data.get` reads alike.
   */
  datatype SignUpRequest = SignUpRequest(
    username: Option<string>, password: Option<string>, email: Option<string>, authKey: Option<Scalar>)

  datatype Body =
    | ErrorBody(error: string)
    | AccountBody(message: Option<string>, token: string, userId: nat, username: string, email: Option<string>)
    | ServerError   // an exception the view does not catch; the framework answers 500

  datatype Response = Response(status: nat, body: Body)

  /** The two tables after a request, and the response. */
  datatype Outcome = Outcome(users: seq<User>, tokens: map<nat, string>, response: Response)

  const AllRequired: string := "All fields are required."
  const InvalidKey: string := "Invalid Auth Key."
  const UsernameExists: string := "Username already exists."
  const EmailExists: string := "Email already exists."
  const SignupSucceeded: string := "Signup successful."
  const SignupFailed: string := "Signup failed: "
  /** The database's text when a second token gets an existing key. */
  const KeyCollision: string := "UNIQUE constraint failed: authtoken_token.key"
  const CredentialsRequired: string := "Username and password are required."
  const InvalidCredentials: string := "Invalid credentials"
  const AccountDisabled: string := "Account is disabled."

  /** Python truthiness of a request field: present and not empty. */
  predicate Present(f: Option<string>) {
    f.Some? && f.value != ""
  }

  /** Python's `str()` of a scalar: the text itself, or the number in signed decimal. */
  function StrOf(v: Scalar): string {
    match v
    case Text(t) => t
    case Int(n) => PyStr.IntToString(n)
  }

  /** Python truthiness of a scalar: non-empty text, a non-zero number. */
  predicate Truthy(v: Scalar) {
    match v
    case Text(t) => t != ""
    case Int(n) => n != 0
  }

  predicate KeyPresent(f: Option<Scalar>) {
    f.Some? && Truthy(f.value)
  }

  predicate AllPresent(req: SignUpRequest) {
    Present(req.username) && Present(req.password) && Present(req.email) && KeyPresent(req.authKey)
  }

  predicate UsernameTaken(users: seq<User>, name: string) {
    exists i :: 0 <= i < |users| && users[i].username == name
  }

  predicate EmailTaken(users: seq<User>, email: string) {
    exists i :: 0 <= i < |users| && users[i].email == email
  }

  predicate UsernamesUnique(users: seq<User>) {
    forall i, j :: 0 <= i < j < |users| ==> users[i].username != users[j].username
  }

  predicate EmailsUnique(users: seq<User>) {
    forall i, j :: 0 <= i < j < |users| ==> users[i].email != users[j].email
  }

  predicate KeysUnique(tokens: map<nat, string>) {
    forall a, b :: a in tokens && b in tokens && a != b ==> tokens[a] != tokens[b]
  }

  /**
   * What the two tables guarantee: unique usernames (a database constraint),
   * unique token keys (the key is the token's primary key), and every token
   * belonging to an existing user, at most one per user.
   */
  predicate StoreOk(users: seq<User>, tokens: map<nat, string>) {
    && UsernamesUnique(users)
    && KeysUnique(tokens)
    && (forall id :: id in tokens ==> 1 <= id <= |users|)
  }

  /**
   * A key as the view compares it, `str(v).strip()`: text is trimmed, and a
   * number is its decimal form, which has no whitespace to trim
   * (`KeyTextIsStrippedStr`).
   */
  function KeyText(v: Scalar): string {
    if v.Text? then PyStr.Strip(v.text) else StrOf(v)
  }

  /** The key check: both sides turned into text by `str()` and compared with surrounding whitespace removed. */
  predicate KeyMatches(received: Scalar, expected: Scalar) {
    PyStr.StrEq(KeyText(received), KeyText(expected))
  }

  function Refuse(status: nat, error: string): Response {
    Response(status, ErrorBody(error))
  }

  // ---------------------------------------------------------------------------
  // Sign-up
  // ---------------------------------------------------------------------------

  /** The checks before anything is written, in the order the view makes them. */
  function SignUpRefusal(users: seq<User>, req: SignUpRequest, expectedKey: Scalar): (r: Option<Response>)
    ensures r.Some? ==> r.value.status in {400, 403} && r.value.body.ErrorBody?
  {
    if !AllPresent(req) then Some(Refuse(400, AllRequired))
    else if !KeyMatches(req.authKey.value, expectedKey) then Some(Refuse(403, InvalidKey))
    else if UsernameTaken(users, req.username.value) then Some(Refuse(400, UsernameExists))
    else if EmailTaken(users, req.email.value) then Some(Refuse(400, EmailExists))
    else None
  }

  /**
   * The sign-up request.  `expectedKey` is the configured administrator key,
   * `newKey` the key the token table would generate, and `failure` the text of
   * an exception the database raises inside the transaction, if any.
   */
  function SignUpOutcome(users: seq<User>, tokens: map<nat, string>, req: SignUpRequest,
                         expectedKey: Scalar, newKey: string, failure: Option<string>): Outcome
  {
    var refusal := SignUpRefusal(users, req, expectedKey);
    if refusal.Some? then Outcome(users, tokens, refusal.value)
    else if failure.Some? then Outcome(users, tokens, Refuse(500, SignupFailed + failure.value))
    else if newKey in tokens.Values then Outcome(users, tokens, Refuse(500, SignupFailed + KeyCollision))
    else
      var id := |users| + 1;
      var u := User(req.username.value, req.email.value, req.password.value, true);
      Outcome(users + [u], tokens[id := newKey],
              Response(201, AccountBody(Some(SignupSucceeded), newKey, id, u.username, Some(u.email))))
  }

  // ---------------------------------------------------------------------------
  // Log-in
  // ---------------------------------------------------------------------------

  /**
   * `Token.objects.get_or_create(user=...)`: the user's token if there is
   * one, otherwise a new one under `newKey`; `None` when that key is taken,
   * which raises an integrity error.
   */
  function GetOrCreateToken(tokens: map<nat, string>, id: nat, newKey: string): Option<map<nat, string>> {
    if id in tokens then Some(tokens)
    else if newKey in tokens.Values then None
    else Some(tokens[id := newKey])
  }

  /**
   * The log-in request.  `backend` is what `authenticate` returns for the
   * credentials: the primary key of the matching user, or nothing.
   */
  function LoginOutcome(users: seq<User>, tokens: map<nat, string>, username: Option<string>, password: Option<string>,
                        backend: Option<nat>, newKey: string): Outcome
    requires backend.Some? ==> 1 <= backend.value <= |users|
  {
    if !Present(username) || !Present(password) then Outcome(users, tokens, Refuse(400, CredentialsRequired))
    else if backend.None? then Outcome(users, tokens, Refuse(401, InvalidCredentials))
    else
      var id := backend.value;
      var u := users[id - 1];
      if !u.active then Outcome(users, tokens, Refuse(403, AccountDisabled))
      else
        var t := GetOrCreateToken(tokens, id, newKey);
        if t.None? then Outcome(users, tokens, Response(500, ServerError))
        else Outcome(users, t.value, Response(200, AccountBody(None, t.value[id], id, u.username, Some(u.email))))
  }

  // ---------------------------------------------------------------------------
  // The store
  // ---------------------------------------------------------------------------

  class Accounts {
    var users: seq<User>
    var tokens: map<nat, string>

    ghost predicate Valid()
      reads this
    {
      StoreOk(users, tokens)
    }

    constructor ()
      ensures Valid() && users == [] && tokens == map[]
    {
      users := [];
      tokens := map[];
    }

    /** `SignUpView.post`. */
    method SignUp(req: SignUpRequest, expectedKey: Scalar, newKey: string, failure: Option<string>)
      returns (resp: Response)
      requires Valid()
      modifies this
      ensures Valid()
      ensures Outcome(users, tokens, resp) ==
        SignUpOutcome(old(users), old(tokens), req, expectedKey, newKey, failure)
    {
      // The field, key, username and email checks, in the view's order.
      var refusal := SignUpRefusal(users, req, expectedKey);
      if refusal.Some? {
        return refusal.value;
      }
      // The user and its token are written in one transaction: a failure leaves neither.
      if failure.Some? {
        return Refuse(500, SignupFailed + failure.value);
      }
      if newKey in tokens.Values {
        return Refuse(500, SignupFailed + KeyCollision);
      }
      SignUpAccepted(users, req, expectedKey);
      var id := Register(req, newKey);
      resp := Response(201, AccountBody(Some(SignupSucceeded), newKey, id, req.username.value, Some(req.email.value)));
    }

    /** The transaction of a sign-up that passed its checks: the user row, then its token. */
    method Register(req: SignUpRequest, newKey: string) returns (id: nat)
      requires Valid()
      requires AllPresent(req) && !UsernameTaken(users, req.username.value) && !EmailTaken(users, req.email.value)
      requires newKey !in tokens.Values
      modifies this
      ensures Valid() && (EmailsUnique(old(users)) ==> EmailsUnique(users))
      ensures id == |old(users)| + 1
      ensures users == old(users) + [User(req.username.value, req.email.value, req.password.value, true)]
      ensures tokens == old(tokens)[id := newKey]
    {
      SignUpAcceptedKeepsStore(users, tokens, req, newKey);
      users := users + [User(req.username.value, req.email.value, req.password.value, true)];
      id := |users|;
      tokens := tokens[id := newKey];
    }

    /** `LoginView.post`. */
    method Login(username: Option<string>, password: Option<string>, backend: Option<nat>, newKey: string)
      returns (resp: Response)
      requires Valid()
      requires backend.Some? ==> 1 <= backend.value <= |users|
      modifies this
      ensures Valid()
      ensures Outcome(users, tokens, resp) ==
        LoginOutcome(old(users), old(tokens), username, password, backend, newKey)
    {
      LoginKeepsStore(users, tokens, username, password, backend, newKey);
      if !Present(username) || !Present(password) {
        return Refuse(400, CredentialsRequired);
      }
      if backend.None? {
        return Refuse(401, InvalidCredentials);
      }
      var id := backend.value;
      var user := users[id - 1];
      if !user.active {
        return Refuse(403, AccountDisabled);
      }
      if id !in tokens {
        if newKey in tokens.Values {
          return Response(500, ServerError);
        }
        tokens := tokens[id := newKey];
      }
      resp := Response(200, AccountBody(None, tokens[id], id, user.username, Some(user.email)));
    }
  }

  // ---------------------------------------------------------------------------
  // Properties
  // ---------------------------------------------------------------------------

  /**
   * The order of the sign-up checks: missing field (400), wrong key (403),
   * taken username (400), taken email (400); each only once the earlier ones pass.
   */
  lemma SignUpCheckOrder(users: seq<User>, req: SignUpRequest, expectedKey: Scalar)
    ensures var r := SignUpRefusal(users, req, expectedKey);
      && (!AllPresent(req) ==> r == Some(Refuse(400, AllRequired)))
      && (AllPresent(req) && !KeyMatches(req.authKey.value, expectedKey) ==> r == Some(Refuse(403, InvalidKey)))
      && (AllPresent(req) && KeyMatches(req.authKey.value, expectedKey) ==>
            && (UsernameTaken(users, req.username.value) ==> r == Some(Refuse(400, UsernameExists)))
            && (!UsernameTaken(users, req.username.value) && EmailTaken(users, req.email.value) ==>
                  r == Some(Refuse(400, EmailExists)))
            && (!UsernameTaken(users, req.username.value) && !EmailTaken(users, req.email.value) ==> r.None?))
  {
  }

  /** A request no check refuses has every field, a free username and a free email. */
  lemma SignUpAccepted(users: seq<User>, req: SignUpRequest, expectedKey: Scalar)
    requires SignUpRefusal(users, req, expectedKey).None?
    ensures AllPresent(req) && !UsernameTaken(users, req.username.value) && !EmailTaken(users, req.email.value)
  {
  }

  /**
   * Whitespace around either key does not matter: a received key and a
   * configured key that differ only in padding match.
   */
  lemma KeyMatchIgnoresPadding(front: string, key: string, back: string, front2: string, back2: string)
    requires PyStr.AllWhitespace(front) && PyStr.AllWhitespace(back)
    requires PyStr.AllWhitespace(front2) && PyStr.AllWhitespace(back2)
    requires key == [] || (!PyStr.IsPyWhitespace(key[0]) && !PyStr.IsPyWhitespace(key[|key| - 1]))
    ensures KeyMatches(Text(front + key + back), Text(front2 + key + back2))
  {
    PyStr.StripPadded(front, key, back);
    PyStr.StripPadded(front2, key, back2);
    PyStr.StrEqIsEquality(key, key);
  }

  /** `str(n)` carries no surrounding whitespace: it begins with '-' or a digit and ends with a digit. */
  lemma IntTextIsStripped(n: int)
    ensures var t := PyStr.IntToString(n);
      t != [] && !PyStr.IsPyWhitespace(t[0]) && !PyStr.IsPyWhitespace(t[|t| - 1])
  {
    var d := PyStr.NatToString(if n < 0 then -n else n);
    var t := PyStr.IntToString(n);
    assert t[|t| - 1] == d[|d| - 1];
    assert t[0] == '-' || t[0] == d[0];
  }

  /** `KeyText` is `str(v).strip()` for every scalar. */
  lemma KeyTextIsStrippedStr(v: Scalar)
    ensures KeyText(v) == PyStr.Strip(StrOf(v))
  {
    match v
    case Text(_) =>
    case Int(n) =>
      IntTextIsStripped(n);
      var t := PyStr.IntToString(n);
      PyStr.StripPadded("", t, "");
      assert "" + t + "" == t;
  }

  /**
   * `str()` on both sides makes a number and its decimal text the same key:
   * an integer configured key accepts that number's text from a form,
   * padded or not, and a JSON number accepts a text key that spells it.
   */
  lemma NumberKeyMatchesItsText(n: int, front: string, back: string)
    requires PyStr.AllWhitespace(front) && PyStr.AllWhitespace(back)
    ensures KeyMatches(Text(front + PyStr.IntToString(n) + back), Int(n))
    ensures KeyMatches(Int(n), Text(front + PyStr.IntToString(n) + back))
  {
    var t := PyStr.IntToString(n);
    IntTextIsStripped(n);
    PyStr.StripPadded(front, t, back);
    PyStr.StrEqIsEquality(t, t);
  }

  /**
   * The truthiness test `all([...])` counts a key as missing exactly when it
   * is absent or null, empty text or the number 0.
   */
  lemma FalsyKeys(f: Option<Scalar>)
    ensures !KeyPresent(f) <==> f.None? || f.value in {Text(""), Int(0)}
  {
  }

  /** The text `str()` makes of a key is the same key to the view, and truthy when the key is (`str(0)` is the truthy "0"). */
  lemma KeyTextOfStr(v: Scalar)
    ensures KeyText(Text(StrOf(v))) == KeyText(v)
    ensures Truthy(v) ==> Truthy(Text(StrOf(v)))
  {
    KeyTextIsStrippedStr(v);
    if v.Int? {
      IntTextIsStripped(v.number);
    }
  }

  /** Replacing a key by the text `str()` makes of it keeps every match it takes part in. */
  lemma KeyMatchesThroughStr(v: Scalar, e: Scalar)
    ensures KeyMatches(Text(StrOf(v)), e) == KeyMatches(v, e)
    ensures KeyMatches(v, Text(StrOf(e))) == KeyMatches(v, e)
  {
    assert KeyMatches(Text(StrOf(v)), e) == KeyMatches(v, e) by {
      KeyTextOfStr(v);
    }
    assert KeyMatches(v, Text(StrOf(e))) == KeyMatches(v, e) by {
      KeyTextOfStr(e);
    }
  }

  /**
   * The current view sees a present key only through `str()`: replacing
   * either key by the text `str()` makes of it gives the same answer.
   */
  lemma KeySeenThroughStr(users: seq<User>, req: SignUpRequest, expectedKey: Scalar)
    requires AllPresent(req)
    ensures SignUpRefusal(users, req, expectedKey) == SignUpRefusal(users, req, Text(StrOf(expectedKey)))
    ensures var asText := req.(authKey := Some(Text(StrOf(req.authKey.value))));
      AllPresent(asText) && SignUpRefusal(users, req, expectedKey) == SignUpRefusal(users, asText, expectedKey)
  {
    var asText := req.(authKey := Some(Text(StrOf(req.authKey.value))));
    KeyTextOfStr(req.authKey.value);
    KeyMatchesThroughStr(req.authKey.value, expectedKey);
    assert AllPresent(asText);
    SignUpCheckOrder(users, req, expectedKey);
    SignUpCheckOrder(users, req, Text(StrOf(expectedKey)));
    SignUpCheckOrder(users, asText, expectedKey);
  }

  /** A refused or failed sign-up writes nothing; only a 201 changes the tables. */
  lemma SignUpIsAtomic(users: seq<User>, tokens: map<nat, string>, req: SignUpRequest,
                       expectedKey: Scalar, newKey: string, failure: Option<string>)
    ensures var o := SignUpOutcome(users, tokens, req, expectedKey, newKey, failure);
      o.response.status != 201 ==> o.users == users && o.tokens == tokens
    ensures var o := SignUpOutcome(users, tokens, req, expectedKey, newKey, failure);
      o.response.status == 201 <==> SignUpRefusal(users, req, expectedKey).None? && failure.None? && newKey !in tokens.Values
  {
  }

  /**
   * A successful sign-up appends exactly one active user with the request's
   * fields and gives it exactly one token, the new key; the response echoes
   * that key, the new primary key, the username and the email.
   */
  lemma SignUpCreatesOneAccount(users: seq<User>, tokens: map<nat, string>, req: SignUpRequest,
                                expectedKey: Scalar, newKey: string, failure: Option<string>)
    requires StoreOk(users, tokens)
    requires SignUpOutcome(users, tokens, req, expectedKey, newKey, failure).response.status == 201
    ensures var o := SignUpOutcome(users, tokens, req, expectedKey, newKey, failure);
      var id := |users| + 1;
      && o.users == users + [User(req.username.value, req.email.value, req.password.value, true)]
      && o.tokens == tokens[id := newKey] && id !in tokens
      && o.response.body == AccountBody(Some(SignupSucceeded), newKey, id, req.username.value, Some(req.email.value))
  {
    SignUpIsAtomic(users, tokens, req, expectedKey, newKey, failure);
    assert SignUpRefusal(users, req, expectedKey).None? && failure.None? && newKey !in tokens.Values;
  }

  lemma AppendKeepsUnique(users: seq<User>, u: User)
    requires UsernamesUnique(users) && !UsernameTaken(users, u.username)
    ensures UsernamesUnique(users + [u])
    ensures EmailsUnique(users) && !EmailTaken(users, u.email) ==> EmailsUnique(users + [u])
  {
    var s := users + [u];
    forall i, j | 0 <= i < j < |s|
      ensures s[i].username != s[j].username
    {
      if j == |users| { assert s[i] == users[i]; }
    }
    if EmailsUnique(users) && !EmailTaken(users, u.email) {
      forall i, j | 0 <= i < j < |s|
        ensures s[i].email != s[j].email
      {
        if j == |users| { assert s[i] == users[i]; }
      }
    }
  }

  lemma AddTokenKeepsUnique(tokens: map<nat, string>, id: nat, key: string)
    requires KeysUnique(tokens) && id !in tokens && key !in tokens.Values
    ensures KeysUnique(tokens[id := key])
  {
    forall a | a in tokens
      ensures tokens[a] != key
    {
      assert tokens[a] in tokens.Values;
    }
  }

  /** An accepted sign-up adds a user whose username and email were free, under a fresh primary key and token. */
  lemma SignUpAcceptedKeepsStore(users: seq<User>, tokens: map<nat, string>, req: SignUpRequest, newKey: string)
    requires StoreOk(users, tokens)
    requires AllPresent(req) && !UsernameTaken(users, req.username.value) && !EmailTaken(users, req.email.value)
    requires newKey !in tokens.Values
    ensures var u := User(req.username.value, req.email.value, req.password.value, true);
      && StoreOk(users + [u], tokens[|users| + 1 := newKey])
      && (EmailsUnique(users) ==> EmailsUnique(users + [u]))
  {
    var u := User(req.username.value, req.email.value, req.password.value, true);
    assert !UsernameTaken(users, u.username) && !EmailTaken(users, u.email);
    assert |users| + 1 !in tokens;
    AppendKeepsUnique(users, u);
    AddTokenKeepsUnique(tokens, |users| + 1, newKey);
  }

  /** Sign-up keeps the tables' guarantees, and keeps emails unique where they were. */
  lemma SignUpKeepsStore(users: seq<User>, tokens: map<nat, string>, req: SignUpRequest,
                         expectedKey: Scalar, newKey: string, failure: Option<string>)
    requires StoreOk(users, tokens)
    ensures var o := SignUpOutcome(users, tokens, req, expectedKey, newKey, failure);
      StoreOk(o.users, o.tokens) && (EmailsUnique(users) ==> EmailsUnique(o.users))
  {
    SignUpIsAtomic(users, tokens, req, expectedKey, newKey, failure);
    if SignUpRefusal(users, req, expectedKey).None? && failure.None? && newKey !in tokens.Values {
      SignUpCheckOrder(users, req, expectedKey);
      SignUpAcceptedKeepsStore(users, tokens, req, newKey);
      SignUpCreatesOneAccount(users, tokens, req, expectedKey, newKey, failure);
    }
  }

  /** Without both credentials the answer is 400 whatever `authenticate` would say. */
  lemma LoginNeedsBothFields(users: seq<User>, tokens: map<nat, string>, username: Option<string>, password: Option<string>,
                             backend: Option<nat>, newKey: string)
    requires backend.Some? ==> 1 <= backend.value <= |users|
    requires !Present(username) || !Present(password)
    ensures LoginOutcome(users, tokens, username, password, backend, newKey) ==
      LoginOutcome(users, tokens, username, password, None, newKey)
    ensures LoginOutcome(users, tokens, username, password, backend, newKey) ==
      Outcome(users, tokens, Refuse(400, CredentialsRequired))
  {
  }

  /**
   * With both credentials: unknown credentials are 401, a disabled account
   * 403, and an active one 200 with its token, the user table untouched.
   */
  lemma LoginStatuses(users: seq<User>, tokens: map<nat, string>, username: string, password: string,
                      backend: Option<nat>, newKey: string)
    requires StoreOk(users, tokens)
    requires backend.Some? ==> 1 <= backend.value <= |users|
    requires username != "" && password != ""
    ensures var o := LoginOutcome(users, tokens, Some(username), Some(password), backend, newKey);
      && o.users == users
      && (backend.None? ==> o.response == Refuse(401, InvalidCredentials) && o.tokens == tokens)
      && (backend.Some? && !users[backend.value - 1].active ==> o.response == Refuse(403, AccountDisabled))
      && (backend.Some? && users[backend.value - 1].active && backend.value in tokens ==>
            o.response == Response(200, AccountBody(None, tokens[backend.value], backend.value,
                                                    users[backend.value - 1].username, Some(users[backend.value - 1].email)))
            && o.tokens == tokens)
  {
  }

  /** Logging in again returns the same token, whatever key the table would generate next. */
  lemma LoginTokenIsStable(users: seq<User>, tokens: map<nat, string>, username: Option<string>, password: Option<string>,
                           backend: Option<nat>, newKey: string, laterKey: string)
    requires backend.Some? ==> 1 <= backend.value <= |users|
    requires LoginOutcome(users, tokens, username, password, backend, newKey).response.status == 200
    ensures var o := LoginOutcome(users, tokens, username, password, backend, newKey);
      var o2 := LoginOutcome(o.users, o.tokens, username, password, backend, laterKey);
      o2 == o && o.response.body.token == o.tokens[backend.value]
  {
  }

  /** Log-in keeps the tables' guarantees and never changes the user table. */
  lemma LoginKeepsStore(users: seq<User>, tokens: map<nat, string>, username: Option<string>, password: Option<string>,
                        backend: Option<nat>, newKey: string)
    requires StoreOk(users, tokens)
    requires backend.Some? ==> 1 <= backend.value <= |users|
    ensures var o := LoginOutcome(users, tokens, username, password, backend, newKey);
      StoreOk(o.users, o.tokens) && o.users == users &&
      (forall id :: id in tokens ==> id in o.tokens && o.tokens[id] == tokens[id])
  {
    var o := LoginOutcome(users, tokens, username, password, backend, newKey);
    if o.tokens != tokens {
      assert forall a :: a in tokens ==> tokens[a] != newKey;
    }
  }
}

=== FILE: backup_db.dfy ===
/**
 * The `backup_db` management command: copy the SQLite database (and its
 * write-ahead-log and shared-memory companions when present) into the backup
 * directory under a timestamped name, then delete all but the most recent
 * backups.  The backup directory is a set of file names; the clock reading is
 * an input.
 */
module BackupDb {
  import PyStr

  const Prefix: string := "db_backup_"
  const Extension: string := ".sqlite3"
  const WalSuffix: string := "-wal"
  const ShmSuffix: string := "-shm"

  /** A clock reading, to the second. */
  datatype Stamp = Stamp(year: nat, month: nat, day: nat, hour: nat, minute: nat, second: nat)

  /** The readings `datetime.now()` gives: four-digit years and calendar ranges. */
  predicate ValidStamp(s: Stamp) {
    1000 <= s.year <= 9999 && 1 <= s.month <= 12 && 1 <= s.day <= 31 &&
    s.hour < 24 && s.minute < 60 && s.second < 60
  }

  /** Earlier in time: field by field, most significant first. */
  predicate Before(s: Stamp, t: Stamp) {
    s.year < t.year || (s.year == t.year &&
    (s.month < t.month || (s.month == t.month &&
    (s.day < t.day || (s.day == t.day &&
    (s.hour < t.hour || (s.hour == t.hour &&
    (s.minute < t.minute || (s.minute == t.minute && s.second < t.second)))))))))
  }

  /** `strftime('%Y%m%d_%H%M%S')`. */
  function StampText(s: Stamp): (r: string)
    requires ValidStamp(s)
    ensures |r| == 15
  {
    PyStr.PadDigits(s.year, 4) + (PyStr.PadDigits(s.month, 2) + (PyStr.PadDigits(s.day, 2) +
    ("_" + (PyStr.PadDigits(s.hour, 2) + (PyStr.PadDigits(s.minute, 2) + PyStr.PadDigits(s.second, 2))))))
  }

  function BackupName(s: Stamp): string
    requires ValidStamp(s)
  {
    Prefix + StampText(s) + Extension
  }

  /** The names `glob('db_backup_*.sqlite3')` matches. */
  predicate IsBackup(name: string) {
    |name| >= |Prefix| + |Extension| && PyStr.StartsWith(name, Prefix) && PyStr.EndsWith(name, Extension)
  }

  /** The files that go with a backup `b`: itself and its two companions. */
  function Companions(b: string): set<string> {
    {b, b + WalSuffix, b + ShmSuffix}
  }

  // ---------------------------------------------------------------------------
  // Sorting the directory listing
  // ---------------------------------------------------------------------------

  predicate IsLeast(m: string, s: set<string>) {
    m in s && forall x :: x in s && x != m ==> PyStr.LexLess(m, x)
  }

  /** The least name of a non-empty set. */
  function Least(s: set<string>): (m: string)
    requires s != {}
    ensures IsLeast(m, s)
  {
    LeastExists(s);
    LeastUnique(s);
    var m :| IsLeast(m, s);
    m
  }

  lemma {:induction false} LeastExists(s: set<string>)
    requires s != {}
    ensures exists m :: IsLeast(m, s)
    decreases |s|
  {
    var x :| x in s;
    if s != {x} {
      LeastExists(s - {x});
      var m :| IsLeast(m, s - {x});
      PyStr.LexLessTotal(x, m);
      if PyStr.LexLess(x, m) {
        forall y | y in s && y != x
          ensures PyStr.LexLess(x, y)
        {
          if y != m { PyStr.LexLessTransitive(x, m, y); }
        }
        assert IsLeast(x, s);
      } else {
        assert IsLeast(m, s);
      }
    } else {
      assert IsLeast(x, s);
    }
  }

  lemma LeastUnique(s: set<string>)
    ensures forall m, n :: IsLeast(m, s) && IsLeast(n, s) ==> m == n
  {
    forall m, n | IsLeast(m, s) && IsLeast(n, s)
      ensures m == n
    {
      if m != n {
        PyStr.LexLessTransitive(m, n, m);
        PyStr.LexLessIrreflexive(m);
      }
    }
  }

  /** `sorted(...)` of a set of names: ascending, each once. */
  function SortedNames(s: set<string>): (r: seq<string>)
    ensures |r| == |s|
    ensures forall i :: 0 <= i < |r| ==> r[i] in s
    ensures forall x :: x in s ==> x in r
    ensures forall i, j :: 0 <= i < j < |r| ==> PyStr.LexLess(r[i], r[j])
    decreases |s|
  {
    if s == {} then []
    else
      var m := Least(s);
      [m] + SortedNames(s - {m})
  }

  /** `sorted(backup_dir.glob('db_backup_*.sqlite3'))`. */
  function Backups(files: set<string>): seq<string> {
    SortedNames(set f | f in files && IsBackup(f))
  }

  // ---------------------------------------------------------------------------
  // Retention
  // ---------------------------------------------------------------------------

  /** Where Python's slice `xs[:stop]` ends, for a sequence of length `n`. */
  function SliceEnd(n: nat, stop: int): (e: nat)
    ensures e <= n
  {
    if stop < 0 then (if n + stop < 0 then 0 else n + stop) else if stop > n then n else stop
  }

  /** `backups[:-keep]` when there are more than `keep` backups, else nothing. */
  function ToDelete(backups: seq<string>, keep: int): seq<string> {
    if |backups| > keep then backups[..SliceEnd(|backups|, -keep)] else []
  }

  /** All files the deletion loop may remove for the given backups. */
  function DeletedFiles(bs: seq<string>): set<string>
    decreases |bs|
  {
    if bs == [] then {} else DeletedFiles(bs[..|bs| - 1]) + Companions(bs[|bs| - 1])
  }

  lemma DeletedFilesStep(bs: seq<string>, k: nat)
    requires k < |bs|
    ensures DeletedFiles(bs[..k + 1]) == DeletedFiles(bs[..k]) + Companions(bs[k])
  {
    assert bs[..k + 1][..k] == bs[..k];
  }

  function AfterCleanup(files: set<string>, keep: int): set<string> {
    files - DeletedFiles(ToDelete(Backups(files), keep))
  }

  /** The copy step: the backup itself, and each companion the database has. */
  function AfterCopy(files: set<string>, name: string, walExists: bool, shmExists: bool): set<string> {
    files + {name} + (if walExists then {name + WalSuffix} else {}) + (if shmExists then {name + ShmSuffix} else {})
  }

  /** What a run reports. */
  datatype Report = NotSqlite | DatabaseMissing | BackedUp(name: string, deleted: seq<string>)

  /** The backup directory. */
  class BackupDir {
    var files: set<string>

    constructor (initial: set<string>)
      ensures files == initial
    {
      files := initial;
    }

    /** One pass of the deletion loop: the backup, then each companion that exists. */
    method DeleteBackup(b: string)
      modifies this
      ensures files == old(files) - Companions(b)
    {
      files := files - {b};
      var suffixes := [WalSuffix, ShmSuffix];
      for j := 0 to |suffixes|
        invariant j == 0 ==> files == old(files) - {b}
        invariant j == 1 ==> files == old(files) - {b, b + WalSuffix}
        invariant j == 2 ==> files == old(files) - Companions(b)
      {
        var extra := b + suffixes[j];
        if extra in files {
          files := files - {extra};
        }
      }
    }

    /** Deletes every backup older than the `keep` most recent, with its companions. */
    method Cleanup(keep: int) returns (deleted: seq<string>)
      modifies this
      ensures deleted == ToDelete(Backups(old(files)), keep)
      ensures files == AfterCleanup(old(files), keep)
    {
      var backups := Backups(files);
      deleted := [];
      if |backups| > keep {
        var stale := backups[..SliceEnd(|backups|, -keep)];
        ghost var before := files;
        for k := 0 to |stale|
          invariant files == before - DeletedFiles(stale[..k])
        {
          var b := stale[k];
          DeletedFilesStep(stale, k);
          DeleteBackup(b);
        }
        assert stale[..|stale|] == stale;
        deleted := stale;
      }
    }

    /** `shutil.copy2` of the database and of each companion it has. */
    method Copy(name: string, walExists: bool, shmExists: bool)
      modifies this
      ensures files == AfterCopy(old(files), name, walExists, shmExists)
    {
      files := files + {name};
      if walExists {
        files := files + {name + WalSuffix};
      }
      if shmExists {
        files := files + {name + ShmSuffix};
      }
    }

    /**
     * `Command.handle`: the engine and file guards, the copy under the
     * name for `now`, then the cleanup unless `noCleanup`.
     */
    method Handle(engine: string, dbExists: bool, walExists: bool, shmExists: bool, now: Stamp,
                  keep: int, noCleanup: bool) returns (report: Report)
      requires ValidStamp(now)
      modifies this
      ensures !PyStr.Contains(engine, "sqlite") ==> report == NotSqlite && files == old(files)
      ensures PyStr.Contains(engine, "sqlite") && !dbExists ==> report == DatabaseMissing && files == old(files)
      ensures PyStr.Contains(engine, "sqlite") && dbExists ==>
        var copied := AfterCopy(old(files), BackupName(now), walExists, shmExists);
        && report.BackedUp? && report.name == BackupName(now)
        && (noCleanup ==> files == copied && report.deleted == [])
        && (!noCleanup ==> files == AfterCleanup(copied, keep) && report.deleted == ToDelete(Backups(copied), keep))
    {
      if !PyStr.Contains(engine, "sqlite") {
        return NotSqlite;
      }
      if !dbExists {
        return DatabaseMissing;
      }
      var name := Prefix + StampText(now) + Extension;
      Copy(name, walExists, shmExists);
      var deleted := [];
      if !noCleanup {
        deleted := Cleanup(keep);
      }
      report := BackedUp(name, deleted);
    }
  }

  // ---------------------------------------------------------------------------
  // Properties: names
  // ---------------------------------------------------------------------------

  /** Every backup name has the glob's shape, so each new backup is listed. */
  lemma BackupNameMatchesGlob(s: Stamp)
    requires ValidStamp(s)
    ensures IsBackup(BackupName(s)) && |BackupName(s)| == 33
    ensures !IsBackup(BackupName(s) + WalSuffix) && !IsBackup(BackupName(s) + ShmSuffix)
  {
    var n := BackupName(s);
    assert n[..|Prefix|] == Prefix;
    assert n[|n| - |Extension|..] == Extension;
    CompanionIsNotBackup(n);
  }

  /** A companion's name never ends in the backup extension. */
  lemma CompanionIsNotBackup(b: string)
    ensures !IsBackup(b + WalSuffix) && !IsBackup(b + ShmSuffix)
  {
    var w := b + WalSuffix;
    var h := b + ShmSuffix;
    assert w[|w| - 1] == 'l';
    assert h[|h| - 1] == 'm';
    if |w| >= |Extension| { assert w[|w| - |Extension|..][|Extension| - 1] == w[|w| - 1]; }
    if |h| >= |Extension| { assert h[|h| - |Extension|..][|Extension| - 1] == h[|h| - 1]; }
  }

  predicate StampShaped(t: string) {
    |t| == 15 && t[8] == '_' && forall i :: 0 <= i < 15 && i != 8 ==> '0' <= t[i] <= '9'
  }

  /** Reading the fields back out of a timestamp text. */
  function ParseStamp(t: string): Stamp
    requires StampShaped(t)
  {
    Stamp(PyStr.ParseDigits(t[..4]), PyStr.ParseDigits(t[4..6]), PyStr.ParseDigits(t[6..8]),
          PyStr.ParseDigits(t[9..11]), PyStr.ParseDigits(t[11..13]), PyStr.ParseDigits(t[13..]))
  }

  /** Where each field of the timestamp text sits. */
  lemma StampTextSlices(s: Stamp)
    requires ValidStamp(s)
    ensures var t := StampText(s);
      && t[..4] == PyStr.PadDigits(s.year, 4) && t[4..6] == PyStr.PadDigits(s.month, 2)
      && t[6..8] == PyStr.PadDigits(s.day, 2) && t[8] == '_'
      && t[9..11] == PyStr.PadDigits(s.hour, 2) && t[11..13] == PyStr.PadDigits(s.minute, 2)
      && t[13..] == PyStr.PadDigits(s.second, 2)
  {
    var t := StampText(s);
    var se := PyStr.PadDigits(s.second, 2);
    var r4 := PyStr.PadDigits(s.minute, 2) + se;
    var r3 := PyStr.PadDigits(s.hour, 2) + r4;
    var r2 := "_" + r3;
    var r1 := PyStr.PadDigits(s.day, 2) + r2;
    var r0 := PyStr.PadDigits(s.month, 2) + r1;
    assert t == PyStr.PadDigits(s.year, 4) + r0;
    assert t[4..] == r0;
    assert t[6..] == r1 by { assert t[6..] == r0[2..]; }
    assert t[8..] == r2 by { assert t[8..] == r1[2..]; }
    assert t[9..] == r3 by { assert t[9..] == r2[1..]; }
    assert t[11..] == r4 by { assert t[11..] == r3[2..]; }
    assert t[4..6] == t[4..][..2] && t[6..8] == t[6..][..2];
    assert t[9..11] == t[9..][..2] && t[11..13] == t[11..][..2];
    assert t[13..] == t[11..][2..];
  }

  /** The timestamp text gives back the reading it was made from. */
  lemma StampTextRoundTrip(s: Stamp)
    requires ValidStamp(s)
    ensures StampShaped(StampText(s)) && ParseStamp(StampText(s)) == s
  {
    var t := StampText(s);
    StampTextSlices(s);
    forall i | 0 <= i < 15 && i != 8
      ensures '0' <= t[i] <= '9'
    {
      if i < 4 { assert t[i] == t[..4][i]; }
      else if i < 6 { assert t[i] == t[4..6][i - 4]; }
      else if i < 8 { assert t[i] == t[6..8][i - 6]; }
      else if i < 11 { assert t[i] == t[9..11][i - 9]; }
      else if i < 13 { assert t[i] == t[11..13][i - 11]; }
      else { assert t[i] == t[13..][i - 13]; }
    }
    assert PyStr.Pow10(2) == 100 && PyStr.Pow10(4) == 10000;
    PyStr.ParsePadDigits(s.year, 4);
    PyStr.ParsePadDigits(s.month, 2);
    PyStr.ParsePadDigits(s.day, 2);
    PyStr.ParsePadDigits(s.hour, 2);
    PyStr.ParsePadDigits(s.minute, 2);
    PyStr.ParsePadDigits(s.second, 2);
  }

  /** The name holds the timestamp text between the prefix and the extension. */
  lemma BackupNameRoundTrip(s: Stamp)
    requires ValidStamp(s)
    ensures var n := BackupName(s);
      StampShaped(n[10..25]) && ParseStamp(n[10..25]) == s
  {
    var n := BackupName(s);
    assert n[10..25] == StampText(s);
    StampTextRoundTrip(s);
  }

  /** Two strings of equal length followed by anything: the first parts decide, then the rest. */
  lemma {:induction false} LexLessEqualLengthHeads(a: string, b: string, c: string, d: string)
    requires |a| == |c|
    ensures PyStr.LexLess(a + b, c + d) <==> PyStr.LexLess(a, c) || (a == c && PyStr.LexLess(b, d))
    decreases |a|
  {
    if a == [] {
      assert a + b == b && c + d == d;
      PyStr.LexLessIrreflexive(a);
    } else {
      assert (a + b)[0] == a[0] && (c + d)[0] == c[0];
      assert (a + b)[1..] == a[1..] + b && (c + d)[1..] == c[1..] + d;
      LexLessEqualLengthHeads(a[1..], b, c[1..], d);
      if a[0] == c[0] {
        assert a == [a[0]] + a[1..] && c == [c[0]] + c[1..];
      }
    }
  }

  /** Comparing numbers by their last decimal digit and the rest. */
  lemma LastDigitSplit(a: nat, b: nat)
    ensures a < b <==> a / 10 < b / 10 || (a / 10 == b / 10 && a % 10 < b % 10)
    ensures a == b <==> a / 10 == b / 10 && a % 10 == b % 10
  {
    assert a == 10 * (a / 10) + a % 10 && b == 10 * (b / 10) + b % 10;
  }

  lemma SingleCharOrder(x: char, y: char)
    ensures PyStr.LexLess([x], [y]) <==> x < y
  {
    assert [x][1..] == [] && [y][1..] == [];
    PyStr.LexLessIrreflexive([]);
  }

  /** Zero-padded numbers of one width compare as the numbers do. */
  lemma {:induction false} PadDigitsOrder(a: nat, b: nat, w: nat)
    requires a < PyStr.Pow10(w) && b < PyStr.Pow10(w)
    ensures PyStr.LexLess(PyStr.PadDigits(a, w), PyStr.PadDigits(b, w)) <==> a < b
    ensures PyStr.PadDigits(a, w) == PyStr.PadDigits(b, w) <==> a == b
  {
    if w == 0 {
      PyStr.LexLessIrreflexive([]);
    } else {
      var p := PyStr.Pow10(w - 1);
      assert a / 10 < p && b / 10 < p;
      PadDigitsOrder(a / 10, b / 10, w - 1);
      var ha, hb := PyStr.PadDigits(a / 10, w - 1), PyStr.PadDigits(b / 10, w - 1);
      var da, db := PyStr.DigitChar(a % 10), PyStr.DigitChar(b % 10);
      assert PyStr.PadDigits(a, w) == ha + [da] && PyStr.PadDigits(b, w) == hb + [db];
      LexLessEqualLengthHeads(ha, [da], hb, [db]);
      SingleCharOrder(da, db);
      LastDigitSplit(a, b);
      if ha + [da] == hb + [db] {
        assert ha == (ha + [da])[..|ha|] && hb == (hb + [db])[..|hb|];
        assert da == (ha + [da])[|ha|];
      }
    }
  }

  /** One zero-padded field followed by the rest of the name. */
  lemma FieldThenRest(a: nat, b: nat, w: nat, x: string, y: string)
    requires a < PyStr.Pow10(w) && b < PyStr.Pow10(w)
    ensures PyStr.LexLess(PyStr.PadDigits(a, w) + x, PyStr.PadDigits(b, w) + y) <==>
      a < b || (a == b && PyStr.LexLess(x, y))
  {
    PadDigitsOrder(a, b, w);
    LexLessEqualLengthHeads(PyStr.PadDigits(a, w), x, PyStr.PadDigits(b, w), y);
  }

  /** The timestamp text sorts as time does. */
  lemma StampTextOrder(s: Stamp, t: Stamp)
    requires ValidStamp(s) && ValidStamp(t)
    ensures PyStr.LexLess(StampText(s), StampText(t)) <==> Before(s, t)
  {
    assert PyStr.Pow10(2) == 100 && PyStr.Pow10(4) == 10000;
    var s5, t5 := PyStr.PadDigits(s.second, 2), PyStr.PadDigits(t.second, 2);
    PadDigitsOrder(s.second, t.second, 2);
    var s4, t4 := PyStr.PadDigits(s.minute, 2) + s5, PyStr.PadDigits(t.minute, 2) + t5;
    FieldThenRest(s.minute, t.minute, 2, s5, t5);
    var s3, t3 := PyStr.PadDigits(s.hour, 2) + s4, PyStr.PadDigits(t.hour, 2) + t4;
    FieldThenRest(s.hour, t.hour, 2, s4, t4);
    PyStr.LexLessCommonPrefix("_", s3, t3);
    var s2, t2 := PyStr.PadDigits(s.day, 2) + ("_" + s3), PyStr.PadDigits(t.day, 2) + ("_" + t3);
    FieldThenRest(s.day, t.day, 2, "_" + s3, "_" + t3);
    var s1, t1 := PyStr.PadDigits(s.month, 2) + s2, PyStr.PadDigits(t.month, 2) + t2;
    FieldThenRest(s.month, t.month, 2, s2, t2);
    FieldThenRest(s.year, t.year, 4, s1, t1);
  }

  /** So do the backup names: the listing's order is the order the backups were made in. */
  lemma BackupNameOrder(s: Stamp, t: Stamp)
    requires ValidStamp(s) && ValidStamp(t)
    ensures PyStr.LexLess(BackupName(s), BackupName(t)) <==> Before(s, t)
  {
    StampTextOrder(s, t);
    var a, b := StampText(s), StampText(t);
    PyStr.LexLessCommonPrefix(Prefix, a + Extension, b + Extension);
    LexLessEqualLengthHeads(a, Extension, b, Extension);
    PyStr.LexLessIrreflexive(Extension);
    assert Prefix + a + Extension == Prefix + (a + Extension);
    assert Prefix + b + Extension == Prefix + (b + Extension);
  }

  // ---------------------------------------------------------------------------
  // Properties: retention
  // ---------------------------------------------------------------------------

  /** The listing holds each backup of the directory once, oldest name first. */
  lemma BackupsListing(files: set<string>)
    ensures var bs := Backups(files);
      && (forall i :: 0 <= i < |bs| ==> bs[i] in files && IsBackup(bs[i]))
      && (forall f :: f in files && IsBackup(f) ==> f in bs)
      && (forall i, j :: 0 <= i < j < |bs| ==> PyStr.LexLess(bs[i], bs[j]))
  {
  }

  /**
   * With `keep` at least one and more backups than that, the oldest
   * `n - keep` go and the `keep` newest stay; with `keep` zero, or no more
   * backups than `keep`, nothing is deleted.
   */
  lemma RetentionSelection(backups: seq<string>, keep: int)
    ensures keep >= 1 && |backups| > keep ==> ToDelete(backups, keep) == backups[..|backups| - keep]
    ensures keep == 0 ==> ToDelete(backups, keep) == []
    ensures |backups| <= keep ==> ToDelete(backups, keep) == []
    ensures keep < 0 ==> ToDelete(backups, keep) == backups[..if -keep < |backups| then -keep else |backups|]
  {
  }

  lemma {:induction false} DeletedFilesMembers(bs: seq<string>, f: string)
    ensures f in DeletedFiles(bs) <==> exists i :: 0 <= i < |bs| && f in Companions(bs[i])
    decreases |bs|
  {
    if bs != [] {
      var init := bs[..|bs| - 1];
      DeletedFilesMembers(init, f);
      if f in DeletedFiles(init) {
        var i :| 0 <= i < |init| && f in Companions(init[i]);
        assert bs[i] == init[i];
      }
      if exists i :: 0 <= i < |bs| && f in Companions(bs[i]) {
        var i :| 0 <= i < |bs| && f in Companions(bs[i]);
        if i < |bs| - 1 { assert init[i] == bs[i]; }
      }
    }
  }

  /** A backup is deleted only when it is one of the selected ones. */
  lemma BackupDeletedIffSelected(bs: seq<string>, f: string)
    requires IsBackup(f)
    ensures f in DeletedFiles(bs) <==> f in bs
  {
    DeletedFilesMembers(bs, f);
    CompanionIsNotBackup(f);
    forall i | 0 <= i < |bs| && f in Companions(bs[i])
      ensures f == bs[i]
    {
      CompanionIsNotBackup(bs[i]);
    }
  }

  /** The companion files that the deletion removes are exactly those of the selected backups. */
  lemma CompanionDeletedIffSelected(bs: seq<string>, b: string)
    requires IsBackup(b) && forall i :: 0 <= i < |bs| ==> IsBackup(bs[i])
    ensures b + WalSuffix in DeletedFiles(bs) <==> b in bs
    ensures b + ShmSuffix in DeletedFiles(bs) <==> b in bs
  {
    CompanionIsNotBackup(b);
    var w, h := b + WalSuffix, b + ShmSuffix;
    DeletedFilesMembers(bs, w);
    DeletedFilesMembers(bs, h);
    if b in bs {
      var i :| 0 <= i < |bs| && bs[i] == b;
      assert w in Companions(bs[i]) && h in Companions(bs[i]);
    }
    if w in DeletedFiles(bs) {
      var i :| 0 <= i < |bs| && w in Companions(bs[i]);
      WalOwner(bs[i], b);
    }
    if h in DeletedFiles(bs) {
      var i :| 0 <= i < |bs| && h in Companions(bs[i]);
      ShmOwner(bs[i], b);
    }
  }

  lemma WalOwner(d: string, b: string)
    requires IsBackup(d) && b + WalSuffix in Companions(d)
    ensures d == b
  {
    CompanionIsNotBackup(b);
    DistinctSuffixes(d, b);
    assert b + WalSuffix == d + WalSuffix;
    SuffixCancels(d, b, WalSuffix);
  }

  lemma ShmOwner(d: string, b: string)
    requires IsBackup(d) && b + ShmSuffix in Companions(d)
    ensures d == b
  {
    CompanionIsNotBackup(b);
    DistinctSuffixes(b, d);
    assert b + ShmSuffix == d + ShmSuffix;
    SuffixCancels(d, b, ShmSuffix);
  }

  lemma SuffixCancels(d: string, b: string, suffix: string)
    requires d + suffix == b + suffix
    ensures d == b
  {
    var x := b + suffix;
    assert x[..|x| - |suffix|] == b;
    assert (d + suffix)[..|x| - |suffix|] == d;
  }

  lemma DistinctSuffixes(d: string, b: string)
    ensures d + ShmSuffix != b + WalSuffix
  {
    var x, y := d + ShmSuffix, b + WalSuffix;
    assert x[|x| - 1] == 'm';
    assert y[|y| - 1] == 'l';
  }

  /**
   * After the cleanup the backups left are exactly the listed ones that
   * were not selected, each selected backup's companions are gone, and a
   * kept backup still has exactly the companions it had.
   */
  lemma CleanupEffects(files: set<string>, keep: int)
    ensures var del := ToDelete(Backups(files), keep);
      var after := AfterCleanup(files, keep);
      && after <= files
      && (forall f :: IsBackup(f) ==> (f in after <==> f in files && f !in del))
      && (forall i :: 0 <= i < |del| ==> del[i] + WalSuffix !in after && del[i] + ShmSuffix !in after)
      && (forall b :: IsBackup(b) && b !in del ==>
            (b + WalSuffix in after <==> b + WalSuffix in files) &&
            (b + ShmSuffix in after <==> b + ShmSuffix in files))
  {
    var bs := Backups(files);
    var del := ToDelete(bs, keep);
    assert forall i :: 0 <= i < |del| ==> del[i] in bs;
    forall f | IsBackup(f)
      ensures f in DeletedFiles(del) <==> f in del
    {
      BackupDeletedIffSelected(del, f);
    }
    forall i | 0 <= i < |del|
      ensures del[i] + WalSuffix in DeletedFiles(del) && del[i] + ShmSuffix in DeletedFiles(del)
    {
      DeletedFilesMembers(del, del[i] + WalSuffix);
      DeletedFilesMembers(del, del[i] + ShmSuffix);
    }
    forall b | IsBackup(b) && b !in del
      ensures b + WalSuffix !in DeletedFiles(del) && b + ShmSuffix !in DeletedFiles(del)
    {
      CompanionDeletedIffSelected(del, b);
    }
  }

  /** `keep` zero deletes nothing at all, as `backups[:-0]` is empty. */
  lemma KeepZeroDeletesNothing(files: set<string>)
    ensures AfterCleanup(files, 0) == files
  {
    RetentionSelection(Backups(files), 0);
  }

  /** In a strictly ascending list, an element greater than all others is the last one. */
  lemma GreatestIsLast(bs: seq<string>, name: string)
    requires forall i, j :: 0 <= i < j < |bs| ==> PyStr.LexLess(bs[i], bs[j])
    requires name in bs && forall i :: 0 <= i < |bs| && bs[i] != name ==> PyStr.LexLess(bs[i], name)
    ensures bs[|bs| - 1] == name && name !in bs[..|bs| - 1]
  {
    var n := |bs|;
    if bs[n - 1] != name {
      var k :| 0 <= k < n && bs[k] == name;
      assert PyStr.LexLess(bs[k], bs[n - 1]) && PyStr.LexLess(bs[n - 1], name);
      PyStr.LexLessTransitive(name, bs[n - 1], name);
      PyStr.LexLessIrreflexive(name);
    }
    if name in bs[..n - 1] {
      var k :| 0 <= k < n - 1 && bs[k] == name;
      assert PyStr.LexLess(bs[k], bs[n - 1]);
      PyStr.LexLessIrreflexive(name);
    }
  }

  /**
   * The new backup, named after a reading later than every backup already
   * there, is never deleted when at least one is kept; nor are its companions.
   */
  lemma NewestBackupSurvives(files: set<string>, now: Stamp, walExists: bool, shmExists: bool, keep: int)
    requires ValidStamp(now) && keep >= 1
    requires forall f :: f in files && IsBackup(f) ==> PyStr.LexLess(f, BackupName(now))
    ensures var copied := AfterCopy(files, BackupName(now), walExists, shmExists);
      var after := AfterCleanup(copied, keep);
      && BackupName(now) in after
      && (walExists ==> BackupName(now) + WalSuffix in after)
      && (shmExists ==> BackupName(now) + ShmSuffix in after)
  {
    var name := BackupName(now);
    var copied := AfterCopy(files, name, walExists, shmExists);
    BackupNameMatchesGlob(now);
    var bs := Backups(copied);
    NewBackupIsLast(files, now, walExists, shmExists);
    var del := ToDelete(bs, keep);
    assert name !in del by {
      if |bs| > keep {
        assert del == bs[..|bs| - keep];
        assert forall x :: x in del ==> x in bs[..|bs| - 1];
      }
    }
    CleanupEffects(copied, keep);
  }

  /** After the copy, the new backup is the last of the sorted listing, and only there. */
  lemma NewBackupIsLast(files: set<string>, now: Stamp, walExists: bool, shmExists: bool)
    requires ValidStamp(now)
    requires forall f :: f in files && IsBackup(f) ==> PyStr.LexLess(f, BackupName(now))
    ensures var bs := Backups(AfterCopy(files, BackupName(now), walExists, shmExists));
      |bs| > 0 && bs[|bs| - 1] == BackupName(now) && BackupName(now) !in bs[..|bs| - 1]
  {
    var name := BackupName(now);
    var copied := AfterCopy(files, name, walExists, shmExists);
    BackupNameMatchesGlob(now);
    var bs := Backups(copied);
    BackupsListing(copied);
    forall i | 0 <= i < |bs| && bs[i] != name
      ensures PyStr.LexLess(bs[i], name)
    {
      assert bs[i] in files;
    }
    GreatestIsLast(bs, name);
  }

  /** The copy adds the backup, and a companion exactly when the database has one. */
  lemma CopyAddsCompanionsIfPresent(files: set<string>, now: Stamp, walExists: bool, shmExists: bool)
    requires ValidStamp(now)
    ensures var name := BackupName(now);
      var copied := AfterCopy(files, name, walExists, shmExists);
      && files <= copied && name in copied
      && (name + WalSuffix in copied <==> walExists || name + WalSuffix in files)
      && (name + ShmSuffix in copied <==> shmExists || name + ShmSuffix in files)
      && (forall f :: f in copied ==> f in files || f in Companions(name))
  {
    var name := BackupName(now);
    assert name + WalSuffix != name + ShmSuffix by {
      assert (name + WalSuffix)[|name| + 3] != (name + ShmSuffix)[|name| + 3];
    }
  }
}

=== FILE: base64.dfy ===
/**
 * Base64 as the server writes it (the padded alphabet of section 4 of
 * RFC 4648) and as the browser's `atob` reads it (the forgiving-base64
 * decode of the WHATWG Infra standard, section 4.5 "Forgiving base64").
 */
module Base64 {
  import opened Wrappers
  import opened Octets

  /** The character for a six-bit value: `A`-`Z`, `a`-`z`, `0`-`9`, `+`, `/`. */
  function EncodeChar(v: int): (c: char)
    requires 0 <= v < 64
  {
    if v < 26 then ('A' as int + v) as char
    else if v < 52 then ('a' as int + (v - 26)) as char
    else if v < 62 then ('0' as int + (v - 52)) as char
    else if v == 62 then '+'
    else '/'
  }

  predicate IsBase64Char(c: char) {
    ('A' <= c <= 'Z') || ('a' <= c <= 'z') || ('0' <= c <= '9') || c == '+' || c == '/'
  }

  function DecodeChar(c: char): (v: int)
    requires IsBase64Char(c)
    ensures 0 <= v < 64
  {
    if 'A' <= c <= 'Z' then c as int - 'A' as int
    else if 'a' <= c <= 'z' then c as int - 'a' as int + 26
    else if '0' <= c <= '9' then c as int - '0' as int + 52
    else if c == '+' then 62
    else 63
  }

  lemma DecodeEncodeChar(v: int)
    requires 0 <= v < 64
    ensures IsBase64Char(EncodeChar(v)) && DecodeChar(EncodeChar(v)) == v
  {
  }

  /** The four characters of a full three-byte group. */
  function Quad(x: Byte, y: Byte, z: Byte): (q: string)
    ensures |q| == 4 && forall i :: 0 <= i < 4 ==> IsBase64Char(q[i])
  {
    DecodeEncodeChar(x / 4);
    DecodeEncodeChar((x % 4) * 16 + y / 16);
    DecodeEncodeChar((y % 16) * 4 + z / 64);
    DecodeEncodeChar(z % 64);
    [EncodeChar(x / 4), EncodeChar((x % 4) * 16 + y / 16),
     EncodeChar((y % 16) * 4 + z / 64), EncodeChar(z % 64)]
  }

  /** The three characters for a final group of two bytes. */
  function Duo(x: Byte, y: Byte): (q: string)
    ensures |q| == 3 && forall i :: 0 <= i < 3 ==> IsBase64Char(q[i])
  {
    DecodeEncodeChar(x / 4);
    DecodeEncodeChar((x % 4) * 16 + y / 16);
    DecodeEncodeChar((y % 16) * 4);
    [EncodeChar(x / 4), EncodeChar((x % 4) * 16 + y / 16), EncodeChar((y % 16) * 4)]
  }

  /** The two characters for a final single byte. */
  function Uno(x: Byte): (q: string)
    ensures |q| == 2 && forall i :: 0 <= i < 2 ==> IsBase64Char(q[i])
  {
    DecodeEncodeChar(x / 4);
    DecodeEncodeChar((x % 4) * 16);
    [EncodeChar(x / 4), EncodeChar((x % 4) * 16)]
  }

  /** Characters written for the 0, 1 or 2 bytes after the last full group. */
  function TailLength(r: nat): nat {
    if r == 0 then 0 else r + 1
  }

  /** The encoding before `=` padding: full groups, then 2 or 3 characters for a short tail. */
  function EncodeUnpadded(b: seq<Byte>): (s: string)
    ensures forall i :: 0 <= i < |s| ==> IsBase64Char(s[i])
    ensures |s| % 4 == TailLength(|b| % 3)
  {
    if |b| >= 3 then
      var q, rest := Quad(b[0], b[1], b[2]), EncodeUnpadded(b[3..]);
      AlphabetConcat(q, rest);
      GroupLength(|b|, |rest|);
      q + rest
    else if |b| == 2 then Duo(b[0], b[1])
    else if |b| == 1 then Uno(b[0])
    else []
  }

  lemma AlphabetConcat(p: string, q: string)
    requires forall i :: 0 <= i < |p| ==> IsBase64Char(p[i])
    requires forall i :: 0 <= i < |q| ==> IsBase64Char(q[i])
    ensures forall i :: 0 <= i < |p + q| ==> IsBase64Char((p + q)[i])
  {
    forall i | 0 <= i < |p + q| ensures IsBase64Char((p + q)[i]) {
      if i < |p| { assert (p + q)[i] == p[i]; } else { assert (p + q)[i] == q[i - |p|]; }
    }
  }

  lemma GroupLength(n: nat, u: nat)
    requires n >= 3 && u % 4 == TailLength((n - 3) % 3)
    ensures (4 + u) % 4 == TailLength(n % 3)
  {
  }

  /** Python's `base64.b64encode`: the padded encoding of section 4 of RFC 4648. */
  function Encode(b: seq<Byte>): string {
    EncodeUnpadded(b) + Padding(|b|)
  }

  /** The `=` characters that complete the last group of `n` bytes. */
  function Padding(n: nat): string {
    if n % 3 == 1 then "==" else if n % 3 == 2 then "=" else ""
  }

  /** The three bytes of a full group of four characters. */
  function DecodeGroup(c0: char, c1: char, c2: char, c3: char): seq<Byte>
    requires IsBase64Char(c0) && IsBase64Char(c1) && IsBase64Char(c2) && IsBase64Char(c3)
  {
    var a, b, c, d := DecodeChar(c0), DecodeChar(c1), DecodeChar(c2), DecodeChar(c3);
    [a * 4 + b / 16, (b % 16) * 16 + c / 4, (c % 4) * 64 + d]
  }

  /** The bytes of a run of base64 characters whose length is not 1 modulo 4; leftover bits are dropped. */
  function DecodeUnpadded(s: string): seq<Byte>
    requires forall i :: 0 <= i < |s| ==> IsBase64Char(s[i])
    requires |s| % 4 != 1
  {
    if |s| >= 4 then DecodeGroup(s[0], s[1], s[2], s[3]) + DecodeUnpadded(s[4..])
    else if |s| == 3 then
      var a, b, c := DecodeChar(s[0]), DecodeChar(s[1]), DecodeChar(s[2]);
      [a * 4 + b / 16, (b % 16) * 16 + c / 4]
    else if |s| == 2 then
      [DecodeChar(s[0]) * 4 + DecodeChar(s[1]) / 16]
    else []
  }

  predicate IsAsciiWhitespace(c: char) {
    c == '\t' || c == '\n' || c == '\U{000C}' || c == '\r' || c == ' '
  }

  function RemoveAsciiWhitespace(s: string): (r: string)
    ensures forall i :: 0 <= i < |r| ==> !IsAsciiWhitespace(r[i])
  {
    if s == [] then []
    else if IsAsciiWhitespace(s[0]) then RemoveAsciiWhitespace(s[1..])
    else [s[0]] + RemoveAsciiWhitespace(s[1..])
  }

  /** Dropping one or two trailing `=` from a text whose length is a multiple of four. */
  function StripPadding(s: string): string {
    if |s| % 4 == 0 && |s| >= 2 && s[|s| - 1] == '=' && s[|s| - 2] == '=' then s[..|s| - 2]
    else if |s| % 4 == 0 && |s| >= 1 && s[|s| - 1] == '=' then s[..|s| - 1]
    else s
  }

  /** One JavaScript string character per byte. */
  function BinaryString(b: seq<Byte>): (r: string)
    ensures |r| == |b|
    ensures forall i :: 0 <= i < |b| ==> r[i] as int == b[i]
  {
    if b == [] then [] else [b[0] as char] + BinaryString(b[1..])
  }

  /** The browser's `atob`; `None` is the `InvalidCharacterError` it throws. */
  function Atob(s: string): (r: Option<string>)
    ensures r.Some? ==> forall i :: 0 <= i < |r.value| ==> r.value[i] as int < 256
  {
    var t := StripPadding(RemoveAsciiWhitespace(s));
    if |t| % 4 == 1 then None
    else if exists i :: 0 <= i < |t| && !IsBase64Char(t[i]) then None
    else Some(BinaryString(DecodeUnpadded(t)))
  }

  // ---------------------------------------------------------------------------

  lemma QuadRoundTrip(x: Byte, y: Byte, z: Byte)
    ensures var q := Quad(x, y, z); DecodeGroup(q[0], q[1], q[2], q[3]) == [x, y, z]
  {
    var q := Quad(x, y, z);
    var a, b, c, d := x / 4, (x % 4) * 16 + y / 16, (y % 16) * 4 + z / 64, z % 64;
    assert q == [EncodeChar(a), EncodeChar(b), EncodeChar(c), EncodeChar(d)];
    DecodeEncodeChar(a);
    DecodeEncodeChar(b);
    DecodeEncodeChar(c);
    DecodeEncodeChar(d);
    FirstSextets(x, y, a, b);
    MiddleSextets(x, y, z, b, c);
    LastSextets(y, z, c, d);
  }

  lemma FirstSextets(x: Byte, y: Byte, a: int, b: int)
    requires a == x / 4 && b == (x % 4) * 16 + y / 16
    ensures a * 4 + b / 16 == x
  {
  }

  lemma MiddleSextets(x: Byte, y: Byte, z: Byte, b: int, c: int)
    requires b == (x % 4) * 16 + y / 16 && c == (y % 16) * 4 + z / 64
    ensures (b % 16) * 16 + c / 4 == y
  {
  }

  lemma LastSextets(y: Byte, z: Byte, c: int, d: int)
    requires c == (y % 16) * 4 + z / 64 && d == z % 64
    ensures (c % 4) * 64 + d == z
  {
  }

  /** Decoding undoes the unpadded encoding. */
  lemma {:induction false} DecodeEncodeUnpadded(b: seq<Byte>)
    ensures DecodeUnpadded(EncodeUnpadded(b)) == b
  {
    if |b| >= 3 {
      var tail := b[3..];
      GroupStep(b);
      DecodeEncodeUnpadded(tail);
      assert [b[0], b[1], b[2]] + tail == b;
    } else {
      TailRoundTrip(b);
    }
  }

  /** One full group comes back first, followed by the decoding of the rest. */
  lemma GroupStep(b: seq<Byte>)
    requires |b| >= 3
    ensures DecodeUnpadded(EncodeUnpadded(b)) == [b[0], b[1], b[2]] + DecodeUnpadded(EncodeUnpadded(b[3..]))
  {
    var rest := EncodeUnpadded(b[3..]);
    assert EncodeUnpadded(b) == Quad(b[0], b[1], b[2]) + rest;
    QuadGroupDecode(b[0], b[1], b[2], rest);
  }

  lemma TailRoundTrip(b: seq<Byte>)
    requires |b| < 3
    ensures DecodeUnpadded(EncodeUnpadded(b)) == b
  {
    if |b| == 2 {
      DuoRoundTrip(b[0], b[1]);
      assert b == [b[0], b[1]];
    } else if |b| == 1 {
      UnoRoundTrip(b[0]);
      assert b == [b[0]];
    }
  }

  lemma QuadGroupDecode(x: Byte, y: Byte, z: Byte, rest: string)
    requires forall i :: 0 <= i < |rest| ==> IsBase64Char(rest[i])
    requires |rest| % 4 != 1
    ensures var s := Quad(x, y, z) + rest;
      (forall i :: 0 <= i < |s| ==> IsBase64Char(s[i])) && |s| % 4 != 1 &&
      DecodeUnpadded(s) == [x, y, z] + DecodeUnpadded(rest)
  {
    var q := Quad(x, y, z);
    var s := q + rest;
    AlphabetConcat(q, rest);
    assert s[4..] == rest;
    assert s[0] == q[0] && s[1] == q[1] && s[2] == q[2] && s[3] == q[3];
    QuadRoundTrip(x, y, z);
  }

  lemma DuoRoundTrip(x: Byte, y: Byte)
    ensures DecodeUnpadded(Duo(x, y)) == [x, y]
  {
    DecodeEncodeChar(x / 4);
    DecodeEncodeChar((x % 4) * 16 + y / 16);
    DecodeEncodeChar((y % 16) * 4);
    FirstSextets(x, y, x / 4, (x % 4) * 16 + y / 16);
    MiddleSextets(x, y, 0, (x % 4) * 16 + y / 16, (y % 16) * 4);
  }

  lemma UnoRoundTrip(x: Byte)
    ensures DecodeUnpadded(Uno(x)) == [x]
  {
    DecodeEncodeChar(x / 4);
    DecodeEncodeChar((x % 4) * 16);
    assert (x / 4) * 4 + ((x % 4) * 16) / 16 == x;
  }

  lemma {:induction false} NoWhitespaceUnchanged(s: string)
    requires forall i :: 0 <= i < |s| ==> IsBase64Char(s[i]) || s[i] == '='
    ensures RemoveAsciiWhitespace(s) == s
  {
    if s != [] {
      NoWhitespaceUnchanged(s[1..]);
    }
  }

  lemma StripPaddingOf(u: string, pad: string)
    requires pad == "" || pad == "=" || pad == "=="
    requires |u + pad| % 4 == 0
    requires forall i :: 0 <= i < |u| ==> IsBase64Char(u[i])
    requires pad != "" ==> u != []
    ensures StripPadding(u + pad) == u
  {
    var e := u + pad;
    if pad == "==" {
      assert e[..|e| - 2] == u;
    } else if pad == "=" {
      assert e[|e| - 2] == u[|u| - 1];
      assert e[..|e| - 1] == u;
    } else if u != [] {
      assert e == u;
      assert IsBase64Char(e[|e| - 1]);
    }
  }

  lemma StripEncodePadding(b: seq<Byte>)
    ensures StripPadding(Encode(b)) == EncodeUnpadded(b)
  {
    PaddedLength(b);
    StripPaddingOf(EncodeUnpadded(b), Padding(|b|));
  }

  /** Padding completes the last group: the padded length is a multiple of four. */
  lemma PaddedLength(b: seq<Byte>)
    ensures (|EncodeUnpadded(b)| + |Padding(|b|)|) % 4 == 0
    ensures Padding(|b|) != "" ==> EncodeUnpadded(b) != []
  {
    PadArith(|b|, |EncodeUnpadded(b)|);
  }

  lemma PadArith(n: nat, u: nat)
    requires u % 4 == TailLength(n % 3)
    ensures (u + |Padding(n)|) % 4 == 0
    ensures Padding(n) != "" ==> u != 0
  {
  }

  /** The browser recovers, one character per byte, exactly the bytes the server encoded. */
  lemma AtobEncode(b: seq<Byte>)
    ensures Atob(Encode(b)) == Some(BinaryString(b))
  {
    var e := Encode(b);
    var u := EncodeUnpadded(b);
    assert forall i :: 0 <= i < |e| ==> IsBase64Char(e[i]) || e[i] == '=' by {
      forall i | 0 <= i < |e| ensures IsBase64Char(e[i]) || e[i] == '=' {
        if i < |u| { assert e[i] == u[i]; }
      }
    }
    NoWhitespaceUnchanged(e);
    StripEncodePadding(b);
    DecodeEncodeUnpadded(b);
  }

  /** Encoded text uses only the alphabet and `=`: never `,`, `:` or `;`. */
  lemma EncodeAlphabet(b: seq<Byte>)
    ensures forall i :: 0 <= i < |Encode(b)| ==> IsBase64Char(Encode(b)[i]) || Encode(b)[i] == '='
    ensures |Encode(b)| % 4 == 0
  {
    var e := Encode(b);
    var u := EncodeUnpadded(b);
    PaddedLength(b);
    forall i | 0 <= i < |e| ensures IsBase64Char(e[i]) || e[i] == '=' {
      if i < |u| { assert e[i] == u[i]; } else { assert e[i] == Padding(|b|)[i - |u|]; }
    }
  }
}

=== FILE: chat_page.dfy ===
/**
 * The chat page of the web client: sending a message (the guards, the user
 * bubble, creating a session on the first message, the file or streamed
 * reply), replacing the last bubble's content, and stopping a stream.
 *
 * The page's React state is the class `ChatPage`.  The server calls are
 * inputs: a `Backend` says what `createSession`, the first `saveMessage`,
 * the file upload and the stream would come back with, and the page reads
 * the upload or the stream as `handleSend` chooses by whether a file is
 * sent.  `saved` and `sessionsCreated` log the `saveMessage` and
 * `createSession` calls that went through, and `prompts` the prompts handed
 * to the agent, whether or not its reply arrived.
 */
module ChatPage {
  import opened Wrappers

  datatype Bubble = Bubble(role: string, content: string)

  /** One `chatApi.saveMessage(session, role, content)` call. */
  datatype Saved = Saved(session: string, role: string, content: string)

  /** One `chatApi.createSession(agentId, title)` call. */
  datatype NewSession = NewSession(agentId: string, title: string)

  /**
   * One server-sent event: no data, data that is not JSON, or JSON whose
   * `content` is the given text (the empty text stands for a missing or
   * falsy `content`).
   */
  datatype StreamEvent = NoData | Unparsable | Parsed(content: string)

  /**
   * The file upload's outcome: its `content` (`None` when the upload call
   * fails) and whether the awaited save of the answer went through.
   */
  datatype Upload = Upload(answer: Option<string>, answerSaved: bool)

  /** The stream's outcome: its events and whether it closed normally (`false` when `onerror` rethrows). */
  datatype Stream = Stream(events: seq<StreamEvent>, closed: bool)

  /**
   * What the server calls return: the new session's id (`None` when
   * `createSession` fails), whether the user message was saved, and what
   * the upload and the stream would give; a send reads only the one its
   * path calls.
   */
  datatype Backend = Backend(created: Option<string>, saveOk: bool, upload: Upload, stream: Stream)

  datatype PageState = PageState(
    messages: seq<Bubble>,
    isLoading: bool,
    error: Option<string>,
    agentId: string,
    sessionId: Option<string>,
    streaming: bool,
    saved: seq<Saved>,
    sessionsCreated: seq<NewSession>,
    prompts: seq<string>)

  const UserRole: string := "user"
  const AssistantRole: string := "assistant"
  const NoAgent: string := "Please select an agent first."
  const SendFailed: string := "Error sending message."
  const FileTitle: string := "File Analysis"
  const FilePrompt: string := "Analyze this file"
  const FileDone: string := "Done."
  const TitleLength: nat := 30

  /** A JavaScript string is truthy when it is present and not empty. */
  predicate Truthy(s: Option<string>) {
    s.Some? && s.value != ""
  }

  /** The user bubble: the text, or "File: <name>" when the text is empty. */
  function UserContent(text: string, file: Option<string>): string
    requires text != "" || file.Some?
  {
    if text != "" then text else "File: " + file.value
  }

  /** The title of a session created by the first message. */
  function SessionTitle(text: string): string {
    if text == "" then FileTitle
    else if |text| <= TitleLength then text
    else text[..TitleLength]
  }

  /** The prompt sent with a file upload. */
  function UploadPrompt(text: string): string {
    if text != "" then text else FilePrompt
  }

  /** The assistant's answer to a file upload. */
  function FileAnswer(content: string): string {
    if content != "" then content else FileDone
  }

  /** The text an event adds to the answer: none unless it parsed with a truthy `content`. */
  function EventText(e: StreamEvent): string {
    if e.Parsed? then e.content else ""
  }

  /** The streamed answer: the event texts in order. */
  function Answer(events: seq<StreamEvent>): string {
    if events == [] then ""
    else Answer(events[..|events| - 1]) + EventText(events[|events| - 1])
  }

  /** The values `updateLastMessage` receives: the answer so far after each event that adds text. */
  function Updates(events: seq<StreamEvent>): seq<string> {
    if events == [] then []
    else Updates(events[..|events| - 1]) + (if EventText(events[|events| - 1]) != "" then [Answer(events)] else [])
  }

  /** `updateLastMessage`: a copy of the history whose last bubble has the new content. */
  function UpdateLast(history: seq<Bubble>, content: string): seq<Bubble> {
    if history == [] then history
    else history[..|history| - 1] + [history[|history| - 1].(content := content)]
  }

  /** The save `handleStop` makes, if any. */
  function StopSave(streaming: bool, sessionId: Option<string>, messages: seq<Bubble>): Option<Saved> {
    if streaming && Truthy(sessionId) && messages != [] && messages[|messages| - 1].role == AssistantRole
    then Some(Saved(sessionId.value, AssistantRole, messages[|messages| - 1].content))
    else None
  }

  function Fail(s: PageState): PageState {
    s.(error := Some(SendFailed), isLoading := false)
  }

  /** The page state after `handleSend(text, file)` has run to completion. */
  function SendOutcome(s: PageState, text: string, file: Option<string>, b: Backend): PageState
    requires text != "" || file.Some?
  {
    if s.isLoading then s
    else if s.agentId == "" then s.(error := Some(NoAgent))
    else
      var content := UserContent(text, file);
      SessionStep(s.(error := None, isLoading := true, messages := s.messages + [Bubble(UserRole, content)]),
                  content, text, file, b)
  }

  /** After the user bubble: find or create the session, then save the user message. */
  function SessionStep(s1: PageState, content: string, text: string, file: Option<string>, b: Backend): (r: PageState)
    ensures |r.messages| >= |s1.messages| && r.messages[..|s1.messages|] == s1.messages
  {
    if !Truthy(s1.sessionId) && b.created.None? then Fail(s1)
    else
      var s2 := if Truthy(s1.sessionId) then s1
        else s1.(sessionsCreated := s1.sessionsCreated + [NewSession(s1.agentId, SessionTitle(text))],
                 sessionId := b.created);
      SaveStep(s2, content, text, file, b)
  }

  /** With a session: save the user message, add the empty assistant bubble, take the reply. */
  function SaveStep(s2: PageState, content: string, text: string, file: Option<string>, b: Backend): (r: PageState)
    requires s2.sessionId.Some?
    ensures |r.messages| >= |s2.messages| && r.messages[..|s2.messages|] == s2.messages
  {
    if !b.saveOk then Fail(s2)
    else
      var sid := s2.sessionId.value;
      var s3 := s2.(saved := s2.saved + [Saved(sid, UserRole, content)],
                    messages := s2.messages + [Bubble(AssistantRole, "")]);
      var r := ReplyStep(s3, sid, text, file, b);
      assert r.messages[..|s3.messages|][..|s2.messages|] == r.messages[..|s2.messages|];
      r
  }

  /** `if (file)`: the upload with a file, the stream without; the reply fills the assistant bubble, or the send fails. */
  function ReplyStep(s3: PageState, sid: string, text: string, file: Option<string>, b: Backend): (r: PageState)
    ensures |r.messages| == |s3.messages|
    ensures |s3.messages| > 0 ==> r.messages[..|s3.messages| - 1] == s3.messages[..|s3.messages| - 1]
  {
    if file.Some? then UploadStep(s3, sid, text, b.upload)
    else StreamStep(s3, sid, text, b.stream.events, b.stream.closed)
  }

  /** The upload's answer, or "Done.", fills the bubble and is saved; a failed upload or save is an error. */
  function UploadStep(s3: PageState, sid: string, text: string, upload: Upload): PageState {
    var s4 := s3.(prompts := s3.prompts + [UploadPrompt(text)]);
    if upload.answer.None? then Fail(s4)
    else
      var answer := FileAnswer(upload.answer.value);
      var s5 := s4.(messages := UpdateLast(s3.messages, answer));
      if upload.answerSaved then s5.(saved := s5.saved + [Saved(sid, AssistantRole, answer)], isLoading := false)
      else Fail(s5)
  }

  /** A streamed reply: the bubble shows the answer; a closed stream saves it, a failed one is an error. */
  function StreamStep(s3: PageState, sid: string, text: string, events: seq<StreamEvent>, closed: bool): PageState {
    var s4 := s3.(streaming := true, prompts := s3.prompts + [text],
                  messages := UpdateLast(s3.messages, Answer(events)));
    if closed then s4.(saved := s4.saved + [Saved(sid, AssistantRole, Answer(events))], isLoading := false)
    else Fail(s4)
  }

  /**
   * The `onmessage` handler over a whole stream: returns the accumulated
   * answer and every value passed to `updateLastMessage`.
   */
  method Accumulate(events: seq<StreamEvent>) returns (answer: string, updates: seq<string>)
    ensures answer == Answer(events)
    ensures updates == Updates(events)
  {
    answer := "";
    updates := [];
    for i := 0 to |events|
      invariant answer == Answer(events[..i])
      invariant updates == Updates(events[..i])
    {
      assert events[..i + 1][..i] == events[..i];
      var e := events[i];
      if e.Parsed? && e.content != "" {
        answer := answer + e.content;
        updates := updates + [answer];
      }
    }
    assert events[..|events|] == events;
  }

  class ChatPage {
    var messages: seq<Bubble>
    var isLoading: bool
    var error: Option<string>
    var agentId: string
    var sessionId: Option<string>
    /** Whether `abortControllerRef.current` has been set. */
    var streaming: bool
    var saved: seq<Saved>
    var sessionsCreated: seq<NewSession>
    var prompts: seq<string>

    function State(): PageState
      reads this
    {
      PageState(messages, isLoading, error, agentId, sessionId, streaming, saved, sessionsCreated, prompts)
    }

    /** A fresh page opened on the URL's `session_id`, if any. */
    constructor (urlSession: Option<string>)
      ensures State() == PageState([], false, None, "", urlSession, false, [], [], [])
    {
      messages := [];
      isLoading := false;
      error := None;
      agentId := "";
      sessionId := urlSession;
      streaming := false;
      saved := [];
      sessionsCreated := [];
      prompts := [];
    }

    /** The sidebar's `agent-selected` event. */
    method SelectAgent(id: string)
      modifies this
      ensures State() == old(State()).(agentId := id)
    {
      agentId := id;
    }

    /** `handleSend`; the input box never sends an empty text without a file. */
    method Send(text: string, file: Option<string>, b: Backend)
      requires text != "" || file.Some?
      modifies this
      ensures State() == SendOutcome(old(State()), text, file, b)
    {
      if isLoading {
        return;
      }
      if agentId == "" {
        error := Some(NoAgent);
        return;
      }
      var content := UserContent(text, file);
      error := None;
      isLoading := true;
      messages := messages + [Bubble(UserRole, content)];
      OpenSession(content, text, file, b);
    }

    method OpenSession(content: string, text: string, file: Option<string>, b: Backend)
      modifies this
      ensures State() == SessionStep(old(State()), content, text, file, b)
    {
      if !Truthy(sessionId) {
        if b.created.None? {
          error := Some(SendFailed);
          isLoading := false;
          return;
        }
        sessionsCreated := sessionsCreated + [NewSession(agentId, SessionTitle(text))];
        sessionId := b.created;
      }
      SaveUserMessage(content, text, file, b);
    }

    method SaveUserMessage(content: string, text: string, file: Option<string>, b: Backend)
      requires sessionId.Some?
      modifies this
      ensures State() == SaveStep(old(State()), content, text, file, b)
    {
      if !b.saveOk {
        error := Some(SendFailed);
        isLoading := false;
        return;
      }
      var sid := sessionId.value;
      saved := saved + [Saved(sid, UserRole, content)];
      messages := messages + [Bubble(AssistantRole, "")];
      Receive(sid, text, file, b);
    }

    /** `if (file)`: the upload with a file, the stream without. */
    method Receive(sid: string, text: string, file: Option<string>, b: Backend)
      requires messages != [] && messages[|messages| - 1] == Bubble(AssistantRole, "")
      modifies this
      ensures State() == ReplyStep(old(State()), sid, text, file, b)
    {
      if file.Some? {
        ReceiveFile(sid, text, b.upload.answer, b.upload.answerSaved);
      } else {
        ReceiveStream(sid, text, b.stream.events, b.stream.closed);
      }
    }

    /** The upload's answer fills the assistant bubble and is saved. */
    method ReceiveFile(sid: string, text: string, answer: Option<string>, answerSaved: bool)
      modifies this
      ensures State() == UploadStep(old(State()), sid, text, Upload(answer, answerSaved))
    {
      prompts := prompts + [UploadPrompt(text)];
      if answer.None? {
        error := Some(SendFailed);
        isLoading := false;
        return;
      }
      var a := FileAnswer(answer.value);
      messages := UpdateLast(messages, a);
      if !answerSaved {
        error := Some(SendFailed);
        isLoading := false;
        return;
      }
      saved := saved + [Saved(sid, AssistantRole, a)];
      isLoading := false;
    }

    /** The stream's updates fill the assistant bubble; a closed stream saves the answer. */
    method ReceiveStream(sid: string, text: string, events: seq<StreamEvent>, closed: bool)
      requires messages != [] && messages[|messages| - 1] == Bubble(AssistantRole, "")
      modifies this
      ensures State() == StreamStep(old(State()), sid, text, events, closed)
    {
      var a, updates := Accumulate(events);
      var history := messages;
      if updates == [] {
        NoUpdatesNoAnswer(events);
        UpdateLastSameContent(messages, a);
      } else {
        UpdatesEndWithAnswer(events);
        history := UpdateLast(messages, updates[|updates| - 1]);
      }
      assert history == UpdateLast(messages, Answer(events));
      streaming := true;
      prompts := prompts + [text];
      messages := history;
      if closed {
        saved := saved + [Saved(sid, AssistantRole, a)];
      } else {
        error := Some(SendFailed);
      }
      isLoading := false;
    }

    /** `handleStop`. */
    method Stop()
      modifies this
      ensures streaming ==> State() == old(State()).(isLoading := false,
        saved := old(saved) + (var v := StopSave(old(streaming), old(sessionId), old(messages)); if v.Some? then [v.value] else []))
      ensures !streaming ==> State() == old(State())
    {
      if streaming {
        isLoading := false;
        if Truthy(sessionId) && |messages| > 0 {
          var last := messages[|messages| - 1];
          if last.role == AssistantRole {
            saved := saved + [Saved(sessionId.value, AssistantRole, last.content)];
          }
        }
      }
    }
  }

  // ---------------------------------------------------------------------------
  // Properties
  // ---------------------------------------------------------------------------

  /** A send while loading changes nothing; one without an agent only sets the error. */
  lemma SendGuards(s: PageState, text: string, file: Option<string>, b: Backend)
    requires text != "" || file.Some?
    ensures s.isLoading ==> SendOutcome(s, text, file, b) == s
    ensures !s.isLoading && s.agentId == "" ==>
      SendOutcome(s, text, file, b) == s.(error := Some(NoAgent))
  {
  }

  /**
   * A send that passes the guards appends the user bubble right after the old
   * history, whatever the server does, and keeps the history before it.
   */
  lemma SendAppendsUserBubble(s: PageState, text: string, file: Option<string>, b: Backend)
    requires text != "" || file.Some?
    requires !s.isLoading && s.agentId != ""
    ensures var o := SendOutcome(s, text, file, b);
      |o.messages| > |s.messages| &&
      o.messages[..|s.messages|] == s.messages &&
      o.messages[|s.messages|] == Bubble(UserRole, UserContent(text, file))
  {
    var content := UserContent(text, file);
    var m := s.messages + [Bubble(UserRole, content)];
    var s1 := s.(error := None, isLoading := true, messages := m);
    var o := SessionStep(s1, content, text, file, b);
    assert SendOutcome(s, text, file, b) == o;
    assert o.messages[..|m|] == m;
    assert o.messages[..|s.messages|] == m[..|s.messages|] == s.messages;
    assert o.messages[|s.messages|] == m[|s.messages|];
  }

  /** The user bubble is the text when there is one, else names the file. */
  lemma UserContentCases(text: string, file: Option<string>)
    requires text != "" || file.Some?
    ensures text != "" ==> UserContent(text, file) == text
    ensures text == "" ==> UserContent(text, file) == "File: " + file.value
    ensures UserContent(text, file) != ""
  {
  }

  /**
   * A new session's title is "File Analysis" when there is no text, else
   * the text's first 30 characters: a prefix of it, all of it when short.
   */
  lemma SessionTitleCases(text: string)
    ensures text == "" ==> SessionTitle(text) == FileTitle
    ensures text != "" ==> SessionTitle(text) <= text && |SessionTitle(text)| == if |text| < TitleLength then |text| else TitleLength
  {
  }

  /** A session is created only by a send on a page without one, and titled from that send. */
  lemma SessionCreatedOnce(s: PageState, text: string, file: Option<string>, b: Backend)
    requires text != "" || file.Some?
    ensures var o := SendOutcome(s, text, file, b);
      o.sessionsCreated == s.sessionsCreated ||
      (!Truthy(s.sessionId) && b.created.Some? && o.sessionId == b.created &&
       o.sessionsCreated == s.sessionsCreated + [NewSession(s.agentId, SessionTitle(text))])
    ensures Truthy(s.sessionId) ==> SendOutcome(s, text, file, b).sessionId == s.sessionId
  {
  }

  /** The answer over two stretches of a stream is the first stretch's answer then the second's. */
  lemma {:induction false} AnswerAppend(a: seq<StreamEvent>, c: seq<StreamEvent>)
    ensures Answer(a + c) == Answer(a) + Answer(c)
    decreases |c|
  {
    if c == [] {
      assert a + c == a;
    } else {
      var n := |c|;
      var init := c[..n - 1];
      assert (a + c)[..|a + c| - 1] == a + init;
      assert (a + c)[|a + c| - 1] == c[n - 1];
      AnswerAppend(a, init);
      assert Answer(a + c) == Answer(a + init) + EventText(c[n - 1]);
      assert Answer(c) == Answer(init) + EventText(c[n - 1]);
    }
  }

  /** Events without data, events that do not parse and events without content are skipped. */
  lemma SkippedEvents(a: seq<StreamEvent>, e: StreamEvent, c: seq<StreamEvent>)
    requires EventText(e) == ""
    ensures Answer(a + [e] + c) == Answer(a + c)
  {
    AnswerAppend(a + [e], c);
    AnswerAppend(a, c);
    assert (a + [e])[..|a + [e]| - 1] == a;
  }

  /** Every streamed update is a prefix of the final answer, and the last one is the answer. */
  lemma {:induction false} UpdatesEndWithAnswer(events: seq<StreamEvent>)
    ensures forall u :: u in Updates(events) ==> u <= Answer(events)
    ensures Updates(events) != [] ==> Updates(events)[|Updates(events)| - 1] == Answer(events)
    decreases |events|
  {
    if events != [] {
      var init := events[..|events| - 1];
      UpdatesEndWithAnswer(init);
      forall u | u in Updates(init)
        ensures u <= Answer(events)
      {
        assert u <= Answer(init);
      }
    }
  }

  /** Each streamed update extends every earlier one. */
  lemma {:induction false} UpdatesGrow(events: seq<StreamEvent>, i: nat, j: nat)
    requires i <= j < |Updates(events)|
    ensures Updates(events)[i] <= Updates(events)[j]
    decreases |events|
  {
    var init := events[..|events| - 1];
    if j < |Updates(init)| {
      UpdatesGrow(init, i, j);
    } else {
      UpdatesEndWithAnswer(events);
      assert Updates(events)[i] in Updates(events);
    }
  }

  /** A stream that never adds text leaves the assistant bubble empty. */
  lemma {:induction false} NoUpdatesNoAnswer(events: seq<StreamEvent>)
    ensures Updates(events) == [] ==> Answer(events) == ""
    decreases |events|
  {
    if events != [] {
      NoUpdatesNoAnswer(events[..|events| - 1]);
    }
  }

  /**
   * `updateLastMessage` keeps the length and every bubble but the last, and
   * changes only the last bubble's content.
   */
  lemma UpdateLastShape(history: seq<Bubble>, content: string)
    ensures |UpdateLast(history, content)| == |history|
    ensures forall k :: 0 <= k < |history| - 1 ==> UpdateLast(history, content)[k] == history[k]
    ensures history != [] ==>
      UpdateLast(history, content)[|history| - 1] == Bubble(history[|history| - 1].role, content)
  {
  }

  /** Writing the content the last bubble already has gives back the same history. */
  lemma UpdateLastSameContent(history: seq<Bubble>, content: string)
    requires history != [] && history[|history| - 1].content == content
    ensures UpdateLast(history, content) == history
  {
    assert history[..|history| - 1] + [history[|history| - 1]] == history;
  }

  /** A send without a file streams; a stream that closes saves the whole answer, which is what the last bubble shows. */
  lemma StreamSavesAnswer(s: PageState, text: string, sid: string, upload: Upload, events: seq<StreamEvent>)
    requires text != ""
    requires !s.isLoading && s.agentId != ""
    ensures var o := SendOutcome(s, text, None, Backend(Some(sid), true, upload, Stream(events, true)));
      o.streaming && o.prompts == s.prompts + [text] &&
      o.saved[|o.saved| - 1] == Saved(o.sessionId.value, AssistantRole, Answer(events)) &&
      o.messages[|o.messages| - 1] == Bubble(AssistantRole, Answer(events)) &&
      !o.isLoading && o.error == None
  {
  }

  /**
   * The file path awaits the save of the answer: the bubble shows the answer
   * either way, and a refused save ends the send with the error and no
   * assistant message saved.
   */
  lemma FileReplySaveOutcome(s3: PageState, sid: string, text: string, c: string, answerSaved: bool)
    requires s3.messages != [] && s3.messages[|s3.messages| - 1].role == AssistantRole
    ensures var o := UploadStep(s3, sid, text, Upload(Some(c), answerSaved));
      && o.messages[|o.messages| - 1] == Bubble(AssistantRole, FileAnswer(c))
      && !o.isLoading
      && o.prompts == s3.prompts + [UploadPrompt(text)]
      && (answerSaved ==> o.saved == s3.saved + [Saved(sid, AssistantRole, FileAnswer(c))] && o.error == s3.error)
      && (!answerSaved ==> o.saved == s3.saved && o.error == Some(SendFailed))
  {
  }

  /**
   * The path follows the file: a send with a file never starts a stream and
   * does not depend on what the stream would give, and one without a file
   * does not depend on what the upload would give.
   */
  lemma PathFollowsFile(s: PageState, text: string, file: Option<string>, b: Backend, upload: Upload, stream: Stream)
    requires text != "" || file.Some?
    ensures file.Some? ==> SendOutcome(s, text, file, b).streaming == s.streaming
    ensures file.Some? ==> SendOutcome(s, text, file, b.(stream := stream)) == SendOutcome(s, text, file, b)
    ensures file.None? ==> SendOutcome(s, text, file, b.(upload := upload)) == SendOutcome(s, text, file, b)
  {
  }

  /** Stop saves exactly when a stream was started, there is a session and the last bubble is the assistant's. */
  lemma StopSavesLastAssistant(streaming: bool, sessionId: Option<string>, messages: seq<Bubble>)
    ensures StopSave(streaming, sessionId, messages).Some? <==>
      streaming && Truthy(sessionId) && messages != [] && messages[|messages| - 1].role == AssistantRole
    ensures StopSave(streaming, sessionId, messages).Some? ==>
      StopSave(streaming, sessionId, messages).value ==
        Saved(sessionId.value, AssistantRole, messages[|messages| - 1].content)
  {
  }
}

=== FILE: chat_router.dfy ===
/**
 * The chat endpoints of the gateway: the token estimates charged to the
 * limiter, the admission loop that retries after the limiter's advised wait,
 * the payload sent upstream, and the relay that forwards the upstream event
 * stream.  Sleeping advances an abstract clock by exactly the requested ticks;
 * nothing else moves the clock.
 */
module ChatRouter {
  import opened Wrappers
  import PyStr
  import RL = RateLimiter

  // ---------------------------------------------------------------------------
  // Token estimates
  // ---------------------------------------------------------------------------

  function TotalLength(contents: seq<string>): nat {
    if contents == [] then 0 else |contents[0]| + TotalLength(contents[1..])
  }

  lemma {:induction false} TotalLengthAppend(a: seq<string>, b: seq<string>)
    ensures TotalLength(a + b) == TotalLength(a) + TotalLength(b)
  {
    if a == [] {
      assert a + b == b;
    } else {
      assert (a + b)[1..] == a[1..] + b;
      TotalLengthAppend(a[1..], b);
    }
  }

  function Max(a: int, b: int): int { if a >= b then a else b }

  const ChatMinimumTokens: nat := 100
  const FileMinimumTokens: nat := 500

  /** The estimate for a chat request: a quarter of all characters, at least 100. */
  function ChatTokenEstimate(contents: seq<string>): nat {
    Max(ChatMinimumTokens, TotalLength(contents) / 4)
  }

  /** The estimate for a file upload: a quarter of the prompt's characters, at least 500. */
  function FileTokenEstimate(contents: string): nat {
    Max(FileMinimumTokens, |contents| / 4)
  }

  /**
   * The chat estimate is the floor: it is 100 for short requests and
   * otherwise the largest n with 4n not above the character count.
   */
  lemma ChatEstimateIsQuarterFloor(contents: seq<string>)
    ensures var n := ChatTokenEstimate(contents);
      && n >= ChatMinimumTokens
      && (n == ChatMinimumTokens <==> TotalLength(contents) < 4 * (ChatMinimumTokens + 1))
      && (n > ChatMinimumTokens ==> 4 * n <= TotalLength(contents) < 4 * n + 4)
  {
  }

  lemma FileEstimateIsQuarterFloor(contents: string)
    ensures var n := FileTokenEstimate(contents);
      && n >= FileMinimumTokens
      && (n == FileMinimumTokens <==> |contents| < 4 * (FileMinimumTokens + 1))
      && (n > FileMinimumTokens ==> 4 * n <= |contents| < 4 * n + 4)
  {
  }

  /** Adding text to a chat request never lowers its estimate. */
  lemma ChatEstimateMonotone(a: seq<string>, b: seq<string>)
    ensures ChatTokenEstimate(a) <= ChatTokenEstimate(a + b)
  {
    TotalLengthAppend(a, b);
  }

  // ---------------------------------------------------------------------------
  // Admission with retries
  // ---------------------------------------------------------------------------

  const MaxRetries: nat := 3
  const ChatMaxWait: nat := 10 * RL.TicksPerSecond
  const FileMaxWait: nat := 15 * RL.TicksPerSecond

  /** One observable step of the admission loop. */
  datatype Step = Checked(admitted: bool) | Slept(ticks: nat)

  datatype Admission =
    | Admitted
      /** The 429 carrying the refusal message, the advised wait and the usage snapshot. */
    | Throttled(message: string, retryAfter: nat, usage: RL.Usage)
      /** `get_wait_time` raised: the request fails with an internal error. */
    | WaitFailed

  /** How one admission run ends: outcome, limiter queue, clock and the steps taken. */
  datatype Run = Run(outcome: Admission, queue: seq<RL.Entry>, now: int, trace: seq<Step>)

  /**
   * What the limiter answers within one attempt at one instant: either
   * admission (and the queue it leaves), or the refusal message, the advised
   * wait with the queue `get_wait_time` leaves, and the usage snapshot with
   * the queue `get_current_usage` leaves.
   */
  datatype Answer =
    | Admit(queue: seq<RL.Entry>)
    | Refuse(message: string, wait: RL.WaitResult, queue: seq<RL.Entry>,
             usage: RL.Usage, usageQueue: seq<RL.Entry>)

  /** The limiter's answers as a function of its queue and the time. */
  type Limiter = (seq<RL.Entry>, int) -> Answer

  /** The answer of the limiter in the source, each of its calls evicting at `now`. */
  function LimiterAnswer(q: seq<RL.Entry>, now: int, window: nat, rpm: int, tpm: int, est: nat): Answer {
    var v := RL.Check(RL.Evict(q, now - window), rpm, tpm, est);
    var q1 := RL.AfterCanProceed(q, now, window, rpm, tpm, est);
    if v == RL.Admit then Admit(q1)
    else
      var q2 := RL.Evict(q1, now - window);
      var q3 := RL.Evict(q2, now - window);
      Refuse(RL.RefusalMessage(v), RL.WaitTime(q2, now, window, rpm, tpm, est), q2, RL.UsageOf(q3, rpm, tpm), q3)
  }

  function SourceLimiter(window: nat, rpm: int, tpm: int, est: nat): Limiter {
    (q: seq<RL.Entry>, now: int) => LimiterAnswer(q, now, window, rpm, tpm, est)
  }

  /** Whether the loop goes on after answer `a`: a refusal whose wait it may sleep, before the last attempt. */
  predicate Continues(a: Answer, maxWait: nat, attempt: nat) {
    a.Refuse? && a.wait.Wait? && a.wait.ticks <= maxWait && attempt < MaxRetries - 1
  }

  /** The run that ends on answer `a` at time `now`. */
  function Final(a: Answer, now: int): Run {
    match a
    case Admit(q1) => Run(Admitted, q1, now, [Checked(true)])
    case Refuse(message, wait, q2, usage, q3) =>
      match wait
      case IndexError => Run(WaitFailed, q2, now, [Checked(false)])
      case Wait(t) => Run(Throttled(message, t, usage), q3, now, [Checked(false)])
  }

  /** The trace of a run that retries after a sleep of `t`. */
  function RetryTrace(t: nat, rest: seq<Step>): seq<Step> {
    [Checked(false), Slept(t)] + rest
  }

  /**
   * The admission loop from attempt number `attempt` on, starting from queue
   * `q` at time `now`: stop on admission; on a refusal stop with a 429 when
   * the advised wait is over `maxWait` or this is the last attempt, otherwise
   * sleep for the wait and try again.
   */
  function Loop(limiter: Limiter, maxWait: nat, q: seq<RL.Entry>, now: int, attempt: nat): Run
    requires attempt < MaxRetries
    decreases MaxRetries - attempt
  {
    var a := limiter(q, now);
    if !Continues(a, maxWait, attempt) then Final(a, now)
    else
      var rest := Loop(limiter, maxWait, a.queue, now + a.wait.ticks, attempt + 1);
      Run(rest.outcome, rest.queue, rest.now, RetryTrace(a.wait.ticks, rest.trace))
  }

  /** The whole admission run of the source for a limiter with queue `q` at time `now`. */
  function AdmissionRun(q: seq<RL.Entry>, now: int, window: nat, rpm: int, tpm: int, est: nat, maxWait: nat): Run {
    Loop(SourceLimiter(window, rpm, tpm, est), maxWait, q, now, 0)
  }

  function Checks(trace: seq<Step>): nat {
    if trace == [] then 0 else (if trace[0].Checked? then 1 else 0) + Checks(trace[1..])
  }

  function TotalSleep(trace: seq<Step>): nat {
    if trace == [] then 0 else (if trace[0].Slept? then trace[0].ticks else 0) + TotalSleep(trace[1..])
  }

  /**
   * The shape of a run: refused checks each followed by a sleep of at most
   * `maxWait`, then one final check.
   */
  predicate RetryShape(trace: seq<Step>, maxWait: nat)
    decreases |trace|
  {
    || (|trace| == 1 && trace[0].Checked?)
    || (&& |trace| >= 3 && trace[0] == Checked(false)
        && trace[1].Slept? && trace[1].ticks <= maxWait
        && RetryShape(trace[2..], maxWait))
  }

  function Last(trace: seq<Step>): Step
    requires trace != []
  {
    trace[|trace| - 1]
  }

  lemma {:induction false} RetryTraceChecks(t: nat, rest: seq<Step>)
    ensures Checks(RetryTrace(t, rest)) == 1 + Checks(rest)
  {
    var tr := RetryTrace(t, rest);
    assert tr[1..][1..] == rest;
  }

  lemma SingleCheck(admitted: bool)
    ensures Checks([Checked(admitted)]) == 1
  {
    assert [Checked(admitted)][1..] == [];
  }

  lemma {:induction false} RetryTraceSleep(t: nat, rest: seq<Step>)
    ensures TotalSleep(RetryTrace(t, rest)) == t + TotalSleep(rest)
  {
    var tr := RetryTrace(t, rest);
    assert tr[1..][1..] == rest;
  }

  lemma RetryTraceShape(t: nat, rest: seq<Step>, maxWait: nat)
    requires rest != []
    ensures Last(RetryTrace(t, rest)) == Last(rest)
    ensures t <= maxWait && RetryShape(rest, maxWait) ==> RetryShape(RetryTrace(t, rest), maxWait)
  {
    assert RetryTrace(t, rest)[2..] == rest;
  }

  /** How a run that retries is made of the run after the sleep. */
  lemma LoopRetries(limiter: Limiter, maxWait: nat, q: seq<RL.Entry>, now: int, attempt: nat)
    requires attempt < MaxRetries && Retries(limiter, maxWait, q, now, attempt)
    ensures var t := limiter(q, now).wait.ticks;
      var rest := Loop(limiter, maxWait, limiter(q, now).queue, now + t, attempt + 1);
      Loop(limiter, maxWait, q, now, attempt) == Run(rest.outcome, rest.queue, rest.now, RetryTrace(t, rest.trace))
  {
  }

  /** Whether the loop sleeps and retries after consulting `limiter` at this attempt. */
  predicate Retries(limiter: Limiter, maxWait: nat, q: seq<RL.Entry>, now: int, attempt: nat) {
    Continues(limiter(q, now), maxWait, attempt)
  }

  /** A run that stops at this attempt is the final run of the answer, with a single check. */
  lemma LoopStops(limiter: Limiter, maxWait: nat, q: seq<RL.Entry>, now: int, attempt: nat)
    requires attempt < MaxRetries
    requires !Retries(limiter, maxWait, q, now, attempt)
    ensures var r := Loop(limiter, maxWait, q, now, attempt);
      && r == Final(limiter(q, now), now)
      && r.trace == [Checked(limiter(q, now).Admit?)]
      && r.now == now
      && (r.outcome.Admitted? <==> limiter(q, now).Admit?)
      && (r.outcome.Throttled? ==> r.outcome.retryAfter > maxWait || attempt == MaxRetries - 1)
  {
  }


  /** A run that consults the limiter at least once and at most once per attempt left. */
  predicate ChecksWithin(r: Run, attempt: nat) {
    r.trace != [] && 1 <= Checks(r.trace) <= MaxRetries - attempt
  }

  /** Whatever the limiter answers, it is consulted at least once and at most three times (fewer from a later attempt). */
  lemma {:induction false} LoopChecks(limiter: Limiter, maxWait: nat, q: seq<RL.Entry>, now: int, attempt: nat)
    requires attempt < MaxRetries
    ensures ChecksWithin(Loop(limiter, maxWait, q, now, attempt), attempt)
    decreases MaxRetries - attempt
  {
    if Retries(limiter, maxWait, q, now, attempt) {
      LoopChecks(limiter, maxWait, limiter(q, now).queue, now + limiter(q, now).wait.ticks, attempt + 1);
      LoopChecksStep(limiter, maxWait, q, now, attempt);
    } else {
      LoopStops(limiter, maxWait, q, now, attempt);
      SingleCheck(limiter(q, now).Admit?);
    }
  }

  /** One retry in front of a run adds one check and uses up one attempt. */
  lemma LoopChecksStep(limiter: Limiter, maxWait: nat, q: seq<RL.Entry>, now: int, attempt: nat)
    requires attempt < MaxRetries && Retries(limiter, maxWait, q, now, attempt)
    requires ChecksWithin(Loop(limiter, maxWait, limiter(q, now).queue, now + limiter(q, now).wait.ticks, attempt + 1), attempt + 1)
    ensures ChecksWithin(Loop(limiter, maxWait, q, now, attempt), attempt)
  {
    var t := limiter(q, now).wait.ticks;
    var rest := Loop(limiter, maxWait, limiter(q, now).queue, now + t, attempt + 1);
    LoopRetries(limiter, maxWait, q, now, attempt);
    RetryTraceChecks(t, rest.trace);
  }

  /** The shape of a run and whether it admitted, as the last check says. */
  predicate ShapedRun(r: Run, maxWait: nat) {
    && r.trace != [] && RetryShape(r.trace, maxWait)
    && (r.outcome.Admitted? <==> Last(r.trace) == Checked(true))
  }

  /** One retry in front of a well-shaped run gives a well-shaped run. */
  lemma LoopShapeStep(limiter: Limiter, maxWait: nat, q: seq<RL.Entry>, now: int, attempt: nat)
    requires attempt < MaxRetries && Retries(limiter, maxWait, q, now, attempt)
    requires ShapedRun(Loop(limiter, maxWait, limiter(q, now).queue, now + limiter(q, now).wait.ticks, attempt + 1), maxWait)
    ensures ShapedRun(Loop(limiter, maxWait, q, now, attempt), maxWait)
  {
    var t := limiter(q, now).wait.ticks;
    var rest := Loop(limiter, maxWait, limiter(q, now).queue, now + t, attempt + 1);
    LoopRetries(limiter, maxWait, q, now, attempt);
    RetryTraceShape(t, rest.trace, maxWait);
  }

  /** Every sleep is at most `maxWait`, between a refused check and the next check. */
  lemma {:induction false} LoopShape(limiter: Limiter, maxWait: nat, q: seq<RL.Entry>, now: int, attempt: nat)
    requires attempt < MaxRetries
    ensures ShapedRun(Loop(limiter, maxWait, q, now, attempt), maxWait)
    decreases MaxRetries - attempt
  {
    if Retries(limiter, maxWait, q, now, attempt) {
      LoopShape(limiter, maxWait, limiter(q, now).queue, now + limiter(q, now).wait.ticks, attempt + 1);
      LoopShapeStep(limiter, maxWait, q, now, attempt);
    } else {
      LoopStops(limiter, maxWait, q, now, attempt);
    }
  }

  /** One retry keeps the clock equal to the start plus the sleeps. */
  lemma LoopClockStep(limiter: Limiter, maxWait: nat, q: seq<RL.Entry>, now: int, attempt: nat)
    requires attempt < MaxRetries && Retries(limiter, maxWait, q, now, attempt)
    requires var rest := Loop(limiter, maxWait, limiter(q, now).queue, now + limiter(q, now).wait.ticks, attempt + 1);
      rest.now == now + limiter(q, now).wait.ticks + TotalSleep(rest.trace)
    ensures var r := Loop(limiter, maxWait, q, now, attempt);
      r.now == now + TotalSleep(r.trace)
  {
    var t := limiter(q, now).wait.ticks;
    var rest := Loop(limiter, maxWait, limiter(q, now).queue, now + t, attempt + 1);
    LoopRetries(limiter, maxWait, q, now, attempt);
    RetryTraceSleep(t, rest.trace);
  }

  /** The clock ends where the sleeps took it. */
  lemma {:induction false} LoopClock(limiter: Limiter, maxWait: nat, q: seq<RL.Entry>, now: int, attempt: nat)
    requires attempt < MaxRetries
    ensures var r := Loop(limiter, maxWait, q, now, attempt);
      r.now == now + TotalSleep(r.trace)
    decreases MaxRetries - attempt
  {
    if Retries(limiter, maxWait, q, now, attempt) {
      LoopClock(limiter, maxWait, limiter(q, now).queue, now + limiter(q, now).wait.ticks, attempt + 1);
      LoopClockStep(limiter, maxWait, q, now, attempt);
    } else {
      LoopStops(limiter, maxWait, q, now, attempt);
      assert TotalSleep([Checked(limiter(q, now).Admit?)]) == 0;
    }
  }

  /** A 429 comes on the last possible check or with an advised wait over `maxWait`. */
  lemma {:induction false} LoopThrottles(limiter: Limiter, maxWait: nat, q: seq<RL.Entry>, now: int, attempt: nat)
    requires attempt < MaxRetries
    ensures var r := Loop(limiter, maxWait, q, now, attempt);
      r.outcome.Throttled? ==> r.outcome.retryAfter > maxWait || Checks(r.trace) == MaxRetries - attempt
    decreases MaxRetries - attempt
  {
    if Retries(limiter, maxWait, q, now, attempt) {
      var t := limiter(q, now).wait.ticks;
      var rest := Loop(limiter, maxWait, limiter(q, now).queue, now + t, attempt + 1);
      LoopRetries(limiter, maxWait, q, now, attempt);
      LoopThrottles(limiter, maxWait, limiter(q, now).queue, now + t, attempt + 1);
      RetryTraceChecks(t, rest.trace);
    } else {
      LoopStops(limiter, maxWait, q, now, attempt);
      assert Checks([Checked(limiter(q, now).Admit?)]) == 1;
    }
  }

  /** What the source limiter's answers guarantee. */
  predicate AnswerOk(a: Answer, now: int, est: nat, rpm: int, tpm: int) {
    match a
    case Admit(q1) => q1 != [] && q1[|q1| - 1] == RL.Entry(now, est)
    case Refuse(message, wait, _, usage, q3) =>
      && (PyStr.StartsWith(message, RL.RequestLimitPrefix) || PyStr.StartsWith(message, RL.TokenLimitPrefix))
      && usage == RL.UsageOf(q3, rpm, tpm)
      && (wait.IndexError? ==> rpm <= 0)
  }

  /**
   * One attempt of the source limiter: admission appends the request at
   * `now`; a refusal names the limit hit and snapshots the usage of the
   * queue it leaves; the wait fails only without a positive request limit.
   */
  lemma LimiterAnswerOk(q: seq<RL.Entry>, now: int, window: nat, rpm: int, tpm: int, est: nat)
    ensures AnswerOk(LimiterAnswer(q, now, window, rpm, tpm, est), now, est, rpm, tpm)
  {
    var v := RL.Check(RL.Evict(q, now - window), rpm, tpm, est);
    if v != RL.Admit {
      RL.RefusalMessageNamesLimit(v);
      var q2 := RL.Evict(RL.AfterCanProceed(q, now, window, rpm, tpm, est), now - window);
      RL.WaitFailsOnlyWithoutOldest(q2, now, window, rpm, tpm, est);
    }
  }

  /** Every queue an answer leaves is within the limits when the queue before was. */
  predicate AnswerWithinLimits(a: Answer, rpm: int, tpm: int) {
    RL.WithinLimits(a.queue, rpm, tpm) && (a.Refuse? ==> RL.WithinLimits(a.usageQueue, rpm, tpm))
  }

  lemma EvictPreservesLimits(q: seq<RL.Entry>, cutoff: int, rpm: int, tpm: int)
    requires RL.WithinLimits(q, rpm, tpm)
    ensures RL.WithinLimits(RL.Evict(q, cutoff), rpm, tpm)
  {
    RL.EvictShrinks(q, cutoff);
  }

  lemma LimiterAnswerPreservesLimits(q: seq<RL.Entry>, now: int, window: nat, rpm: int, tpm: int, est: nat)
    requires RL.WithinLimits(q, rpm, tpm)
    ensures AnswerWithinLimits(LimiterAnswer(q, now, window, rpm, tpm, est), rpm, tpm)
  {
    var q1 := RL.AfterCanProceed(q, now, window, rpm, tpm, est);
    RL.CanProceedPreservesLimits(q, now, window, rpm, tpm, est);
    EvictPreservesLimits(q1, now - window, rpm, tpm);
    var q2 := RL.Evict(q1, now - window);
    EvictPreservesLimits(q2, now - window, rpm, tpm);
  }

  /** Every answer of `limiter` is one the source limiter can give. */
  ghost predicate LimiterOk(limiter: Limiter, est: nat, rpm: int, tpm: int) {
    forall q: seq<RL.Entry>, now: int :: AnswerOk(limiter(q, now), now, est, rpm, tpm)
  }

  /** Every answer of `limiter` to a queue within the limits leaves queues within them. */
  ghost predicate LimiterKeepsLimits(limiter: Limiter, rpm: int, tpm: int) {
    forall q: seq<RL.Entry>, now: int ::
      RL.WithinLimits(q, rpm, tpm) ==> AnswerWithinLimits(limiter(q, now), rpm, tpm)
  }

  lemma SourceLimiterOk(window: nat, rpm: int, tpm: int, est: nat)
    ensures LimiterOk(SourceLimiter(window, rpm, tpm, est), est, rpm, tpm)
    ensures LimiterKeepsLimits(SourceLimiter(window, rpm, tpm, est), rpm, tpm)
  {
    var limiter := SourceLimiter(window, rpm, tpm, est);
    forall q: seq<RL.Entry>, now: int
      ensures AnswerOk(limiter(q, now), now, est, rpm, tpm)
    {
      LimiterAnswerOk(q, now, window, rpm, tpm, est);
    }
    forall q: seq<RL.Entry>, now: int | RL.WithinLimits(q, rpm, tpm)
      ensures AnswerWithinLimits(limiter(q, now), rpm, tpm)
    {
      LimiterAnswerPreservesLimits(q, now, window, rpm, tpm, est);
    }
  }

  /**
   * What a run tells about its outcome: admission charged the request at
   * the final instant, a 429 names the limit hit and reports the usage of
   * the queue it leaves, and the wait fails only without a positive request
   * limit.
   */
  predicate OutcomeOk(r: Run, est: nat, rpm: int, tpm: int) {
    && (r.outcome.Admitted? ==> r.queue != [] && r.queue[|r.queue| - 1] == RL.Entry(r.now, est))
    && (r.outcome.Throttled? ==>
          && (PyStr.StartsWith(r.outcome.message, RL.RequestLimitPrefix) ||
              PyStr.StartsWith(r.outcome.message, RL.TokenLimitPrefix))
          && r.outcome.usage == RL.UsageOf(r.queue, rpm, tpm))
    && (r.outcome.WaitFailed? ==> rpm <= 0)
  }

  /** A run of a limiter that answers as the source's does ends as the source's does. */
  lemma {:induction false} LoopOutcome(limiter: Limiter, maxWait: nat, q: seq<RL.Entry>, now: int, attempt: nat,
                                       est: nat, rpm: int, tpm: int)
    requires attempt < MaxRetries && LimiterOk(limiter, est, rpm, tpm)
    ensures OutcomeOk(Loop(limiter, maxWait, q, now, attempt), est, rpm, tpm)
    decreases MaxRetries - attempt
  {
    if Retries(limiter, maxWait, q, now, attempt) {
      LoopOutcome(limiter, maxWait, limiter(q, now).queue, now + limiter(q, now).wait.ticks, attempt + 1, est, rpm, tpm);
      LoopRetries(limiter, maxWait, q, now, attempt);
    } else {
      assert AnswerOk(limiter(q, now), now, est, rpm, tpm);
    }
  }

  /** Queues within the limits stay within them over a whole run. */
  lemma {:induction false} LoopKeepsLimits(limiter: Limiter, maxWait: nat, q: seq<RL.Entry>, now: int, attempt: nat,
                                           rpm: int, tpm: int)
    requires attempt < MaxRetries && LimiterKeepsLimits(limiter, rpm, tpm)
    requires RL.WithinLimits(q, rpm, tpm)
    ensures RL.WithinLimits(Loop(limiter, maxWait, q, now, attempt).queue, rpm, tpm)
    decreases MaxRetries - attempt
  {
    assert AnswerWithinLimits(limiter(q, now), rpm, tpm);
    if Retries(limiter, maxWait, q, now, attempt) {
      LoopKeepsLimits(limiter, maxWait, limiter(q, now).queue, now + limiter(q, now).wait.ticks, attempt + 1, rpm, tpm);
      LoopRetries(limiter, maxWait, q, now, attempt);
    }
  }

  /**
   * The admission policy of both chat endpoints: at most three limiter
   * checks and two sleeps, each sleep at most `maxWait`, a 429 only on the
   * third refusal or an advised wait over `maxWait`, admission charged once,
   * and the limits kept.
   */
  lemma AdmissionPolicy(q: seq<RL.Entry>, now: int, window: nat, rpm: int, tpm: int, est: nat, maxWait: nat)
    ensures var r := AdmissionRun(q, now, window, rpm, tpm, est, maxWait);
      && r.trace != []
      && RetryShape(r.trace, maxWait)
      && 1 <= Checks(r.trace) <= MaxRetries
      && r.now == now + TotalSleep(r.trace)
      && (r.outcome.Admitted? <==> Last(r.trace) == Checked(true))
      && (r.outcome.Admitted? ==> r.queue != [] && r.queue[|r.queue| - 1] == RL.Entry(r.now, est))
      && (r.outcome.Throttled? ==> r.outcome.retryAfter > maxWait || Checks(r.trace) == MaxRetries)
      && (r.outcome.WaitFailed? ==> rpm <= 0)
      && (RL.WithinLimits(q, rpm, tpm) ==> RL.WithinLimits(r.queue, rpm, tpm))
  {
    var limiter := SourceLimiter(window, rpm, tpm, est);
    LoopChecks(limiter, maxWait, q, now, 0);
    LoopShape(limiter, maxWait, q, now, 0);
    LoopClock(limiter, maxWait, q, now, 0);
    LoopThrottles(limiter, maxWait, q, now, 0);
    SourceLimiterOk(window, rpm, tpm, est);
    LoopOutcome(limiter, maxWait, q, now, 0, est, rpm, tpm);
    if RL.WithinLimits(q, rpm, tpm) {
      LoopKeepsLimits(limiter, maxWait, q, now, 0, rpm, tpm);
    }
  }

  /** The clock the admission loop sleeps on. */
  class Clock {
    var now: int

    constructor (start: int)
      ensures now == start
    {
      now := start;
    }

    method Sleep(ticks: nat)
      modifies this
      ensures now == old(now) + ticks
    {
      now := now + ticks;
    }
  }

  /** How the source limiter's answer is made of what the limiter's three methods return. */
  lemma AnswerFromCalls(q: seq<RL.Entry>, now: int, window: nat, rpm: int, tpm: int, est: nat,
                        ok: bool, error: Option<string>, q1: seq<RL.Entry>)
    requires RL.CanProceedResult(q, now, window, rpm, tpm, est, ok, error, q1)
    ensures var a := LimiterAnswer(q, now, window, rpm, tpm, est);
      && (ok <==> a.Admit?)
      && (ok ==> a.queue == q1)
      && (!ok ==> && error == Some(a.message) && a.queue == RL.Evict(q1, now - window)
                  && a.wait == RL.WaitTime(a.queue, now, window, rpm, tpm, est)
                  && a.usageQueue == RL.Evict(a.queue, now - window)
                  && a.usage == RL.UsageOf(a.usageQueue, rpm, tpm))
  {
  }


  /** The whole run `whole` is `trace` followed by the run from attempt `attempt` at `q` and `now`. */
  predicate Resumes(whole: Run, limiter: Limiter, maxWait: nat, q: seq<RL.Entry>, now: int, attempt: nat, trace: seq<Step>)
    requires attempt < MaxRetries
  {
    var r := Loop(limiter, maxWait, q, now, attempt);
    whole == Run(r.outcome, r.queue, r.now, trace + r.trace)
  }

  /** A retry moves the point where the rest of the run resumes. */
  lemma ResumesAfterRetry(whole: Run, limiter: Limiter, maxWait: nat, q: seq<RL.Entry>, now: int, attempt: nat,
                          trace: seq<Step>, a: Answer, q2: seq<RL.Entry>, now2: int, next: nat, trace2: seq<Step>)
    requires attempt < MaxRetries && limiter(q, now) == a && Continues(a, maxWait, attempt)
    requires Resumes(whole, limiter, maxWait, q, now, attempt, trace)
    requires q2 == a.queue && now2 == now + a.wait.ticks && next == attempt + 1
    requires trace2 == trace + [Checked(false), Slept(a.wait.ticks)]
    ensures next < MaxRetries && Resumes(whole, limiter, maxWait, q2, now2, next, trace2)
  {
    var t := a.wait.ticks;
    var rest := Loop(limiter, maxWait, a.queue, now + t, attempt + 1);
    LoopRetries(limiter, maxWait, q, now, attempt);
    assert trace + RetryTrace(t, rest.trace) == (trace + [Checked(false), Slept(t)]) + rest.trace;
  }

  /** Where the run stops, the whole run is the trace so far followed by the final steps. */
  lemma ResumesAtStop(whole: Run, limiter: Limiter, maxWait: nat, q: seq<RL.Entry>, now: int, attempt: nat,
                      trace: seq<Step>, a: Answer, last: Run)
    requires attempt < MaxRetries && limiter(q, now) == a && !Continues(a, maxWait, attempt)
    requires Resumes(whole, limiter, maxWait, q, now, attempt, trace)
    requires last == Final(a, now)
    ensures whole == Run(last.outcome, last.queue, last.now, trace + last.trace)
  {
    LoopStops(limiter, maxWait, q, now, attempt);
  }

  lemma SourceLimiterAnswers(window: nat, rpm: int, tpm: int, est: nat, q: seq<RL.Entry>, now: int)
    ensures SourceLimiter(window, rpm, tpm, est)(q, now) == LimiterAnswer(q, now, window, rpm, tpm, est)
  {
  }

  /**
   * One pass of the admission loop's body: check, and on a refusal either
   * stop with a 429 or a failed wait, or sleep for the advised wait.  `done`
   * says whether the loop stops here; the steps taken are its part of the trace.
   */
  method TryOnce(limiter: RL.TokenRateLimiter, clock: Clock, est: nat, maxWait: nat, attempt: nat, ghost a: Answer)
    returns (done: bool, outcome: Admission, steps: seq<Step>)
    requires attempt < MaxRetries
    requires a == LimiterAnswer(limiter.requests, clock.now, limiter.window, limiter.rpmLimit, limiter.tpmLimit, est)
    modifies limiter, clock
    ensures done <==> !Continues(a, maxWait, attempt)
    ensures done ==> Run(outcome, limiter.requests, clock.now, steps) == Final(a, old(clock.now))
    ensures !done ==> && steps == [Checked(false), Slept(a.wait.ticks)]
                      && limiter.requests == a.queue && clock.now == old(clock.now) + a.wait.ticks
  {
    ghost var q := limiter.requests;
    var now := clock.now;
    var ok, error := limiter.CanProceed(now, est);
    AnswerFromCalls(q, now, limiter.window, limiter.rpmLimit, limiter.tpmLimit, est, ok, error, limiter.requests);
    done, outcome, steps := Decide(limiter, clock, est, maxWait, attempt, ok, error, a);
  }

  /** The rest of `TryOnce` once the check has answered `ok` and `error`. */
  method Decide(limiter: RL.TokenRateLimiter, clock: Clock, est: nat, maxWait: nat, attempt: nat,
                ok: bool, error: Option<string>, ghost a: Answer)
    returns (done: bool, outcome: Admission, steps: seq<Step>)
    requires attempt < MaxRetries
    requires ok <==> a.Admit?
    requires ok ==> a.queue == limiter.requests
    requires !ok ==> && error == Some(a.message) && a.queue == RL.Evict(limiter.requests, clock.now - limiter.window)
                     && a.wait == RL.WaitTime(a.queue, clock.now, limiter.window, limiter.rpmLimit, limiter.tpmLimit, est)
                     && a.usageQueue == RL.Evict(a.queue, clock.now - limiter.window)
                     && a.usage == RL.UsageOf(a.usageQueue, limiter.rpmLimit, limiter.tpmLimit)
    modifies limiter, clock
    ensures done <==> !Continues(a, maxWait, attempt)
    ensures done ==> Run(outcome, limiter.requests, clock.now, steps) == Final(a, old(clock.now))
    ensures !done ==> && steps == [Checked(false), Slept(a.wait.ticks)]
                      && limiter.requests == a.queue && clock.now == old(clock.now) + a.wait.ticks
  {
    if ok {
      return true, Admitted, [Checked(true)];
    }
    done, outcome, steps := Backoff(limiter, clock, est, maxWait, attempt, error.value, a);
  }

  /** The refusal half of `TryOnce`: ask for the wait, then stop or sleep. */
  method Backoff(limiter: RL.TokenRateLimiter, clock: Clock, est: nat, maxWait: nat, attempt: nat,
                 message: string, ghost a: Answer)
    returns (done: bool, outcome: Admission, steps: seq<Step>)
    requires attempt < MaxRetries && a.Refuse? && a.message == message
    requires a.queue == RL.Evict(limiter.requests, clock.now - limiter.window)
    requires a.wait == RL.WaitTime(a.queue, clock.now, limiter.window, limiter.rpmLimit, limiter.tpmLimit, est)
    requires a.usageQueue == RL.Evict(a.queue, clock.now - limiter.window)
    requires a.usage == RL.UsageOf(a.usageQueue, limiter.rpmLimit, limiter.tpmLimit)
    modifies limiter, clock
    ensures (done <==> !Continues(a, maxWait, attempt))
    ensures done ==> Run(outcome, limiter.requests, clock.now, steps) == Final(a, old(clock.now))
    ensures !done ==> && steps == [Checked(false), Slept(a.wait.ticks)]
                      && limiter.requests == a.queue && clock.now == old(clock.now) + a.wait.ticks
  {
    var now := clock.now;
    var wait := limiter.GetWaitTime(now, est);
    if wait.IndexError? {
      return true, WaitFailed, [Checked(false)];
    }
    if wait.ticks > maxWait || attempt == MaxRetries - 1 {
      var usage := limiter.GetCurrentUsage(now);
      return true, Throttled(message, wait.ticks, usage), [Checked(false)];
    }
    clock.Sleep(wait.ticks);
    return false, Admitted, [Checked(false), Slept(wait.ticks)];
  }

  /**
   * The admission loop of both chat endpoints (`maxWait` is ten seconds for
   * chat and fifteen for uploads).  It follows `AdmissionRun`; the branch
   * taken when all attempts run out without a decision cannot be reached,
   * because the last attempt always decides.
   */
  method AdmitWithRetries(limiter: RL.TokenRateLimiter, clock: Clock, est: nat, maxWait: nat)
    returns (outcome: Admission, trace: seq<Step>)
    modifies limiter, clock
    ensures var r := AdmissionRun(old(limiter.requests), old(clock.now), limiter.window,
                               limiter.rpmLimit, limiter.tpmLimit, est, maxWait);
      && outcome == r.outcome && trace == r.trace
      && limiter.requests == r.queue && clock.now == r.now
  {
    ghost var answers := SourceLimiter(limiter.window, limiter.rpmLimit, limiter.tpmLimit, est);
    ghost var whole := Loop(answers, maxWait, limiter.requests, clock.now, 0);
    var attempt := 0;
    trace := [];
    while attempt < MaxRetries
      invariant attempt < MaxRetries
      invariant Resumes(whole, answers, maxWait, limiter.requests, clock.now, attempt, trace)
      decreases MaxRetries - attempt
    {
      ghost var q := limiter.requests;
      ghost var now := clock.now;
      ghost var a := LimiterAnswer(q, now, limiter.window, limiter.rpmLimit, limiter.tpmLimit, est);
      var done, steps;
      done, outcome, steps := TryOnce(limiter, clock, est, maxWait, attempt, a);
      SourceLimiterAnswers(limiter.window, limiter.rpmLimit, limiter.tpmLimit, est, q, now);
      if done {
        ResumesAtStop(whole, answers, maxWait, q, now, attempt, trace, a, Run(outcome, limiter.requests, clock.now, steps));
        trace := trace + steps;
        return;
      }
      ghost var before := trace;
      trace := trace + steps;
      attempt := attempt + 1;
      ResumesAfterRetry(whole, answers, maxWait, q, now, attempt - 1, before, a, limiter.requests, clock.now, attempt, trace);
    }
    // The loop's `else` branch (a generic 429) would run here.
    assert false;
  }

  // ---------------------------------------------------------------------------
  // Upstream payloads
  // ---------------------------------------------------------------------------

  datatype ChatRequest = ChatRequest(agentId: string, contents: seq<string>, isStream: bool, isRagOn: bool)

  datatype Payload = Payload(agentId: string, contents: seq<string>, isStream: bool, isRagOn: bool,
                             executeFinalAnswer: bool, executeRagFinalAnswer: bool,
                             executeRagStandaloneQuery: bool)

  function UpstreamPayload(req: ChatRequest): Payload {
    Payload(req.agentId, req.contents, true, req.isRagOn, true, true, true)
  }

  /** The payload always asks for a stream: the request's own flag is ignored. */
  lemma PayloadIgnoresStreamFlag(req: ChatRequest, b: bool)
    ensures UpstreamPayload(req) == UpstreamPayload(req.(isStream := b))
    ensures UpstreamPayload(req).isStream
  {
  }

  /** The request can be read back from the payload, all but its stream flag. */
  lemma PayloadCopiesRequest(req: ChatRequest)
    ensures var p := UpstreamPayload(req);
      ChatRequest(p.agentId, p.contents, req.isStream, p.isRagOn) == req
  {
  }

  /** The form fields of a file upload: the stream flag is the text "False". */
  datatype FileForm = FileForm(agentId: string, isStream: string, contents: string)

  function UploadForm(agentId: string, contents: string): FileForm {
    FileForm(agentId, "False", contents)
  }

  /** The upload never asks for a stream, whatever it carries, and passes its fields on unchanged. */
  lemma UploadFormNeverStreams(agentId: string, contents: string, agentId2: string, contents2: string)
    ensures UploadForm(agentId, contents).isStream == UploadForm(agentId2, contents2).isStream == "False"
    ensures UploadForm(agentId, contents) == UploadForm(agentId2, contents2) <==>
      agentId == agentId2 && contents == contents2
  {
  }

  // ---------------------------------------------------------------------------
  // The event relay
  // ---------------------------------------------------------------------------

  const DataField: string := "data:"
  const EventEnd: string := "\n\n"

  predicate Relayed(line: string) {
    line != [] && PyStr.StartsWith(line, DataField)
  }

  /** What the relay yields for the upstream lines, in order. */
  function Relay(lines: seq<string>): seq<string> {
    if lines == [] then []
    else (if Relayed(lines[0]) then [lines[0] + EventEnd] else []) + Relay(lines[1..])
  }

  /** Relaying a concatenation relays each part in turn: order is kept. */
  lemma {:induction false} RelayAppend(a: seq<string>, b: seq<string>)
    ensures Relay(a + b) == Relay(a) + Relay(b)
  {
    if a == [] {
      assert a + b == b;
    } else {
      assert (a + b)[1..] == a[1..] + b;
      RelayAppend(a[1..], b);
    }
  }

  /** One line is forwarded with a blank line after it exactly when it is a data line. */
  lemma RelayOneLine(line: string)
    ensures Relay([line]) == (if PyStr.StartsWith(line, DataField) then [line + EventEnd] else [])
  {
    assert [line][1..] == [];
  }

  /** Every forwarded event is a data line ending in a blank line, and none is invented. */
  lemma {:induction false} RelayOutputIsData(lines: seq<string>)
    ensures |Relay(lines)| <= |lines|
    ensures forall e :: e in Relay(lines) ==>
      PyStr.StartsWith(e, DataField) && PyStr.EndsWith(e, EventEnd) && e[..|e| - 2] in lines
  {
    if lines != [] {
      RelayOutputIsData(lines[1..]);
      var l := lines[0];
      if Relayed(l) {
        assert (l + EventEnd)[..|l|] == l;
        assert (l + EventEnd)[..|DataField|] == l[..|DataField|];
      }
      forall e | e in Relay(lines[1..]) ensures e[..|e| - 2] in lines {
        assert e[..|e| - 2] in lines[1..];
      }
    }
  }

  /** The emptiness test in front of the prefix test never changes the result. */
  lemma EmptyLinesNeedNoSeparateCheck(line: string)
    ensures Relayed(line) <==> PyStr.StartsWith(line, DataField)
  {
  }

  // ---------------------------------------------------------------------------
  // Error events
  // ---------------------------------------------------------------------------

  /** How the upstream stream can fail. */
  datatype StreamFailure =
    | TimedOut
    | StatusError(status: int, text: string)
    | RequestFailed(text: string)
    | Unexpected(text: string)

  /** A lower-case hex digit. */
  function HexDigit(d: nat): (c: char)
    requires d < 16
    ensures PyStr.IsHexDigit(c) && PyStr.HexDigitValue(c) == d
    ensures '0' <= c <= 'f'
  {
    if d < 10 then ('0' as int + d) as char else ('a' as int + d - 10) as char
  }

  /** Two lower-case hex digits of a byte. */
  function Hex2(b: nat): string
    requires b < 0x100
  {
    [HexDigit(b / 16), HexDigit(b % 16)]
  }

  /** Four lower-case hex digits of a code unit, high byte first. */
  function Hex4(u: nat): string
    requires u < 0x10000
  {
    Hex2(u / 0x100) + Hex2(u % 0x100)
  }

  /** The value of two hex digits. */
  function Hex2Value(h: string): nat
    requires |h| == 2 && PyStr.IsHexDigit(h[0]) && PyStr.IsHexDigit(h[1])
  {
    16 * PyStr.HexDigitValue(h[0]) + PyStr.HexDigitValue(h[1])
  }

  lemma Hex2RoundTrip(b: nat)
    requires b < 0x100
    ensures var h := Hex2(b); |h| == 2 && PyStr.IsHexDigit(h[0]) && PyStr.IsHexDigit(h[1]) && Hex2Value(h) == b
  {
  }

  /** The four digits read back give the code unit. */
  lemma Hex4RoundTrip(u: nat)
    requires u < 0x10000
    ensures var h := Hex4(u);
      && |h| == 4 && PyStr.IsHexDigit(h[0]) && PyStr.IsHexDigit(h[1])
      && PyStr.IsHexDigit(h[2]) && PyStr.IsHexDigit(h[3])
      && 0x100 * Hex2Value(h[..2]) + Hex2Value(h[2..]) == u
  {
    var hi := Hex2(u / 0x100);
    var lo := Hex2(u % 0x100);
    Hex2RoundTrip(u / 0x100);
    Hex2RoundTrip(u % 0x100);
    assert Hex4(u)[..2] == hi;
    assert Hex4(u)[2..] == lo;
  }

  /** The one-letter escapes of `json.dumps`, for the characters that have one. */
  function ShortEscape(c: char): Option<char> {
    if c == '"' then Some('"')
    else if c == '\\' then Some('\\')
    else if c == '\n' then Some('n')
    else if c == '\r' then Some('r')
    else if c == '\t' then Some('t')
    else if c == '\U{8}' then Some('b')
    else if c == '\U{C}' then Some('f')
    else None
  }

  /** `\uXXXX` for one UTF-16 code unit. */
  function UnitEscape(u: nat): string
    requires u < 0x10000
  {
    "\\u" + Hex4(u)
  }

  /** The escape of a code point: one code unit in the basic plane, a surrogate pair above it. */
  function UnicodeEscape(c: char): string {
    if (c as int) < 0x10000 then UnitEscape(c as int)
    else
      var n := c as int - 0x10000;
      UnitEscape(0xD800 + n / 1024) + UnitEscape(0xDC00 + n % 1024)
  }

  /** `json.dumps` of one character, with the default `ensure_ascii`. */
  function JsonChar(c: char): string {
    if ShortEscape(c).Some? then ['\\', ShortEscape(c).value]
    else if ' ' <= c <= '~' then [c]
    else UnicodeEscape(c)
  }

  function JsonChars(s: string): string {
    if s == [] then "" else JsonChar(s[0]) + JsonChars(s[1..])
  }

  function JsonString(s: string): string {
    "\"" + JsonChars(s) + "\""
  }

  /** Printable ASCII only: in particular no line break of any kind. */
  predicate Printable(s: string) {
    forall i :: 0 <= i < |s| ==> ' ' <= s[i] <= '~'
  }

  lemma PrintableConcat(a: string, b: string)
    requires Printable(a) && Printable(b)
    ensures Printable(a + b)
  {
    forall i | 0 <= i < |a + b| ensures ' ' <= (a + b)[i] <= '~' {
      if i >= |a| {
        assert (a + b)[i] == b[i - |a|];
      }
    }
  }

  lemma Hex4Printable(u: nat)
    requires u < 0x10000
    ensures Printable(Hex4(u))
  {
  }

  lemma UnitEscapePrintable(u: nat)
    requires u < 0x10000
    ensures Printable(UnitEscape(u))
  {
    Hex4Printable(u);
    PrintableConcat("\\u", Hex4(u));
  }

  /** The two halves of a code point above the basic plane are ten bits each. */
  lemma SurrogateHalves(n: int)
    requires 0 <= n < 0x100000
    ensures 0 <= n / 1024 < 1024 && 0 <= n % 1024 < 1024
  {
  }

  lemma UnicodeEscapePrintable(c: char)
    ensures Printable(UnicodeEscape(c))
  {
    if (c as int) < 0x10000 {
      UnitEscapePrintable(c as int);
    } else {
      var n := c as int - 0x10000;
      SurrogateHalves(n);
      var hi, lo := 0xD800 + n / 1024, 0xDC00 + n % 1024;
      assert UnicodeEscape(c) == UnitEscape(hi) + UnitEscape(lo);
      UnitEscapePrintable(hi);
      UnitEscapePrintable(lo);
      PrintableConcat(UnitEscape(hi), UnitEscape(lo));
    }
  }

  /**
   * Every character escapes to printable ASCII, and printable characters
   * other than the quote and the backslash stand for themselves.
   */
  lemma JsonCharPrintable(c: char)
    ensures Printable(JsonChar(c))
    ensures ' ' <= c <= '~' && c != '"' && c != '\\' ==> JsonChar(c) == [c]
  {
    if ShortEscape(c).None? && !(' ' <= c <= '~') {
      UnicodeEscapePrintable(c);
    }
  }

  /** Escaped JSON text is printable ASCII: it holds no line break of any kind. */
  lemma {:induction false} JsonCharsPrintable(s: string)
    ensures Printable(JsonChars(s))
  {
    if s != [] {
      JsonCharPrintable(s[0]);
      JsonCharsPrintable(s[1..]);
      PrintableConcat(JsonChar(s[0]), JsonChars(s[1..]));
    }
  }

  /** Text of printable characters without quote or backslash is copied unchanged. */
  lemma {:induction false} JsonCharsPlain(s: string)
    requires Printable(s) && '"' !in s && '\\' !in s
    ensures JsonChars(s) == s
  {
    if s != [] {
      JsonCharPrintable(s[0]);
      JsonCharsPlain(s[1..]);
    }
  }

  function ErrorTag(f: StreamFailure): string {
    match f
    case TimedOut => "timeout"
    case StatusError(_, _) => "http_error"
    case RequestFailed(_) => "request_error"
    case Unexpected(_) => "unexpected_error"
  }

  /** The fields after the tag: the status of an HTTP error, then the detail text. */
  function ErrorFields(f: StreamFailure): string {
    match f
    case TimedOut => DetailField("API request timeout")
    case StatusError(status, text) => ", \"status\": " + PyStr.IntToString(status) + DetailField(text)
    case RequestFailed(text) => DetailField(text)
    case Unexpected(text) => DetailField(text)
  }

  function DetailField(text: string): string {
    ", \"detail\": " + JsonString(text)
  }

  /** `json.dumps` of an error object: the tag first, then the other fields, keys in insertion order. */
  function ErrorObject(tag: string, fields: string): string {
    "{\"error\": " + JsonString(tag) + fields + "}"
  }

  function ErrorJson(f: StreamFailure): string {
    ErrorObject(ErrorTag(f), ErrorFields(f))
  }

  /** The event `data: <json>` followed by the blank line. */
  function DataEvent(json: string): string {
    DataField + " " + json + EventEnd
  }

  /** The single event yielded when the stream fails. */
  function ErrorEvent(f: StreamFailure): string {
    DataEvent(ErrorJson(f))
  }

  /** What the client receives: the relayed lines, then one error event if the stream failed. */
  function EventStream(lines: seq<string>, failure: Option<StreamFailure>): seq<string> {
    Relay(lines) + (if failure.Some? then [ErrorEvent(failure.value)] else [])
  }

  lemma IntToStringPrintable(n: int)
    ensures Printable(PyStr.IntToString(n))
  {
    var d := PyStr.NatToString(if n < 0 then -n else n);
    if n < 0 {
      PrintableConcat("-", d);
    }
  }

  lemma JsonStringPrintable(s: string)
    ensures Printable(JsonString(s))
  {
    JsonCharsPrintable(s);
    PrintableConcat("\"", JsonChars(s));
    PrintableConcat("\"" + JsonChars(s), "\"");
  }

  lemma DetailFieldPrintable(text: string)
    ensures Printable(DetailField(text))
  {
    JsonStringPrintable(text);
    PrintableConcat(", \"detail\": ", JsonString(text));
  }

  lemma ErrorFieldsPrintable(f: StreamFailure)
    ensures Printable(ErrorFields(f))
  {
    match f
    case TimedOut => DetailFieldPrintable("API request timeout");
    case StatusError(status, text) =>
      var n := PyStr.IntToString(status);
      IntToStringPrintable(status);
      DetailFieldPrintable(text);
      PrintableConcat(", \"status\": ", n);
      PrintableConcat(", \"status\": " + n, DetailField(text));
    case RequestFailed(text) => DetailFieldPrintable(text);
    case Unexpected(text) => DetailFieldPrintable(text);
  }

  lemma ErrorObjectPrintable(tag: string, fields: string)
    requires Printable(fields)
    ensures Printable(ErrorObject(tag, fields))
  {
    JsonStringPrintable(tag);
    PrintableConcat("{\"error\": ", JsonString(tag));
    PrintableConcat("{\"error\": " + JsonString(tag), fields);
    PrintableConcat("{\"error\": " + JsonString(tag) + fields, "}");
  }

  /** The error object is printable ASCII, so it fits on the one `data:` line. */
  lemma ErrorJsonPrintable(f: StreamFailure)
    ensures Printable(ErrorJson(f))
  {
    ErrorFieldsPrintable(f);
    ErrorObjectPrintable(ErrorTag(f), ErrorFields(f));
  }

  /** The tags are plain words, copied into the JSON unchanged. */
  lemma ErrorTagIsPlain(f: StreamFailure)
    ensures JsonString(ErrorTag(f)) == "\"" + ErrorTag(f) + "\""
  {
    match f
    case TimedOut => TimeoutTagPlain();
    case StatusError(_, _) => HttpErrorTagPlain();
    case RequestFailed(_) => RequestErrorTagPlain();
    case Unexpected(_) => UnexpectedErrorTagPlain();
  }

  // One lemma per tag keeps each check of a literal's characters small.
  lemma TimeoutTagPlain()
    ensures JsonChars("timeout") == "timeout"
  {
    JsonCharsPlain("timeout");
  }

  lemma HttpErrorTagPlain()
    ensures JsonChars("http_error") == "http_error"
  {
    JsonCharsPlain("http_error");
  }

  lemma RequestErrorTagPlain()
    ensures JsonChars("request_error") == "request_error"
  {
    JsonCharsPlain("request_error");
  }

  lemma UnexpectedErrorTagPlain()
    ensures JsonChars("unexpected_error") == "unexpected_error"
  {
    JsonCharsPlain("unexpected_error");
  }

  /** The text every error event starts with, `data: {"error": "`, built from its parts. */
  function ErrorLead(): string {
    DataField + " " + "{\"error\": " + "\""
  }

  lemma ErrorLeadText()
    ensures ErrorLead() == "data: {\"error\": \""
  {
  }

  /** An error object whose tag is copied unchanged shows the tag right after `data: {"error": `. */
  lemma ErrorObjectEventStarts(tag: string, fields: string)
    requires JsonString(tag) == "\"" + tag + "\""
    ensures PyStr.StartsWith(DataEvent(ErrorObject(tag, fields)), ErrorLead() + tag + "\"")
  {
    var e := DataEvent(ErrorObject(tag, fields));
    var rest := (fields + "}") + EventEnd;
    ConcatRegroup(DataField + " ", "{\"error\": ", "\"", tag, fields, "}", EventEnd);
    assert e == ErrorLead() + tag + "\"" + rest;
    PyStr.StartsWithConcat(ErrorLead() + tag + "\"", rest);
  }

  /** The regrouping of a data event's parts that puts the quoted tag first. */
  lemma ConcatRegroup(d: string, o: string, q: string, t: string, f: string, c: string, z: string)
    ensures (d + (((o + ((q + t) + q)) + f) + c)) + z == ((((d + o) + q) + t) + q) + ((f + c) + z)
  {
  }

  /** A data event of printable JSON is one line followed by the blank line. */
  lemma DataEventIsOneLine(json: string)
    requires Printable(json)
    ensures var e := DataEvent(json);
      PyStr.EndsWith(e, EventEnd) && Printable(e[..|e| - 2])
  {
    var line := DataField + " " + json;
    var e := line + EventEnd;
    assert e[..|e| - 2] == line;
    assert e[|e| - 2..] == EventEnd;
    PrintableConcat(DataField + " ", json);
  }

  /**
   * The error event is a single `data:` line whose JSON begins with the tag of
   * the failure class, followed by the blank line that ends an event.
   */
  lemma ErrorEventIsOneDataLine(f: StreamFailure)
    ensures PyStr.StartsWith(ErrorEvent(f), ErrorLead() + ErrorTag(f) + "\"")
    ensures PyStr.EndsWith(ErrorEvent(f), EventEnd)
    ensures Printable(ErrorEvent(f)[..|ErrorEvent(f)| - 2])
  {
    ErrorTagIsPlain(f);
    ErrorFieldsPrintable(f);
    ErrorObjectEventStarts(ErrorTag(f), ErrorFields(f));
    ErrorJsonPrintable(f);
    DataEventIsOneLine(ErrorJson(f));
  }

  /**
   * Every event the client receives is a `data:` event ending in a blank
   * line; a failed stream adds exactly one, the error, after everything
   * relayed before the failure.
   */
  lemma EventStreamShape(lines: seq<string>, failure: Option<StreamFailure>)
    ensures var s := EventStream(lines, failure);
      && |s| == |Relay(lines)| + (if failure.Some? then 1 else 0)
      && s[..|Relay(lines)|] == Relay(lines)
      && (failure.Some? ==> s[|s| - 1] == ErrorEvent(failure.value))
      && forall e :: e in s ==> PyStr.StartsWith(e, DataField) && PyStr.EndsWith(e, EventEnd)
  {
    RelayOutputIsData(lines);
    if failure.Some? {
      ErrorEventIsData(failure.value);
    }
  }

  /** The error event is a `data:` event ending in a blank line. */
  lemma ErrorEventIsData(f: StreamFailure)
    ensures PyStr.StartsWith(ErrorEvent(f), DataField) && PyStr.EndsWith(ErrorEvent(f), EventEnd)
  {
    ErrorEventIsOneDataLine(f);
    var e := ErrorEvent(f);
    PyStr.StartsWithFront(e, ErrorLead() + ErrorTag(f), "\"");
    PyStr.StartsWithFront(e, ErrorLead(), ErrorTag(f));
    PyStr.StartsWithFront(e, DataField + " " + "{\"error\": ", "\"");
    PyStr.StartsWithFront(e, DataField + " ", "{\"error\": ");
    PyStr.StartsWithFront(e, DataField, " ");
  }
}

=== FILE: chat_views.dfy ===
/**
 * The chat app's own views: an older sign-up and log-in over the same user
 * and token tables, and the chat-session endpoints, which only ever show a
 * user their own sessions and append messages to them.
 */
module ChatViews {
  import opened Wrappers
  import PyStr
  import A = AuthViews

  // ---------------------------------------------------------------------------
  // Legacy sign-up and log-in
  // ---------------------------------------------------------------------------

  /**
   * The legacy sign-up: the key must be `==` to the configured one, with no
   * `str()` and no trimming, so text never equals a number; the email is not checked, and the user is saved before its token is made,
   * outside any transaction.
   */
  function LegacySignUpOutcome(users: seq<A.User>, tokens: map<nat, string>, req: A.SignUpRequest,
                               expectedKey: A.Scalar, newKey: string): A.Outcome
  {
    if !A.AllPresent(req) then A.Outcome(users, tokens, A.Refuse(400, A.AllRequired))
    else if req.authKey.value != expectedKey then A.Outcome(users, tokens, A.Refuse(403, A.InvalidKey))
    else if A.UsernameTaken(users, req.username.value) then A.Outcome(users, tokens, A.Refuse(400, A.UsernameExists))
    else
      var u := A.User(req.username.value, req.email.value, req.password.value, true);
      var users2 := users + [u];
      var id := |users2|;
      var t := A.GetOrCreateToken(tokens, id, newKey);
      if t.None? then A.Outcome(users2, tokens, A.Response(500, A.ServerError))
      else A.Outcome(users2, t.value,
                     A.Response(201, A.AccountBody(Some(A.SignupSucceeded), t.value[id], id, u.username, None)))
  }

  /** The legacy log-in: whatever `authenticate` accepts gets its token; no field or activity check. */
  function LegacyLoginOutcome(users: seq<A.User>, tokens: map<nat, string>, backend: Option<nat>, newKey: string): A.Outcome
    requires backend.Some? ==> 1 <= backend.value <= |users|
  {
    if backend.None? then A.Outcome(users, tokens, A.Refuse(401, A.InvalidCredentials))
    else
      var id := backend.value;
      var t := A.GetOrCreateToken(tokens, id, newKey);
      if t.None? then A.Outcome(users, tokens, A.Response(500, A.ServerError))
      else A.Outcome(users, t.value, A.Response(200, A.AccountBody(None, t.value[id], id, users[id - 1].username, None)))
  }

  /** `SignUpView.post` of the chat app, on the shared tables. */
  method LegacySignUp(accounts: A.Accounts, req: A.SignUpRequest, expectedKey: A.Scalar, newKey: string)
    returns (resp: A.Response)
    requires accounts.Valid()
    modifies accounts
    ensures accounts.Valid()
    ensures A.Outcome(accounts.users, accounts.tokens, resp) ==
      LegacySignUpOutcome(old(accounts.users), old(accounts.tokens), req, expectedKey, newKey)
  {
    LegacySignUpKeepsStore(accounts.users, accounts.tokens, req, expectedKey, newKey);
    if !A.AllPresent(req) {
      return A.Refuse(400, A.AllRequired);
    }
    if req.authKey.value != expectedKey {
      return A.Refuse(403, A.InvalidKey);
    }
    if A.UsernameTaken(accounts.users, req.username.value) {
      return A.Refuse(400, A.UsernameExists);
    }
    var user := A.User(req.username.value, req.email.value, req.password.value, true);
    accounts.users := accounts.users + [user];
    var id := |accounts.users|;
    if id !in accounts.tokens {
      if newKey in accounts.tokens.Values {
        // The user row is already saved; the integrity error escapes the view.
        return A.Response(500, A.ServerError);
      }
      accounts.tokens := accounts.tokens[id := newKey];
    }
    resp := A.Response(201, A.AccountBody(Some(A.SignupSucceeded), accounts.tokens[id], id, user.username, None));
  }

  /** `LoginView.post` of the chat app. */
  method LegacyLogin(accounts: A.Accounts, backend: Option<nat>, newKey: string) returns (resp: A.Response)
    requires accounts.Valid()
    requires backend.Some? ==> 1 <= backend.value <= |accounts.users|
    modifies accounts
    ensures accounts.Valid()
    ensures A.Outcome(accounts.users, accounts.tokens, resp) ==
      LegacyLoginOutcome(old(accounts.users), old(accounts.tokens), backend, newKey)
  {
    LegacyLoginKeepsStore(accounts.users, accounts.tokens, backend, newKey);
    if backend.None? {
      return A.Refuse(401, A.InvalidCredentials);
    }
    var id := backend.value;
    if id !in accounts.tokens {
      if newKey in accounts.tokens.Values {
        return A.Response(500, A.ServerError);
      }
      accounts.tokens := accounts.tokens[id := newKey];
    }
    resp := A.Response(200, A.AccountBody(None, accounts.tokens[id], id, accounts.users[id - 1].username, None));
  }

  // ---------------------------------------------------------------------------
  // Sessions and messages
  // ---------------------------------------------------------------------------

  /** A chat session row; its primary key is its position plus one. */
  datatype Session = Session(owner: nat, agentId: string, title: string, updatedAt: int)

  /** A chat message row, pointing at its session's primary key. */
  datatype Message = Message(session: nat, role: string, content: string)

  /** The fields of a posted message; either may be absent. */
  datatype MessageRequest = MessageRequest(role: Option<string>, content: Option<string>)

  datatype ChatResponse =
    | Created(id: nat, role: string, content: string)
    | Invalid        // 400 with the serializer's errors
    | NotFound       // 404: no such session among the requester's own

  function Status(r: ChatResponse): nat {
    match r
    case Created(_, _, _) => 201
    case Invalid => 400
    case NotFound => 404
  }

  const Roles: set<string> := {"user", "assistant", "system"}

  /**
   * The message serializer's verdict: the role is one of the three choices,
   * and the content, once stripped of surrounding whitespace, is not blank
   * and holds no NUL character (the check every serializer text field runs).
   */
  predicate MessageValid(req: MessageRequest) {
    && req.role.Some? && req.role.value in Roles
    && req.content.Some? && PyStr.Strip(req.content.value) != "" && '\0' !in req.content.value
  }

  /** The primary keys of the sessions `user` owns, in table order: the scoped filter alone. */
  function OwnedIds(sessions: seq<Session>, user: nat): (ids: seq<nat>)
    ensures forall k :: 0 <= k < |ids| ==> 1 <= ids[k] <= |sessions| && sessions[ids[k] - 1].owner == user
    decreases |sessions|
  {
    if sessions == [] then []
    else
      var n := |sessions|;
      var front := OwnedIds(sessions[..n - 1], user);
      if sessions[n - 1].owner == user then front + [n] else front
  }

  /** Every key in `ids` names a row of the table. */
  predicate InTable(sessions: seq<Session>, ids: seq<nat>) {
    forall k :: 0 <= k < |ids| ==> 1 <= ids[k] <= |sessions|
  }

  /**
   * The session order `ordering = ['-updated_at']` asks for: the later update
   * first. The database leaves equal update times in no particular order; the
   * model puts the lower key first.
   */
  predicate Before(sessions: seq<Session>, a: nat, b: nat)
    requires 1 <= a <= |sessions| && 1 <= b <= |sessions|
  {
    var ta := sessions[a - 1].updatedAt;
    var tb := sessions[b - 1].updatedAt;
    ta > tb || (ta == tb && a < b)
  }

  /** Each key in `ids` comes before every key after it. */
  predicate NewestFirst(sessions: seq<Session>, ids: seq<nat>)
    requires InTable(sessions, ids)
  {
    forall k, l :: 0 <= k < l < |ids| ==> Before(sessions, ids[k], ids[l])
  }

  /** `id` put into `ids` ahead of the first key it comes before. */
  function Insert(sessions: seq<Session>, id: nat, ids: seq<nat>): (r: seq<nat>)
    requires 1 <= id <= |sessions| && InTable(sessions, ids)
    ensures |r| == |ids| + 1
    ensures forall x :: x in r <==> x == id || x in ids
    ensures InTable(sessions, r)
  {
    if ids == [] then [id]
    else if Before(sessions, id, ids[0]) then [id] + ids
    else
      var rest := Insert(sessions, id, ids[1..]);
      assert ids == [ids[0]] + ids[1..];
      assert forall k :: 0 < k < |rest| + 1 ==> ([ids[0]] + rest)[k] == rest[k - 1];
      [ids[0]] + rest
  }

  /** The database's `ORDER BY updated_at DESC` over `ids`. */
  function SortNewestFirst(sessions: seq<Session>, ids: seq<nat>): (r: seq<nat>)
    requires InTable(sessions, ids)
    ensures |r| == |ids|
    ensures forall x :: x in r <==> x in ids
    ensures InTable(sessions, r)
  {
    if ids == [] then []
    else
      assert ids == [ids[0]] + ids[1..];
      Insert(sessions, ids[0], SortNewestFirst(sessions, ids[1..]))
  }

  /**
   * `get_queryset` under the model's `Meta.ordering`: the primary keys of
   * the sessions `user` owns, most recently updated first.
   */
  function SessionsOf(sessions: seq<Session>, user: nat): (ids: seq<nat>)
    ensures forall k :: 0 <= k < |ids| ==> 1 <= ids[k] <= |sessions| && sessions[ids[k] - 1].owner == user
  {
    var owned := OwnedIds(sessions, user);
    var r := SortNewestFirst(sessions, owned);
    assert forall k :: 0 <= k < |r| ==> r[k] in owned;
    r
  }
  /** `get_object()` through the scoped query set. */
  predicate Visible(sessions: seq<Session>, user: nat, id: nat) {
    1 <= id <= |sessions| && sessions[id - 1].owner == user
  }

  datatype ChatOutcome = ChatOutcome(sessions: seq<Session>, messages: seq<Message>, response: ChatResponse)

  /**
   * `messages` on session `id` for `user` at time `now`: the scoped lookup,
   * then validation, then the new message and the session's new update time.
   */
  function PostMessageOutcome(sessions: seq<Session>, messages: seq<Message>, user: nat, id: nat,
                              req: MessageRequest, now: int): ChatOutcome
  {
    if !Visible(sessions, user, id) then ChatOutcome(sessions, messages, NotFound)
    else if !MessageValid(req) then ChatOutcome(sessions, messages, Invalid)
    else
      var m := Message(id, req.role.value, PyStr.Strip(req.content.value));
      var s := sessions[id - 1];
      ChatOutcome(sessions[id - 1 := s.(updatedAt := now)], messages + [m],
                  Created(|messages| + 1, m.role, m.content))
  }

  class ChatStore {
    var sessions: seq<Session>
    var messages: seq<Message>

    ghost predicate Valid()
      reads this
    {
      forall k :: 0 <= k < |messages| ==> 1 <= messages[k].session <= |sessions|
    }

    constructor ()
      ensures Valid() && sessions == [] && messages == []
    {
      sessions := [];
      messages := [];
    }

    /** `ChatSessionViewSet.messages`. */
    method PostMessage(user: nat, id: nat, req: MessageRequest, now: int) returns (resp: ChatResponse)
      requires Valid()
      modifies this
      ensures Valid()
      ensures ChatOutcome(sessions, messages, resp) == PostMessageOutcome(old(sessions), old(messages), user, id, req, now)
    {
      if !Visible(sessions, user, id) {
        return NotFound;
      }
      if !MessageValid(req) {
        return Invalid;
      }
      var m := Message(id, req.role.value, PyStr.Strip(req.content.value));
      messages := messages + [m];
      var s := sessions[id - 1];
      sessions := sessions[id - 1 := s.(updatedAt := now)];
      resp := Created(|messages|, m.role, m.content);
    }
  }

  // ---------------------------------------------------------------------------
  // Properties
  // ---------------------------------------------------------------------------

  /** The legacy check order: missing field (400), key (403), taken username (400). */
  lemma LegacySignUpCheckOrder(users: seq<A.User>, tokens: map<nat, string>, req: A.SignUpRequest,
                               expectedKey: A.Scalar, newKey: string)
    ensures var o := LegacySignUpOutcome(users, tokens, req, expectedKey, newKey);
      && (!A.AllPresent(req) ==> o == A.Outcome(users, tokens, A.Refuse(400, A.AllRequired)))
      && (A.AllPresent(req) && req.authKey.value != expectedKey ==>
            o == A.Outcome(users, tokens, A.Refuse(403, A.InvalidKey)))
      && (A.AllPresent(req) && req.authKey.value == expectedKey && A.UsernameTaken(users, req.username.value) ==>
            o == A.Outcome(users, tokens, A.Refuse(400, A.UsernameExists)))
  {
  }

  /**
   * The legacy key check is exact: a padded key that the newer view accepts
   * is refused here.
   */
  lemma LegacyKeyIsExact(users: seq<A.User>, tokens: map<nat, string>, req: A.SignUpRequest,
                         key: string, newKey: string)
    requires A.AllPresent(req) && req.authKey == Some(A.Text(" " + key))
    requires key == [] || (!PyStr.IsPyWhitespace(key[0]) && !PyStr.IsPyWhitespace(key[|key| - 1]))
    ensures LegacySignUpOutcome(users, tokens, req, A.Text(key), newKey).response == A.Refuse(403, A.InvalidKey)
    ensures A.KeyMatches(req.authKey.value, A.Text(key))
  {
    var padded := " " + key;
    assert padded != key by { assert |padded| != |key|; }
    LegacySignUpCheckOrder(users, tokens, req, A.Text(key), newKey);
    A.KeyMatchIgnoresPadding(" ", key, "", "", "");
    assert " " + key + "" == padded && "" + key + "" == key;
  }

  /**
   * The legacy key check keeps the key's type: a number and the text that
   * spells it, either one sent and the other configured, are refused with
   * 403, while the newer view, which compares `str()` of both, lets them
   * past its key check.
   */
  lemma LegacyKeyKeepsType(users: seq<A.User>, tokens: map<nat, string>, req: A.SignUpRequest, n: int, newKey: string)
    requires A.AllPresent(req)
    requires req.authKey == Some(A.Text(PyStr.IntToString(n))) || req.authKey == Some(A.Int(n))
    ensures var configured := if req.authKey.value.Int? then A.Text(PyStr.IntToString(n)) else A.Int(n);
      && LegacySignUpOutcome(users, tokens, req, configured, newKey).response == A.Refuse(403, A.InvalidKey)
      && A.KeyMatches(req.authKey.value, configured)
      && A.SignUpRefusal(users, req, configured) != Some(A.Refuse(403, A.InvalidKey))
  {
    var configured := if req.authKey.value.Int? then A.Text(PyStr.IntToString(n)) else A.Int(n);
    assert LegacySignUpOutcome(users, tokens, req, configured, newKey).response == A.Refuse(403, A.InvalidKey) by {
      assert req.authKey.value != configured;
      LegacySignUpCheckOrder(users, tokens, req, configured, newKey);
    }
    assert A.KeyMatches(req.authKey.value, configured) by {
      A.NumberKeyMatchesItsText(n, "", "");
      assert "" + PyStr.IntToString(n) + "" == PyStr.IntToString(n);
    }
    A.SignUpCheckOrder(users, req, configured);
  }

  /**
   * The legacy view does not look at emails: once the key and username pass,
   * an email already in use gets a second account, and emails stop being unique.
   */
  lemma LegacyAllowsSharedEmail(users: seq<A.User>, tokens: map<nat, string>, req: A.SignUpRequest,
                                expectedKey: A.Scalar, newKey: string)
    requires A.StoreOk(users, tokens)
    requires A.AllPresent(req) && req.authKey.value == expectedKey && !A.UsernameTaken(users, req.username.value)
    requires A.EmailTaken(users, req.email.value) && newKey !in tokens.Values
    ensures var o := LegacySignUpOutcome(users, tokens, req, expectedKey, newKey);
      o.response.status == 201 && !A.EmailsUnique(o.users)
  {
    var i :| 0 <= i < |users| && users[i].email == req.email.value;
    var o := LegacySignUpOutcome(users, tokens, req, expectedKey, newKey);
    assert |users| + 1 !in tokens;
    assert o.users[i] == users[i] && o.users[|users|].email == req.email.value;
  }

  /**
   * A successful legacy sign-up adds one active user with one token, and its
   * response carries no email; a key collision keeps the new user without a
   * token, since nothing is rolled back.
   */
  lemma LegacySignUpEffects(users: seq<A.User>, tokens: map<nat, string>, req: A.SignUpRequest,
                            expectedKey: A.Scalar, newKey: string)
    requires A.StoreOk(users, tokens)
    requires A.AllPresent(req) && req.authKey.value == expectedKey && !A.UsernameTaken(users, req.username.value)
    ensures var o := LegacySignUpOutcome(users, tokens, req, expectedKey, newKey);
      var id := |users| + 1;
      && o.users == users + [A.User(req.username.value, req.email.value, req.password.value, true)]
      && (newKey !in tokens.Values ==>
            o.tokens == tokens[id := newKey] &&
            o.response == A.Response(201, A.AccountBody(Some(A.SignupSucceeded), newKey, id, req.username.value, None)))
      && (newKey in tokens.Values ==> o.tokens == tokens && id !in o.tokens && o.response.status == 500)
  {
    assert |users| + 1 !in tokens;
  }

  /** Legacy sign-up keeps the tables' guarantees. */
  lemma LegacySignUpKeepsStore(users: seq<A.User>, tokens: map<nat, string>, req: A.SignUpRequest,
                               expectedKey: A.Scalar, newKey: string)
    requires A.StoreOk(users, tokens)
    ensures var o := LegacySignUpOutcome(users, tokens, req, expectedKey, newKey);
      A.StoreOk(o.users, o.tokens)
  {
    if A.AllPresent(req) && req.authKey.value == expectedKey && !A.UsernameTaken(users, req.username.value) {
      var u := A.User(req.username.value, req.email.value, req.password.value, true);
      var id := |users| + 1;
      A.AppendKeepsUnique(users, u);
      if newKey !in tokens.Values {
        A.AddTokenKeepsUnique(tokens, id, newKey);
      }
    }
  }

  /** Legacy log-in: 401 without a user, otherwise the user's one stable token. */
  lemma LegacyLoginTokenIsStable(users: seq<A.User>, tokens: map<nat, string>, backend: Option<nat>,
                                 newKey: string, laterKey: string)
    requires backend.Some? ==> 1 <= backend.value <= |users|
    ensures backend.None? ==> LegacyLoginOutcome(users, tokens, backend, newKey).response == A.Refuse(401, A.InvalidCredentials)
    ensures var o := LegacyLoginOutcome(users, tokens, backend, newKey);
      o.response.status == 200 ==>
        && o.response.body.token == o.tokens[backend.value]
        && (backend.value in tokens ==> o.tokens == tokens)
        && LegacyLoginOutcome(o.users, o.tokens, backend, laterKey) == o
  {
  }

  /** Legacy log-in keeps the tables' guarantees and never touches the user table. */
  lemma LegacyLoginKeepsStore(users: seq<A.User>, tokens: map<nat, string>, backend: Option<nat>, newKey: string)
    requires A.StoreOk(users, tokens)
    requires backend.Some? ==> 1 <= backend.value <= |users|
    ensures var o := LegacyLoginOutcome(users, tokens, backend, newKey);
      A.StoreOk(o.users, o.tokens) && o.users == users
  {
    if backend.Some? && backend.value !in tokens && newKey !in tokens.Values {
      A.AddTokenKeepsUnique(tokens, backend.value, newKey);
    }
  }

  /**
   * The scoped listing holds exactly the user's sessions, each once, most
   * recently updated first.
   */
  lemma SessionsOfComplete(sessions: seq<Session>, user: nat)
    ensures forall id :: id in SessionsOf(sessions, user) <==> Visible(sessions, user, id)
    ensures Distinct(SessionsOf(sessions, user))
    ensures NewestFirst(sessions, SessionsOf(sessions, user))
  {
    var owned := OwnedIds(sessions, user);
    var r := SessionsOf(sessions, user);
    OwnedIdsListsAll(sessions, user);
    OwnedIdsAscending(sessions, user);
    SortIsNewestFirst(sessions, owned);
    forall id | Visible(sessions, user, id)
      ensures id in r
    {
      assert id in owned;
    }
  }

  /** No key appears twice. */
  predicate Distinct(ids: seq<nat>) {
    forall k, l :: 0 <= k < l < |ids| ==> ids[k] != ids[l]
  }

  /** Every session `user` owns has its key in `ids`. */
  predicate ListsAll(sessions: seq<Session>, user: nat, ids: seq<nat>) {
    forall i :: 0 <= i < |sessions| && sessions[i].owner == user ==> i + 1 in ids
  }

  lemma {:induction false} OwnedIdsListsAll(sessions: seq<Session>, user: nat)
    ensures ListsAll(sessions, user, OwnedIds(sessions, user))
    decreases |sessions|
  {
    if sessions != [] {
      var n := |sessions|;
      var init := sessions[..n - 1];
      OwnedIdsListsAll(init, user);
      var front := OwnedIds(init, user);
      var ids := OwnedIds(sessions, user);
      assert front <= ids;
      forall i | 0 <= i < n && sessions[i].owner == user
        ensures i + 1 in ids
      {
        if i < n - 1 {
          assert init[i].owner == user;
          assert i + 1 in front;
        } else {
          assert ids == front + [n];
        }
      }
    }
  }

  predicate Ascending(ids: seq<nat>) {
    forall k, l :: 0 <= k < l < |ids| ==> ids[k] < ids[l]
  }

  lemma {:induction false} OwnedIdsAscending(sessions: seq<Session>, user: nat)
    ensures Ascending(OwnedIds(sessions, user))
    decreases |sessions|
  {
    if sessions != [] {
      var n := |sessions|;
      var init := sessions[..n - 1];
      OwnedIdsAscending(init, user);
      var front := OwnedIds(init, user);
      var ids := OwnedIds(sessions, user);
      if sessions[n - 1].owner == user {
        assert ids == front + [n];
        forall k, l | 0 <= k < l < |ids|
          ensures ids[k] < ids[l]
        {
          assert ids[k] == front[k] && front[k] <= n - 1;
          if l < |front| {
            assert ids[l] == front[l];
            assert front[k] < front[l];
          } else {
            assert ids[l] == n;
          }
        }
      } else {
        assert ids == front;
      }
    }
  }

  /** Inserting a new key into a newest-first list keeps it newest first. */
  lemma {:induction false} InsertKeepsOrder(sessions: seq<Session>, id: nat, ids: seq<nat>)
    requires 1 <= id <= |sessions| && InTable(sessions, ids)
    requires NewestFirst(sessions, ids) && id !in ids
    ensures NewestFirst(sessions, Insert(sessions, id, ids))
    decreases |ids|
  {
    if ids == [] {
    } else if Before(sessions, id, ids[0]) {
      InsertAtHead(sessions, id, ids);
    } else {
      InsertKeepsOrder(sessions, id, ids[1..]);
      InsertBehindHead(sessions, id, ids);
    }
  }

  lemma InsertAtHead(sessions: seq<Session>, id: nat, ids: seq<nat>)
    requires 1 <= id <= |sessions| && InTable(sessions, ids) && ids != []
    requires NewestFirst(sessions, ids) && Before(sessions, id, ids[0])
    ensures NewestFirst(sessions, [id] + ids)
  {
    var r := [id] + ids;
    forall k, l | 0 <= k < l < |r|
      ensures Before(sessions, r[k], r[l])
    {
      assert r[l] == ids[l - 1];
      if k > 0 {
        assert r[k] == ids[k - 1];
      } else if l > 1 {
        assert Before(sessions, ids[0], ids[l - 1]);
      }
    }
  }

  lemma InsertBehindHead(sessions: seq<Session>, id: nat, ids: seq<nat>)
    requires 1 <= id <= |sessions| && InTable(sessions, ids) && ids != []
    requires NewestFirst(sessions, ids) && id !in ids && !Before(sessions, id, ids[0])
    requires NewestFirst(sessions, Insert(sessions, id, ids[1..]))
    ensures NewestFirst(sessions, Insert(sessions, id, ids))
  {
    var ins := Insert(sessions, id, ids[1..]);
    HeadBeforeRest(sessions, id, ids);
    PrependKeepsOrder(sessions, ids[0], ins);
  }

  /** The head of a newest-first list comes before the key inserted behind it and the rest. */
  lemma HeadBeforeRest(sessions: seq<Session>, id: nat, ids: seq<nat>)
    requires 1 <= id <= |sessions| && InTable(sessions, ids) && ids != []
    requires NewestFirst(sessions, ids) && id !in ids && !Before(sessions, id, ids[0])
    ensures forall x :: x in Insert(sessions, id, ids[1..]) ==> Before(sessions, ids[0], x)
  {
    var rest := ids[1..];
    forall x | x in rest
      ensures Before(sessions, ids[0], x)
    {
      var j :| 0 <= j < |rest| && rest[j] == x;
      assert ids[j + 1] == x;
    }
  }

  lemma PrependKeepsOrder(sessions: seq<Session>, head: nat, ids: seq<nat>)
    requires 1 <= head <= |sessions| && InTable(sessions, ids)
    requires NewestFirst(sessions, ids) && forall x :: x in ids ==> Before(sessions, head, x)
    ensures NewestFirst(sessions, [head] + ids)
  {
    var r := [head] + ids;
    forall k, l | 0 <= k < l < |r|
      ensures Before(sessions, r[k], r[l])
    {
      assert r[l] == ids[l - 1];
      if k > 0 {
        assert r[k] == ids[k - 1];
      }
    }
  }

  /** Sorting keys that are all different gives them newest first. */
  lemma {:induction false} SortIsNewestFirst(sessions: seq<Session>, ids: seq<nat>)
    requires InTable(sessions, ids) && Ascending(ids)
    ensures NewestFirst(sessions, SortNewestFirst(sessions, ids))
    decreases |ids|
  {
    if ids != [] {
      var rest := ids[1..];
      assert Ascending(rest);
      SortIsNewestFirst(sessions, rest);
      var s := SortNewestFirst(sessions, rest);
      assert ids[0] !in rest;
      InsertKeepsOrder(sessions, ids[0], s);
    }
  }

  /** The sort looks at the update times of the keys it is given and at nothing else. */
  lemma {:induction false} SortReadsListedTimes(s: seq<Session>, t: seq<Session>, ids: seq<nat>)
    requires |s| == |t| && InTable(s, ids) && SameTimes(s, t, ids)
    ensures SortNewestFirst(s, ids) == SortNewestFirst(t, ids)
    decreases |ids|
  {
    if ids != [] {
      var rest := ids[1..];
      assert SameTimes(s, t, rest) by {
        forall x | x in rest
          ensures x in ids
        {
        }
      }
      SortReadsListedTimes(s, t, rest);
      var sorted := SortNewestFirst(s, rest);
      assert ids[0] in ids;
      assert SameTimes(s, t, sorted) by {
        forall x | x in sorted
          ensures x in ids
        {
          assert x in rest;
        }
      }
      InsertReadsListedTimes(s, t, ids[0], sorted);
    }
  }

  /** `s` and `t` agree on the update times of the sessions `ids` names. */
  predicate SameTimes(s: seq<Session>, t: seq<Session>, ids: seq<nat>) {
    forall x :: x in ids ==> 1 <= x <= |s| && 1 <= x <= |t| && s[x - 1].updatedAt == t[x - 1].updatedAt
  }

  lemma {:induction false} InsertReadsListedTimes(s: seq<Session>, t: seq<Session>, id: nat, ids: seq<nat>)
    requires |s| == |t| && 1 <= id <= |s| && InTable(s, ids)
    requires s[id - 1].updatedAt == t[id - 1].updatedAt && SameTimes(s, t, ids)
    ensures Insert(s, id, ids) == Insert(t, id, ids)
    decreases |ids|
  {
    if ids != [] {
      assert SameTimes(s, t, ids[1..]) by {
        forall x | x in ids[1..]
          ensures x in ids
        {
        }
      }
      assert ids[0] in ids;
      InsertReadsListedTimes(s, t, id, ids[1..]);
    }
  }

  /** Posting to a session that is missing or someone else's is a 404 and stores nothing. */
  lemma ForeignSessionIsNotFound(sessions: seq<Session>, messages: seq<Message>, user: nat, id: nat,
                                 req: MessageRequest, now: int)
    requires !Visible(sessions, user, id)
    ensures PostMessageOutcome(sessions, messages, user, id, req, now) == ChatOutcome(sessions, messages, NotFound)
  {
  }

  /** An invalid payload on one's own session is a 400 and stores nothing. */
  lemma InvalidMessageStoresNothing(sessions: seq<Session>, messages: seq<Message>, user: nat, id: nat,
                                    req: MessageRequest, now: int)
    requires Visible(sessions, user, id) && !MessageValid(req)
    ensures PostMessageOutcome(sessions, messages, user, id, req, now) == ChatOutcome(sessions, messages, Invalid)
  {
  }

  /**
   * A valid message on one's own session appends exactly one message to the
   * end, and changes only that session's update time.
   */
  lemma PostMessageAppendsOne(sessions: seq<Session>, messages: seq<Message>, user: nat, id: nat,
                              req: MessageRequest, now: int)
    ensures var o := PostMessageOutcome(sessions, messages, user, id, req, now);
      && (Status(o.response) == 201 <==> Visible(sessions, user, id) && MessageValid(req))
      && (Status(o.response) == 201 ==>
            && |o.messages| == |messages| + 1
            && o.messages[..|messages|] == messages
            && o.messages[|messages|] == Message(id, req.role.value, PyStr.Strip(req.content.value))
            && |o.sessions| == |sessions|
            && o.sessions[id - 1] == sessions[id - 1].(updatedAt := now)
            && (forall k :: 0 <= k < |sessions| && k != id - 1 ==> o.sessions[k] == sessions[k]))
      && (Status(o.response) != 201 ==> o.messages == messages && o.sessions == sessions)
  {
    var o := PostMessageOutcome(sessions, messages, user, id, req, now);
    if Status(o.response) == 201 {
      assert o.messages[..|messages|] == messages;
    }
  }

  /**
   * No request changes who owns a session: after a post every user's
   * listing holds the same sessions, and every listing but the poster's is
   * exactly the same.
   */
  lemma PostMessageKeepsOwnership(sessions: seq<Session>, messages: seq<Message>, user: nat, id: nat,
                                  req: MessageRequest, now: int, anyone: nat)
    ensures var o := PostMessageOutcome(sessions, messages, user, id, req, now);
      && (forall s :: s in SessionsOf(o.sessions, anyone) <==> s in SessionsOf(sessions, anyone))
      && (anyone != user ==> SessionsOf(o.sessions, anyone) == SessionsOf(sessions, anyone))
  {
    if Visible(sessions, user, id) && MessageValid(req) {
      var t := PostMessageOutcome(sessions, messages, user, id, req, now).sessions;
      assert t == Touch(sessions, id, now);
      TouchKeepsListing(sessions, id, now, anyone);
    }
  }

  /**
   * A post saves its session with the current time, so when that time is
   * later than the last update of each of the user's other sessions, the
   * session heads the user's listing.
   */
  lemma PostedSessionComesFirst(sessions: seq<Session>, messages: seq<Message>, user: nat, id: nat,
                                req: MessageRequest, now: int)
    requires Visible(sessions, user, id) && MessageValid(req)
    requires forall k :: 0 <= k < |sessions| && k != id - 1 && sessions[k].owner == user ==> sessions[k].updatedAt < now
    ensures var o := PostMessageOutcome(sessions, messages, user, id, req, now);
      |SessionsOf(o.sessions, user)| > 0 && SessionsOf(o.sessions, user)[0] == id
  {
    var t := PostMessageOutcome(sessions, messages, user, id, req, now).sessions;
    assert t == Touch(sessions, id, now);
    TouchedSessionComesFirst(sessions, id, now);
  }

  /** The session table once session `id` is saved at time `now`. */
  function Touch(sessions: seq<Session>, id: nat, now: int): (t: seq<Session>)
    requires 1 <= id <= |sessions|
    ensures |t| == |sessions| && t[id - 1] == sessions[id - 1].(updatedAt := now)
    ensures forall k :: 0 <= k < |sessions| && k != id - 1 ==> t[k] == sessions[k]
  {
    sessions[id - 1 := sessions[id - 1].(updatedAt := now)]
  }

  lemma TouchKeepsListing(sessions: seq<Session>, id: nat, now: int, anyone: nat)
    requires 1 <= id <= |sessions|
    ensures forall s :: s in SessionsOf(Touch(sessions, id, now), anyone) <==> s in SessionsOf(sessions, anyone)
    ensures anyone != sessions[id - 1].owner ==> SessionsOf(Touch(sessions, id, now), anyone) == SessionsOf(sessions, anyone)
  {
    var t := Touch(sessions, id, now);
    SessionsOfComplete(sessions, anyone);
    SessionsOfComplete(t, anyone);
    SameOwnersSameOwnedIds(sessions, t, anyone);
    if anyone != sessions[id - 1].owner {
      SortReadsListedTimes(sessions, t, OwnedIds(sessions, anyone));
    }
  }

  lemma TouchedSessionComesFirst(sessions: seq<Session>, id: nat, now: int)
    requires 1 <= id <= |sessions|
    requires forall k :: 0 <= k < |sessions| && k != id - 1 && sessions[k].owner == sessions[id - 1].owner ==>
      sessions[k].updatedAt < now
    ensures var r := SessionsOf(Touch(sessions, id, now), sessions[id - 1].owner);
      |r| > 0 && r[0] == id
  {
    var t := Touch(sessions, id, now);
    var user := sessions[id - 1].owner;
    SessionsOfComplete(t, user);
    var r := SessionsOf(t, user);
    assert id in r;
  }

  /** The scoped filter looks only at owners. */
  lemma {:induction false} SameOwnersSameOwnedIds(s: seq<Session>, t: seq<Session>, user: nat)
    requires |s| == |t| && forall k :: 0 <= k < |s| ==> s[k].owner == t[k].owner
    ensures OwnedIds(s, user) == OwnedIds(t, user)
    decreases |s|
  {
    if s != [] {
      SameOwnersSameOwnedIds(s[..|s| - 1], t[..|t| - 1], user);
    }
  }
}

=== FILE: common.dfy ===
/** Failure-carrying values used by every module of the model. */
module Wrappers {

  datatype Option<+T> = None | Some(value: T)

  datatype Result<+R, +E> = Success(value: R) | Failure(error: E)
}

/** Unsigned 8-bit values: pixel channels, file bytes, `uint8` array cells. */
module Octets {
  type Byte = x: int | 0 <= x < 256
}

/**
 * The string operations of Python and JavaScript that the modelled code
 * relies on, written over `seq<char>`.
 */
module PyStr {
  import opened Wrappers

  /** A digit of `int(t, 16)`: either case. */
  predicate IsHexDigit(c: char) {
    ('0' <= c <= '9') || ('a' <= c <= 'f') || ('A' <= c <= 'F')
  }

  function HexDigitValue(c: char): (v: nat)
    requires IsHexDigit(c)
    ensures v < 16
  {
    if '0' <= c <= '9' then c as int - '0' as int
    else if 'a' <= c <= 'f' then c as int - 'a' as int + 10
    else c as int - 'A' as int + 10
  }

  /** Python's `sub in s`. */
  predicate Contains(s: string, sub: string)
    decreases |s|
  {
    StartsWith(s, sub) || (s != [] && Contains(s[1..], sub))
  }

  predicate StartsWith(s: string, prefix: string) {
    |prefix| <= |s| && s[..|prefix|] == prefix
  }

  /** Finding `a + b` inside `s` finds `a` there too. */
  lemma {:induction false} ContainsPrefixOfPattern(s: string, a: string, b: string)
    requires Contains(s, a + b)
    ensures Contains(s, a)
    decreases |s|
  {
    if StartsWith(s, a + b) {
      assert s[..|a|] == (a + b)[..|a|] == a;
    } else {
      ContainsPrefixOfPattern(s[1..], a, b);
    }
  }

  /** A text starting with `a + b` starts with `a`. */
  lemma StartsWithFront(s: string, a: string, b: string)
    requires StartsWith(s, a + b)
    ensures StartsWith(s, a)
  {
    assert s[..|a|] == (a + b)[..|a|];
  }

  lemma StartsWithConcat(a: string, b: string)
    ensures StartsWith(a + b, a)
  {
    assert (a + b)[..|a|] == a;
  }

  predicate EndsWith(s: string, suffix: string) {
    |suffix| <= |s| && s[|s| - |suffix|..] == suffix
  }

  /** The characters for which Python's `str.isspace()` holds. */
  predicate IsPyWhitespace(c: char) {
    c == ' ' || ('\t' <= c <= '\r') || ('\U{1C}' <= c <= '\U{1F}') || c == '\U{85}' ||
    c == '\U{A0}' || c == '\U{1680}' || ('\U{2000}' <= c <= '\U{200A}') ||
    c == '\U{2028}' || c == '\U{2029}' || c == '\U{202F}' || c == '\U{205F}' || c == '\U{3000}'
  }

  /**
   * Python's `str.lower()` on one character, for the ASCII letters and the
   * Kelvin sign (U+212A), the one non-ASCII character whose lower case is an
   * ASCII letter.
   */
  function LowerChar(c: char): char {
    if 'A' <= c <= 'Z' then (c as int + 32) as char
    else if c == '\U{212A}' then 'k'
    else c
  }

  function Lower(s: string): (r: string)
    ensures |r| == |s|
    ensures forall i :: 0 <= i < |s| ==> r[i] == LowerChar(s[i])
  {
    if s == [] then [] else [LowerChar(s[0])] + Lower(s[1..])
  }

  /** Python's `str.upper()` on one ASCII character. */
  function UpperChar(c: char): char {
    if 'a' <= c <= 'z' then (c as int - 32) as char else c
  }

  function Upper(s: string): (r: string)
    ensures |r| == |s|
    ensures forall i :: 0 <= i < |s| ==> r[i] == UpperChar(s[i])
  {
    if s == [] then [] else [UpperChar(s[0])] + Upper(s[1..])
  }

  /** Python's `s.lstrip(c)` for a single character `c`. */
  function LStripChar(s: string, c: char): (r: string)
    ensures |r| <= |s| && r == s[|s| - |r|..]
    ensures r == [] || r[0] != c
    ensures forall i :: 0 <= i < |s| - |r| ==> s[i] == c
  {
    if s != [] && s[0] == c then LStripChar(s[1..], c) else s
  }

  function DropLeadingWhitespace(s: string): (r: string)
    ensures |r| <= |s| && r == s[|s| - |r|..]
    ensures r == [] || !IsPyWhitespace(r[0])
    ensures forall i :: 0 <= i < |s| - |r| ==> IsPyWhitespace(s[i])
  {
    if s != [] && IsPyWhitespace(s[0]) then DropLeadingWhitespace(s[1..]) else s
  }

  function DropTrailingWhitespace(s: string): (r: string)
    ensures |r| <= |s| && r == s[..|r|]
    ensures r == [] || !IsPyWhitespace(r[|r| - 1])
    ensures forall i :: |r| <= i < |s| ==> IsPyWhitespace(s[i])
  {
    if s != [] && IsPyWhitespace(s[|s| - 1]) then DropTrailingWhitespace(s[..|s| - 1]) else s
  }

  /** Python's `str.strip()` with no argument. */
  function Strip(s: string): string {
    DropTrailingWhitespace(DropLeadingWhitespace(s))
  }

  /** The longest prefix of `s` holding no whitespace. */
  function TakeWord(s: string): (r: string)
    ensures |r| <= |s| && r == s[..|r|]
    ensures forall i :: 0 <= i < |r| ==> !IsPyWhitespace(r[i])
    ensures |r| < |s| ==> IsPyWhitespace(s[|r|])
  {
    if s == [] || IsPyWhitespace(s[0]) then [] else [s[0]] + TakeWord(s[1..])
  }

  predicate NoWhitespace(s: string) {
    forall i :: 0 <= i < |s| ==> !IsPyWhitespace(s[i])
  }

  /**
   * Python's `str.split()` with no argument: the maximal runs of
   * non-whitespace characters, in order.
   */
  function SplitWhitespace(s: string): (r: seq<string>)
    ensures forall k :: 0 <= k < |r| ==> r[k] != [] && NoWhitespace(r[k])
    decreases |s|
  {
    var t := DropLeadingWhitespace(s);
    if t == [] then []
    else
      var w := TakeWord(t);
      // `t` starts with a non-whitespace character, so the word is not empty.
      assert |w| > 0;
      assert NoWhitespace(w);
      var rest := SplitWhitespace(t[|w|..]);
      WordsCons(w, rest);
      [w] + rest
  }

  /** A non-empty word without whitespace in front of a list of such words is a list of such words. */
  lemma WordsCons(w: string, rest: seq<string>)
    requires w != [] && NoWhitespace(w)
    requires forall k :: 0 <= k < |rest| ==> rest[k] != [] && NoWhitespace(rest[k])
    ensures forall k :: 0 <= k < |[w] + rest| ==> ([w] + rest)[k] != [] && NoWhitespace(([w] + rest)[k])
  {
    forall k | 0 <= k < |[w] + rest|
      ensures ([w] + rest)[k] != [] && NoWhitespace(([w] + rest)[k])
    {
      if k > 0 {
        assert ([w] + rest)[k] == rest[k - 1];
      }
    }
  }

  lemma {:induction false} SplitWhitespaceOfWords(a: string, gap: string, b: string)
    requires a != [] && NoWhitespace(a) && b != [] && NoWhitespace(b)
    requires gap != [] && forall i :: 0 <= i < |gap| ==> IsPyWhitespace(gap[i])
    ensures SplitWhitespace(a + gap + b) == [a, b]
  {
    var rest := gap + b;
    assert a + gap + b == a + rest;
    assert rest[0] == gap[0];
    SplitWordCons(a, rest);
    SplitGapWord(gap, b);
  }

  lemma SplitGapWord(gap: string, b: string)
    requires b != [] && NoWhitespace(b)
    requires forall i :: 0 <= i < |gap| ==> IsPyWhitespace(gap[i])
    ensures SplitWhitespace(gap + b) == [b]
  {
    calc {
      SplitWhitespace(gap + b);
      { SplitSkipsWhitespace(gap + b); }
      SplitWhitespace(DropLeadingWhitespace(gap + b));
      { DropWhitespacePrefix(gap, b); }
      SplitWhitespace(b);
      { SplitSingleWord(b); }
      [b];
    }
  }

  lemma SplitSingleWord(b: string)
    requires b != [] && NoWhitespace(b)
    ensures SplitWhitespace(b) == [b]
  {
    assert b + [] == b;
    SplitWordCons(b, []);
  }

  /** A word followed by a break is the first piece of the split. */
  lemma {:induction false} SplitWordCons(a: string, rest: string)
    requires a != [] && NoWhitespace(a)
    requires rest == [] || IsPyWhitespace(rest[0])
    ensures SplitWhitespace(a + rest) == [a] + SplitWhitespace(rest)
  {
    var s := a + rest;
    assert s[0] == a[0];
    assert DropLeadingWhitespace(s) == s;
    TakeWordStops(a, rest);
    assert s[|a|..] == rest;
  }

  lemma SplitSkipsWhitespace(s: string)
    ensures SplitWhitespace(s) == SplitWhitespace(DropLeadingWhitespace(s))
  {
    var t := DropLeadingWhitespace(s);
    assert DropLeadingWhitespace(t) == t;
  }

  lemma {:induction false} TakeWordStops(a: string, rest: string)
    requires NoWhitespace(a)
    requires rest == [] || IsPyWhitespace(rest[0])
    ensures TakeWord(a + rest) == a
  {
    if a != [] {
      assert (a + rest)[1..] == a[1..] + rest;
      TakeWordStops(a[1..], rest);
    } else {
      assert a + rest == rest;
    }
  }

  lemma {:induction false} DropWhitespacePrefix(gap: string, b: string)
    requires forall i :: 0 <= i < |gap| ==> IsPyWhitespace(gap[i])
    requires b == [] || !IsPyWhitespace(b[0])
    ensures DropLeadingWhitespace(gap + b) == b
  {
    if gap != [] {
      assert (gap + b)[1..] == gap[1..] + b;
      DropWhitespacePrefix(gap[1..], b);
    } else {
      assert gap + b == b;
    }
  }

  predicate AllWhitespace(s: string) {
    forall i :: 0 <= i < |s| ==> IsPyWhitespace(s[i])
  }

  lemma {:induction false} DropWhitespaceSuffix(k: string, gap: string)
    requires AllWhitespace(gap)
    requires k == [] || !IsPyWhitespace(k[|k| - 1])
    ensures DropTrailingWhitespace(k + gap) == k
    decreases |gap|
  {
    if gap != [] {
      var g := gap[..|gap| - 1];
      assert (k + gap)[..|k + gap| - 1] == k + g;
      DropWhitespaceSuffix(k, g);
    } else {
      assert k + gap == k;
    }
  }

  /**
   * Python's `==` on two `str`s, written as the character-by-character
   * comparison it is; `StrEqIsEquality` shows it is sequence equality.
   */
  predicate StrEq(a: string, b: string)
    decreases |a|
  {
    |a| == |b| && (a == [] || (a[0] == b[0] && StrEq(a[1..], b[1..])))
  }

  lemma {:induction false} StrEqIsEquality(a: string, b: string)
    ensures StrEq(a, b) <==> a == b
    decreases |a|
  {
    if a != [] && |a| == |b| {
      StrEqIsEquality(a[1..], b[1..]);
      if a[0] == b[0] && a[1..] == b[1..] {
        assert a == [a[0]] + a[1..] && b == [b[0]] + b[1..];
      }
    }
  }

  /** `strip()` removes surrounding whitespace and nothing else. */
  lemma StripPadded(front: string, k: string, back: string)
    requires AllWhitespace(front) && AllWhitespace(back)
    requires k == [] || (!IsPyWhitespace(k[0]) && !IsPyWhitespace(k[|k| - 1]))
    ensures Strip(front + k + back) == k
  {
    var kb := k + back;
    assert front + k + back == front + kb;
    if k == [] {
      assert kb == back;
      DropWhitespacePrefixAll(front + back);
    } else {
      assert kb[0] == k[0];
      DropWhitespacePrefix(front, kb);
      DropWhitespaceSuffix(k, back);
    }
  }

  lemma {:induction false} DropWhitespacePrefixAll(s: string)
    requires AllWhitespace(s)
    ensures DropLeadingWhitespace(s) == []
    decreases |s|
  {
    if s != [] { DropWhitespacePrefixAll(s[1..]); }
  }

  /** JavaScript's `s.split(sep)` for a one-character separator: never empty. */
  function JsSplit(s: string, sep: char): (r: seq<string>)
    ensures |r| >= 1
    ensures forall k :: 0 <= k < |r| ==> sep !in r[k]
    decreases |s|
  {
    if sep !in s then [s]
    else
      var i := IndexOf(s, sep);
      [s[..i]] + JsSplit(s[i + 1..], sep)
  }

  function IndexOf(s: string, c: char): (i: nat)
    requires c in s
    ensures i < |s| && s[i] == c && c !in s[..i]
  {
    if s[0] == c then 0 else 1 + IndexOf(s[1..], c)
  }

  lemma {:induction false} JsSplitCons(a: string, sep: char, b: string)
    requires sep !in a
    ensures JsSplit(a + [sep] + b, sep) == [a] + JsSplit(b, sep)
  {
    var s := a + [sep] + b;
    assert s[|a|] == sep;
    IndexOfAfter(a, sep, b);
    assert s[..|a|] == a;
    assert s[|a| + 1..] == b;
  }

  lemma {:induction false} IndexOfAfter(a: string, sep: char, b: string)
    requires sep !in a
    ensures sep in a + [sep] + b && IndexOf(a + [sep] + b, sep) == |a|
  {
    var s := a + [sep] + b;
    assert s[|a|] == sep;
    if a != [] {
      assert s[1..] == a[1..] + [sep] + b;
      IndexOfAfter(a[1..], sep, b);
    }
  }

  function DigitChar(d: nat): (c: char)
    requires d < 10
    ensures '0' <= c <= '9' && c as int - '0' as int == d
  {
    ('0' as int + d) as char
  }

  /** Python's `str(n)` for a natural number. */
  function NatToString(n: nat): (r: string)
    ensures r != []
    ensures forall i :: 0 <= i < |r| ==> '0' <= r[i] <= '9'
    decreases n
  {
    if n < 10 then [DigitChar(n)] else NatToString(n / 10) + [DigitChar(n % 10)]
  }

  /** Python's `str(n)` for any integer. */
  function IntToString(n: int): string {
    if n < 0 then "-" + NatToString(-n) else NatToString(n)
  }

  function DigitValue(c: char): nat
    requires '0' <= c <= '9'
  {
    c as int - '0' as int
  }

  /** Reading a non-empty run of decimal digits back as a number. */
  function ParseDigits(s: string): nat
    requires forall i :: 0 <= i < |s| ==> '0' <= s[i] <= '9'
    decreases |s|
  {
    if s == [] then 0 else 10 * ParseDigits(s[..|s| - 1]) + DigitValue(s[|s| - 1])
  }

  lemma {:induction false} ParseNatToString(n: nat)
    ensures ParseDigits(NatToString(n)) == n
    decreases n
  {
    if n >= 10 {
      var s := NatToString(n);
      assert s[..|s| - 1] == NatToString(n / 10);
      ParseNatToString(n / 10);
    }
  }

  /** `n` written with exactly `width` decimal digits, zero-padded (strftime style). */
  function PadDigits(n: nat, width: nat): (r: string)
    ensures |r| == width
    ensures forall i :: 0 <= i < |r| ==> '0' <= r[i] <= '9'
  {
    if width == 0 then [] else PadDigits(n / 10, width - 1) + [DigitChar(n % 10)]
  }

  function Pow10(k: nat): nat {
    if k == 0 then 1 else 10 * Pow10(k - 1)
  }

  lemma {:induction false} ParsePadDigits(n: nat, width: nat)
    requires n < Pow10(width)
    ensures ParseDigits(PadDigits(n, width)) == n
  {
    if width > 0 {
      var s := PadDigits(n, width);
      assert s[..|s| - 1] == PadDigits(n / 10, width - 1);
      ParsePadDigits(n / 10, width - 1);
    }
  }

  /** Python's `<` on strings: lexicographic order of code points. */
  predicate LexLess(a: string, b: string)
    decreases |a|
  {
    if a == [] then b != []
    else if b == [] then false
    else if a[0] != b[0] then a[0] < b[0]
    else LexLess(a[1..], b[1..])
  }

  lemma {:induction false} LexLessIrreflexive(a: string)
    ensures !LexLess(a, a)
  {
    if a != [] { LexLessIrreflexive(a[1..]); }
  }

  lemma {:induction false} LexLessTransitive(a: string, b: string, c: string)
    requires LexLess(a, b) && LexLess(b, c)
    ensures LexLess(a, c)
    decreases |a|
  {
    if a != [] && b != [] && c != [] && a[0] == b[0] && b[0] == c[0] {
      LexLessTransitive(a[1..], b[1..], c[1..]);
    }
  }

  lemma {:induction false} LexLessTotal(a: string, b: string)
    requires a != b
    ensures LexLess(a, b) || LexLess(b, a)
    decreases |a|
  {
    if a != [] && b != [] && a[0] == b[0] {
      assert a == [a[0]] + a[1..] && b == [b[0]] + b[1..];
      LexLessTotal(a[1..], b[1..]);
    }
  }

  /** A common prefix does not change the order. */
  lemma {:induction false} LexLessCommonPrefix(p: string, a: string, b: string)
    ensures LexLess(p + a, p + b) == LexLess(a, b)
  {
    if p != [] {
      assert (p + a)[1..] == p[1..] + a;
      assert (p + b)[1..] == p[1..] + b;
      LexLessCommonPrefix(p[1..], a, b);
    } else {
      assert p + a == a && p + b == b;
    }
  }
}

=== FILE: data_explorer.dfy ===
/**
 * The data-explorer endpoint: a CSV upload (or the bundled sample) turned into
 * the records and the field list the chart editor expects.  Parsing the CSV and
 * measuring the frame's memory are the data-frame library's work and arrive as
 * inputs; what is modelled is the guards and how each column's type becomes a
 * field description.
 */
module DataExplorer {
  import opened Wrappers
  import PyStr

  const MaxFileSizeMb: nat := 500
  const MaxMemorySizeMb: nat := 1000
  const Mib: nat := 1024 * 1024

  /** A column of the parsed frame: its label and the text of its dtype. */
  datatype Column = Column(name: string, dtype: string)

  /** A parsed frame: its columns and its rows, each row one cell text per column. */
  datatype Frame = Frame(columns: seq<Column>, records: seq<seq<string>>)

  /** An uploaded file: its name and byte count. */
  datatype Upload = Upload(name: string, size: nat)

  datatype Field = Field(fid: string, name: string, semanticType: string, analyticType: string)

  datatype Response =
    | Ok(data: seq<seq<string>>, fields: seq<Field>, totalRows: nat, filename: string)
    | Error(status: nat, error: string)

  const Quantitative: string := "quantitative"
  const Nominal: string := "nominal"
  const Temporal: string := "temporal"

  const NoFile: string := "No file uploaded."
  const FileTooLarge: string := "File size exceeds maximum limit of 500MB"
  const DataTooLarge: string := "Data size exceeds maximum memory limit of 1000MB"
  const ProcessFailed: string := "Failed to process file: "
  const SampleMissing: string := "Default sample data not found."
  const SampleName: string := "daily_resource.csv (Sample)"

  /** The semantic type of a column, from the text of its dtype. */
  function SemanticType(dtype: string): string {
    if dtype in ["int64", "float64", "int32", "float32"] then Quantitative
    else if dtype == "object" then Nominal
    else if PyStr.Contains(dtype, "datetime") then Temporal
    else Nominal
  }

  function AnalyticType(semanticType: string): string {
    if semanticType == Nominal then "dimension" else "measure"
  }

  /** The field description of one column. */
  function FieldOf(c: Column): Field {
    var t := SemanticType(c.dtype);
    Field(c.name, c.name, t, AnalyticType(t))
  }

  /** The field list: one description per column, in column order. */
  function Fields(columns: seq<Column>): (fs: seq<Field>)
    ensures |fs| == |columns|
    ensures forall i :: 0 <= i < |columns| ==> fs[i] == FieldOf(columns[i])
  {
    seq(|columns|, i requires 0 <= i < |columns| => FieldOf(columns[i]))
  }

  /** The size guard: the size in megabytes, exactly, against the limit. */
  predicate TooLarge(bytes: nat, limitMb: nat) {
    (bytes as real) / (Mib as real) > limitMb as real
  }

  /**
   * The upload.  `parsed` is what reading the CSV produced (or the text of
   * its error) and `memoryBytes` the frame's deep memory usage.
   */
  function PostResponse(file: Option<Upload>, parsed: Result<Frame, string>, memoryBytes: nat): Response {
    if file.None? then Error(400, NoFile)
    else if TooLarge(file.value.size, MaxFileSizeMb) then Error(400, FileTooLarge)
    else if parsed.Failure? then Error(500, ProcessFailed + parsed.error)
    else if TooLarge(memoryBytes, MaxMemorySizeMb) then Error(400, DataTooLarge)
    else
      var df := parsed.value;
      Ok(df.records, Fields(df.columns), |df.records|, file.value.name)
  }

  /** The sample: no size or memory checks, and a fixed file name. */
  function GetResponse(sampleExists: bool, parsed: Result<Frame, string>): Response {
    if !sampleExists then Error(404, SampleMissing)
    else if parsed.Failure? then Error(500, parsed.error)
    else
      var df := parsed.value;
      Ok(df.records, Fields(df.columns), |df.records|, SampleName)
  }

  /** The loop that builds the field list, one append per column. */
  method BuildFields(columns: seq<Column>) returns (fields: seq<Field>)
    ensures fields == Fields(columns)
  {
    fields := [];
    for k := 0 to |columns|
      invariant |fields| == k
      invariant forall i :: 0 <= i < k ==> fields[i] == FieldOf(columns[i])
    {
      var col := columns[k];
      var fieldType: string;
      if col.dtype in ["int64", "float64", "int32", "float32"] {
        fieldType := Quantitative;
      } else if col.dtype == "object" {
        fieldType := Nominal;
      } else if PyStr.Contains(col.dtype, "datetime") {
        fieldType := Temporal;
      } else {
        fieldType := Nominal;
      }
      var analytic := if fieldType == Nominal then "dimension" else "measure";
      fields := fields + [Field(col.name, col.name, fieldType, analytic)];
    }
  }

  /** `GraphicWalkerDataView.post`. */
  method Post(file: Option<Upload>, parsed: Result<Frame, string>, memoryBytes: nat) returns (resp: Response)
    ensures resp == PostResponse(file, parsed, memoryBytes)
  {
    if file.None? {
      return Error(400, NoFile);
    }
    if TooLarge(file.value.size, MaxFileSizeMb) {
      return Error(400, FileTooLarge);
    }
    if parsed.Failure? {
      return Error(500, ProcessFailed + parsed.error);
    }
    if TooLarge(memoryBytes, MaxMemorySizeMb) {
      return Error(400, DataTooLarge);
    }
    var df := parsed.value;
    var fields := BuildFields(df.columns);
    resp := Ok(df.records, fields, |df.records|, file.value.name);
  }

  /** `GraphicWalkerDataView.get`. */
  method Get(sampleExists: bool, parsed: Result<Frame, string>) returns (resp: Response)
    ensures resp == GetResponse(sampleExists, parsed)
  {
    if !sampleExists {
      return Error(404, SampleMissing);
    }
    if parsed.Failure? {
      return Error(500, parsed.error);
    }
    var df := parsed.value;
    var fields := BuildFields(df.columns);
    resp := Ok(df.records, fields, |df.records|, SampleName);
  }

  // ---------------------------------------------------------------------------
  // Properties
  // ---------------------------------------------------------------------------

  /** The size guard in whole bytes: more than 500 MiB is too large, 500 MiB exactly is not. */
  lemma FileLimitInBytes(bytes: nat)
    ensures TooLarge(bytes, MaxFileSizeMb) <==> bytes > MaxFileSizeMb * Mib
    ensures TooLarge(bytes, MaxMemorySizeMb) <==> bytes > MaxMemorySizeMb * Mib
  {
    var m := Mib as real;
    assert (bytes as real) / m > MaxFileSizeMb as real <==> bytes as real > MaxFileSizeMb as real * m;
    assert (bytes as real) / m > MaxMemorySizeMb as real <==> bytes as real > MaxMemorySizeMb as real * m;
  }

  /**
   * No file is a 400; an oversized file is a 400 before the CSV is read, so
   * the parse and the memory do not matter; a file of exactly 500 MiB gets past
   * the size guard.
   */
  lemma UploadGuardsComeFirst(file: Option<Upload>, parsed: Result<Frame, string>, memoryBytes: nat,
                              parsed2: Result<Frame, string>, memoryBytes2: nat)
    ensures file.None? ==> PostResponse(file, parsed, memoryBytes) == Error(400, NoFile)
    ensures file.Some? && file.value.size > MaxFileSizeMb * Mib ==>
      PostResponse(file, parsed, memoryBytes) == Error(400, FileTooLarge) &&
      PostResponse(file, parsed2, memoryBytes2) == Error(400, FileTooLarge)
    ensures file.Some? && file.value.size == MaxFileSizeMb * Mib ==>
      PostResponse(file, parsed, memoryBytes) != Error(400, FileTooLarge)
  {
    if file.Some? {
      FileLimitInBytes(file.value.size);
    }
  }

  /** After the guards: a parse error is a 500 with its text, a frame too big in memory a 400. */
  lemma UploadParseAndMemory(file: Upload, parsed: Result<Frame, string>, memoryBytes: nat)
    requires file.size <= MaxFileSizeMb * Mib
    ensures parsed.Failure? ==> PostResponse(Some(file), parsed, memoryBytes) == Error(500, ProcessFailed + parsed.error)
    ensures parsed.Success? && memoryBytes > MaxMemorySizeMb * Mib ==>
      PostResponse(Some(file), parsed, memoryBytes) == Error(400, DataTooLarge)
    ensures parsed.Success? && memoryBytes <= MaxMemorySizeMb * Mib ==> PostResponse(Some(file), parsed, memoryBytes).Ok?
  {
    FileLimitInBytes(file.size);
    FileLimitInBytes(memoryBytes);
  }

  /** The type mapping, case by case. */
  lemma SemanticTypeCases(dtype: string)
    ensures dtype in ["int64", "float64", "int32", "float32"] ==> SemanticType(dtype) == Quantitative
    ensures dtype == "object" ==> SemanticType(dtype) == Nominal
    ensures dtype !in ["int64", "float64", "int32", "float32"] && PyStr.Contains(dtype, "datetime") ==>
      SemanticType(dtype) == Temporal
    ensures dtype !in ["int64", "float64", "int32", "float32"] && !PyStr.Contains(dtype, "datetime") ==>
      SemanticType(dtype) == Nominal
    ensures SemanticType(dtype) in {Quantitative, Nominal, Temporal}
  {
    if dtype == "object" {
      assert !PyStr.Contains(dtype, "datetime") by {
        assert |dtype| < |"datetime"|;
        NotContainedWhenShorter(dtype, "datetime");
      }
    }
  }

  lemma {:induction false} NotContainedWhenShorter(s: string, sub: string)
    requires |s| < |sub|
    ensures !PyStr.Contains(s, sub)
    decreases |s|
  {
    if s != [] { NotContainedWhenShorter(s[1..], sub); }
  }

  /** A timezone-aware datetime column is temporal; booleans and categories are nominal. */
  lemma SemanticTypeExamples()
    ensures SemanticType("datetime64[ns]") == Temporal
    ensures SemanticType("datetime64[ns, UTC]") == Temporal
    ensures SemanticType("bool") == Nominal
    ensures SemanticType("int8") == Nominal
  {
    var dt := "datetime64[ns]";
    assert PyStr.StartsWith(dt, "datetime");
    var dtz := "datetime64[ns, UTC]";
    assert PyStr.StartsWith(dtz, "datetime");
    NotContainedWhenShorter("bool", "datetime");
    NotContainedWhenShorter("int8", "datetime");
  }

  /** A field is a dimension exactly when it is nominal; quantitative and temporal fields are measures. */
  lemma AnalyticTypeIsDimensionIffNominal(c: Column)
    ensures FieldOf(c).analyticType == "dimension" <==> FieldOf(c).semanticType == Nominal
    ensures FieldOf(c).analyticType in {"dimension", "measure"}
    ensures FieldOf(c).fid == FieldOf(c).name == c.name
  {
  }

  /**
   * A successful upload lists one field per column in column order, named by
   * the column, and counts the records it returns.
   */
  lemma UploadDescribesEveryColumn(file: Option<Upload>, parsed: Result<Frame, string>, memoryBytes: nat)
    requires PostResponse(file, parsed, memoryBytes).Ok?
    ensures var r := PostResponse(file, parsed, memoryBytes);
      && parsed.Success? && file.Some?
      && |r.fields| == |parsed.value.columns|
      && (forall i :: 0 <= i < |r.fields| ==>
            r.fields[i].fid == parsed.value.columns[i].name &&
            r.fields[i].semanticType == SemanticType(parsed.value.columns[i].dtype))
      && r.data == parsed.value.records && r.totalRows == |r.data|
      && r.filename == file.value.name
  {
  }

  /** The sample is described exactly as an upload of the same frame would be. */
  lemma SampleMatchesUpload(file: Upload, df: Frame, memoryBytes: nat)
    requires file.size <= MaxFileSizeMb * Mib && memoryBytes <= MaxMemorySizeMb * Mib
    ensures var g := GetResponse(true, Success(df));
      var p := PostResponse(Some(file), Success(df), memoryBytes);
      g.Ok? && p.Ok? && g.fields == p.fields && g.data == p.data && g.totalRows == p.totalRows &&
      g.filename == SampleName
  {
    UploadParseAndMemory(file, Success(df), memoryBytes);
  }

  /** Only a missing sample is a 404; a read error of the sample is a 500 with the bare text. */
  lemma SampleErrors(sampleExists: bool, parsed: Result<Frame, string>)
    ensures !sampleExists ==> GetResponse(sampleExists, parsed) == Error(404, SampleMissing)
    ensures sampleExists && parsed.Failure? ==> GetResponse(sampleExists, parsed) == Error(500, parsed.error)
    ensures sampleExists && parsed.Success? ==> GetResponse(sampleExists, parsed).Ok?
  {
  }
}

=== FILE: dependencies.dfy ===
/**
 * The gateway's authentication dependency: it reads the `Authorization`
 * header, expects `Token <key>` with the scheme in any case, and looks the key
 * up in the web server's token table.  The database is seen only through two
 * facts: whether its file exists and what the lookup of a key produced.
 */
module Dependencies {
  import opened Wrappers
  import PyStr

  /** What the read-only query for one key produced. */
  datatype Lookup =
    | Row(found: bool)   // the query ran; `found` is whether a row came back
    | Raised             // connecting or querying raised an exception

  /** The dependency's outcome: the key, or the HTTP error it raises. */
  datatype AuthOutcome = Authorized(token: string) | Rejected(status: nat, detail: string)

  const MissingHeader: string := "Missing Authorization Header"
  const BadFormat: string := "Invalid Authorization Header Format"
  const BadScheme: string := "Invalid Authorization Scheme"
  const Unavailable: string := "Authentication System Unavailable"
  const BadToken: string := "Invalid Token"

  /** `_check_token_in_db`: a row means valid; any error means not valid. */
  function CheckTokenInDb(lookup: Lookup): (valid: bool)
    ensures valid <==> lookup == Row(true)
  {
    match lookup
    case Row(found) => found
    case Raised => false
  }

  /** `not authorization`: the header is absent or empty. */
  predicate HeaderMissing(authorization: Option<string>) {
    authorization.None? || authorization.value == ""
  }

  /**
   * `verify_token`.  `dbExists` is whether the database file exists and
   * `lookup(key)` what the query for `key` would produce.
   */
  function VerifyToken(authorization: Option<string>, dbExists: bool, lookup: string -> Lookup): AuthOutcome {
    if HeaderMissing(authorization) then Rejected(401, MissingHeader)
    else
      var parts := PyStr.SplitWhitespace(authorization.value);
      if |parts| != 2 then Rejected(401, BadFormat)
      else if PyStr.Lower(parts[0]) != "token" then Rejected(401, BadScheme)
      else if !dbExists then Rejected(500, Unavailable)
      else if !CheckTokenInDb(lookup(parts[1])) then Rejected(401, BadToken)
      else Authorized(parts[1])
  }

  /** A header that splits into a scheme spelling "token" in some case and one key. */
  predicate WellFormed(header: string) {
    var parts := PyStr.SplitWhitespace(header);
    |parts| == 2 && PyStr.Lower(parts[0]) == "token"
  }

  // ---------------------------------------------------------------------------
  // Properties
  // ---------------------------------------------------------------------------

  /** A missing or empty header is refused before anything else is looked at. */
  lemma MissingHeaderFirst(authorization: Option<string>, dbExists: bool, lookup: string -> Lookup)
    requires HeaderMissing(authorization)
    ensures VerifyToken(authorization, dbExists, lookup) == Rejected(401, MissingHeader)
  {
  }

  /**
   * The order of the checks: format, then scheme, then the database file
   * (500), then the lookup (401); each is reached only when the previous
   * ones pass.
   */
  lemma CheckOrder(header: string, dbExists: bool, lookup: string -> Lookup)
    requires header != ""
    ensures var parts := PyStr.SplitWhitespace(header);
      var r := VerifyToken(Some(header), dbExists, lookup);
      && (|parts| != 2 ==> r == Rejected(401, BadFormat))
      && (|parts| == 2 && PyStr.Lower(parts[0]) != "token" ==> r == Rejected(401, BadScheme))
      && (WellFormed(header) && !dbExists ==> r == Rejected(500, Unavailable))
      && (WellFormed(header) && dbExists && lookup(parts[1]) != Row(true) ==> r == Rejected(401, BadToken))
  {
  }

  /**
   * Success exactly when the header is well formed, the database exists and
   * the lookup of the second word finds a row; the result is that word.
   */
  lemma AuthorizedExactly(authorization: Option<string>, dbExists: bool, lookup: string -> Lookup)
    ensures VerifyToken(authorization, dbExists, lookup).Authorized? <==>
      && !HeaderMissing(authorization)
      && WellFormed(authorization.value)
      && dbExists
      && lookup(PyStr.SplitWhitespace(authorization.value)[1]) == Row(true)
    ensures VerifyToken(authorization, dbExists, lookup).Authorized? ==>
      VerifyToken(authorization, dbExists, lookup).token == PyStr.SplitWhitespace(authorization.value)[1]
  {
  }

  /** A lookup that raised is a 401, never a success and never a 500. */
  lemma LookupErrorIsNotFound(header: string, lookup: string -> Lookup)
    requires header != "" && WellFormed(header)
    requires lookup(PyStr.SplitWhitespace(header)[1]) == Raised
    ensures VerifyToken(Some(header), true, lookup) == Rejected(401, BadToken)
  {
  }

  /** Every refusal is 401, except the missing database, which is 500. */
  lemma StatusesAre401Or500(authorization: Option<string>, dbExists: bool, lookup: string -> Lookup)
    ensures var r := VerifyToken(authorization, dbExists, lookup);
      r.Rejected? ==> (r.status == 500 <==> r.detail == Unavailable) && r.status in {401, 500}
  {
    // The database message is the only one of its length.
    assert |Unavailable| == 33;
    assert |MissingHeader| != 33 && |BadFormat| != 33 && |BadScheme| != 33 && |BadToken| != 33;
  }

  /** An accepted key is one non-empty word. */
  lemma AcceptedKeyIsOneWord(authorization: Option<string>, dbExists: bool, lookup: string -> Lookup)
    requires VerifyToken(authorization, dbExists, lookup).Authorized?
    ensures var t := VerifyToken(authorization, dbExists, lookup).token;
      t != [] && PyStr.NoWhitespace(t)
  {
  }

  /**
   * `<scheme><spaces><key>` with both words free of whitespace: the key is
   * what is looked up and returned, whatever the spacing, and the scheme
   * decides between that and the scheme error.
   */
  lemma {:induction false} SchemeAndKey(scheme: string, gap: string, key: string, lookup: string -> Lookup)
    requires scheme != [] && PyStr.NoWhitespace(scheme) && key != [] && PyStr.NoWhitespace(key)
    requires gap != [] && forall i :: 0 <= i < |gap| ==> PyStr.IsPyWhitespace(gap[i])
    requires lookup(key) == Row(true)
    ensures VerifyToken(Some(scheme + gap + key), true, lookup) ==
      if PyStr.Lower(scheme) == "token" then Authorized(key) else Rejected(401, BadScheme)
  {
    PyStr.SplitWhitespaceOfWords(scheme, gap, key);
  }

  /** The scheme is matched without regard to case. */
  lemma SchemeIgnoresCase()
    ensures PyStr.Lower("Token") == "token"
    ensures PyStr.Lower("TOKEN") == "token"
    ensures PyStr.Lower("tOkEn") == "token"
    ensures PyStr.Lower("Bearer") != "token"
  {
    assert |PyStr.Lower("Bearer")| == 6;
  }

  /** A header that is a single word, say a bare key, is a format error. */
  lemma {:induction false} BareKeyIsFormatError(key: string, dbExists: bool, lookup: string -> Lookup)
    requires key != [] && PyStr.NoWhitespace(key)
    ensures VerifyToken(Some(key), dbExists, lookup) == Rejected(401, BadFormat)
  {
    PyStr.SplitSingleWord(key);
    CheckOrder(key, dbExists, lookup);
  }
}

=== FILE: image_compare_page.dfy ===
/**
 * The image comparison page of the web client: choosing the two files,
 * sending the comparison, turning a failed request into a message, and
 * downloading a result image from its data URI.
 */
module ImageComparePage {
  import opened Wrappers
  import opened Octets
  import PyStr
  import Base64
  import IP = ImageProcessor

  datatype Upload = Upload(name: string, size: nat)

  datatype Settings = Settings(mode: string, diffThreshold: int, featureCount: int)

  const DefaultSettings: Settings := Settings("difference", 30, 4000)

  /** The form fields `fastApi.compareImages` posts. */
  datatype CompareRequest = CompareRequest(
    file1: Upload, file2: Upload, mode: string, diffThreshold: int, featureCount: int, page1: int, page2: int)

  /** What the comparison endpoint answers: result images as data URIs and the metadata's mode. */
  datatype Comparison = Comparison(images: seq<string>, mode: string)

  /**
   * A rejected request: the response status and the `detail` field when
   * there was a response (the empty detail is falsy and counts as none).
   */
  datatype HttpError = HttpError(status: Option<int>, detail: Option<string>)

  const MissingFiles: string := "두 개의 파일을 모두 업로드해주세요."
  const TooLargeMessage: string := "파일 크기가 너무 큽니다. 100MB 이하의 파일을 사용해주세요."
  const BusyMessage: string := "동시 처리 제한에 도달했습니다. 잠시 후 다시 시도해주세요."
  const TimeoutMessage: string := "처리 시간이 초과되었습니다. 파일 크기를 줄이거나 잠시 후 다시 시도해주세요."
  const GenericMessage: string := "이미지 비교 중 오류가 발생했습니다. 다시 시도해주세요."

  /** The message shown for a failed comparison: the known statuses first, then the server's detail. */
  function ErrorMessage(err: HttpError): string {
    if err.status == Some(413) then TooLargeMessage
    else if err.status == Some(429) then BusyMessage
    else if err.status == Some(504) then TimeoutMessage
    else if err.detail.Some? && err.detail.value != "" then err.detail.value
    else GenericMessage
  }

  /** `canCompare`: both files chosen and no comparison running. */
  predicate CanCompare(file1: Option<Upload>, file2: Option<Upload>, isLoading: bool) {
    file1.Some? && file2.Some? && !isLoading
  }

  /** A downloaded image: the blob's type and its bytes. */
  datatype Download = Download(mime: string, bytes: seq<Byte>)

  /** `Uint8Array` stores a character code modulo 256. */
  function BytesOf(byteString: string): (r: seq<Byte>)
    ensures |r| == |byteString|
  {
    seq(|byteString|, i requires 0 <= i < |byteString| => (byteString[i] as int) % 256)
  }

  /**
   * `handleDownload` up to the blob: `atob` of what follows the first ','
   * (of the text "undefined" when there is none, which `atob` rejects), and
   * the MIME type between the first ':' and the next ';' of the part before
   * it.  `None` is an exception: `atob` rejecting its input, or no ':'.
   */
  function ParseDataUri(uri: string): Option<Download> {
    var parts := PyStr.JsSplit(uri, ',');
    var decoded := Base64.Atob(if |parts| > 1 then parts[1] else "undefined");
    var header := PyStr.JsSplit(parts[0], ':');
    if decoded.None? || |header| < 2 then None
    else Some(Download(PyStr.JsSplit(header[1], ';')[0], BytesOf(decoded.value)))
  }

  /** The loop that copies the decoded characters into a fresh `Uint8Array`. */
  method FillBytes(byteString: string) returns (ia: array<Byte>)
    ensures fresh(ia)
    ensures ia[..] == BytesOf(byteString)
  {
    ia := new Byte[|byteString|];
    for i := 0 to |byteString|
      invariant forall k :: 0 <= k < i ==> ia[k] == (byteString[k] as int) % 256
    {
      ia[i] := (byteString[i] as int) % 256;
    }
  }

  class ComparePage {
    var file1: Option<Upload>
    var file2: Option<Upload>
    var page1: int
    var page2: int
    var settings: Settings
    var result: Option<Comparison>
    var isLoading: bool
    var error: Option<string>
    /** The comparisons the page has sent. */
    var sent: seq<CompareRequest>

    constructor ()
      ensures file1 == None && file2 == None && page1 == 0 && page2 == 0
      ensures settings == DefaultSettings && result == None && !isLoading && error == None && sent == []
    {
      file1 := None;
      file2 := None;
      page1 := 0;
      page2 := 0;
      settings := DefaultSettings;
      result := None;
      isLoading := false;
      error := None;
      sent := [];
    }

    /** `handleFile1Select`: choosing or removing the first file drops the previous result. */
    method SelectFile1(file: Option<Upload>, page: int)
      modifies this
      ensures file1 == file && page1 == page && result == None
      ensures file2 == old(file2) && page2 == old(page2) && settings == old(settings)
      ensures isLoading == old(isLoading) && error == old(error) && sent == old(sent)
    {
      file1 := file;
      page1 := page;
      result := None;
    }

    /** `handleFile2Select`. */
    method SelectFile2(file: Option<Upload>, page: int)
      modifies this
      ensures file2 == file && page2 == page && result == None
      ensures file1 == old(file1) && page1 == old(page1) && settings == old(settings)
      ensures isLoading == old(isLoading) && error == old(error) && sent == old(sent)
    {
      file2 := file;
      page2 := page;
      result := None;
    }

    /**
     * `handleCompare`, run to completion with the server's answer `reply`.
     * Without both files it only sets the error and sends nothing.
     */
    method Compare(reply: Result<Comparison, HttpError>)
      modifies this
      ensures old(file1).None? || old(file2).None? ==>
        error == Some(MissingFiles) && sent == old(sent) && result == old(result) && isLoading == old(isLoading)
      ensures old(file1).Some? && old(file2).Some? ==>
        && sent == old(sent) + [CompareRequest(old(file1).value, old(file2).value, settings.mode,
                                               settings.diffThreshold, settings.featureCount, page1, page2)]
        && !isLoading
        && (reply.Success? ==> result == Some(reply.value) && error == None)
        && (reply.Failure? ==> result == None && error == Some(ErrorMessage(reply.error)))
      ensures file1 == old(file1) && file2 == old(file2) && page1 == old(page1) && page2 == old(page2)
      ensures settings == old(settings)
    {
      if file1.None? || file2.None? {
        error := Some(MissingFiles);
        return;
      }
      error := None;
      isLoading := true;
      result := None;
      sent := sent + [CompareRequest(file1.value, file2.value, settings.mode,
                                     settings.diffThreshold, settings.featureCount, page1, page2)];
      match reply {
        case Success(r) => result := Some(r);
        case Failure(e) => error := Some(ErrorMessage(e));
      }
      isLoading := false;
    }
  }

  // ---------------------------------------------------------------------------
  // Properties
  // ---------------------------------------------------------------------------

  /**
   * The statuses 413, 429 and 504 have their own messages whatever the
   * detail; any other failure shows the server's detail, else the generic
   * message.
   */
  lemma ErrorMessageOrder(err: HttpError)
    ensures err.status == Some(413) ==> ErrorMessage(err) == TooLargeMessage
    ensures err.status == Some(429) ==> ErrorMessage(err) == BusyMessage
    ensures err.status == Some(504) ==> ErrorMessage(err) == TimeoutMessage
    ensures err.status !in {Some(413), Some(429), Some(504)} ==>
      ErrorMessage(err) == (if err.detail.Some? && err.detail.value != "" then err.detail.value else GenericMessage)
    ensures ErrorMessage(err) != ""
  {
  }

  /** The comparison button is enabled exactly when `Compare` would send. */
  lemma CanCompareIffBothFiles(file1: Option<Upload>, file2: Option<Upload>, isLoading: bool)
    ensures CanCompare(file1, file2, isLoading) <==> (file1.Some? && file2.Some? && !isLoading)
    ensures file1.None? || file2.None? ==> !CanCompare(file1, file2, isLoading)
  {
  }

  /** Codes below 256 are stored unchanged, so the bytes of a binary string are the bytes it was made of. */
  lemma BytesOfBinaryString(b: seq<Byte>)
    ensures BytesOf(Base64.BinaryString(b)) == b
  {
    var s := Base64.BinaryString(b);
    assert forall i :: 0 <= i < |b| ==> BytesOf(s)[i] == b[i];
  }

  /** A character neither part holds is not in their concatenation. */
  lemma NotInConcat(a: string, b: string, c: char)
    requires c !in a && c !in b
    ensures c !in a + b
  {
    assert forall k :: 0 <= k < |a + b| ==> (a + b)[k] != c by {
      forall k | 0 <= k < |a + b| ensures (a + b)[k] != c {
        if k < |a| { assert (a + b)[k] == a[k]; } else { assert (a + b)[k] == b[k - |a|]; }
      }
    }
  }

  /** The text a split keeps before its separator, when it holds no separator itself. */
  lemma SplitHead(a: string, sep: char, b: string)
    requires sep !in a
    ensures PyStr.JsSplit(a + [sep] + b, sep)[0] == a
    ensures |PyStr.JsSplit(a + [sep] + b, sep)| >= 2
    ensures PyStr.JsSplit(a + [sep] + b, sep)[1] == PyStr.JsSplit(b, sep)[0]
  {
    PyStr.JsSplitCons(a, sep, b);
  }

  /** The three splits of `handleDownload` on a text shaped like a data URI. */
  lemma {:induction false} SplitUriParts(scheme: string, mime: string, tag: string, encoded: string)
    requires ',' !in scheme && ',' !in mime && ',' !in tag && ',' !in encoded
    requires ':' !in scheme && ':' !in mime && ':' !in tag && ';' !in mime
    ensures var parts := PyStr.JsSplit(scheme + [':'] + mime + [';'] + tag + [','] + encoded, ',');
      |parts| == 2 && parts[1] == encoded &&
      var header := PyStr.JsSplit(parts[0], ':');
      |header| >= 2 && PyStr.JsSplit(header[1], ';')[0] == mime
  {
    var rest := mime + [';'] + tag;
    var head := scheme + [':'] + rest;
    NotInConcat(mime, [';'], ',');
    NotInConcat(mime + [';'], tag, ',');
    NotInConcat(scheme, [':'], ',');
    NotInConcat(scheme + [':'], rest, ',');
    assert scheme + [':'] + mime + [';'] + tag + [','] + encoded == head + [','] + encoded;
    PyStr.JsSplitCons(head, ',', encoded);
    assert PyStr.JsSplit(encoded, ',') == [encoded];
    NotInConcat(mime, [';'], ':');
    NotInConcat(mime + [';'], tag, ':');
    SplitHead(scheme, ':', rest);
    assert PyStr.JsSplit(rest, ':') == [rest];
    SplitHead(mime, ';', tag);
  }

  /** The header `encode_image_to_base64` writes, cut at its separators. */
  lemma PrefixShape(mime: string)
    ensures IP.DataUriPrefix(mime) == Scheme + [':'] + mime + [';'] + Tag + [',']
    ensures ',' !in Scheme && ':' !in Scheme && ',' !in Tag && ':' !in Tag
  {
    assert "data:" == Scheme + [':'];
    assert ";base64," == [';'] + Tag + [','];
  }

  /** The scheme and the encoding tag of a base64 data URI. */
  const Scheme: string := "data"
  const Tag: string := "base64"

  /** A type without ',', ':' or ';' followed by text without ',' splits back into its two parts. */
  lemma SplitDataUri(mime: string, encoded: string)
    requires ',' !in mime && ':' !in mime && ';' !in mime && ',' !in encoded
    ensures var parts := PyStr.JsSplit(IP.DataUriPrefix(mime) + encoded, ',');
      |parts| == 2 && parts[1] == encoded &&
      var header := PyStr.JsSplit(parts[0], ':');
      |header| >= 2 && PyStr.JsSplit(header[1], ';')[0] == mime
  {
    PrefixShape(mime);
    SplitUriParts(Scheme, mime, Tag, encoded);
  }

  /** `atob` rejects any text of the alphabet whose length leaves 1 modulo 4. */
  lemma AtobRejectsLength(s: string)
    requires forall i :: 0 <= i < |s| ==> Base64.IsBase64Char(s[i])
    requires |s| % 4 == 1
    ensures Base64.Atob(s) == None
  {
    Base64.NoWhitespaceUnchanged(s);
  }

  /** `atob(undefined)` reads the nine letters "undefined", a length no base64 text has. */
  lemma AtobRejectsUndefined()
    ensures Base64.Atob("undefined") == None
  {
    var u := "undefined";
    assert |u| == 9;
    assert forall i :: 0 <= i < |u| ==> 'a' <= u[i] <= 'z';
    AtobRejectsLength(u);
  }

  /** A URI without ',' or without ':' before it cannot be downloaded. */
  lemma MalformedUriFails(uri: string)
    ensures ',' !in uri ==> ParseDataUri(uri) == None
    ensures ':' !in uri ==> ParseDataUri(uri) == None
  {
    if ',' !in uri {
      AtobRejectsUndefined();
    }
    if ':' !in uri {
      PrefixPartOmits(uri, ':');
    }
  }

  /** The text before the first ',' holds no character the whole text lacks. */
  lemma PrefixPartOmits(uri: string, c: char)
    requires c !in uri
    ensures c !in PyStr.JsSplit(uri, ',')[0]
    ensures PyStr.JsSplit(PyStr.JsSplit(uri, ',')[0], c) == [PyStr.JsSplit(uri, ',')[0]]
  {
    if ',' in uri {
      var i := PyStr.IndexOf(uri, ',');
      assert PyStr.JsSplit(uri, ',')[0] == uri[..i];
      assert forall k :: 0 <= k < i ==> uri[..i][k] == uri[k];
    }
  }

  /** Neither MIME type the server writes holds ',', ':' or ';'. */
  lemma JpegMimePlain()
    ensures ',' !in IP.JpegMime && ':' !in IP.JpegMime && ';' !in IP.JpegMime
  {
  }

  lemma PngMimePlain()
    ensures ',' !in IP.PngMime && ':' !in IP.PngMime && ';' !in IP.PngMime
  {
  }

  /**
   * A result image downloads as what the server encoded: the MIME type
   * `encode_image_to_base64` wrote and, byte for byte, the encoded buffer.
   */
  lemma DownloadRoundTrip(buffer: seq<Byte>, format: string)
    ensures ParseDataUri(IP.EncodeImageToBase64(buffer, format)) == Some(Download(IP.MimeType(format), buffer))
  {
    var mime := IP.MimeType(format);
    if mime == IP.JpegMime { JpegMimePlain(); } else { PngMimePlain(); }
    var e := Base64.Encode(buffer);
    Base64.EncodeAlphabet(buffer);
    assert ',' !in e;
    SplitDataUri(mime, e);
    Base64.AtobEncode(buffer);
    BytesOfBinaryString(buffer);
  }
}

=== FILE: image_processor.dfy ===
/**
 * The drawing-comparison pipeline of the gateway: file loading dispatch,
 * resize geometry, the ratio-test match filter, the per-pixel comparison
 * rules, data-URI encoding and the decisions of `process_comparison`.
 *
 * Grayscale planes are `array2<Byte>` (the output of the colour conversion,
 * taken as given); result images are `array2<Pixel>` in OpenCV's BGR order.
 */
module ImageProcessor {
  import opened Wrappers
  import opened Octets
  import PyStr
  import Base64

  // ---------------------------------------------------------------------------
  // Hex colours
  // ---------------------------------------------------------------------------

  function DigitOrNone(c: char): (r: Option<int>)
    ensures r.Some? ==> 0 <= r.value < 16
  {
    if PyStr.IsHexDigit(c) then Some(PyStr.HexDigitValue(c)) else None
  }

  /**
   * Python's `int(t, 16)` on a text of at most two characters: one
   * surrounding whitespace character is ignored, a sign may precede a single
   * digit, and otherwise both characters must be hex digits (with two
   * characters, underscores and a `0x` prefix can never form a valid literal).
   * `None` is the `ValueError` it raises.
   */
  function ParseHexSlice(t: string): (r: Option<int>)
    requires |t| <= 2
    ensures r.Some? ==> -15 <= r.value <= 255
  {
    if |t| == 0 then None
    else if |t| == 1 then DigitOrNone(t[0])
    else if PyStr.IsPyWhitespace(t[0]) then DigitOrNone(t[1])
    else if PyStr.IsPyWhitespace(t[1]) then DigitOrNone(t[0])
    else if t[0] == '+' || t[0] == '-' then
      (match DigitOrNone(t[1])
       case None => None
       case Some(v) => Some(if t[0] == '-' then -v else v))
    else if PyStr.IsHexDigit(t[0]) && PyStr.IsHexDigit(t[1]) then Some(16 * PyStr.HexDigitValue(t[0]) + PyStr.HexDigitValue(t[1]))
    else None
  }

  /** Python's `s[i:j]` for `0 <= i <= j`: clamped to the string. */
  function PySlice(s: string, i: nat, j: nat): (r: string)
    requires i <= j
    ensures |r| <= j - i
  {
    if i >= |s| then [] else if j >= |s| then s[i..] else s[i..j]
  }

  /** A colour triple as `hex_to_bgr` returns it: blue, green, red. */
  datatype Triple = Triple(b: int, g: int, r: int)

  /**
   * `hex_to_bgr`: leading `#` removed, the pairs at offsets 0, 2 and 4 read as
   * red, green and blue. A failure carries the slice `int` rejected first.
   */
  function HexToBgr(hex: string): (res: Result<Triple, string>)
    ensures res.Success? ==>
      -15 <= res.value.b <= 255 && -15 <= res.value.g <= 255 && -15 <= res.value.r <= 255
    ensures res.Failure? ==> |res.error| <= 2
  {
    var h := PyStr.LStripChar(hex, '#');
    var r, g, b := PySlice(h, 0, 2), PySlice(h, 2, 4), PySlice(h, 4, 6);
    match (ParseHexSlice(r), ParseHexSlice(g), ParseHexSlice(b))
    case (None, _, _) => Failure(r)
    case (Some(_), None, _) => Failure(g)
    case (Some(_), Some(_), None) => Failure(b)
    case (Some(rv), Some(gv), Some(bv)) => Success(Triple(bv, gv, rv))
  }

  /** The text of the `ValueError` for a rejected slice (quoting simplified). */
  function HexErrorMessage(slice: string): string {
    "invalid literal for int() with base 16: '" + slice + "'"
  }

  function PairValue(s: string, i: nat): int
    requires i + 1 < |s| && PyStr.IsHexDigit(s[i]) && PyStr.IsHexDigit(s[i + 1])
  {
    16 * PyStr.HexDigitValue(s[i]) + PyStr.HexDigitValue(s[i + 1])
  }

  /** Two hex digits read as one byte. */
  lemma ParseHexPair(t: string)
    requires |t| == 2 && PyStr.IsHexDigit(t[0]) && PyStr.IsHexDigit(t[1])
    ensures ParseHexSlice(t) == Some(PairValue(t, 0))
    ensures 0 <= PairValue(t, 0) < 256
  {
  }

  /**
   * A well-formed `#RRGGBB` (any number of leading `#`) gives the three pairs
   * in reverse order, each in 0..255.
   */
  lemma HexToBgrWellFormed(hashes: string, digits: string)
    requires forall i :: 0 <= i < |hashes| ==> hashes[i] == '#'
    requires |digits| == 6 && forall i :: 0 <= i < 6 ==> PyStr.IsHexDigit(digits[i])
    ensures HexToBgr(hashes + digits) ==
      Success(Triple(PairValue(digits, 4), PairValue(digits, 2), PairValue(digits, 0)))
    ensures 0 <= PairValue(digits, 0) < 256 && 0 <= PairValue(digits, 2) < 256 && 0 <= PairValue(digits, 4) < 256
  {
    LStripHashes(hashes, digits);
    HexToBgrOfDigits(hashes + digits, digits);
  }

  /** `hex_to_bgr` on any text whose stripped form is six hex digits. */
  lemma HexToBgrOfDigits(hex: string, digits: string)
    requires PyStr.LStripChar(hex, '#') == digits
    requires |digits| == 6 && forall i :: 0 <= i < 6 ==> PyStr.IsHexDigit(digits[i])
    ensures HexToBgr(hex) ==
      Success(Triple(PairValue(digits, 4), PairValue(digits, 2), PairValue(digits, 0)))
    ensures 0 <= PairValue(digits, 0) < 256 && 0 <= PairValue(digits, 2) < 256 && 0 <= PairValue(digits, 4) < 256
  {
    SixDigitSlices(digits);
    HexToBgrOfSlices(hex, digits, PairValue(digits, 0), PairValue(digits, 2), PairValue(digits, 4));
  }

  lemma SixDigitSlices(digits: string)
    requires |digits| == 6 && forall i :: 0 <= i < 6 ==> PyStr.IsHexDigit(digits[i])
    ensures ParseHexSlice(PySlice(digits, 0, 2)) == Some(PairValue(digits, 0)) && 0 <= PairValue(digits, 0) < 256
    ensures ParseHexSlice(PySlice(digits, 2, 4)) == Some(PairValue(digits, 2)) && 0 <= PairValue(digits, 2) < 256
    ensures ParseHexSlice(PySlice(digits, 4, 6)) == Some(PairValue(digits, 4)) && 0 <= PairValue(digits, 4) < 256
  {
    SliceParses(digits, 0);
    SliceParses(digits, 2);
    SliceParses(digits, 4);
  }

  lemma SliceParses(digits: string, i: nat)
    requires i + 2 <= |digits| && PyStr.IsHexDigit(digits[i]) && PyStr.IsHexDigit(digits[i + 1])
    ensures ParseHexSlice(PySlice(digits, i, i + 2)) == Some(PairValue(digits, i))
    ensures 0 <= PairValue(digits, i) < 256
  {
    var t := digits[i..i + 2];
    assert PySlice(digits, i, i + 2) == t;
    ParseHexPair(t);
    assert PairValue(t, 0) == PairValue(digits, i);
  }

  /** `hex_to_bgr` once the three slices are known to parse. */
  lemma HexToBgrOfSlices(hex: string, h: string, rv: int, gv: int, bv: int)
    requires PyStr.LStripChar(hex, '#') == h
    requires ParseHexSlice(PySlice(h, 0, 2)) == Some(rv)
    requires ParseHexSlice(PySlice(h, 2, 4)) == Some(gv)
    requires ParseHexSlice(PySlice(h, 4, 6)) == Some(bv)
    ensures HexToBgr(hex) == Success(Triple(bv, gv, rv))
  {
  }

  lemma {:induction false} LStripHashes(hashes: string, rest: string)
    requires forall i :: 0 <= i < |hashes| ==> hashes[i] == '#'
    requires rest == [] || rest[0] != '#'
    ensures PyStr.LStripChar(hashes + rest, '#') == rest
  {
    if hashes != [] {
      assert (hashes + rest)[1..] == hashes[1..] + rest;
      LStripHashes(hashes[1..], rest);
    } else {
      assert hashes + rest == rest;
    }
  }

  /** A sign is accepted before a single digit, so a channel can come out negative. */
  lemma HexToBgrSignedPair(hex: string)
    requires hex == "#-f0000"
    ensures HexToBgr(hex) == Success(Triple(0, 0, -15))
  {
    var h := "-f0000";
    assert PyStr.LStripChar(hex, '#') == h by {
      assert hex == ['#'] + h;
      StripOneHash(h);
    }
    assert ParseHexSlice(PySlice(h, 0, 2)) == Some(-15) by {
      SignedSlice();
    }
    assert ParseHexSlice(PySlice(h, 2, 4)) == Some(0) by {
      ZeroSlice(h, 2);
    }
    assert ParseHexSlice(PySlice(h, 4, 6)) == Some(0) by {
      ZeroSlice(h, 4);
    }
    HexToBgrOfSlices(hex, h, -15, 0, 0);
  }

  lemma StripOneHash(h: string)
    requires h == [] || h[0] != '#'
    ensures PyStr.LStripChar(['#'] + h, '#') == h
  {
    LStripHashes("#", h);
  }

  lemma SignedSlice()
    ensures ParseHexSlice(PySlice("-f0000", 0, 2)) == Some(-15)
  {
    assert PySlice("-f0000", 0, 2) == "-f";
  }

  lemma ZeroSlice(h: string, i: nat)
    requires i + 2 <= |h| && h[i] == '0' && h[i + 1] == '0'
    ensures ParseHexSlice(PySlice(h, i, i + 2)) == Some(0)
  {
    assert PySlice(h, i, i + 2) == "00";
    ParseHexPair("00");
  }

  /** Three-digit shorthand is not expanded: the blue slice is empty and rejected. */
  lemma HexToBgrShortForm()
    ensures HexToBgr("#fff") == Failure("")
  {
    var h := "fff";
    assert PyStr.LStripChar("#fff", '#') == h by {
      LStripHashes("#", h);
      assert "#" + h == "#fff";
    }
    assert PySlice(h, 0, 2) == "ff" && PySlice(h, 2, 4) == "f" && PySlice(h, 4, 6) == "";
    assert ParseHexSlice("ff") == Some(255) by {
      ParseHexPair("ff");
    }
    assert ParseHexSlice("f") == Some(15);
    assert ParseHexSlice("") == None;
  }

  // ---------------------------------------------------------------------------
  // Loading
  // ---------------------------------------------------------------------------

  datatype Route = PdfRoute | TiffRoute | RasterRoute

  /** `load_file`'s dispatch on the content type. */
  function LoadRoute(contentType: string): Route {
    var t := PyStr.Lower(contentType);
    if PyStr.Contains(t, "pdf") then PdfRoute
    else if PyStr.Contains(t, "tiff") || PyStr.Contains(t, "tif") then TiffRoute
    else RasterRoute
  }

  /** PDF wins over TIFF; TIFF is chosen exactly for a (lower-cased) "tif" without "pdf". */
  lemma LoadRouteSpec(contentType: string)
    ensures var t := PyStr.Lower(contentType);
      && (LoadRoute(contentType) == PdfRoute <==> PyStr.Contains(t, "pdf"))
      && (LoadRoute(contentType) == TiffRoute <==> !PyStr.Contains(t, "pdf") && PyStr.Contains(t, "tif"))
      && (LoadRoute(contentType) == RasterRoute <==> !PyStr.Contains(t, "pdf") && !PyStr.Contains(t, "tif"))
  {
    var t := PyStr.Lower(contentType);
    if PyStr.Contains(t, "tiff") {
      assert "tif" + "f" == "tiff";
      PyStr.ContainsPrefixOfPattern(t, "tif", "f");
    }
  }

  /** A requested page at or beyond the page count falls back to page 0. */
  function ClampPage(requested: int, total: nat): (p: int)
    ensures p == requested || p == 0
    ensures p < total || total == 0
    ensures requested < total ==> p == requested
  {
    if requested >= total then 0 else requested
  }

  /**
   * What the foreign decoder (PyMuPDF, PIL or `cv2.imdecode`) makes of the
   * bytes: a document of `pageCount` pages whose selected page is
   * `height` x `width` pixels, or a failure with the library's reason.
   */
  datatype DecodeOutcome = Decoded(pageCount: nat, height: nat, width: nat) | Undecodable(reason: string)

  datatype Loaded = Loaded(kind: string, page: int, pages: nat, height: nat, width: nat)

  const LoadFailure: string := "파일 로드 실패: "
  const PdfFailure: string := "PDF 변환 실패: "
  const TiffFailure: string := "TIFF 변환 실패: "
  const RasterFailure: string := "이미지 디코딩 실패"
  /** Stand-in for the library's text when the selected page does not exist. */
  const NoSuchPage: string := "page not in document"

  /** PyMuPDF also accepts negative page numbers counted from the end. */
  predicate PdfPageExists(p: int, total: nat) { -(total as int) <= p < total }
  predicate TiffFrameExists(p: int, total: nat) { 0 <= p < total }

  /** `load_file` on a live gateway: the kind, the page used and the page count reported. */
  function LoadFile(contentType: string, requested: int, doc: DecodeOutcome): Result<Loaded, string> {
    match LoadRoute(contentType)
    case PdfRoute =>
      (match doc
       case Undecodable(reason) => Failure(LoadFailure + PdfFailure + reason)
       case Decoded(n, h, w) =>
         var p := ClampPage(requested, n);
         if PdfPageExists(p, n) then Success(Loaded("pdf", p, n, h, w))
         else Failure(LoadFailure + PdfFailure + NoSuchPage))
    case TiffRoute =>
      (match doc
       case Undecodable(reason) => Failure(LoadFailure + TiffFailure + reason)
       case Decoded(n, h, w) =>
         var p := ClampPage(requested, n);
         if TiffFrameExists(p, n) then Success(Loaded("tiff", p, n, h, w))
         else Failure(LoadFailure + TiffFailure + NoSuchPage))
    case RasterRoute =>
      (match doc
       case Undecodable(_) => Failure(LoadFailure + RasterFailure)
       case Decoded(_, h, w) => Success(Loaded("image", 0, 1, h, w)))
  }

  /** Loading reports the document's own page count, and a plain image always counts one page. */
  lemma LoadFileReportsPages(contentType: string, requested: int, doc: DecodeOutcome)
    requires LoadFile(contentType, requested, doc).Success?
    ensures var l := LoadFile(contentType, requested, doc).value;
      && doc.Decoded?
      && (LoadRoute(contentType) != RasterRoute ==> l.pages == doc.pageCount)
      && (LoadRoute(contentType) == RasterRoute ==> l.pages == 1 && l.kind == "image")
      && (0 <= requested < doc.pageCount ==> l.page == requested || LoadRoute(contentType) == RasterRoute)
      && (requested >= doc.pageCount ==> l.page == 0)
  {
  }

  /** Every loading failure is a `ValueError` carrying the load-failure prefix. */
  lemma LoadFileFailurePrefix(contentType: string, requested: int, doc: DecodeOutcome)
    requires LoadFile(contentType, requested, doc).Failure?
    ensures PyStr.StartsWith(LoadFile(contentType, requested, doc).error, LoadFailure)
  {
    var e := LoadFile(contentType, requested, doc).error;
    PyStr.StartsWithConcat(LoadFailure, e[|LoadFailure|..]);
    match LoadRoute(contentType)
    case PdfRoute =>
    case TiffRoute =>
    case RasterRoute =>
  }

  // ---------------------------------------------------------------------------
  // Geometry
  // ---------------------------------------------------------------------------

  const MaxDimension: nat := 4000

  function Max(a: nat, b: nat): nat { if a >= b then a else b }

  /** `downsample_if_needed`'s target size (height, width), in exact arithmetic. */
  function DownsampleSize(h: nat, w: nat, maxDim: nat): (nat, nat) {
    var m := Max(h, w);
    if m > maxDim then (ScaleFloor(h, maxDim, m), ScaleFloor(w, maxDim, m)) else (h, w)
  }

  /** `int(x * num / den)` for non-negative sizes: the floor of the scaled size. */
  function ScaleFloor(x: nat, num: nat, den: nat): nat
    requires den > 0
  {
    var p: nat := x * num;
    p / den
  }

  lemma DownsampleSizeSpec(h: nat, w: nat, maxDim: nat)
    ensures var (nh, nw) := DownsampleSize(h, w, maxDim);
      && (Max(h, w) <= maxDim ==> nh == h && nw == w)
      && (Max(h, w) > maxDim ==> nh <= h && nw <= w && Max(nh, nw) <= maxDim)
      && Max(nh, nw) <= Max(h, w)
  {
    var m := Max(h, w);
    if m > maxDim {
      ScaleDown(h, maxDim, m);
      ScaleDown(w, maxDim, m);
    }
  }

  /** Scaling `x <= den` by `num / den` with `num < den` shrinks it and keeps it within `num`. */
  lemma ScaleDown(x: nat, num: nat, den: nat)
    requires x <= den && num < den
    ensures x * num / den <= x && x * num / den <= num
  {
    MulLe(x, den, num);
    MulLe(num, den, x);
    DivLe(x * num, den, x);
    DivLe(x * num, den, num);
  }

  lemma MulLe(a: nat, b: nat, c: nat)
    requires a <= b
    ensures a * c <= b * c
  {
  }

  /** `n <= c * d` gives `n / d <= c`. */
  lemma DivLe(n: nat, d: nat, c: nat)
    requires d > 0 && n <= c * d
    ensures n / d <= c
  {
    var q := n / d;
    assert q * d <= n;
    MulLeCancel(q, c, d);
  }

  lemma MulLeCancel(a: nat, b: nat, d: nat)
    requires d > 0 && a * d <= b * d
    ensures a <= b
  {
  }

  /** Where `fallback_align` puts the resized second image: size and offsets. */
  datatype Box = Box(height: nat, width: nat, top: nat, left: nat)

  /**
   * The scale is the smaller of wA/wB and hA/hB; `None` is the division by
   * zero a zero-sized second image causes.
   */
  function FallbackBox(hA: nat, wA: nat, hB: nat, wB: nat): Option<Box> {
    if wB == 0 || hB == 0 then None
    else
      var (nh, nw) := if wA * hB <= hA * wB then (hB * wA / wB, wA) else (hA, wB * hA / hB);
      if nh <= hA && nw <= wA then Some(Box(nh, nw, (hA - nh) / 2, (wA - nw) / 2))
      else None
  }

  /**
   * The box always fits inside the first image, it fills one of its sides,
   * and it is centred with offsets rounded down.
   */
  lemma FallbackBoxSpec(hA: nat, wA: nat, hB: nat, wB: nat)
    requires hB > 0 && wB > 0
    ensures FallbackBox(hA, wA, hB, wB).Some?
    ensures var bx := FallbackBox(hA, wA, hB, wB).value;
      && bx.top + bx.height <= hA && bx.left + bx.width <= wA
      && (bx.height == hA || bx.width == wA)
      && bx.top == (hA - bx.height) / 2 && bx.left == (wA - bx.width) / 2
  {
    if wA * hB <= hA * wB {
      assert hB * wA <= hA * wB;
      DivLe(hB * wA, wB, hA);
    } else {
      assert wB * hA <= wA * hB;
      DivLe(wB * hA, hB, wA);
    }
  }

  datatype Pixel = Pixel(b: Byte, g: Byte, r: Byte)

  const White: Pixel := Pixel(255, 255, 255)

  predicate InBox(bx: Box, i: int, j: int) {
    bx.top <= i < bx.top + bx.height && bx.left <= j < bx.left + bx.width
  }

  /**
   * `fallback_align`: a white canvas of the first image's size with the
   * resized second image (produced by `cv2.resize`, given) pasted into the box.
   * `cv2.resize` only produces an image for a box with no zero side; the other
   * boxes are the failures `GeometryError` reports.
   */
  method FallbackAlign(hA: nat, wA: nat, hB: nat, wB: nat, resized: array2<Pixel>) returns (canvas: array2<Pixel>)
    requires FallbackBox(hA, wA, hB, wB).Some?
    requires FallbackBox(hA, wA, hB, wB).value.height > 0 && FallbackBox(hA, wA, hB, wB).value.width > 0
    requires resized.Length0 == FallbackBox(hA, wA, hB, wB).value.height
    requires resized.Length1 == FallbackBox(hA, wA, hB, wB).value.width
    ensures fresh(canvas) && canvas.Length0 == hA && canvas.Length1 == wA
    ensures var bx := FallbackBox(hA, wA, hB, wB).value;
      forall i, j :: 0 <= i < hA && 0 <= j < wA ==>
        canvas[i, j] == if InBox(bx, i, j) then resized[i - bx.top, j - bx.left] else White
  {
    var bx := FallbackBox(hA, wA, hB, wB).value;
    canvas := new Pixel[hA, wA]((_, _) => White);
    var r := 0;
    while r < bx.height
      invariant 0 <= r <= bx.height
      invariant forall i, j :: 0 <= i < hA && 0 <= j < wA ==>
        canvas[i, j] == if InBox(bx, i, j) && i < bx.top + r then resized[i - bx.top, j - bx.left] else White
    {
      var c := 0;
      while c < bx.width
        invariant 0 <= c <= bx.width
        invariant forall i, j :: 0 <= i < hA && 0 <= j < wA ==>
          canvas[i, j] == if InBox(bx, i, j) && (i < bx.top + r || (i == bx.top + r && j < bx.left + c))
                          then resized[i - bx.top, j - bx.left] else White
      {
        canvas[bx.top + r, bx.left + c] := resized[r, c];
        c := c + 1;
      }
      r := r + 1;
    }
  }

  // ---------------------------------------------------------------------------
  // Feature matching
  // ---------------------------------------------------------------------------

  /** A descriptor match; Hamming distances are whole numbers. */
  datatype Match = Match(queryIdx: nat, trainIdx: nat, distance: nat)

  /** Lowe's ratio test with ratio 0.75, written without fractions. */
  predicate PassesRatioTest(pair: seq<Match>) {
    |pair| == 2 && 4 * pair[0].distance < 3 * pair[1].distance
  }

  /** The best match of every k-NN pair that passes the ratio test, in order. */
  function GoodMatches(pairs: seq<seq<Match>>): (good: seq<Match>)
    ensures |good| <= |pairs|
  {
    if pairs == [] then []
    else
      var last := pairs[|pairs| - 1];
      GoodMatches(pairs[..|pairs| - 1]) + (if PassesRatioTest(last) then [last[0]] else [])
  }

  lemma {:induction false} GoodMatchesMembership(pairs: seq<seq<Match>>, m: Match)
    ensures m in GoodMatches(pairs) <==>
      exists i :: 0 <= i < |pairs| && PassesRatioTest(pairs[i]) && pairs[i][0] == m
  {
    if pairs != [] {
      var init := pairs[..|pairs| - 1];
      GoodMatchesMembership(init, m);
      if m in GoodMatches(init) {
        var i :| 0 <= i < |init| && PassesRatioTest(init[i]) && init[i][0] == m;
        assert pairs[i] == init[i];
      }
      if exists i :: 0 <= i < |pairs| && PassesRatioTest(pairs[i]) && pairs[i][0] == m {
        var i :| 0 <= i < |pairs| && PassesRatioTest(pairs[i]) && pairs[i][0] == m;
        if i < |init| {
          assert init[i] == pairs[i];
        }
      }
    }
  }

  /** The loop of `align_images` that collects the good matches. */
  method RatioFilter(pairs: seq<seq<Match>>) returns (good: seq<Match>)
    ensures good == GoodMatches(pairs)
  {
    good := [];
    var i := 0;
    while i < |pairs|
      invariant 0 <= i <= |pairs|
      invariant good == GoodMatches(pairs[..i])
    {
      var pair := pairs[i];
      if |pair| == 2 {
        var m, n := pair[0], pair[1];
        if 4 * m.distance < 3 * n.distance {
          good := good + [m];
        }
      }
      assert pairs[..i + 1][..i] == pairs[..i];
      i := i + 1;
    }
    assert pairs[..|pairs|] == pairs;
  }

  const MinMatches: nat := 10

  /** RANSAC's verdict: no homography, or its inlier mask over the good matches. */
  datatype Ransac = NoHomography | Homography(inlierMask: seq<bool>)

  function CountTrue(mask: seq<bool>): (n: nat)
    ensures n <= |mask|
  {
    if mask == [] then 0 else (if mask[0] then 1 else 0) + CountTrue(mask[1..])
  }

  /** Whether `align_images` returned a warped image, and the quality it reported. */
  datatype AlignResult = AlignResult(warped: bool, quality: real)

  /**
   * `align_images` given what the foreign steps produced: whether both images
   * had descriptors and at least 4 keypoints, the k-NN pairs (`None` when
   * matching raised), and RANSAC's outcome on the good matches.
   */
  function Align(featuresFound: bool, knn: Option<seq<seq<Match>>>, ransac: Ransac): AlignResult {
    if !featuresFound || knn.None? then AlignResult(false, 0.0)
    else
      var good := GoodMatches(knn.value);
      if |good| < MinMatches then AlignResult(false, |good| as real / MinMatches as real)
      else match ransac
        case NoHomography => AlignResult(false, 0.0)
        case Homography(mask) => AlignResult(true, CountTrue(mask) as real / |good| as real)
  }

  /** `align_images` with its match-collection loop. */
  method AlignImages(featuresFound: bool, knn: Option<seq<seq<Match>>>, ransac: Ransac) returns (r: AlignResult)
    ensures r == Align(featuresFound, knn, ransac)
  {
    if !featuresFound || knn.None? {
      return AlignResult(false, 0.0);
    }
    var good := RatioFilter(knn.value);
    if |good| < MinMatches {
      return AlignResult(false, |good| as real / MinMatches as real);
    }
    match ransac
    case NoHomography =>
      return AlignResult(false, 0.0);
    case Homography(mask) =>
      var inliers := CountTrue(mask);
      return AlignResult(true, inliers as real / |good| as real);
  }

  /** RANSAC reports one mask entry per good match. */
  predicate MaskFits(knn: Option<seq<seq<Match>>>, ransac: Ransac) {
    ransac.Homography? && knn.Some? ==> |ransac.inlierMask| == |GoodMatches(knn.value)|
  }

  /**
   * Quality lies in [0, 1]; a warped image needs at least 10 good matches, and
   * with fewer the quality is the good-match count over 10.
   */
  lemma AlignSpec(featuresFound: bool, knn: Option<seq<seq<Match>>>, ransac: Ransac)
    requires MaskFits(knn, ransac)
    ensures var r := Align(featuresFound, knn, ransac);
      && 0.0 <= r.quality <= 1.0
      && (r.warped ==> featuresFound && knn.Some? && |GoodMatches(knn.value)| >= MinMatches)
      && (featuresFound && knn.Some? && |GoodMatches(knn.value)| < MinMatches ==>
            !r.warped && r.quality == |GoodMatches(knn.value)| as real / 10.0)
  {
    if featuresFound && knn.Some? {
      var good := GoodMatches(knn.value);
      if |good| >= MinMatches && ransac.Homography? {
        RatioAtMostOne(CountTrue(ransac.inlierMask), |good|);
      } else if |good| < MinMatches {
        RatioAtMostOne(|good|, MinMatches);
      }
    }
  }

  lemma RatioAtMostOne(x: nat, y: nat)
    requires 0 < y && x <= y
    ensures 0.0 <= x as real / y as real <= 1.0
  {
    assert x as real <= y as real;
  }

  /** The alignment is replaced by the fallback when there is no warped image or quality is below 0.3. */
  predicate AlignmentFailed(r: AlignResult) {
    !r.warped || r.quality < 0.3
  }

  lemma FewMatchesFallBack(featuresFound: bool, knn: Option<seq<seq<Match>>>, ransac: Ransac)
    requires knn.None? || |GoodMatches(knn.value)| < MinMatches || !featuresFound || ransac.NoHomography?
    ensures AlignmentFailed(Align(featuresFound, knn, ransac))
  {
  }

  // ---------------------------------------------------------------------------
  // Per-pixel comparison
  // ---------------------------------------------------------------------------

  /** Binarisation with `THRESH_BINARY_INV`: a pixel is ink when it is not brighter than the threshold. */
  predicate Ink(gray: int, binThresh: int) { gray <= binThresh }

  /** The difference mask of `THRESH_BINARY` on the absolute difference. */
  predicate Differs(a: int, b: int, diffThresh: int) {
    (if a >= b then a - b else b - a) > diffThresh
  }

  /** Ink only in A, or ink in both where A differs and is darker. */
  predicate OnlyA(a: int, b: int, binThresh: int, diffThresh: int) {
    (Ink(a, binThresh) && !Ink(b, binThresh)) ||
    (Ink(a, binThresh) && Ink(b, binThresh) && Differs(a, b, diffThresh) && a < b)
  }

  predicate OnlyB(a: int, b: int, binThresh: int, diffThresh: int) {
    (Ink(b, binThresh) && !Ink(a, binThresh)) ||
    (Ink(a, binThresh) && Ink(b, binThresh) && Differs(a, b, diffThresh) && b < a)
  }

  /** Ink in both without a difference. */
  predicate Common(a: int, b: int, binThresh: int, diffThresh: int) {
    Ink(a, binThresh) && Ink(b, binThresh) && !Differs(a, b, diffThresh)
  }

  /** The boolean masks the pipeline paints through. */
  datatype Mask =
    | OnlyAMask(binThresh: int, diffThresh: int)
    | OnlyBMask(binThresh: int, diffThresh: int)
    | CommonMask(binThresh: int, diffThresh: int)
    | InkAMask(binThresh: int)
    | InkBMask(binThresh: int)

  predicate InMask(m: Mask, a: int, b: int) {
    match m
    case OnlyAMask(bt, dt) => OnlyA(a, b, bt, dt)
    case OnlyBMask(bt, dt) => OnlyB(a, b, bt, dt)
    case CommonMask(bt, dt) => Common(a, b, bt, dt)
    case InkAMask(bt) => Ink(a, bt)
    case InkBMask(bt) => Ink(b, bt)
  }

  predicate SameShape(canvas: array2<Pixel>, a: array2<Byte>, b: array2<Byte>) {
    a.Length0 == canvas.Length0 && a.Length1 == canvas.Length1 &&
    b.Length0 == canvas.Length0 && b.Length1 == canvas.Length1
  }

  /** NumPy's `canvas[mask] = colour`. */
  method Paint(canvas: array2<Pixel>, a: array2<Byte>, b: array2<Byte>, m: Mask, colour: Pixel)
    requires SameShape(canvas, a, b)
    modifies canvas
    ensures forall i, j :: 0 <= i < canvas.Length0 && 0 <= j < canvas.Length1 ==>
      canvas[i, j] == if InMask(m, a[i, j], b[i, j]) then colour else old(canvas[i, j])
  {
    var i := 0;
    while i < canvas.Length0
      invariant 0 <= i <= canvas.Length0
      invariant forall r, c :: 0 <= r < canvas.Length0 && 0 <= c < canvas.Length1 ==>
        canvas[r, c] == if r < i && InMask(m, a[r, c], b[r, c]) then colour else old(canvas[r, c])
    {
      var j := 0;
      while j < canvas.Length1
        invariant 0 <= j <= canvas.Length1
        invariant forall r, c :: 0 <= r < canvas.Length0 && 0 <= c < canvas.Length1 ==>
          canvas[r, c] == if (r < i || (r == i && c < j)) && InMask(m, a[r, c], b[r, c]) then colour else old(canvas[r, c])
      {
        if InMask(m, a[i, j], b[i, j]) {
          canvas[i, j] := colour;
        }
        j := j + 1;
      }
      i := i + 1;
    }
  }

  datatype DiffPalette = DiffPalette(file1: Pixel, file2: Pixel, common: Pixel)
  datatype OverlayPalette = OverlayPalette(file1: Pixel, file2: Pixel)

  /** The colour `compare_images` leaves at a pixel: later masks overwrite earlier ones. */
  function ComparePixel(a: int, b: int, binThresh: int, diffThresh: int, pal: DiffPalette): Pixel {
    if OnlyB(a, b, binThresh, diffThresh) then pal.file2
    else if OnlyA(a, b, binThresh, diffThresh) then pal.file1
    else if Common(a, b, binThresh, diffThresh) then pal.common
    else White
  }

  /** `compare_images`: white, then common, only-A and only-B painted in that order. */
  method CompareImages(a: array2<Byte>, b: array2<Byte>, diffThresh: int, binThresh: int, pal: DiffPalette)
    returns (result: array2<Pixel>)
    requires a.Length0 == b.Length0 && a.Length1 == b.Length1
    ensures fresh(result) && result.Length0 == a.Length0 && result.Length1 == a.Length1
    ensures forall i, j :: 0 <= i < result.Length0 && 0 <= j < result.Length1 ==>
      result[i, j] == ComparePixel(a[i, j], b[i, j], binThresh, diffThresh, pal)
  {
    result := new Pixel[a.Length0, a.Length1]((_, _) => White);
    Paint(result, a, b, CommonMask(binThresh, diffThresh), pal.common);
    Paint(result, a, b, OnlyAMask(binThresh, diffThresh), pal.file1);
    Paint(result, a, b, OnlyBMask(binThresh, diffThresh), pal.file2);
  }

  /** The three masks never overlap, so the painting order does not matter. */
  lemma MasksDisjoint(a: int, b: int, binThresh: int, diffThresh: int, pal: DiffPalette)
    ensures !(OnlyA(a, b, binThresh, diffThresh) && OnlyB(a, b, binThresh, diffThresh))
    ensures !(OnlyA(a, b, binThresh, diffThresh) && Common(a, b, binThresh, diffThresh))
    ensures !(OnlyB(a, b, binThresh, diffThresh) && Common(a, b, binThresh, diffThresh))
    ensures ComparePixel(a, b, binThresh, diffThresh, pal) ==
      if Common(a, b, binThresh, diffThresh) then pal.common
      else if OnlyA(a, b, binThresh, diffThresh) then pal.file1
      else if OnlyB(a, b, binThresh, diffThresh) then pal.file2
      else White
  {
  }

  /**
   * With a non-negative difference threshold every inked pixel falls in
   * exactly one mask, so a pixel keeps the background exactly when neither
   * image has ink there.
   */
  lemma BackgroundIffNoInk(a: int, b: int, binThresh: int, diffThresh: int)
    requires diffThresh >= 0
    ensures (OnlyA(a, b, binThresh, diffThresh) || OnlyB(a, b, binThresh, diffThresh) ||
             Common(a, b, binThresh, diffThresh))
        <==> (Ink(a, binThresh) || Ink(b, binThresh))
  {
  }

  /** A negative difference threshold loses equal inked pixels: they fall in no mask. */
  lemma NegativeThresholdDropsInk(g: int, binThresh: int, diffThresh: int)
    requires diffThresh < 0 && Ink(g, binThresh)
    ensures !OnlyA(g, g, binThresh, diffThresh) && !OnlyB(g, g, binThresh, diffThresh) &&
            !Common(g, g, binThresh, diffThresh)
  {
  }

  /** `compare_images_overlay`: B's ink is painted last and wins over A's. */
  function OverlayPixel(a: int, b: int, binThresh: int, pal: OverlayPalette): (p: Pixel)
    ensures Ink(b, binThresh) ==> p == pal.file2
    ensures !Ink(b, binThresh) && Ink(a, binThresh) ==> p == pal.file1
    ensures !Ink(a, binThresh) && !Ink(b, binThresh) ==> p == White
  {
    if Ink(b, binThresh) then pal.file2 else if Ink(a, binThresh) then pal.file1 else White
  }

  method CompareImagesOverlay(a: array2<Byte>, b: array2<Byte>, binThresh: int, pal: OverlayPalette)
    returns (result: array2<Pixel>)
    requires a.Length0 == b.Length0 && a.Length1 == b.Length1
    ensures fresh(result) && result.Length0 == a.Length0 && result.Length1 == a.Length1
    ensures forall i, j :: 0 <= i < result.Length0 && 0 <= j < result.Length1 ==>
      result[i, j] == OverlayPixel(a[i, j], b[i, j], binThresh, pal)
  {
    result := new Pixel[a.Length0, a.Length1]((_, _) => White);
    Paint(result, a, b, InkAMask(binThresh), pal.file1);
    Paint(result, a, b, InkBMask(binThresh), pal.file2);
  }

  /** The first side-by-side image: common in the common colour, only-A over it. */
  function HighlightA(a: int, b: int, binThresh: int, diffThresh: int, pal: DiffPalette): Pixel {
    if OnlyA(a, b, binThresh, diffThresh) then pal.file1
    else if Common(a, b, binThresh, diffThresh) then pal.common
    else White
  }

  function HighlightB(a: int, b: int, binThresh: int, diffThresh: int, pal: DiffPalette): Pixel {
    if OnlyB(a, b, binThresh, diffThresh) then pal.file2
    else if Common(a, b, binThresh, diffThresh) then pal.common
    else White
  }

  /**
   * Each side-by-side image agrees with the combined difference image except
   * where the other file alone has the pixel, which it leaves white.
   */
  lemma HighlightsAgreeWithCompare(a: int, b: int, binThresh: int, diffThresh: int, pal: DiffPalette)
    ensures HighlightA(a, b, binThresh, diffThresh, pal) ==
      if OnlyB(a, b, binThresh, diffThresh) then White else ComparePixel(a, b, binThresh, diffThresh, pal)
    ensures HighlightB(a, b, binThresh, diffThresh, pal) ==
      if OnlyA(a, b, binThresh, diffThresh) then White else ComparePixel(a, b, binThresh, diffThresh, pal)
  {
  }

  /** `generate_highlighted_images`. */
  method GenerateHighlightedImages(a: array2<Byte>, b: array2<Byte>, diffThresh: int, binThresh: int, pal: DiffPalette)
    returns (outA: array2<Pixel>, outB: array2<Pixel>)
    requires a.Length0 == b.Length0 && a.Length1 == b.Length1
    ensures fresh(outA) && fresh(outB) && outA != outB
    ensures outA.Length0 == outB.Length0 == a.Length0 && outA.Length1 == outB.Length1 == a.Length1
    ensures forall i, j :: 0 <= i < a.Length0 && 0 <= j < a.Length1 ==>
      outA[i, j] == HighlightA(a[i, j], b[i, j], binThresh, diffThresh, pal) &&
      outB[i, j] == HighlightB(a[i, j], b[i, j], binThresh, diffThresh, pal)
  {
    outA := new Pixel[a.Length0, a.Length1]((_, _) => White);
    Paint(outA, a, b, CommonMask(binThresh, diffThresh), pal.common);
    Paint(outA, a, b, OnlyAMask(binThresh, diffThresh), pal.file1);
    outB := new Pixel[a.Length0, a.Length1]((_, _) => White);
    Paint(outB, a, b, CommonMask(binThresh, diffThresh), pal.common);
    Paint(outB, a, b, OnlyBMask(binThresh, diffThresh), pal.file2);
  }

  // ---------------------------------------------------------------------------
  // Colours from the request
  // ---------------------------------------------------------------------------

  const DefaultDiffFile1: string := "#0000FF"
  const DefaultDiffFile2: string := "#FF0000"
  const DefaultDiffCommon: string := "#000000"
  const DefaultOverlayFile1: string := "#FFA500"
  const DefaultOverlayFile2: string := "#00FF00"

  /** `hex_to_bgr(colors.get(key, default))`. */
  function ColourFor(colors: map<string, string>, key: string, default: string): Result<Triple, string> {
    HexToBgr(Get(colors, key, default))
  }

  /** `colors.get(key, default)`. */
  function Get(colors: map<string, string>, key: string, default: string): string {
    if key in colors then colors[key] else default
  }

  predicate IsByteTriple(t: Triple) {
    0 <= t.b < 256 && 0 <= t.g < 256 && 0 <= t.r < 256
  }

  function ToPixel(t: Triple): Pixel
    requires IsByteTriple(t)
  {
    Pixel(t.b, t.g, t.r)
  }

  /** Why a palette could not be built: a rejected hex slice, or a channel outside 0..255. */
  datatype PaletteError = BadHex(slice: string) | ChannelOutOfRange

  /**
   * The colours of `compare_images`. All three keys are parsed before any
   * painting, in the order file1, file2, common, so the first unparsable one
   * is reported whatever the others hold; a channel outside 0..255 is only
   * refused afterwards, when the result image is painted.
   */
  function DiffPaletteOf(colors: map<string, string>): Result<DiffPalette, PaletteError> {
    DiffPaletteFrom(ColourFor(colors, "diff_file1", DefaultDiffFile1),
                    ColourFor(colors, "diff_file2", DefaultDiffFile2),
                    ColourFor(colors, "diff_common", DefaultDiffCommon))
  }

  /** The difference palette from the three parsed colours, in key order. */
  function DiffPaletteFrom(c1: Result<Triple, string>, c2: Result<Triple, string>, cc: Result<Triple, string>)
    : Result<DiffPalette, PaletteError>
  {
    match (c1, c2, cc)
    case (Failure(s), _, _) => Failure(BadHex(s))
    case (Success(_), Failure(s), _) => Failure(BadHex(s))
    case (Success(_), Success(_), Failure(s)) => Failure(BadHex(s))
    case (Success(t1), Success(t2), Success(tc)) =>
      if IsByteTriple(tc) && IsByteTriple(t1) && IsByteTriple(t2)
      then Success(DiffPalette(ToPixel(t1), ToPixel(t2), ToPixel(tc)))
      else Failure(ChannelOutOfRange)
  }

  /** The colours of `compare_images_overlay`: both keys parsed first, then painted. */
  function OverlayPaletteOf(colors: map<string, string>): Result<OverlayPalette, PaletteError> {
    OverlayPaletteFrom(ColourFor(colors, "overlay_file1", DefaultOverlayFile1),
                       ColourFor(colors, "overlay_file2", DefaultOverlayFile2))
  }

  function OverlayPaletteFrom(c1: Result<Triple, string>, c2: Result<Triple, string>)
    : Result<OverlayPalette, PaletteError>
  {
    match (c1, c2)
    case (Failure(s), _) => Failure(BadHex(s))
    case (Success(_), Failure(s)) => Failure(BadHex(s))
    case (Success(t1), Success(t2)) =>
      if IsByteTriple(t1) && IsByteTriple(t2)
      then Success(OverlayPalette(ToPixel(t1), ToPixel(t2)))
      else Failure(ChannelOutOfRange)
  }

  /**
   * Any unparsable colour makes the difference palette fail with a parse
   * error, whatever the other keys hold; it succeeds exactly when all three
   * parse with channels in 0..255, and then holds those three colours.
   */
  lemma DiffPaletteOfSpec(colors: map<string, string>)
    ensures var r := DiffPaletteOf(colors);
      var c1 := ColourFor(colors, "diff_file1", DefaultDiffFile1);
      var c2 := ColourFor(colors, "diff_file2", DefaultDiffFile2);
      var cc := ColourFor(colors, "diff_common", DefaultDiffCommon);
      && (c1.Failure? ==> r == Failure(BadHex(c1.error)))
      && ((r.Failure? && r.error.BadHex?) <==> (c1.Failure? || c2.Failure? || cc.Failure?))
      && (r.Success? <==> c1.Success? && c2.Success? && cc.Success? &&
                          IsByteTriple(c1.value) && IsByteTriple(c2.value) && IsByteTriple(cc.value))
      && (r.Success? ==> r.value == DiffPalette(ToPixel(c1.value), ToPixel(c2.value), ToPixel(cc.value)))
  {
    DiffPaletteFromSpec(ColourFor(colors, "diff_file1", DefaultDiffFile1),
                        ColourFor(colors, "diff_file2", DefaultDiffFile2),
                        ColourFor(colors, "diff_common", DefaultDiffCommon));
  }

  lemma DiffPaletteFromSpec(c1: Result<Triple, string>, c2: Result<Triple, string>, cc: Result<Triple, string>)
    ensures var r := DiffPaletteFrom(c1, c2, cc);
      && (c1.Failure? ==> r == Failure(BadHex(c1.error)))
      && ((r.Failure? && r.error.BadHex?) <==> (c1.Failure? || c2.Failure? || cc.Failure?))
      && (r.Success? <==> c1.Success? && c2.Success? && cc.Success? &&
                          IsByteTriple(c1.value) && IsByteTriple(c2.value) && IsByteTriple(cc.value))
      && (r.Success? ==> r.value == DiffPalette(ToPixel(c1.value), ToPixel(c2.value), ToPixel(cc.value)))
  {
  }

  /** The same for the overlay palette's two keys. */
  lemma OverlayPaletteOfSpec(colors: map<string, string>)
    ensures var r := OverlayPaletteOf(colors);
      var c1 := ColourFor(colors, "overlay_file1", DefaultOverlayFile1);
      var c2 := ColourFor(colors, "overlay_file2", DefaultOverlayFile2);
      && (c1.Failure? ==> r == Failure(BadHex(c1.error)))
      && ((r.Failure? && r.error.BadHex?) <==> (c1.Failure? || c2.Failure?))
      && (r.Success? <==> c1.Success? && c2.Success? && IsByteTriple(c1.value) && IsByteTriple(c2.value))
      && (r.Success? ==> r.value == OverlayPalette(ToPixel(c1.value), ToPixel(c2.value)))
  {
    OverlayPaletteFromSpec(ColourFor(colors, "overlay_file1", DefaultOverlayFile1),
                           ColourFor(colors, "overlay_file2", DefaultOverlayFile2));
  }

  lemma OverlayPaletteFromSpec(c1: Result<Triple, string>, c2: Result<Triple, string>)
    ensures var r := OverlayPaletteFrom(c1, c2);
      && (c1.Failure? ==> r == Failure(BadHex(c1.error)))
      && ((r.Failure? && r.error.BadHex?) <==> (c1.Failure? || c2.Failure?))
      && (r.Success? <==> c1.Success? && c2.Success? && IsByteTriple(c1.value) && IsByteTriple(c2.value))
      && (r.Success? ==> r.value == OverlayPalette(ToPixel(c1.value), ToPixel(c2.value)))
  {
  }

  /**
   * A signed channel in one key does not hide a malformed later key: the
   * parse error is what is reported, so the request is refused as a
   * `ValueError` rather than by the array library.
   */
  lemma BadHexHidesChannelError()
    ensures DiffPaletteOf(map["diff_file1" := "#-f0000", "diff_file2" := "#zz0000"]) == Failure(BadHex("zz"))
    ensures OverlayPaletteOf(map["overlay_file1" := "#-f0000", "overlay_file2" := "#zz0000"]) == Failure(BadHex("zz"))
  {
    DiffBadHexHidesChannelError();
    OverlayBadHexHidesChannelError();
  }

  lemma DiffBadHexHidesChannelError()
    ensures DiffPaletteOf(map["diff_file1" := "#-f0000", "diff_file2" := "#zz0000"]) == Failure(BadHex("zz"))
  {
    var m := map["diff_file1" := "#-f0000", "diff_file2" := "#zz0000"];
    assert Get(m, "diff_file1", DefaultDiffFile1) == "#-f0000";
    assert Get(m, "diff_file2", DefaultDiffFile2) == "#zz0000";
    HexToBgrSignedPair("#-f0000");
    HexToBgrBadPair("#zz0000");
    DiffPaletteFromSpec(Success(Triple(0, 0, -15)), Failure("zz"), ColourFor(m, "diff_common", DefaultDiffCommon));
  }

  lemma OverlayBadHexHidesChannelError()
    ensures OverlayPaletteOf(map["overlay_file1" := "#-f0000", "overlay_file2" := "#zz0000"]) == Failure(BadHex("zz"))
  {
    var m := map["overlay_file1" := "#-f0000", "overlay_file2" := "#zz0000"];
    assert Get(m, "overlay_file1", DefaultOverlayFile1) == "#-f0000";
    assert Get(m, "overlay_file2", DefaultOverlayFile2) == "#zz0000";
    HexToBgrSignedPair("#-f0000");
    HexToBgrBadPair("#zz0000");
  }

  lemma HexToBgrBadPair(hex: string)
    requires hex == "#zz0000"
    ensures HexToBgr(hex) == Failure("zz")
  {
    var h := "zz0000";
    assert PyStr.LStripChar(hex, '#') == h by {
      assert hex == ['#'] + h;
      StripOneHash(h);
    }
    assert PySlice(h, 0, 2) == "zz";
    assert ParseHexSlice("zz") == None by {
      assert !PyStr.IsHexDigit('z');
    }
  }

  const Blue: Pixel := Pixel(255, 0, 0)
  const Red: Pixel := Pixel(0, 0, 255)
  const Black: Pixel := Pixel(0, 0, 0)
  const Orange: Pixel := Pixel(0, 165, 255)
  const Green: Pixel := Pixel(0, 255, 0)

  /** A default `#RRGGBB` that no entry of `colors` overrides becomes its pixel. */
  lemma DefaultColour(key: string, digits: string, b: Byte, g: Byte, r: Byte)
    requires |digits| == 6
    requires PyStr.IsHexDigit(digits[0]) && PyStr.IsHexDigit(digits[1]) && PyStr.IsHexDigit(digits[2])
    requires PyStr.IsHexDigit(digits[3]) && PyStr.IsHexDigit(digits[4]) && PyStr.IsHexDigit(digits[5])
    requires r == PairValue(digits, 0) && g == PairValue(digits, 2) && b == PairValue(digits, 4)
    ensures ColourFor(map[], key, "#" + digits) == Success(Triple(b, g, r))
  {
    assert forall i :: 0 <= i < 6 ==> PyStr.IsHexDigit(digits[i]);
    HexToBgrWellFormed("#", digits);
  }

  lemma DefaultDiffFile1Colour()
    ensures ColourFor(map[], "diff_file1", DefaultDiffFile1) == Success(Triple(255, 0, 0))
    ensures ToPixel(Triple(255, 0, 0)) == Blue
  {
    DefaultColour("diff_file1", "0000FF", 255, 0, 0);
    assert "#" + "0000FF" == DefaultDiffFile1;
  }

  lemma DefaultDiffFile2Colour()
    ensures ColourFor(map[], "diff_file2", DefaultDiffFile2) == Success(Triple(0, 0, 255))
    ensures ToPixel(Triple(0, 0, 255)) == Red
  {
    DefaultColour("diff_file2", "FF0000", 0, 0, 255);
    assert "#" + "FF0000" == DefaultDiffFile2;
  }

  lemma DefaultDiffCommonColour()
    ensures ColourFor(map[], "diff_common", DefaultDiffCommon) == Success(Triple(0, 0, 0))
    ensures ToPixel(Triple(0, 0, 0)) == Black
  {
    DefaultColour("diff_common", "000000", 0, 0, 0);
    assert "#" + "000000" == DefaultDiffCommon;
  }

  lemma DefaultOverlayFile1Colour()
    ensures ColourFor(map[], "overlay_file1", DefaultOverlayFile1) == Success(Triple(0, 165, 255))
    ensures ToPixel(Triple(0, 165, 255)) == Orange
  {
    DefaultColour("overlay_file1", "FFA500", 0, 165, 255);
    assert "#" + "FFA500" == DefaultOverlayFile1;
  }

  lemma DefaultOverlayFile2Colour()
    ensures ColourFor(map[], "overlay_file2", DefaultOverlayFile2) == Success(Triple(0, 255, 0))
    ensures ToPixel(Triple(0, 255, 0)) == Green
  {
    DefaultColour("overlay_file2", "00FF00", 0, 255, 0);
    assert "#" + "00FF00" == DefaultOverlayFile2;
  }

  /** Without colours the palettes are blue/red/black and orange/green, in BGR order. */
  lemma DefaultPalettes()
    ensures DiffPaletteOf(map[]) == Success(DiffPalette(Blue, Red, Black))
    ensures OverlayPaletteOf(map[]) == Success(OverlayPalette(Orange, Green))
  {
    DefaultDiffPalette();
    DefaultOverlayPalette();
  }

  lemma DefaultDiffPalette()
    ensures DiffPaletteOf(map[]) == Success(DiffPalette(Blue, Red, Black))
  {
    DefaultDiffFile1Colour();
    DefaultDiffFile2Colour();
    DefaultDiffCommonColour();
    DiffPaletteFromSpec(Success(Triple(255, 0, 0)), Success(Triple(0, 0, 255)), Success(Triple(0, 0, 0)));
  }

  lemma DefaultOverlayPalette()
    ensures OverlayPaletteOf(map[]) == Success(OverlayPalette(Orange, Green))
  {
    DefaultOverlayFile1Colour();
    DefaultOverlayFile2Colour();
  }

  // ---------------------------------------------------------------------------
  // Encoding and the pipeline's decisions
  // ---------------------------------------------------------------------------

  const JpegMime: string := "image/jpeg"
  const PngMime: string := "image/png"

  function MimeType(format: string): string {
    if PyStr.Upper(format) == "JPEG" then JpegMime else PngMime
  }

  /** The header of a base64 data URI (section 3 of RFC 2397). */
  function DataUriPrefix(mime: string): string {
    "data:" + mime + ";base64,"
  }

  /** `encode_image_to_base64` given the encoder's output buffer. */
  function EncodeImageToBase64(buffer: seq<Byte>, format: string): string {
    DataUriPrefix(MimeType(format)) + Base64.Encode(buffer)
  }

  /** The JPEG header is used exactly for a format that upper-cases to "JPEG"; anything else is PNG. */
  lemma EncodePrefix(buffer: seq<Byte>, format: string)
    ensures var s := EncodeImageToBase64(buffer, format);
      && (PyStr.Upper(format) == "JPEG" ==> s == DataUriPrefix(JpegMime) + Base64.Encode(buffer))
      && (PyStr.Upper(format) != "JPEG" ==> s == DataUriPrefix(PngMime) + Base64.Encode(buffer))
      && (PyStr.StartsWith(s, DataUriPrefix(JpegMime)) <==> PyStr.Upper(format) == "JPEG")
  {
    var s := EncodeImageToBase64(buffer, format);
    if PyStr.Upper(format) == "JPEG" {
      PyStr.StartsWithConcat(DataUriPrefix(JpegMime), Base64.Encode(buffer));
    } else {
      PrefixesDiffer(Base64.Encode(buffer));
    }
  }

  lemma PrefixesDiffer(rest: string)
    ensures !PyStr.StartsWith(DataUriPrefix(PngMime) + rest, DataUriPrefix(JpegMime))
  {
    var s := DataUriPrefix(PngMime) + rest;
    assert s[11] == PngMime[6] == 'p';
    assert DataUriPrefix(JpegMime)[11] == JpegMime[6] == 'j';
  }

  /** "<width>x<height>". */
  function ResultSize(width: nat, height: nat): string {
    PyStr.NatToString(width) + "x" + PyStr.NatToString(height)
  }

  predicate AllDigits(s: string) {
    forall i :: 0 <= i < |s| ==> '0' <= s[i] <= '9'
  }

  /** Reading a result size back. */
  function ParseResultSize(s: string): Option<(nat, nat)> {
    var parts := PyStr.JsSplit(s, 'x');
    if |parts| == 2 && parts[0] != [] && parts[1] != [] && AllDigits(parts[0]) && AllDigits(parts[1])
    then Some((PyStr.ParseDigits(parts[0]), PyStr.ParseDigits(parts[1])))
    else None
  }

  lemma ResultSizeRoundTrip(width: nat, height: nat)
    ensures ParseResultSize(ResultSize(width, height)) == Some((width, height))
  {
    var ws, hs := PyStr.NatToString(width), PyStr.NatToString(height);
    assert 'x' !in ws by {
      forall i | 0 <= i < |ws| ensures ws[i] != 'x' { }
    }
    assert 'x' !in hs by {
      forall i | 0 <= i < |hs| ensures hs[i] != 'x' { }
    }
    assert ResultSize(width, height) == ws + ['x'] + hs;
    PyStr.JsSplitCons(ws, 'x', hs);
    PyStr.ParseNatToString(width);
    PyStr.ParseNatToString(height);
  }

  datatype Metadata = Metadata(mode: string, file1Pages: nat, file2Pages: nat, matchQuality: real,
                               alignmentFailed: bool, resultSize: string)

  /** Any mode other than "overlay" takes the difference path. */
  predicate UsesOverlay(mode: string) { mode == "overlay" }

  /**
   * The exception a run of the pipeline ends with: the loaders and
   * `hex_to_bgr` raise `ValueError`; OpenCV, NumPy and the fallback's
   * division raise other kinds.
   */
  datatype PipelineError = ValueError(message: string) | OtherError(message: string)

  /** Stand-in for OpenCV's assertion text when `cv2.resize` is asked for a size with a zero side. */
  const EmptyResize: string := "cv2.resize: target size has a zero side"
  /** Python's `ZeroDivisionError` text. */
  const DivisionByZero: string := "division by zero"

  /** `downsample_if_needed` calls `cv2.resize` with a zero side: a long, thin image. */
  predicate DownsampleRejects(h: nat, w: nat) {
    var (nh, nw) := DownsampleSize(h, w, MaxDimension);
    Max(h, w) > MaxDimension && (nh == 0 || nw == 0)
  }

  /**
   * The errors the resizes of steps 2 and 3 raise, given the loaded sizes and
   * whether alignment fell back: either downsample, then the fallback's
   * division by the second image's sides and its resize into the box.
   */
  function GeometryError(hA: nat, wA: nat, hB: nat, wB: nat, fallback: bool): (e: Option<PipelineError>)
    ensures e.Some? ==> e.value.OtherError?
  {
    if DownsampleRejects(hA, wA) || DownsampleRejects(hB, wB) then Some(OtherError(EmptyResize))
    else if !fallback then None
    else
      var (h1, w1) := DownsampleSize(hA, wA, MaxDimension);
      var (h2, w2) := DownsampleSize(hB, wB, MaxDimension);
      match FallbackBox(h1, w1, h2, w2)
      case None => Some(OtherError(DivisionByZero))
      case Some(bx) => if bx.height == 0 || bx.width == 0 then Some(OtherError(EmptyResize)) else None
  }

  /** Downsampling fails exactly when the shorter side, scaled to the 4000 limit, rounds down to zero. */
  lemma DownsampleRejectsSpec(h: nat, w: nat)
    ensures DownsampleRejects(h, w) <==>
      Max(h, w) > MaxDimension && (h * MaxDimension < Max(h, w) || w * MaxDimension < Max(h, w))
  {
    var m := Max(h, w);
    if m > MaxDimension {
      ScaleFloorZero(h, MaxDimension, m);
      ScaleFloorZero(w, MaxDimension, m);
    }
  }

  lemma ScaleFloorZero(x: nat, num: nat, den: nat)
    requires den > 0
    ensures ScaleFloor(x, num, den) == 0 <==> x * num < den
  {
    var p: nat := x * num;
    if p >= den {
      DivLe(den, den, 1);
      assert p / den >= 1;
    }
  }

  /** A 1-pixel-high strip 5000 pixels wide cannot be downsampled. */
  lemma ThinStripRejected()
    ensures DownsampleRejects(1, 5000)
    ensures GeometryError(1, 5000, 10, 10, false) == Some(OtherError(EmptyResize))
  {
    DownsampleRejectsSpec(1, 5000);
  }

  /** A 1000 x 1 second image, squeezed into a 100 x 100 first one, gets a box of height 0. */
  lemma ThinFallbackRejected()
    ensures FallbackBox(100, 100, 1, 1000) == Some(Box(0, 100, 50, 0))
    ensures GeometryError(100, 100, 1, 1000, true) == Some(OtherError(EmptyResize))
    ensures GeometryError(100, 100, 1, 1000, false) == None
  {
    assert DownsampleSize(100, 100, MaxDimension) == (100, 100);
    assert DownsampleSize(1, 1000, MaxDimension) == (1, 1000);
  }

  /**
   * The metadata `process_comparison` returns, or the error it raises, given
   * what the foreign steps produced for the two files and for alignment:
   * loading comes first, then the rest of the pipeline.
   */
  function ProcessComparison(mode: string, type1: string, page1: int, doc1: DecodeOutcome,
                             type2: string, page2: int, doc2: DecodeOutcome,
                             featuresFound: bool, knn: Option<seq<seq<Match>>>, ransac: Ransac,
                             colors: map<string, string>): (r: Result<Metadata, PipelineError>)
    ensures LoadFile(type1, page1, doc1).Failure? ==> r == Failure(ValueError(LoadFile(type1, page1, doc1).error))
    ensures LoadFile(type1, page1, doc1).Success? && LoadFile(type2, page2, doc2).Failure? ==>
      r == Failure(ValueError(LoadFile(type2, page2, doc2).error))
    ensures r.Success? <==>
      && LoadFile(type1, page1, doc1).Success? && LoadFile(type2, page2, doc2).Success?
      && GeometryError(doc1.height, doc1.width, doc2.height, doc2.width,
                       AlignmentFailed(Align(featuresFound, knn, ransac))).None?
      && PaletteCheck(mode, colors).None?
  {
    match LoadFile(type1, page1, doc1)
    case Failure(e) => Failure(ValueError(e))
    case Success(l1) =>
      match LoadFile(type2, page2, doc2)
      case Failure(e) => Failure(ValueError(e))
      case Success(l2) =>
        assert l1.height == doc1.height && l1.width == doc1.width;
        assert l2.height == doc2.height && l2.width == doc2.width;
        CompareLoaded(mode, l1, l2, Align(featuresFound, knn, ransac), PaletteCheck(mode, colors))
  }

  /**
   * Steps 2 to 4 on two loaded files: the resizes may fail first, then the
   * mode's colours; otherwise the metadata reports the mode, the page counts,
   * the matcher's quality, whether the fallback was used and the first file's
   * size after downsampling.
   */
  function CompareLoaded(mode: string, l1: Loaded, l2: Loaded, align: AlignResult, palette: Option<PaletteError>)
    : (r: Result<Metadata, PipelineError>)
    ensures var geometry := GeometryError(l1.height, l1.width, l2.height, l2.width, AlignmentFailed(align));
      && (geometry.Some? ==> r == Failure(geometry.value))
      && (geometry.None? && palette.Some? && palette.value.BadHex? ==>
            r == Failure(ValueError(HexErrorMessage(palette.value.slice))))
      && (geometry.None? && palette == Some(ChannelOutOfRange) ==> r == Failure(OtherError(ChannelError)))
      && (r.Success? <==> geometry.None? && palette.None?)
    ensures r.Success? ==>
      var (h1, w1) := DownsampleSize(l1.height, l1.width, MaxDimension);
      r.value == Metadata(mode, l1.pages, l2.pages, align.quality, AlignmentFailed(align), ResultSize(w1, h1))
  {
    var (h1, w1) := DownsampleSize(l1.height, l1.width, MaxDimension);
    match GeometryError(l1.height, l1.width, l2.height, l2.width, AlignmentFailed(align))
    case Some(e) => Failure(e)
    case None =>
      match palette
      case Some(BadHex(s)) => Failure(ValueError(HexErrorMessage(s)))
      case Some(ChannelOutOfRange) => Failure(OtherError(ChannelError))
      case None => Success(Metadata(mode, l1.pages, l2.pages, align.quality, AlignmentFailed(align), ResultSize(w1, h1)))
  }

  /** The colour error the mode's palette raises, if any; each mode reads only its own keys. */
  function PaletteCheck(mode: string, colors: map<string, string>): (r: Option<PaletteError>)
    ensures UsesOverlay(mode) ==> (r.None? <==> OverlayPaletteOf(colors).Success?)
    ensures !UsesOverlay(mode) ==> (r.None? <==> DiffPaletteOf(colors).Success?)
  {
    if UsesOverlay(mode) then (match OverlayPaletteOf(colors) case Failure(e) => Some(e) case _ => None)
    else (match DiffPaletteOf(colors) case Failure(e) => Some(e) case _ => None)
  }

  /** A colour under another mode's key, or under no key at all, changes nothing. */
  lemma PaletteCheckIgnoresOtherKeys(mode: string, colors: map<string, string>, key: string, value: string)
    requires UsesOverlay(mode) ==> key != "overlay_file1" && key != "overlay_file2"
    requires !UsesOverlay(mode) ==> key != "diff_file1" && key != "diff_file2" && key != "diff_common"
    ensures PaletteCheck(mode, colors[key := value]) == PaletteCheck(mode, colors)
  {
    var c := colors[key := value];
    if UsesOverlay(mode) {
      assert Get(c, "overlay_file1", DefaultOverlayFile1) == Get(colors, "overlay_file1", DefaultOverlayFile1);
      assert Get(c, "overlay_file2", DefaultOverlayFile2) == Get(colors, "overlay_file2", DefaultOverlayFile2);
    } else {
      assert Get(c, "diff_file1", DefaultDiffFile1) == Get(colors, "diff_file1", DefaultDiffFile1);
      assert Get(c, "diff_file2", DefaultDiffFile2) == Get(colors, "diff_file2", DefaultDiffFile2);
      assert Get(c, "diff_common", DefaultDiffCommon) == Get(colors, "diff_common", DefaultDiffCommon);
    }
  }

  lemma DefaultPaletteCheck(mode: string)
    ensures PaletteCheck(mode, map[]) == None
  {
    DefaultPalettes();
  }

  /** Stand-in for NumPy's complaint about a colour channel outside 0..255. */
  const ChannelError: string := "colour channel out of range for uint8"

  /**
   * The reported metadata: the flag is exactly the fallback condition, the
   * quality is the matcher's even when the fallback was used, the size is the
   * first file's after downsampling, and the page counts are the loaders'.
   */
  lemma ProcessComparisonMetadata(mode: string, type1: string, page1: int, doc1: DecodeOutcome,
                                  type2: string, page2: int, doc2: DecodeOutcome,
                                  featuresFound: bool, knn: Option<seq<seq<Match>>>, ransac: Ransac,
                                  colors: map<string, string>)
    requires ProcessComparison(mode, type1, page1, doc1, type2, page2, doc2, featuresFound, knn, ransac, colors).Success?
    ensures var m := ProcessComparison(mode, type1, page1, doc1, type2, page2, doc2, featuresFound, knn, ransac, colors).value;
      var align := Align(featuresFound, knn, ransac);
      var (h1, w1) := DownsampleSize(doc1.height, doc1.width, MaxDimension);
      && m.mode == mode
      && m.alignmentFailed == (!align.warped || align.quality < 0.3)
      && m.matchQuality == align.quality
      && m.resultSize == ResultSize(w1, h1)
      && m.file1Pages == LoadFile(type1, page1, doc1).value.pages
      && m.file2Pages == LoadFile(type2, page2, doc2).value.pages
  {
    LoadedSizes(type1, page1, doc1);
    LoadedSizes(type2, page2, doc2);
    var l1, l2 := LoadFile(type1, page1, doc1).value, LoadFile(type2, page2, doc2).value;
    assert ProcessComparison(mode, type1, page1, doc1, type2, page2, doc2, featuresFound, knn, ransac, colors)
      == CompareLoaded(mode, l1, l2, Align(featuresFound, knn, ransac), PaletteCheck(mode, colors));
  }

  /** The first file is loaded first: its failure is reported whatever the second file is. */
  lemma ProcessComparisonLoadsFirstFileFirst(mode: string, type1: string, page1: int, doc1: DecodeOutcome,
                                             type2: string, page2: int, doc2: DecodeOutcome,
                                             featuresFound: bool, knn: Option<seq<seq<Match>>>, ransac: Ransac,
                                             colors: map<string, string>)
    requires LoadFile(type1, page1, doc1).Failure?
    ensures ProcessComparison(mode, type1, page1, doc1, type2, page2, doc2, featuresFound, knn, ransac, colors)
      == ProcessComparison(mode, type1, page1, doc1, type2, page2, Undecodable([]), false, None, ransac, map[])
  {
  }

  /** A resize that fails stops the pipeline before any colour is looked at, whatever the colours are. */
  lemma ProcessComparisonResizeFailure(mode: string, type1: string, page1: int, doc1: DecodeOutcome,
                                       type2: string, page2: int, doc2: DecodeOutcome,
                                       featuresFound: bool, knn: Option<seq<seq<Match>>>, ransac: Ransac,
                                       colors: map<string, string>)
    requires LoadFile(type1, page1, doc1).Success? && LoadFile(type2, page2, doc2).Success?
    requires GeometryError(doc1.height, doc1.width, doc2.height, doc2.width,
                           AlignmentFailed(Align(featuresFound, knn, ransac))).Some?
    ensures var r := ProcessComparison(mode, type1, page1, doc1, type2, page2, doc2, featuresFound, knn, ransac, colors);
      && r == Failure(GeometryError(doc1.height, doc1.width, doc2.height, doc2.width,
                                    AlignmentFailed(Align(featuresFound, knn, ransac))).value)
      && r.error.OtherError?
  {
    LoadedSizes(type1, page1, doc1);
    LoadedSizes(type2, page2, doc2);
  }

  /**
   * A malformed colour is reported as a `ValueError` with the parser's message
   * even when an earlier key holds a channel the array library would refuse.
   */
  lemma ProcessComparisonBadHexFirst(type1: string, page1: int, doc1: DecodeOutcome,
                                     type2: string, page2: int, doc2: DecodeOutcome,
                                     featuresFound: bool, knn: Option<seq<seq<Match>>>, ransac: Ransac)
    requires LoadFile(type1, page1, doc1).Success? && LoadFile(type2, page2, doc2).Success?
    requires GeometryError(doc1.height, doc1.width, doc2.height, doc2.width,
                           AlignmentFailed(Align(featuresFound, knn, ransac))).None?
    ensures ProcessComparison("difference", type1, page1, doc1, type2, page2, doc2, featuresFound, knn, ransac,
                              map["diff_file1" := "#-f0000", "diff_file2" := "#zz0000"])
      == Failure(ValueError(HexErrorMessage("zz")))
  {
    BadHexHidesChannelError();
    LoadedSizes(type1, page1, doc1);
    LoadedSizes(type2, page2, doc2);
  }

  /** The loaded image has the decoded page's size. */
  lemma LoadedSizes(contentType: string, requested: int, doc: DecodeOutcome)
    requires LoadFile(contentType, requested, doc).Success?
    ensures doc.Decoded?
    ensures LoadFile(contentType, requested, doc).value.height == doc.height
    ensures LoadFile(contentType, requested, doc).value.width == doc.width
  {
  }

  /**
   * Without colours the pipeline never fails once both files load and no
   * resize is asked for a zero-sided image.
   */
  lemma ProcessComparisonDefaultColours(mode: string, type1: string, page1: int, doc1: DecodeOutcome,
                                        type2: string, page2: int, doc2: DecodeOutcome,
                                        featuresFound: bool, knn: Option<seq<seq<Match>>>, ransac: Ransac)
    requires LoadFile(type1, page1, doc1).Success? && LoadFile(type2, page2, doc2).Success?
    requires GeometryError(doc1.height, doc1.width, doc2.height, doc2.width,
                           AlignmentFailed(Align(featuresFound, knn, ransac))).None?
    ensures var align := Align(featuresFound, knn, ransac);
      var size := DownsampleSize(doc1.height, doc1.width, MaxDimension);
      ProcessComparison(mode, type1, page1, doc1, type2, page2, doc2, featuresFound, knn, ransac, map[]) ==
        Success(Metadata(mode, LoadFile(type1, page1, doc1).value.pages, LoadFile(type2, page2, doc2).value.pages,
                         align.quality, AlignmentFailed(align), ResultSize(size.1, size.0)))
  {
    DefaultPaletteCheck(mode);
    LoadedSizes(type1, page1, doc1);
    LoadedSizes(type2, page2, doc2);
  }

  /**
   * Step 4 of `process_comparison`: overlay mode returns the overlay and the
   * two input images themselves; any other mode the difference image and the
   * two highlighted images.
   */
  method ComposeResults(mode: string, a: array2<Byte>, b: array2<Byte>,
                        colour1: array2<Pixel>, aligned2: array2<Pixel>,
                        diffThresh: int, binThresh: int, diffPal: DiffPalette, overlayPal: OverlayPalette)
    returns (result: array2<Pixel>, file1: array2<Pixel>, file2: array2<Pixel>)
    requires a.Length0 == b.Length0 && a.Length1 == b.Length1
    ensures fresh(result) && result.Length0 == a.Length0 && result.Length1 == a.Length1
    ensures UsesOverlay(mode) ==>
      && file1 == colour1 && file2 == aligned2
      && forall i, j :: 0 <= i < a.Length0 && 0 <= j < a.Length1 ==>
           result[i, j] == OverlayPixel(a[i, j], b[i, j], binThresh, overlayPal)
    ensures !UsesOverlay(mode) ==>
      && fresh(file1) && fresh(file2)
      && file1.Length0 == file2.Length0 == a.Length0 && file1.Length1 == file2.Length1 == a.Length1
      && forall i, j :: 0 <= i < a.Length0 && 0 <= j < a.Length1 ==>
           && result[i, j] == ComparePixel(a[i, j], b[i, j], binThresh, diffThresh, diffPal)
           && file1[i, j] == HighlightA(a[i, j], b[i, j], binThresh, diffThresh, diffPal)
           && file2[i, j] == HighlightB(a[i, j], b[i, j], binThresh, diffThresh, diffPal)
  {
    file1, file2 := colour1, aligned2;
    if UsesOverlay(mode) {
      result := CompareImagesOverlay(a, b, binThresh, overlayPal);
    } else {
      result := CompareImages(a, b, diffThresh, binThresh, diffPal);
      file1, file2 := GenerateHighlightedImages(a, b, diffThresh, binThresh, diffPal);
    }
  }
}

=== FILE: image_router.dfy ===
/**
 * The image-comparison endpoint of the gateway: the content-type allow-list,
 * the upload size limit, and how the errors raised on the way are turned into
 * HTTP statuses.  The comparison pipeline itself is `ImageProcessor`; the
 * endpoint only sees whether it completed or which kind of exception it raised.
 */
module ImageRouter {
  import opened Wrappers
  import IP = ImageProcessor

  /** 30 MiB: the largest upload accepted. */
  const MaxFileSize: nat := 30 * 1024 * 1024

  const AllowedTypes: seq<string> :=
    ["image/jpeg", "image/png", "image/gif", "application/pdf", "image/tiff", "image/tif"]

  /** One uploaded part: its declared content type (possibly absent) and its byte count. */
  datatype Upload = Upload(contentType: Option<string>, size: nat)

  /** How the comparison pipeline ended. */
  datatype PipelineOutcome =
    | Completed(metadata: IP.Metadata)
    | ValueErrorRaised(message: string)
    | OtherErrorRaised(message: string)

  /** What the client receives. */
  datatype Response = Ok(metadata: IP.Metadata) | HttpError(status: nat, detail: string)

  predicate TypeAllowed(t: Option<string>) {
    t.Some? && t.value in AllowedTypes
  }

  /** `str()` of the declared content type. */
  function TypeText(t: Option<string>): string {
    if t.Some? then t.value else "None"
  }

  function Join(sep: string, xs: seq<string>): string {
    if xs == [] then "" else if |xs| == 1 then xs[0] else xs[0] + sep + Join(sep, xs[1..])
  }

  function UnsupportedDetail(which: string, t: Option<string>): string {
    "Unsupported file type for " + which + ": " + TypeText(t) + ". Allowed: " + Join(", ", AllowedTypes)
  }

  /** The text of the 413 error for `File1`/`File2` (the size in megabytes is not rendered). */
  function TooLargeDetail(which: string): string {
    which + " too large (max 30MB)"
  }

  const ProcessingFailed: string := "Image processing failed: "

  /**
   * An error raised inside the `try` that is not a `ValueError` comes back
   * as 500; an `HTTPException` shows as "<status>: <detail>".
   */
  function Internal(message: string): Response {
    HttpError(500, ProcessingFailed + message)
  }

  function Oversize(which: string): Response {
    Internal("413: " + TooLargeDetail(which))
  }

  /**
   * The whole endpoint: type checks, then (inside the `try`) size checks, then
   * the pipeline. Only a completed pipeline run answers 200, and every refusal
   * is a 400 or a 500.
   */
  function CompareEndpoint(file1: Upload, file2: Upload, pipeline: PipelineOutcome): (r: Response)
    ensures r.Ok? <==> TypeAllowed(file1.contentType) && TypeAllowed(file2.contentType) &&
                       file1.size <= MaxFileSize && file2.size <= MaxFileSize && pipeline.Completed?
    ensures r.Ok? ==> r.metadata == pipeline.metadata
    ensures r.HttpError? ==> r.status == 400 || r.status == 500
    ensures r.HttpError? && r.status == 400 ==>
      !TypeAllowed(file1.contentType) || !TypeAllowed(file2.contentType) || pipeline.ValueErrorRaised?
  {
    if !TypeAllowed(file1.contentType) then HttpError(400, UnsupportedDetail("file1", file1.contentType))
    else if !TypeAllowed(file2.contentType) then HttpError(400, UnsupportedDetail("file2", file2.contentType))
    else if file1.size > MaxFileSize then Oversize("File1")
    else if file2.size > MaxFileSize then Oversize("File2")
    else
      match pipeline
      case Completed(m) => Ok(m)
      case ValueErrorRaised(msg) => HttpError(400, msg)
      case OtherErrorRaised(msg) => Internal(msg)
  }

  /** How a run of the pipeline shows to the endpoint: its result, or the kind of exception it raised. */
  function OutcomeOf(r: Result<IP.Metadata, IP.PipelineError>): PipelineOutcome {
    match r
    case Success(m) => Completed(m)
    case Failure(ValueError(e)) => ValueErrorRaised(e)
    case Failure(OtherError(e)) => OtherErrorRaised(e)
  }

  // ---------------------------------------------------------------------------
  // Properties
  // ---------------------------------------------------------------------------

  /**
   * A first file of a type outside the list is refused with 400 whatever the
   * second file, the sizes and the pipeline: nothing after the check matters.
   */
  lemma FirstTypeCheckedFirst(file1: Upload, file2: Upload, p: PipelineOutcome, file2b: Upload, q: PipelineOutcome)
    requires !TypeAllowed(file1.contentType)
    ensures CompareEndpoint(file1, file2, p) == HttpError(400, UnsupportedDetail("file1", file1.contentType))
    ensures CompareEndpoint(file1, file2, p) == CompareEndpoint(file1, file2b, q)
  {
  }

  /** The second type is checked next, still before any size and the pipeline. */
  lemma SecondTypeCheckedBeforeSizes(file1: Upload, file2: Upload, p: PipelineOutcome, q: PipelineOutcome)
    requires TypeAllowed(file1.contentType) && !TypeAllowed(file2.contentType)
    ensures CompareEndpoint(file1, file2, p) == HttpError(400, UnsupportedDetail("file2", file2.contentType))
    ensures CompareEndpoint(file1, file2, p) == CompareEndpoint(Upload(file1.contentType, 0), file2, q)
  {
  }

  /** Type matching is exact membership in the six-entry list. */
  lemma TypeMatchIsExact(t: string)
    ensures TypeAllowed(Some(t)) <==>
      t == "image/jpeg" || t == "image/png" || t == "image/gif" ||
      t == "application/pdf" || t == "image/tiff" || t == "image/tif"
    ensures !TypeAllowed(None)
  {
  }

  /** No case folding and no parameter stripping. */
  lemma TypeMatchIsCaseSensitive()
    ensures !TypeAllowed(Some("IMAGE/PNG"))
    ensures !TypeAllowed(Some("image/png; charset=binary"))
    ensures TypeAllowed(Some("image/png"))
  {
    assert "IMAGE/PNG"[0] != "image/png"[0];
    assert |"image/png; charset=binary"| != |"image/png"|;
  }

  /**
   * The limit is strict: exactly 30 MiB passes on to the pipeline, one byte
   * more is an error, and it is reported as a 500 because the 413 is raised
   * inside the block whose generic handler re-raises everything.
   */
  lemma SizeLimitIsStrict(t1: string, t2: string, p: PipelineOutcome)
    requires TypeAllowed(Some(t1)) && TypeAllowed(Some(t2))
    ensures CompareEndpoint(Upload(Some(t1), MaxFileSize), Upload(Some(t2), MaxFileSize), p)
      == CompareEndpoint(Upload(Some(t1), 0), Upload(Some(t2), 0), p)
    ensures CompareEndpoint(Upload(Some(t1), MaxFileSize + 1), Upload(Some(t2), 0), p) == Oversize("File1")
  {
  }

  /** Among two oversized files the first is reported; the status is never 413. */
  lemma OversizeReportsFirstFile(file1: Upload, file2: Upload, p: PipelineOutcome)
    requires TypeAllowed(file1.contentType) && TypeAllowed(file2.contentType)
    requires file1.size > MaxFileSize || file2.size > MaxFileSize
    ensures CompareEndpoint(file1, file2, p) ==
      (if file1.size > MaxFileSize then Oversize("File1") else Oversize("File2"))
    ensures CompareEndpoint(file1, file2, p).status == 500
  {
  }

  /** Once the checks pass: a `ValueError` is a 400 with its own text, anything else a 500. */
  lemma PipelineErrorsMapToStatus(file1: Upload, file2: Upload, p: PipelineOutcome)
    requires TypeAllowed(file1.contentType) && TypeAllowed(file2.contentType)
    requires file1.size <= MaxFileSize && file2.size <= MaxFileSize
    ensures p.Completed? <==> CompareEndpoint(file1, file2, p).Ok?
    ensures p.ValueErrorRaised? ==> CompareEndpoint(file1, file2, p) == HttpError(400, p.message)
    ensures p.OtherErrorRaised? ==> CompareEndpoint(file1, file2, p) == HttpError(500, ProcessingFailed + p.message)
  {
  }

  /** Every refusal is 400 or 500; 413 never reaches the client. */
  lemma StatusesAre400Or500(file1: Upload, file2: Upload, p: PipelineOutcome)
    ensures CompareEndpoint(file1, file2, p).HttpError? ==>
      CompareEndpoint(file1, file2, p).status in {400, 500}
  {
  }

  /**
   * The endpoint runs the pipeline without colours, so the default palette
   * applies: two files of allowed types and sizes that both load always give a
   * result, and its metadata is the pipeline's.
   */
  lemma EndpointUsesDefaultColours(mode: string, file1: Upload, file2: Upload,
                                   page1: int, doc1: IP.DecodeOutcome, page2: int, doc2: IP.DecodeOutcome,
                                   featuresFound: bool, knn: Option<seq<seq<IP.Match>>>, ransac: IP.Ransac)
    requires TypeAllowed(file1.contentType) && TypeAllowed(file2.contentType)
    requires file1.size <= MaxFileSize && file2.size <= MaxFileSize
    requires IP.LoadFile(file1.contentType.value, page1, doc1).Success?
    requires IP.LoadFile(file2.contentType.value, page2, doc2).Success?
    requires doc1.Decoded? && doc2.Decoded?
    requires IP.GeometryError(doc1.height, doc1.width, doc2.height, doc2.width,
                              IP.AlignmentFailed(IP.Align(featuresFound, knn, ransac))).None?
    ensures var r := IP.ProcessComparison(mode, file1.contentType.value, page1, doc1,
                                          file2.contentType.value, page2, doc2, featuresFound, knn, ransac, map[]);
      r.Success? && CompareEndpoint(file1, file2, OutcomeOf(r)) == Ok(r.value)
  {
    IP.ProcessComparisonDefaultColours(mode, file1.contentType.value, page1, doc1,
                                       file2.contentType.value, page2, doc2, featuresFound, knn, ransac);
    var r := IP.ProcessComparison(mode, file1.contentType.value, page1, doc1,
                                  file2.contentType.value, page2, doc2, featuresFound, knn, ransac, map[]);
    PipelineErrorsMapToStatus(file1, file2, OutcomeOf(r));
  }

  /** A file that does not load, of an allowed type and size, is a 400 with the loader's message. */
  lemma EndpointReportsLoadFailure(mode: string, file1: Upload, file2: Upload,
                                   page1: int, doc1: IP.DecodeOutcome, page2: int, doc2: IP.DecodeOutcome,
                                   featuresFound: bool, knn: Option<seq<seq<IP.Match>>>, ransac: IP.Ransac)
    requires TypeAllowed(file1.contentType) && TypeAllowed(file2.contentType)
    requires file1.size <= MaxFileSize && file2.size <= MaxFileSize
    requires IP.LoadFile(file1.contentType.value, page1, doc1).Failure?
    ensures var r := IP.ProcessComparison(mode, file1.contentType.value, page1, doc1,
                                          file2.contentType.value, page2, doc2, featuresFound, knn, ransac, map[]);
      CompareEndpoint(file1, file2, OutcomeOf(r)) == HttpError(400, IP.LoadFile(file1.contentType.value, page1, doc1).error)
  {
    var r := IP.ProcessComparison(mode, file1.contentType.value, page1, doc1,
                                  file2.contentType.value, page2, doc2, featuresFound, knn, ransac, map[]);
    PipelineErrorsMapToStatus(file1, file2, OutcomeOf(r));
  }

  /**
   * A resize asked for a zero-sided image (a long, thin upload, or a second
   * file squeezed flat by the fallback) is not a `ValueError`: it comes back as
   * a 500 whatever the colours.
   */
  lemma EndpointReportsResizeFailure(mode: string, file1: Upload, file2: Upload,
                                     page1: int, doc1: IP.DecodeOutcome, page2: int, doc2: IP.DecodeOutcome,
                                     featuresFound: bool, knn: Option<seq<seq<IP.Match>>>, ransac: IP.Ransac)
    requires TypeAllowed(file1.contentType) && TypeAllowed(file2.contentType)
    requires file1.size <= MaxFileSize && file2.size <= MaxFileSize
    requires IP.LoadFile(file1.contentType.value, page1, doc1).Success?
    requires IP.LoadFile(file2.contentType.value, page2, doc2).Success?
    requires doc1.Decoded? && doc2.Decoded?
    requires IP.GeometryError(doc1.height, doc1.width, doc2.height, doc2.width,
                              IP.AlignmentFailed(IP.Align(featuresFound, knn, ransac))).Some?
    ensures var r := IP.ProcessComparison(mode, file1.contentType.value, page1, doc1,
                                          file2.contentType.value, page2, doc2, featuresFound, knn, ransac, map[]);
      CompareEndpoint(file1, file2, OutcomeOf(r)) ==
        HttpError(500, ProcessingFailed + IP.GeometryError(doc1.height, doc1.width, doc2.height, doc2.width,
                                                           IP.AlignmentFailed(IP.Align(featuresFound, knn, ransac))).value.message)
  {
    IP.ProcessComparisonResizeFailure(mode, file1.contentType.value, page1, doc1, file2.contentType.value, page2, doc2,
                                      featuresFound, knn, ransac, map[]);
    var r := IP.ProcessComparison(mode, file1.contentType.value, page1, doc1,
                                  file2.contentType.value, page2, doc2, featuresFound, knn, ransac, map[]);
    PipelineErrorsMapToStatus(file1, file2, OutcomeOf(r));
  }
}

=== FILE: legacy_image_processor.dfy ===
/**
 * The earlier version of the comparison pipeline (`ai_gateway/image_processor.py`):
 * no TIFF route, a fixed binarisation threshold of 200, fixed colours, and
 * side-by-side images drawn over copies of the inputs instead of a white
 * canvas. Geometry, matching and encoding are the same functions as in
 * `ImageProcessor`.
 */
module LegacyImageProcessor {
  import opened Wrappers
  import opened Octets
  import PyStr
  import IP = ImageProcessor

  // ---------------------------------------------------------------------------
  // Loading
  // ---------------------------------------------------------------------------

  /** Only "pdf" is recognised; everything else is decoded as a raster image. */
  function LoadRoute(contentType: string): IP.Route {
    if PyStr.Contains(PyStr.Lower(contentType), "pdf") then IP.PdfRoute else IP.RasterRoute
  }

  /** A TIFF content type, which the live loader renders frame by frame, goes to the raster decoder here. */
  lemma LoadRouteSpec(contentType: string)
    ensures LoadRoute(contentType) != IP.TiffRoute
    ensures LoadRoute(contentType) == IP.PdfRoute <==> IP.LoadRoute(contentType) == IP.PdfRoute
    ensures IP.LoadRoute(contentType) == IP.TiffRoute ==> LoadRoute(contentType) == IP.RasterRoute
  {
  }

  /** `load_file`: a PDF page through `pdf_to_image`, anything else through `cv2.imdecode`. */
  function LoadFile(contentType: string, requested: int, doc: IP.DecodeOutcome): Result<IP.Loaded, string> {
    match LoadRoute(contentType)
    case PdfRoute =>
      (match doc
       case Undecodable(reason) => Failure(IP.LoadFailure + IP.PdfFailure + reason)
       case Decoded(n, h, w) =>
         var p := IP.ClampPage(requested, n);
         if IP.PdfPageExists(p, n) then Success(IP.Loaded("pdf", p, n, h, w))
         else Failure(IP.LoadFailure + IP.PdfFailure + IP.NoSuchPage))
    case _ =>
      (match doc
       case Undecodable(_) => Failure(IP.LoadFailure + IP.RasterFailure)
       case Decoded(_, h, w) => Success(IP.Loaded("image", 0, 1, h, w)))
  }

  /** Off the TIFF route both loaders behave identically. */
  lemma LoadFileAgreesOffTiff(contentType: string, requested: int, doc: IP.DecodeOutcome)
    requires IP.LoadRoute(contentType) != IP.TiffRoute
    ensures LoadFile(contentType, requested, doc) == IP.LoadFile(contentType, requested, doc)
  {
  }

  /** A TIFF upload counts one page, and an undecodable one fails with the raster message. */
  lemma LoadFileTiffAsRaster(contentType: string, requested: int, doc: IP.DecodeOutcome)
    requires IP.LoadRoute(contentType) == IP.TiffRoute
    ensures doc.Decoded? ==>
      LoadFile(contentType, requested, doc) == Success(IP.Loaded("image", 0, 1, doc.height, doc.width))
    ensures doc.Undecodable? ==> LoadFile(contentType, requested, doc) == Failure(IP.LoadFailure + IP.RasterFailure)
  {
  }

  /** Every loading failure is a `ValueError` with the load-failure prefix. */
  lemma LoadFileFailurePrefix(contentType: string, requested: int, doc: IP.DecodeOutcome)
    requires LoadFile(contentType, requested, doc).Failure?
    ensures PyStr.StartsWith(LoadFile(contentType, requested, doc).error, IP.LoadFailure)
  {
    var e := LoadFile(contentType, requested, doc).error;
    PyStr.StartsWithConcat(IP.LoadFailure, e[|IP.LoadFailure|..]);
  }

  // ---------------------------------------------------------------------------
  // Comparison with fixed colours
  // ---------------------------------------------------------------------------

  /** The binarisation threshold every legacy routine hard-codes. */
  const BinThresh: int := 200

  const DiffColours: IP.DiffPalette := IP.DiffPalette(IP.Blue, IP.Red, IP.Black)
  const OverlayColours: IP.OverlayPalette := IP.OverlayPalette(IP.Orange, IP.Green)

  /** The fixed colours are the live pipeline's defaults. */
  lemma FixedColoursAreLiveDefaults()
    ensures IP.DiffPaletteOf(map[]) == Success(DiffColours)
    ensures IP.OverlayPaletteOf(map[]) == Success(OverlayColours)
  {
    IP.DefaultPalettes();
  }

  /**
   * `compare_images`: common ink without a difference black, only-A blue,
   * only-B red, everything else white.
   */
  method CompareImages(a: array2<Byte>, b: array2<Byte>, diffThresh: int) returns (result: array2<IP.Pixel>)
    requires a.Length0 == b.Length0 && a.Length1 == b.Length1
    ensures fresh(result) && result.Length0 == a.Length0 && result.Length1 == a.Length1
    ensures forall i, j :: 0 <= i < result.Length0 && 0 <= j < result.Length1 ==>
      result[i, j] == IP.ComparePixel(a[i, j], b[i, j], BinThresh, diffThresh, DiffColours)
  {
    result := IP.CompareImages(a, b, diffThresh, BinThresh, DiffColours);
  }

  /** The colour of each class, spelt out. */
  lemma ComparePixelColours(a: int, b: int, diffThresh: int)
    ensures var p := IP.ComparePixel(a, b, BinThresh, diffThresh, DiffColours);
      && (IP.Common(a, b, BinThresh, diffThresh) ==> p == IP.Pixel(0, 0, 0))
      && (IP.OnlyA(a, b, BinThresh, diffThresh) ==> p == IP.Pixel(255, 0, 0))
      && (IP.OnlyB(a, b, BinThresh, diffThresh) ==> p == IP.Pixel(0, 0, 255))
      && ((!IP.Common(a, b, BinThresh, diffThresh) && !IP.OnlyA(a, b, BinThresh, diffThresh) &&
           !IP.OnlyB(a, b, BinThresh, diffThresh)) ==> p == IP.White)
  {
    IP.MasksDisjoint(a, b, BinThresh, diffThresh, DiffColours);
  }

  /** `compare_images_overlay`: B's ink green whatever A has, A's ink alone orange. */
  method CompareImagesOverlay(a: array2<Byte>, b: array2<Byte>) returns (result: array2<IP.Pixel>)
    requires a.Length0 == b.Length0 && a.Length1 == b.Length1
    ensures fresh(result) && result.Length0 == a.Length0 && result.Length1 == a.Length1
    ensures forall i, j :: 0 <= i < result.Length0 && 0 <= j < result.Length1 ==>
      result[i, j] == IP.OverlayPixel(a[i, j], b[i, j], BinThresh, OverlayColours)
  {
    result := IP.CompareImagesOverlay(a, b, BinThresh, OverlayColours);
  }

  lemma OverlayPixelColours(a: int, b: int)
    ensures var p := IP.OverlayPixel(a, b, BinThresh, OverlayColours);
      && (b <= 200 ==> p == IP.Pixel(0, 255, 0))
      && (b > 200 && a <= 200 ==> p == IP.Pixel(0, 165, 255))
      && (a > 200 && b > 200 ==> p == IP.White)
  {
  }

  // ---------------------------------------------------------------------------
  // Side-by-side images drawn over the inputs
  // ---------------------------------------------------------------------------

  /** A pixel of A's highlighted copy: blue where only A has it, the original elsewhere. */
  function HighlightA(original: IP.Pixel, a: int, b: int, diffThresh: int): IP.Pixel {
    if IP.OnlyA(a, b, BinThresh, diffThresh) then IP.Blue else original
  }

  function HighlightB(original: IP.Pixel, a: int, b: int, diffThresh: int): IP.Pixel {
    if IP.OnlyB(a, b, BinThresh, diffThresh) then IP.Red else original
  }

  /**
   * Where a copy's class is not highlighted it keeps the input pixel; where
   * the live pipeline would draw common ink or leave white, the copy shows the
   * input instead.
   */
  lemma HighlightKeepsOriginal(original: IP.Pixel, a: int, b: int, diffThresh: int)
    ensures !IP.OnlyA(a, b, BinThresh, diffThresh) ==> HighlightA(original, a, b, diffThresh) == original
    ensures IP.OnlyA(a, b, BinThresh, diffThresh) ==>
      HighlightA(original, a, b, diffThresh) == IP.HighlightA(a, b, BinThresh, diffThresh, DiffColours)
    ensures !IP.OnlyB(a, b, BinThresh, diffThresh) ==> HighlightB(original, a, b, diffThresh) == original
    ensures IP.OnlyB(a, b, BinThresh, diffThresh) ==>
      HighlightB(original, a, b, diffThresh) == IP.HighlightB(a, b, BinThresh, diffThresh, DiffColours)
  {
  }

  /** `ndarray.copy()`. */
  method Copy(src: array2<IP.Pixel>) returns (dst: array2<IP.Pixel>)
    ensures fresh(dst) && dst.Length0 == src.Length0 && dst.Length1 == src.Length1
    ensures forall i, j :: 0 <= i < src.Length0 && 0 <= j < src.Length1 ==> dst[i, j] == src[i, j]
  {
    dst := new IP.Pixel[src.Length0, src.Length1]((_, _) => IP.White);
    var i := 0;
    while i < src.Length0
      invariant 0 <= i <= src.Length0
      invariant forall r, c :: 0 <= r < i && 0 <= c < src.Length1 ==> dst[r, c] == src[r, c]
    {
      var j := 0;
      while j < src.Length1
        invariant 0 <= j <= src.Length1
        invariant forall r, c :: 0 <= r < i && 0 <= c < src.Length1 ==> dst[r, c] == src[r, c]
        invariant forall c :: 0 <= c < j ==> dst[i, c] == src[i, c]
      {
        dst[i, j] := src[i, j];
        j := j + 1;
      }
      i := i + 1;
    }
  }

  /**
   * `generate_highlighted_images`: `colourA`/`colourB` are the two colour
   * images and `a`/`b` their grayscale planes. The inputs are left untouched.
   */
  method GenerateHighlightedImages(colourA: array2<IP.Pixel>, colourB: array2<IP.Pixel>,
                                   a: array2<Byte>, b: array2<Byte>, diffThresh: int)
    returns (outA: array2<IP.Pixel>, outB: array2<IP.Pixel>)
    requires IP.SameShape(colourA, a, b) && IP.SameShape(colourB, a, b)
    ensures fresh(outA) && fresh(outB)
    ensures outA.Length0 == outB.Length0 == a.Length0 && outA.Length1 == outB.Length1 == a.Length1
    ensures forall i, j :: 0 <= i < a.Length0 && 0 <= j < a.Length1 ==>
      outA[i, j] == HighlightA(colourA[i, j], a[i, j], b[i, j], diffThresh) &&
      outB[i, j] == HighlightB(colourB[i, j], a[i, j], b[i, j], diffThresh)
  {
    outA := Copy(colourA);
    IP.Paint(outA, a, b, IP.OnlyAMask(BinThresh, diffThresh), IP.Blue);
    outB := Copy(colourB);
    IP.Paint(outB, a, b, IP.OnlyBMask(BinThresh, diffThresh), IP.Red);
  }

  /** Step 4 of `process_comparison`: the overlay with the inputs, or the difference with the two copies. */
  method ComposeResults(mode: string, a: array2<Byte>, b: array2<Byte>,
                        colour1: array2<IP.Pixel>, aligned2: array2<IP.Pixel>, diffThresh: int)
    returns (result: array2<IP.Pixel>, file1: array2<IP.Pixel>, file2: array2<IP.Pixel>)
    requires IP.SameShape(colour1, a, b) && IP.SameShape(aligned2, a, b)
    ensures fresh(result) && result.Length0 == a.Length0 && result.Length1 == a.Length1
    ensures IP.UsesOverlay(mode) ==>
      && file1 == colour1 && file2 == aligned2
      && forall i, j :: 0 <= i < a.Length0 && 0 <= j < a.Length1 ==>
           result[i, j] == IP.OverlayPixel(a[i, j], b[i, j], BinThresh, OverlayColours)
    ensures !IP.UsesOverlay(mode) ==>
      && fresh(file1) && fresh(file2)
      && file1.Length0 == file2.Length0 == a.Length0 && file1.Length1 == file2.Length1 == a.Length1
      && forall i, j :: 0 <= i < a.Length0 && 0 <= j < a.Length1 ==>
           && result[i, j] == IP.ComparePixel(a[i, j], b[i, j], BinThresh, diffThresh, DiffColours)
           && file1[i, j] == HighlightA(colour1[i, j], a[i, j], b[i, j], diffThresh)
           && file2[i, j] == HighlightB(aligned2[i, j], a[i, j], b[i, j], diffThresh)
  {
    file1, file2 := colour1, aligned2;
    if IP.UsesOverlay(mode) {
      result := CompareImagesOverlay(a, b);
    } else {
      result := CompareImages(a, b, diffThresh);
      file1, file2 := GenerateHighlightedImages(colour1, aligned2, a, b, diffThresh);
    }
  }

  // ---------------------------------------------------------------------------
  // Metadata
  // ---------------------------------------------------------------------------

  /** The legacy metadata has no `alignment_failed` entry. */
  datatype Metadata = Metadata(mode: string, file1Pages: nat, file2Pages: nat, matchQuality: real, resultSize: string)

  /**
   * `process_comparison`'s metadata, or the error it raises: loading first,
   * then the same resizes as the live pipeline; the fixed colours cannot fail.
   */
  function ProcessComparison(mode: string, type1: string, page1: int, doc1: IP.DecodeOutcome,
                             type2: string, page2: int, doc2: IP.DecodeOutcome,
                             featuresFound: bool, knn: Option<seq<seq<IP.Match>>>, ransac: IP.Ransac)
    : (r: Result<Metadata, IP.PipelineError>)
    ensures LoadFile(type1, page1, doc1).Failure? ==> r == Failure(IP.ValueError(LoadFile(type1, page1, doc1).error))
    ensures r.Success? <==>
      && LoadFile(type1, page1, doc1).Success? && LoadFile(type2, page2, doc2).Success?
      && IP.GeometryError(doc1.height, doc1.width, doc2.height, doc2.width,
                          IP.AlignmentFailed(IP.Align(featuresFound, knn, ransac))).None?
    ensures r.Failure? && r.error.ValueError? ==>
      LoadFile(type1, page1, doc1).Failure? || LoadFile(type2, page2, doc2).Failure?
  {
    match LoadFile(type1, page1, doc1)
    case Failure(e) => Failure(IP.ValueError(e))
    case Success(l1) =>
      match LoadFile(type2, page2, doc2)
      case Failure(e) => Failure(IP.ValueError(e))
      case Success(l2) =>
        var (h1, w1) := IP.DownsampleSize(l1.height, l1.width, IP.MaxDimension);
        var align := IP.Align(featuresFound, knn, ransac);
        match IP.GeometryError(l1.height, l1.width, l2.height, l2.width, IP.AlignmentFailed(align))
        case Some(e) => Failure(e)
        case None => Success(Metadata(mode, l1.pages, l2.pages, align.quality, IP.ResultSize(w1, h1)))
  }

  /** The loaded image has the decoded page's size. */
  lemma LoadedSizes(contentType: string, requested: int, doc: IP.DecodeOutcome)
    requires LoadFile(contentType, requested, doc).Success?
    ensures doc.Decoded?
    ensures LoadFile(contentType, requested, doc).value.height == doc.height
    ensures LoadFile(contentType, requested, doc).value.width == doc.width
  {
  }

  /**
   * The reported size is "<width>x<height>" of the first file after
   * downsampling, and the quality is the matcher's even when the fallback was
   * used, for two files that load and resize.
   */
  lemma ProcessComparisonMetadata(mode: string, type1: string, page1: int, doc1: IP.DecodeOutcome,
                                  type2: string, page2: int, doc2: IP.DecodeOutcome,
                                  featuresFound: bool, knn: Option<seq<seq<IP.Match>>>, ransac: IP.Ransac)
    requires LoadFile(type1, page1, doc1).Success? && LoadFile(type2, page2, doc2).Success?
    requires IP.GeometryError(doc1.height, doc1.width, doc2.height, doc2.width,
                              IP.AlignmentFailed(IP.Align(featuresFound, knn, ransac))).None?
    ensures var r := ProcessComparison(mode, type1, page1, doc1, type2, page2, doc2, featuresFound, knn, ransac);
      var (h1, w1) := IP.DownsampleSize(doc1.height, doc1.width, IP.MaxDimension);
      && r.Success?
      && r.value.mode == mode
      && r.value.matchQuality == IP.Align(featuresFound, knn, ransac).quality
      && r.value.resultSize == IP.ResultSize(w1, h1)
      && r.value.file1Pages == LoadFile(type1, page1, doc1).value.pages
      && r.value.file2Pages == LoadFile(type2, page2, doc2).value.pages
  {
    LoadedSizes(type1, page1, doc1);
    LoadedSizes(type2, page2, doc2);
  }

  /** A resize asked for a zero-sided image fails the legacy pipeline too, with the same exception. */
  lemma ProcessComparisonResizeFailure(mode: string, type1: string, page1: int, doc1: IP.DecodeOutcome,
                                       type2: string, page2: int, doc2: IP.DecodeOutcome,
                                       featuresFound: bool, knn: Option<seq<seq<IP.Match>>>, ransac: IP.Ransac)
    requires LoadFile(type1, page1, doc1).Success? && LoadFile(type2, page2, doc2).Success?
    requires IP.GeometryError(doc1.height, doc1.width, doc2.height, doc2.width,
                              IP.AlignmentFailed(IP.Align(featuresFound, knn, ransac))).Some?
    ensures ProcessComparison(mode, type1, page1, doc1, type2, page2, doc2, featuresFound, knn, ransac) ==
      Failure(IP.GeometryError(doc1.height, doc1.width, doc2.height, doc2.width,
                               IP.AlignmentFailed(IP.Align(featuresFound, knn, ransac))).value)
  {
    LoadedSizes(type1, page1, doc1);
    LoadedSizes(type2, page2, doc2);
  }

  /**
   * For files the two loaders treat alike and the default colours, the legacy
   * pipeline fails exactly when the live one does, with the same exception,
   * and otherwise its metadata is the live one without the `alignment_failed` flag.
   */
  lemma AgreesWithLivePipeline(mode: string, type1: string, page1: int, doc1: IP.DecodeOutcome,
                               type2: string, page2: int, doc2: IP.DecodeOutcome,
                               featuresFound: bool, knn: Option<seq<seq<IP.Match>>>, ransac: IP.Ransac)
    requires IP.LoadRoute(type1) != IP.TiffRoute && IP.LoadRoute(type2) != IP.TiffRoute
    ensures var legacy := ProcessComparison(mode, type1, page1, doc1, type2, page2, doc2, featuresFound, knn, ransac);
      var live := IP.ProcessComparison(mode, type1, page1, doc1, type2, page2, doc2, featuresFound, knn, ransac, map[]);
      && legacy.Success? == live.Success?
      && (legacy.Failure? ==> legacy.error == live.error)
      && (legacy.Success? ==>
            var m := live.value;
            legacy.value == Metadata(m.mode, m.file1Pages, m.file2Pages, m.matchQuality, m.resultSize))
  {
    LoadFileAgreesOffTiff(type1, page1, doc1);
    LoadFileAgreesOffTiff(type2, page2, doc2);
    if LoadFile(type1, page1, doc1).Success? && LoadFile(type2, page2, doc2).Success? {
      LoadedSizes(type1, page1, doc1);
      LoadedSizes(type2, page2, doc2);
      IP.DefaultPaletteCheck(mode);
    }
  }
}

=== FILE: login_page.dfy ===
/**
 * The login and signup page of the web client: the confirmation check, the
 * payload sent, what a successful answer writes to the session storage,
 * where the page then goes, and the mode toggle.
 *
 * The page's React state and the browser's `sessionStorage` are the
 * fields of the class `LoginPage`; the server's answer is an input.
 */
module LoginPage {
  import opened Wrappers

  datatype Form = Form(username: string, password: string, passwordConfirm: string, email: string, authKey: string)

  const EmptyForm: Form := Form("", "", "", "", "")

  /** What `authApi.login` or `authApi.signup` posts. */
  datatype Payload = LoginPayload(username: string, password: string) | SignupPayload(form: Form)

  /** The fields of a successful answer's body; `None` is a field the body lacks. */
  datatype AuthData = AuthData(token: Option<string>, userId: Option<string>, username: Option<string>, email: Option<string>)

  datatype LoginState = LoginState(
    isLoginMode: bool,
    error: string,
    isLoading: bool,
    form: Form,
    storage: map<string, string>,
    sent: seq<Payload>,
    location: Option<string>)

  const Mismatch: string := "Passwords do not match. Please try again."
  const AuthFailed: string := "인증에 실패했습니다. 정보를 확인해주세요."
  const FallbackEmail: string := "user@example.com"
  const TokenKey: string := "authToken"
  const UserIdKey: string := "userId"
  const UsernameKey: string := "username"
  const EmailKey: string := "email"
  const ReturnToKey: string := "returnTo"
  const Home: string := "/"
  const ChatPath: string := "/chat"
  const ComparePath: string := "/image-compare"

  predicate Truthy(s: Option<string>) {
    s.Some? && s.value != ""
  }

  /** `sessionStorage.setItem` stores a missing value as the text "undefined". */
  function StoredText(v: Option<string>): string {
    if v.Some? then v.value else "undefined"
  }

  /** Login sends the credentials only; signup sends the whole form. */
  function PayloadFor(isLoginMode: bool, form: Form): Payload {
    if isLoginMode then LoginPayload(form.username, form.password) else SignupPayload(form)
  }

  /** The email kept for the session: the answer's, else the form's, else a placeholder. */
  function EmailToSave(answered: Option<string>, typed: string): string {
    if Truthy(answered) then answered.value
    else if typed != "" then typed
    else FallbackEmail
  }

  /** The two pages a login may return to. */
  predicate AllowedReturn(path: string) {
    path == ChatPath || path == ComparePath
  }

  /** The storage and the page reached after an answer carrying a token. */
  function SignedIn(storage: map<string, string>, data: AuthData, typedEmail: string): (map<string, string>, string)
    requires Truthy(data.token)
  {
    var s := storage[TokenKey := data.token.value][UserIdKey := StoredText(data.userId)]
                    [UsernameKey := StoredText(data.username)][EmailKey := EmailToSave(data.email, typedEmail)];
    if ReturnToKey in s && AllowedReturn(s[ReturnToKey]) then (s - {ReturnToKey}, s[ReturnToKey])
    else (s, Home)
  }

  /** The page after `handleSubmit` has run to completion with the server's answer. */
  function SubmitOutcome(st: LoginState, reply: Result<AuthData, Option<string>>): LoginState {
    if !st.isLoginMode && st.form.password != st.form.passwordConfirm then st.(error := Mismatch)
    else
      var sent := st.sent + [PayloadFor(st.isLoginMode, st.form)];
      match reply
      case Success(data) =>
        if Truthy(data.token) then
          var (storage, path) := SignedIn(st.storage, data, st.form.email);
          st.(error := "", sent := sent, storage := storage, location := Some(path), isLoading := false)
        else st.(error := "", sent := sent, isLoading := false)
      case Failure(message) =>
        st.(error := if Truthy(message) then message.value else AuthFailed, sent := sent, isLoading := false)
  }

  class LoginPage {
    var isLoginMode: bool
    var error: string
    var isLoading: bool
    var form: Form
    /** The browser's `sessionStorage`. */
    var storage: map<string, string>
    var sent: seq<Payload>
    /** The last page navigated to. */
    var location: Option<string>

    function State(): LoginState
      reads this
    {
      LoginState(isLoginMode, error, isLoading, form, storage, sent, location)
    }

    /** The page opened over the current session storage. */
    constructor (initial: map<string, string>)
      ensures State() == LoginState(true, "", false, EmptyForm, initial, [], None)
    {
      isLoginMode := true;
      error := "";
      isLoading := false;
      form := EmptyForm;
      storage := initial;
      sent := [];
      location := None;
    }

    /** `handleChange` for one of the five inputs. */
    method Edit(f: Form)
      modifies this
      ensures State() == old(State()).(form := f)
    {
      form := f;
    }

    /** `handleSubmit`. */
    method Submit(reply: Result<AuthData, Option<string>>)
      modifies this
      ensures State() == SubmitOutcome(old(State()), reply)
    {
      error := "";
      if !isLoginMode && form.password != form.passwordConfirm {
        error := Mismatch;
        return;
      }
      isLoading := true;
      sent := sent + [PayloadFor(isLoginMode, form)];
      match reply {
        case Success(data) =>
          if Truthy(data.token) {
            storage := storage[TokenKey := data.token.value];
            storage := storage[UserIdKey := StoredText(data.userId)];
            storage := storage[UsernameKey := StoredText(data.username)];
            storage := storage[EmailKey := EmailToSave(data.email, form.email)];
            if ReturnToKey in storage && AllowedReturn(storage[ReturnToKey]) {
              var back := storage[ReturnToKey];
              storage := storage - {ReturnToKey};
              location := Some(back);
            } else {
              location := Some(Home);
            }
          }
        case Failure(message) =>
          error := if Truthy(message) then message.value else AuthFailed;
      }
      isLoading := false;
    }

    /** The footer button: switch mode and clear the form and the error. */
    method Toggle()
      modifies this
      ensures State() == old(State()).(isLoginMode := !old(isLoginMode), error := "", form := EmptyForm)
    {
      isLoginMode := !isLoginMode;
      error := "";
      form := EmptyForm;
    }
  }

  // ---------------------------------------------------------------------------
  // Properties
  // ---------------------------------------------------------------------------

  /** A signup whose confirmation differs sets the error and sends, stores and navigates nothing. */
  lemma MismatchSendsNothing(st: LoginState, reply: Result<AuthData, Option<string>>)
    requires !st.isLoginMode && st.form.password != st.form.passwordConfirm
    ensures var o := SubmitOutcome(st, reply);
      o.error == Mismatch && o.sent == st.sent && o.storage == st.storage && o.location == st.location
  {
  }

  /** Every submission that passes the check sends exactly one payload, whatever the answer. */
  lemma SubmitSendsOnce(st: LoginState, reply: Result<AuthData, Option<string>>)
    requires st.isLoginMode || st.form.password == st.form.passwordConfirm
    ensures SubmitOutcome(st, reply).sent == st.sent + [PayloadFor(st.isLoginMode, st.form)]
    ensures !SubmitOutcome(st, reply).isLoading
  {
  }

  /** Login sends only the username and password; signup sends all five fields. */
  lemma PayloadFields(isLoginMode: bool, form: Form)
    ensures isLoginMode ==> PayloadFor(isLoginMode, form) == LoginPayload(form.username, form.password)
    ensures !isLoginMode ==> PayloadFor(isLoginMode, form) == SignupPayload(form)
    ensures !isLoginMode ==> PayloadFor(isLoginMode, form).form.authKey == form.authKey
  {
  }

  /** An answer without a token, or a failure, stores nothing and navigates nowhere. */
  lemma NoTokenStoresNothing(st: LoginState, reply: Result<AuthData, Option<string>>)
    requires reply.Failure? || !Truthy(reply.value.token)
    ensures SubmitOutcome(st, reply).storage == st.storage
    ensures SubmitOutcome(st, reply).location == st.location
  {
  }

  /** A failure shows the server's `error` text, or the generic message when it has none. */
  lemma FailureMessage(st: LoginState, message: Option<string>)
    requires st.isLoginMode || st.form.password == st.form.passwordConfirm
    ensures SubmitOutcome(st, Failure(message)).error == if Truthy(message) then message.value else AuthFailed
    ensures SubmitOutcome(st, Failure(message)).error != ""
  {
  }

  /** The stored email falls back from the answer to the form to the placeholder. */
  lemma EmailFallback(answered: Option<string>, typed: string)
    ensures Truthy(answered) ==> EmailToSave(answered, typed) == answered.value
    ensures !Truthy(answered) && typed != "" ==> EmailToSave(answered, typed) == typed
    ensures !Truthy(answered) && typed == "" ==> EmailToSave(answered, typed) == FallbackEmail
    ensures EmailToSave(answered, typed) != ""
  {
  }

  /**
   * After a token arrives the session holds the token, the id, the name and
   * the email; the page returns to `returnTo` exactly when it is "/chat" or
   * "/image-compare", and then that key is gone; otherwise it goes home and
   * any `returnTo` stays.  No other key changes.
   */
  lemma RedirectWhitelist(storage: map<string, string>, data: AuthData, typedEmail: string)
    requires Truthy(data.token)
    ensures var (s, path) := SignedIn(storage, data, typedEmail);
      && s[TokenKey] == data.token.value
      && s[UserIdKey] == StoredText(data.userId)
      && s[UsernameKey] == StoredText(data.username)
      && s[EmailKey] == EmailToSave(data.email, typedEmail)
      && (ReturnToKey in storage && AllowedReturn(storage[ReturnToKey]) ==>
            path == storage[ReturnToKey] && ReturnToKey !in s)
      && (!(ReturnToKey in storage && AllowedReturn(storage[ReturnToKey])) ==>
            path == Home && (ReturnToKey in s <==> ReturnToKey in storage) &&
            (ReturnToKey in storage ==> s[ReturnToKey] == storage[ReturnToKey]))
      && (forall k :: k in storage && k !in {TokenKey, UserIdKey, UsernameKey, EmailKey, ReturnToKey} ==>
            k in s && s[k] == storage[k])
      && (path == Home || AllowedReturn(path))
  {
    var s0 := storage[TokenKey := data.token.value][UserIdKey := StoredText(data.userId)]
                     [UsernameKey := StoredText(data.username)][EmailKey := EmailToSave(data.email, typedEmail)];
    assert ReturnToKey !in {TokenKey, UserIdKey, UsernameKey, EmailKey};
    assert (ReturnToKey in s0) == (ReturnToKey in storage);
    assert ReturnToKey in storage ==> s0[ReturnToKey] == storage[ReturnToKey];
  }
}

=== FILE: rate_limiter.dfy ===
/**
 * The sliding-window request/token limiter in front of the upstream agent API.
 * Time is measured in integer clock ticks (microseconds, the resolution of the
 * clock the limiter reads); the window is a number of ticks.
 */
module RateLimiter {
  import opened Wrappers
  import PyStr

  /** One admitted request: when it was admitted and the tokens it was charged. */
  datatype Entry = Entry(timestamp: int, tokens: nat)

  const TicksPerSecond: nat := 1000000
  /** The process-wide limiter: 100 requests and 10000 tokens per 60 seconds. */
  const DefaultRpm: int := 100
  const DefaultTpm: int := 10000
  const DefaultWindow: nat := 60 * TicksPerSecond

  function TokenSum(q: seq<Entry>): nat {
    if q == [] then 0 else q[0].tokens + TokenSum(q[1..])
  }

  lemma {:induction false} TokenSumAppend(a: seq<Entry>, b: seq<Entry>)
    ensures TokenSum(a + b) == TokenSum(a) + TokenSum(b)
  {
    if a != [] {
      assert (a + b)[1..] == a[1..] + b;
      TokenSumAppend(a[1..], b);
    } else {
      assert a + b == b;
    }
  }

  lemma {:induction false} TokenSumSuffix(q: seq<Entry>, k: nat)
    requires k <= |q|
    ensures TokenSum(q[k..]) <= TokenSum(q)
  {
    assert q == q[..k] + q[k..];
    TokenSumAppend(q[..k], q[k..]);
  }

  /** How many entries at the front of `q` are older than `cutoff`. */
  function EvictCount(q: seq<Entry>, cutoff: int): (k: nat)
    ensures k <= |q|
    ensures forall j :: 0 <= j < k ==> q[j].timestamp < cutoff
    ensures k < |q| ==> q[k].timestamp >= cutoff
  {
    if q != [] && q[0].timestamp < cutoff then 1 + EvictCount(q[1..], cutoff) else 0
  }

  /** The queue after dropping the front entries older than `cutoff`. */
  function Evict(q: seq<Entry>, cutoff: int): seq<Entry> {
    q[EvictCount(q, cutoff)..]
  }

  predicate Ordered(q: seq<Entry>) {
    forall i, j :: 0 <= i < j < |q| ==> q[i].timestamp <= q[j].timestamp
  }

  predicate WithinLimits(q: seq<Entry>, rpm: int, tpm: int) {
    |q| <= rpm && TokenSum(q) <= tpm
  }

  /** The admission decision taken on the already evicted queue. */
  datatype Verdict =
    | Admit
    | TooManyRequests(count: nat, limit: int)
    | TooManyTokens(total: nat, limit: int)

  function Check(q: seq<Entry>, rpm: int, tpm: int, estimated: nat): Verdict {
    if |q| >= rpm then TooManyRequests(|q|, rpm)
    else if TokenSum(q) + estimated > tpm then TooManyTokens(TokenSum(q) + estimated, tpm)
    else Admit
  }

  const RequestLimitPrefix: string := "Rate limit exceeded: "
  const TokenLimitPrefix: string := "Token limit exceeded: "

  function RefusalDetail(v: Verdict): string {
    match v
    case Admit => ""
    case TooManyRequests(count, limit) =>
      PyStr.NatToString(count) + " requests in last minute (limit: " + PyStr.IntToString(limit) + ")"
    case TooManyTokens(total, limit) =>
      PyStr.NatToString(total) + " tokens in last minute (limit: " + PyStr.IntToString(limit) + ")"
  }

  /** The error message returned with a refusal. */
  function RefusalMessage(v: Verdict): string {
    match v
    case Admit => ""
    case TooManyRequests(_, _) => RequestLimitPrefix + RefusalDetail(v)
    case TooManyTokens(_, _) => TokenLimitPrefix + RefusalDetail(v)
  }

  /** The queue a call of `can_proceed` at `now` leaves behind. */
  function AfterCanProceed(q: seq<Entry>, now: int, window: nat, rpm: int, tpm: int, estimated: nat): seq<Entry> {
    var e := Evict(q, now - window);
    if Check(e, rpm, tpm, estimated) == Admit then e + [Entry(now, estimated)] else e
  }

  /**
   * What a call of `can_proceed` at `now` on queue `q` returns and leaves:
   * admitted exactly when the evicted queue passes the check, the refusal's
   * message otherwise, and the queue `AfterCanProceed` describes.
   */
  predicate CanProceedResult(q: seq<Entry>, now: int, window: nat, rpm: int, tpm: int, estimated: nat,
                             ok: bool, error: Option<string>, q1: seq<Entry>) {
    var v := Check(Evict(q, now - window), rpm, tpm, estimated);
    && ok == (v == Admit)
    && q1 == AfterCanProceed(q, now, window, rpm, tpm, estimated)
    && error == (if ok then None else Some(RefusalMessage(v)))
  }

  /** What `get_wait_time` returns; reading the oldest entry of an empty queue raises. */
  datatype WaitResult = Wait(ticks: nat) | IndexError

  /** Ticks from `now` until entry `e` leaves the window, never negative. */
  function UntilExpiry(e: Entry, window: nat, now: int): nat {
    if e.timestamp + window - now > 0 then e.timestamp + window - now else 0
  }

  /**
   * Scanning from the oldest entry with `freed` tokens already released,
   * the index of the first entry whose release brings the total to `need`.
   */
  function FirstReachFrom(q: seq<Entry>, need: int, i: nat, freed: int): (r: Option<nat>)
    requires i <= |q|
    ensures r.Some? ==> i <= r.value < |q|
    decreases |q| - i
  {
    if i == |q| then None
    else if freed + q[i].tokens >= need then Some(i)
    else FirstReachFrom(q, need, i + 1, freed + q[i].tokens)
  }

  /** The wait computed on the already evicted queue `q`. */
  function WaitTime(q: seq<Entry>, now: int, window: nat, rpm: int, tpm: int, estimated: nat): WaitResult {
    if |q| >= rpm then
      (if q == [] then IndexError else Wait(UntilExpiry(q[0], window, now)))
    else if TokenSum(q) + estimated > tpm then
      match FirstReachFrom(q, TokenSum(q) + estimated - tpm, 0, 0)
      case Some(i) => Wait(UntilExpiry(q[i], window, now))
      case None => if q != [] then Wait(UntilExpiry(q[0], window, now)) else Wait(0)
    else Wait(0)
  }

  datatype Usage = Usage(currentRpm: nat, currentTpm: nat, remainingRpm: nat, remainingTpm: nat,
                         rpmLimit: int, tpmLimit: int)

  function UsageOf(q: seq<Entry>, rpm: int, tpm: int): Usage {
    Usage(|q|, TokenSum(q),
          if rpm - |q| > 0 then rpm - |q| else 0,
          if tpm - TokenSum(q) > 0 then tpm - TokenSum(q) else 0,
          rpm, tpm)
  }

  // ---------------------------------------------------------------------------
  // Properties of the specification
  // ---------------------------------------------------------------------------

  /** Eviction keeps a suffix: it never grows the count or the token total. */
  lemma EvictShrinks(q: seq<Entry>, cutoff: int)
    ensures |Evict(q, cutoff)| <= |q|
    ensures TokenSum(Evict(q, cutoff)) <= TokenSum(q)
  {
    TokenSumSuffix(q, EvictCount(q, cutoff));
  }

  /** An entry stamped exactly at the cutoff stays in the window. */
  lemma EvictKeepsCutoffEntry(q: seq<Entry>, cutoff: int)
    requires q != [] && q[0].timestamp == cutoff
    ensures Evict(q, cutoff) == q
  {
  }

  /**
   * On an ordered queue eviction removes exactly the entries older than the
   * cutoff: every dropped entry is older, every kept one is not.
   */
  lemma EvictOrdered(q: seq<Entry>, cutoff: int)
    requires Ordered(q)
    ensures Ordered(Evict(q, cutoff))
    ensures forall e :: e in Evict(q, cutoff) ==> e.timestamp >= cutoff
    ensures forall j :: 0 <= j < |q| - |Evict(q, cutoff)| ==> q[j].timestamp < cutoff
  {
    var k := EvictCount(q, cutoff);
    forall e | e in Evict(q, cutoff) ensures e.timestamp >= cutoff {
      var j :| 0 <= j < |q| - k && q[k..][j] == e;
      assert q[k + j] == e;
    }
  }

  /** With a clock that does not go back, admission keeps the queue ordered. */
  lemma {:induction false} CanProceedKeepsOrder(q: seq<Entry>, now: int, window: nat, rpm: int, tpm: int, est: nat)
    requires Ordered(q)
    requires forall e :: e in q ==> e.timestamp <= now
    ensures Ordered(AfterCanProceed(q, now, window, rpm, tpm, est))
    ensures forall e :: e in AfterCanProceed(q, now, window, rpm, tpm, est) ==> e.timestamp <= now
  {
    var e := Evict(q, now - window);
    EvictOrdered(q, now - window);
    EvictSubset(q, now - window);
    if Check(e, rpm, tpm, est) == Admit {
      AppendOrdered(e, Entry(now, est));
    }
  }

  lemma EvictSubset(q: seq<Entry>, cutoff: int)
    ensures forall x :: x in Evict(q, cutoff) ==> x in q
  {
    var k := EvictCount(q, cutoff);
    forall x | x in Evict(q, cutoff) ensures x in q {
      var j :| 0 <= j < |q| - k && q[k..][j] == x;
      assert q[k + j] == x;
    }
  }

  lemma AppendOrdered(q: seq<Entry>, x: Entry)
    requires Ordered(q)
    requires forall e :: e in q ==> e.timestamp <= x.timestamp
    ensures Ordered(q + [x])
  {
    forall i, j | 0 <= i < j < |q + [x]| ensures (q + [x])[i].timestamp <= (q + [x])[j].timestamp {
      assert (q + [x])[i] == q[i];
      if j < |q| {
        assert (q + [x])[j] == q[j];
      } else {
        assert q[i] in q;
      }
    }
  }

  /** Admission never breaks either limit, whatever the queue held before. */
  lemma AdmissionRespectsLimits(q: seq<Entry>, now: int, window: nat, rpm: int, tpm: int, est: nat)
    requires Check(Evict(q, now - window), rpm, tpm, est) == Admit
    ensures WithinLimits(AfterCanProceed(q, now, window, rpm, tpm, est), rpm, tpm)
  {
    var e := Evict(q, now - window);
    TokenSumAppend(e, [Entry(now, est)]);
    assert TokenSum([Entry(now, est)]) == est;
  }

  /** A window within both limits stays within them after `can_proceed`. */
  lemma CanProceedPreservesLimits(q: seq<Entry>, now: int, window: nat, rpm: int, tpm: int, est: nat)
    requires WithinLimits(q, rpm, tpm)
    ensures WithinLimits(AfterCanProceed(q, now, window, rpm, tpm, est), rpm, tpm)
  {
    EvictShrinks(q, now - window);
    if Check(Evict(q, now - window), rpm, tpm, est) == Admit {
      AdmissionRespectsLimits(q, now, window, rpm, tpm, est);
    }
  }

  /** The request count is checked first: both limits exceeded reports the count. */
  lemma RequestLimitReportedFirst(q: seq<Entry>, rpm: int, tpm: int, est: nat)
    requires |q| >= rpm && TokenSum(q) + est > tpm
    ensures Check(q, rpm, tpm, est) == TooManyRequests(|q|, rpm)
  {
  }

  /** Each refusal names the limit that was hit at the head of its message. */
  lemma RefusalMessageNamesLimit(v: Verdict)
    ensures v.TooManyRequests? ==> PyStr.StartsWith(RefusalMessage(v), RequestLimitPrefix)
    ensures v.TooManyTokens? ==> PyStr.StartsWith(RefusalMessage(v), TokenLimitPrefix)
    ensures v.Admit? <==> RefusalMessage(v) == ""
  {
    PyStr.StartsWithConcat(RequestLimitPrefix, RefusalDetail(v));
    PyStr.StartsWithConcat(TokenLimitPrefix, RefusalDetail(v));
  }

  /** Whenever `can_proceed` would admit at the same instant the wait is zero. */
  lemma WaitZeroWhenAdmitted(q: seq<Entry>, now: int, window: nat, rpm: int, tpm: int, est: nat)
    requires Check(q, rpm, tpm, est) == Admit
    ensures WaitTime(q, now, window, rpm, tpm, est) == Wait(0)
  {
  }

  /** Reading the oldest entry fails only for a non-positive request limit and an empty window. */
  lemma WaitFailsOnlyWithoutOldest(q: seq<Entry>, now: int, window: nat, rpm: int, tpm: int, est: nat)
    ensures WaitTime(q, now, window, rpm, tpm, est) == IndexError <==> (q == [] && rpm <= 0)
  {
  }

  /**
   * With an empty window and a request larger than the whole token budget,
   * `can_proceed` refuses but `get_wait_time` answers zero.
   */
  lemma OversizedRequestWaitsZero(now: int, window: nat, rpm: int, tpm: int, est: nat)
    requires rpm > 0 && est > tpm
    ensures Check([], rpm, tpm, est) == TooManyTokens(est, tpm)
    ensures WaitTime([], now, window, rpm, tpm, est) == Wait(0)
  {
  }

  function PrefixSum(q: seq<Entry>, n: nat): nat
    requires n <= |q|
  {
    TokenSum(q[..n])
  }

  lemma PrefixSumStep(q: seq<Entry>, j: nat)
    requires j < |q|
    ensures PrefixSum(q, j + 1) == PrefixSum(q, j) + q[j].tokens
  {
    assert q[..j + 1] == q[..j] + [q[j]];
    TokenSumAppend(q[..j], [q[j]]);
    assert TokenSum([q[j]]) == q[j].tokens;
  }

  lemma {:induction false} FirstReachFromSpec(q: seq<Entry>, need: int, i: nat)
    requires i <= |q|
    requires forall n :: 0 < n <= i ==> PrefixSum(q, n) < need
    ensures match FirstReachFrom(q, need, i, PrefixSum(q, i))
      case Some(k) => i <= k < |q| && PrefixSum(q, k + 1) >= need &&
                      forall n :: 0 < n <= k ==> PrefixSum(q, n) < need
      case None => forall n :: 0 < n <= |q| ==> PrefixSum(q, n) < need
    decreases |q| - i
  {
    if i < |q| {
      PrefixSumStep(q, i);
      if PrefixSum(q, i) + q[i].tokens < need {
        FirstReachFromSpec(q, need, i + 1);
      }
    }
  }

  /**
   * When the token budget is exceeded the wait runs until the expiry of the
   * first entry at which the running token total, from the oldest entry,
   * reaches the excess; if no entry reaches it, until the oldest expires.
   */
  lemma TokenWaitIsFirstReachingEntry(q: seq<Entry>, now: int, window: nat, rpm: int, tpm: int, est: nat)
    requires |q| < rpm && TokenSum(q) + est > tpm
    ensures var need := TokenSum(q) + est - tpm;
      (exists k :: 0 <= k < |q| && PrefixSum(q, k + 1) >= need &&
                   (forall n :: 0 < n <= k ==> PrefixSum(q, n) < need) &&
                   WaitTime(q, now, window, rpm, tpm, est) == Wait(UntilExpiry(q[k], window, now)))
      || ((forall n :: 0 < n <= |q| ==> PrefixSum(q, n) < need) &&
          WaitTime(q, now, window, rpm, tpm, est) ==
            (if q == [] then Wait(0) else Wait(UntilExpiry(q[0], window, now))))
  {
    var need := TokenSum(q) + est - tpm;
    assert PrefixSum(q, 0) == 0;
    FirstReachFromSpec(q, need, 0);
    match FirstReachFrom(q, need, 0, 0)
    case Some(k) =>
      assert WaitTime(q, now, window, rpm, tpm, est) == Wait(UntilExpiry(q[k], window, now));
    case None =>
  }

  lemma PrefixSumBounded(q: seq<Entry>, n: nat)
    requires n <= |q|
    ensures PrefixSum(q, n) <= TokenSum(q)
  {
    assert q == q[..n] + q[n..];
    TokenSumAppend(q[..n], q[n..]);
  }

  /** The first-reaching entry exists exactly when the request fits the budget on its own. */
  lemma TokenWaitFindsEntryIffFits(q: seq<Entry>, rpm: int, tpm: int, est: nat)
    requires |q| < rpm && TokenSum(q) + est > tpm
    ensures FirstReachFrom(q, TokenSum(q) + est - tpm, 0, 0).Some? <==> est <= tpm
  {
    var need := TokenSum(q) + est - tpm;
    assert PrefixSum(q, 0) == 0;
    FirstReachFromSpec(q, need, 0);
    match FirstReachFrom(q, need, 0, 0)
    case Some(k) =>
      PrefixSumBounded(q, k + 1);
    case None =>
      if q != [] {
        assert q[..|q|] == q;
        assert PrefixSum(q, |q|) < need;
      }
  }

  /** No remaining requests are reported exactly when the count check refuses. */
  lemma UsageAgreesWithCheck(q: seq<Entry>, rpm: int, tpm: int, est: nat)
    ensures UsageOf(q, rpm, tpm).remainingRpm == 0 <==> Check(q, rpm, tpm, est).TooManyRequests?
    ensures UsageOf(q, rpm, tpm).currentRpm + UsageOf(q, rpm, tpm).remainingRpm >= rpm
    ensures WithinLimits(q, rpm, tpm) ==>
      UsageOf(q, rpm, tpm).currentTpm + UsageOf(q, rpm, tpm).remainingTpm == tpm
  {
  }

  // ---------------------------------------------------------------------------
  // The limiter object
  // ---------------------------------------------------------------------------

  class TokenRateLimiter {
    const rpmLimit: int
    const tpmLimit: int
    const window: nat
    /** The admitted requests, oldest first. */
    var requests: seq<Entry>

    constructor (rpm: int, tpm: int, windowTicks: nat)
      ensures rpmLimit == rpm && tpmLimit == tpm && window == windowTicks
      ensures requests == []
    {
      rpmLimit, tpmLimit, window := rpm, tpm, windowTicks;
      requests := [];
    }

    method CleanupOldRequests(now: int)
      modifies this
      ensures requests == Evict(old(requests), now - window)
    {
      var cutoff := now - window;
      while requests != [] && requests[0].timestamp < cutoff
        invariant Evict(requests, cutoff) == Evict(old(requests), cutoff)
        decreases |requests|
      {
        assert requests[EvictCount(requests, cutoff)..] == requests[1..][EvictCount(requests[1..], cutoff)..];
        requests := requests[1..];
      }
    }

    method CanProceed(now: int, estimated: nat) returns (ok: bool, error: Option<string>)
      modifies this
      ensures CanProceedResult(old(requests), now, window, rpmLimit, tpmLimit, estimated, ok, error, requests)
    {
      CleanupOldRequests(now);
      var requestCount := |requests|;
      var totalTokens := TokenSum(requests);
      if requestCount >= rpmLimit {
        assert Check(requests, rpmLimit, tpmLimit, estimated) == TooManyRequests(requestCount, rpmLimit);
        return false, Some(RefusalMessage(TooManyRequests(requestCount, rpmLimit)));
      }
      if totalTokens + estimated > tpmLimit {
        assert Check(requests, rpmLimit, tpmLimit, estimated) == TooManyTokens(totalTokens + estimated, tpmLimit);
        return false, Some(RefusalMessage(TooManyTokens(totalTokens + estimated, tpmLimit)));
      }
      requests := requests + [Entry(now, estimated)];
      return true, None;
    }

    method GetWaitTime(now: int, estimated: nat) returns (w: WaitResult)
      modifies this
      ensures requests == Evict(old(requests), now - window)
      ensures w == WaitTime(requests, now, window, rpmLimit, tpmLimit, estimated)
    {
      CleanupOldRequests(now);
      var requestCount := |requests|;
      var totalTokens := TokenSum(requests);
      if requestCount >= rpmLimit {
        if requests == [] {
          return IndexError;
        }
        return Wait(UntilExpiry(requests[0], window, now));
      }
      if totalTokens + estimated > tpmLimit {
        var tokensToFree := totalTokens + estimated - tpmLimit;
        var freed := 0;
        var i := 0;
        while i < |requests|
          invariant 0 <= i <= |requests|
          invariant FirstReachFrom(requests, tokensToFree, 0, 0) == FirstReachFrom(requests, tokensToFree, i, freed)
        {
          freed := freed + requests[i].tokens;
          if freed >= tokensToFree {
            return Wait(UntilExpiry(requests[i], window, now));
          }
          i := i + 1;
        }
        if requests != [] {
          return Wait(UntilExpiry(requests[0], window, now));
        }
      }
      return Wait(0);
    }

    method GetCurrentUsage(now: int) returns (u: Usage)
      modifies this
      ensures requests == Evict(old(requests), now - window)
      ensures u == UsageOf(requests, rpmLimit, tpmLimit)
    {
      CleanupOldRequests(now);
      var requestCount := |requests|;
      var totalTokens := TokenSum(requests);
      u := Usage(requestCount, totalTokens,
                 if rpmLimit - requestCount > 0 then rpmLimit - requestCount else 0,
                 if tpmLimit - totalTokens > 0 then tpmLimit - totalTokens else 0,
                 rpmLimit, tpmLimit);
    }

    method Reset()
      modifies this
      ensures requests == []
    {
      requests := [];
    }
  }
}

=== FILE: settings_page.dfy ===
/**
 * The settings page of the web client and the server's default settings:
 * changing one colour of the nested preferences, resetting them to the
 * defaults, and the colour a picker shows.
 *
 * Preferences are a JSON object of sections, each an object of colour
 * texts.
 */
module SettingsPage {
  import opened Wrappers

  type Section = map<string, string>
  type Preferences = map<string, Section>

  const InspectorSection: string := "image_inspector"
  const Black: string := "#000000"

  /** `default_preferences` of the settings model on the server. */
  function ServerDefault(): Preferences {
    map[InspectorSection := map[
      "diff_file1" := "#3B82F6",
      "diff_file2" := "#DC2626",
      "diff_common" := "#000000",
      "overlay_file1" := "#F97316",
      "overlay_file2" := "#22C55E"]]
  }

  /** The `defaultSettings` object `handleReset` writes in the browser. */
  function PageDefault(): Preferences {
    map[InspectorSection := map[
      "diff_file1" := "#3B82F6",
      "diff_file2" := "#DC2626",
      "diff_common" := "#000000",
      "overlay_file1" := "#F97316",
      "overlay_file2" := "#22C55E"]]
  }

  /** A section the object lacks spreads as the empty object. */
  function SectionOf(prefs: Preferences, section: string): Section {
    if section in prefs then prefs[section] else map[]
  }

  /** `handleColorChange(section, key, value)`: a copy with one colour replaced or added. */
  function ColorChange(prev: Preferences, section: string, key: string, value: string): Preferences {
    prev[section := SectionOf(prev, section)[key := value]]
  }

  /** `handleReset`: the page defaults when the user confirms, else the preferences as they were. */
  function Reset(prev: Preferences, confirmed: bool): Preferences {
    if confirmed then PageDefault() else prev
  }

  /** The colour a `ColorPicker` shows: the value, or black when it is missing or empty. */
  function ShownColor(prefs: Option<Preferences>, section: string, key: string): string {
    if prefs.Some? && section in prefs.value && key in prefs.value[section] && prefs.value[section][key] != ""
    then prefs.value[section][key]
    else Black
  }

  // ---------------------------------------------------------------------------
  // Properties
  // ---------------------------------------------------------------------------

  /**
   * A colour change sets exactly `prefs[section][key]`: every other section
   * and every other key of that section keep their values, and no section
   * or key is added beyond those two.
   */
  lemma ColorChangeIsLocal(prev: Preferences, section: string, key: string, value: string)
    ensures var r := ColorChange(prev, section, key, value);
      && r.Keys == prev.Keys + {section}
      && r[section].Keys == SectionOf(prev, section).Keys + {key}
      && r[section][key] == value
      && (forall s :: s in prev && s != section ==> r[s] == prev[s])
      && (forall k :: k in SectionOf(prev, section) && k != key ==> r[section][k] == prev[section][k])
  {
  }

  /** Changing two different colours gives the same preferences in either order. */
  lemma ColorChangesCommute(prev: Preferences, s1: string, k1: string, v1: string, s2: string, k2: string, v2: string)
    requires s1 != s2 || k1 != k2
    ensures ColorChange(ColorChange(prev, s1, k1, v1), s2, k2, v2)
         == ColorChange(ColorChange(prev, s2, k2, v2), s1, k1, v1)
  {
    if s1 == s2 {
      var m := SectionOf(prev, s1);
      assert m[k1 := v1][k2 := v2] == m[k2 := v2][k1 := v1];
      assert ColorChange(ColorChange(prev, s1, k1, v1), s2, k2, v2) == prev[s1 := m[k1 := v1][k2 := v2]];
      assert ColorChange(ColorChange(prev, s2, k2, v2), s1, k1, v1) == prev[s1 := m[k2 := v2][k1 := v1]];
    } else {
      var m1 := SectionOf(prev, s1)[k1 := v1];
      var m2 := SectionOf(prev, s2)[k2 := v2];
      assert SectionOf(ColorChange(prev, s1, k1, v1), s2) == SectionOf(prev, s2);
      assert SectionOf(ColorChange(prev, s2, k2, v2), s1) == SectionOf(prev, s1);
      assert prev[s1 := m1][s2 := m2] == prev[s2 := m2][s1 := m1];
    }
  }

  /** Setting a colour to the value it already has changes nothing. */
  lemma ColorChangeToSameValue(prev: Preferences, section: string, key: string)
    requires section in prev && key in prev[section]
    ensures ColorChange(prev, section, key, prev[section][key]) == prev
  {
    var r := ColorChange(prev, section, key, prev[section][key]);
    assert r[section] == prev[section];
  }

  /**
   * A confirmed reset replaces the whole object with the inspector section
   * alone, holding the server's five defaults; a declined one changes nothing.
   */
  lemma ResetRestoresDefaults(prev: Preferences, confirmed: bool)
    ensures !confirmed ==> Reset(prev, confirmed) == prev
    ensures confirmed ==> Reset(prev, confirmed) == ServerDefault()
    ensures confirmed ==> Reset(prev, confirmed).Keys == {InspectorSection}
    ensures confirmed ==> |Reset(prev, confirmed)[InspectorSection].Keys| == 5
  {
    var d := PageDefault()[InspectorSection];
    assert d.Keys == {"diff_file1", "diff_file2", "diff_common", "overlay_file1", "overlay_file2"};
  }

  /** The picker shows the stored colour when there is one, else black. */
  lemma ShownColorFallback(prefs: Option<Preferences>, section: string, key: string)
    ensures prefs.None? ==> ShownColor(prefs, section, key) == Black
    ensures prefs.Some? && section in prefs.value && key in prefs.value[section] && prefs.value[section][key] != "" ==>
      ShownColor(prefs, section, key) == prefs.value[section][key]
    ensures ShownColor(prefs, section, key) != ""
  {
  }

  /** After a change the picker shows the new colour, unless it is empty. */
  lemma PickerShowsChange(prev: Preferences, section: string, key: string, value: string)
    ensures ShownColor(Some(ColorChange(prev, section, key, value)), section, key) == if value != "" then value else Black
  {
  }
}
